=== FILE: README.md ===
# NavigatorAI travel assistant — a Dafny model of its decision logic

This project models the deterministic core of the NavigatorAI travel assistant: the parts that decide, look up, parse, validate and fall back. It does not model the parts that talk to networks, language models or the clock. Each Dafny module follows one part of the repository:

- `SessionStore` (`session_store.dfy`) models the conversation sessions of the agent server. It covers creating or reusing a session, appending messages, the 24-hour expiry test and sweep, looking up and deleting conversations, the tool registry, and what `execute_agent` does to the session store. Time is an explicit integer number of seconds.
- `RequestRouter` (`request_router.dfy`) models the pure helpers of the front end. These are the keyword classifier that picks suggestions, flights or itinerary; the origin/destination extractor with its IATA and city tables; the duration extractor; and `json_serializable`.
- `Patterns` and `CityCodes` (`patterns.dfy`, `city_codes.dfy`) hold hand-written scanners for the specific regular expressions the tools use, and the city-to-code tables with their fallbacks.
- `McpTools` (`mcp_tools.dfy`) models the agent's tools. It covers parameter recovery in `flight_search` (JSON first, then per-key patterns), validation of missing or literal "None" parameters, `search_flights_flexible`, the fallback query parser, the missing-details reply of `intelligent_flight_search`, and the fallback day skeleton of `travel_planner`.
- `Offers`, `TravelTools` and `Itinerary` (`offers.dfy`, `travel_tools.dfy`, `itinerary.dfy`) model the travel tools. They cover the Amadeus offer parser, the fixed fallback flights and hotels, the destination extractor, the suggestion validator, and the structured-text parser of the itinerary planner.
- `FlyScraper` and `AmadeusSearch` (`fly_scraper.dfy`, `amadeus_search.dfy`) model the two other flight tools. They cover response flattening, the four-source search, passenger price scaling, trip-type shaping, the offer parser and the fixed fallback flights.
- `TravelAgent` (`travel_agent.dfy`) models the agent's configuration, its memory, the trip total, suggestion validation, the duration parse and the fallback suggestion.
- `Currency` (`currency.dfy`) models both currency tools. It covers the same-currency answer, the live rate or converter result, the fallback table read directly or reversed (or 1:1), and the shape of the result.
- `SimpleBackend` and `MinimalBackend` (`simple_backend.dfy`, `backend_minimal.dfy`) model the keyword routing and token parsing of the two minimal HTTP backends.
- `Wrappers`, `Text` and `Json` are shared foundations:
  - `Option`/`Result`;
  - ASCII string helpers in the manner of Python's `str` methods;
  - a JSON-like value type for the dicts and lists the Python code passes around, with Python truthiness and a `str()` rendering that agrees with Python's for the values the code shows (the differences are listed under Json.Repr and Text.FloatText below).

Python exceptions are `Failure` values that carry the exception's class name. A method that catches them becomes a function that picks the fallback on `Failure`. Upstream answers are parameters of the functions that consume them. These include HTTP responses, decoded JSON, LLM text, the live exchange rate, parsed dates, fresh session ids and the current time.

Where the code disagrees with its own documentation, the model follows the code. Three places where the code evidently does not do what its authors meant are listed under "Findings". Each has an as-written member and a corrected member.

## Model

| member | source | states |
|---|---|---|
| SessionStore.NewSession | agentic_ai/mcp_server/server.py:56-67 | a new session has the given id, no messages, empty context and preferences, and is created and last active at `now` |
| SessionStore.AddMessage | agentic_ai/mcp_server/server.py:69-75 | "user" appends one human message and "assistant" one AI message; any other role appends nothing; in every case the activity time becomes `now` and nothing else changes |
| SessionStore.GetMessages | agentic_ai/mcp_server/server.py:77-85 | one entry per stored message, in insertion order, with the same content; role "user" exactly for human messages and "assistant" exactly for AI messages |
| SessionStore.AddThenGetMessages | agentic_ai/mcp_server/server.py:69-85 | adding a user or assistant message adds exactly that role/content pair at the end of the history |
| SessionStore.ExpiryBoundary | agentic_ai/mcp_server/server.py:87-89 | a session is expired exactly when more than 86400 seconds have passed since its last activity: not at 24 hours, but one second later |
| SessionStore.GetOrCreate | agentic_ai/mcp_server/server.py:99-103 | the id is present afterwards and maps to the returned session; a known id leaves the map unchanged and returns its session; an unknown id stores and returns a fresh session |
| SessionStore.GetOrCreateIdempotent | agentic_ai/mcp_server/server.py:99-103 | a second call with the same id, at any time, returns the same session and changes nothing |
| SessionStore.Cleanup | agentic_ai/mcp_server/server.py:105-112 | the remaining sessions are unchanged entries of the original map; none of them is expired; and every session that was not expired is kept |
| SessionStore.CleanupIdempotent | agentic_ai/mcp_server/server.py:105-112 | a second sweep at the same time removes nothing more |
| SessionStore.GetConversation | agentic_ai/mcp_server/server.py:182-195 | 404 exactly for an unknown id; otherwise the session's id, its messages as `get_messages` lists them, and its context |
| SessionStore.DeleteConversation | agentic_ai/mcp_server/server.py:197-204 | 404 and no change exactly for an unknown id; otherwise only that id is removed and every other session is kept unchanged |
| SessionStore.DeleteThenGet | agentic_ai/mcp_server/server.py:182-204 | after a delete, both getting and deleting the same id answer 404 |
| SessionStore.RegisterTool | agentic_ai/mcp_server/server.py:206-208 | the name resolves to the registered tool; every other name keeps its tool or its absence |
| SessionStore.InvokeTool | agentic_ai/mcp_server/server.py:115-128 | 404 with the detail "Tool <name> not found" for an unregistered name; for a registered one, success exactly when running the tool succeeds, with its result, and 500 otherwise |
| SessionStore.RegisterThenInvoke | agentic_ai/mcp_server/server.py:115-128 | a tool just registered is always found: the answer succeeds exactly when the tool does, and is never a 404 |
| SessionStore.ResolveSessionId | agentic_ai/mcp_server/server.py:140 | a given non-empty id is used as is; a missing or empty one is replaced by the fresh id |
| SessionStore.ExecuteAgentEffect | agentic_ai/mcp_server/server.py:130-180 | the sweep happens first; only the resolved session changes; its context is the old one overwritten by the request's; its history grows by the user turn, plus the assistant turn when the agent's result has an "output"; the reply succeeds exactly when the agent does and carries the id and the full history |
| SessionStore.ExecuteAgentNotReady | agentic_ai/mcp_server/server.py:131-133 | without an agent every request answers 500 "Agent not initialized" and the store is unchanged |
| RequestRouter.KeywordsIn | agentic_ai/app.py:380 | the keywords that occur in the text, each listed keyword exactly when it occurs, never more than the list holds; empty exactly when none occurs |
| RequestRouter.DetectRequestType | agentic_ai/app.py:354-406 | a flight search needs fewer than two comprehensive keywords and a pure-flight or flight keyword; an itinerary needs an itinerary keyword and no pure-flight keyword; a request with no pure-flight, itinerary or flight keyword is for suggestions |
| RequestRouter.DetectRequestTypeIgnoresCase | agentic_ai/app.py:356 | two requests that differ only in letter case are classified alike |
| RequestRouter.TwoComprehensiveKeywords | agentic_ai/app.py:379-382 | two different comprehensive keywords make a request for suggestions, whatever flight or itinerary keywords it also holds |
| RequestRouter.RomanticExperienceSuffices | agentic_ai/app.py:359-361 | "romantic experience" alone is two comprehensive keywords, because it contains "experience" |
| RequestRouter.PureFlightBeatsItinerary | agentic_ai/app.py:384-392 | below the comprehensive threshold, any pure-flight keyword gives a flight search, even next to itinerary keywords |
| RequestRouter.ItineraryKeywordGivesItinerary | agentic_ai/app.py:389-392 | below the comprehensive threshold and with no pure-flight keyword, any itinerary keyword the lower-cased text contains gives an itinerary |
| RequestRouter.FlightWithTravelContentIsSuggestions | agentic_ai/app.py:394-399 | with fewer than two comprehensive keywords and no pure-flight or itinerary keyword, a flight word together with a travel-content word gives suggestions |
| RequestRouter.FlightWordsAloneAreFlights | agentic_ai/app.py:394-403 | with fewer than two comprehensive keywords, no pure-flight, itinerary or travel-content keyword, any flight word gives a flight search |
| RequestRouter.FlightWordAloneIsFlightSearch | agentic_ai/app.py:394-403 | "flight" without any other keyword of the lists gives a flight search |
| RequestRouter.IataCity | agentic_ai/app.py:80-89 | every listed airport code names a non-empty city |
| RequestRouter.ParenCodes | agentic_ai/app.py:108 | every code found between parentheses is three upper-case letters |
| RequestRouter.ParenCodesOfCode | agentic_ai/app.py:108 | a parenthesised code at the front is the first match, followed by the matches of the rest |
| RequestRouter.ParenCodesSkipText | agentic_ai/app.py:108 | text without an opening parenthesis contributes no match |
| RequestRouter.CodeCity | agentic_ai/app.py:115-116 | a listed code becomes its city |
| RequestRouter.UnknownCodeKept | agentic_ai/app.py:115-116 | an unlisted code is kept, upper-cased |
| RequestRouter.RemoveCodes | agentic_ai/app.py:135-136 | removing the code markers never lengthens the text |
| RequestRouter.RemoveCodesKeepsText | agentic_ai/app.py:135-136 | text without parentheses is kept as it is |
| RequestRouter.SpacedCodeRemoved | agentic_ai/app.py:135-136 | a space-prefixed parenthesised code of three letters is removed entirely |
| RequestRouter.RemoveTrailingCode | agentic_ai/app.py:135-136 | a trailing " (XYZ)" marker after a word is removed and the word kept |
| RequestRouter.FillSlot | agentic_ai/app.py:139-149 | a filled slot stays as it is; an empty one is always filled, with a known city the text names when there is one |
| RequestRouter.ApplyRoutes | agentic_ai/app.py:128-153 | a route taken from the patterns has a non-empty origin and destination, and never overrides a slot that was already filled |
| RequestRouter.NoRouteLeavesSlots | agentic_ai/app.py:128-153 | when no pattern matches, the slots are left open and unchanged |
| RequestRouter.CityDetected | agentic_ai/app.py:156-159 | a city is detected exactly when the text mentions one of its names as a whole word |
| RequestRouter.FirstDetectedCity | agentic_ai/app.py:156-159 | the first detected city is the first entry of the city table the text mentions, not the first in the text |
| RequestRouter.MentionedBetween | agentic_ai/app.py:158 | a name between non-word characters is mentioned |
| RequestRouter.Without | agentic_ai/app.py:177 | the remaining cities are exactly the detected ones other than the preferred city |
| RequestRouter.FromDetected | agentic_ai/app.py:163-195 | one detected city and a preferred city give (preferred, city); several cities give the first two, or the preferred city as origin and another detected city as destination; no city falls back to the preferred city as origin |
| RequestRouter.FromDetectedOpen | agentic_ai/app.py:163-195 | the same cascade from empty slots, case by case |
| RequestRouter.ExtractOriginDestination | agentic_ai/app.py:70-198 | two parenthesised codes decide first; otherwise a matching route pattern decides; otherwise the detected cities and the preferred city do |
| RequestRouter.CodesTakePriority | agentic_ai/app.py:107-119 | "(DMM)" then "(SZX)" give Dammam to Shenzhen, whatever the rest of the text says |
| RequestRouter.CitiesDecideWithoutPatterns | agentic_ai/app.py:155-198 | without codes and without a matching route pattern, the detected cities and the preferred city alone decide |
| RequestRouter.UnitsInDays | agentic_ai/app.py:475-478 | a day is one day, a week seven and a month thirty |
| RequestRouter.Duration | agentic_ai/app.py:459-480 | the duration is the one read at some position, and there is none only when no position gives one |
| RequestRouter.DurationFirstAt | agentic_ai/app.py:470-480 | the first position that gives a duration decides |
| RequestRouter.DurationOfNumber | agentic_ai/app.py:470-480 | the first number followed by a space and a unit gives that number times the unit's days |
| RequestRouter.WeeksInDays | agentic_ai/app.py:475-476 | "n week" after text without digits is 7n days |
| RequestRouter.MonthsInDays | agentic_ai/app.py:477-478 | "n month" after text without digits is 30n days |
| RequestRouter.ExtractTravelEntities | agentic_ai/app.py:455-489 | the duration is the first one in the lower-cased text, and each keyword list holds exactly its keywords that occur in it |
| RequestRouter.JsonSerializable | agentic_ai/app.py:201-213 | the value keeps its shape, and no date-time stamp is left anywhere in it |
| RequestRouter.SerializableUnchanged | agentic_ai/app.py:201-213 | a value without stamps is returned unchanged |
| RequestRouter.SerializableIdempotent | agentic_ai/app.py:201-213 | converting twice gives what converting once gives |
| Patterns.Search | agentic_ai/mcp_server/tools.py:219-223 | a regular-expression search: the match is the one at the first position where the pattern matches, and there is none only when no position matches |
| Patterns.SearchFinds | agentic_ai/mcp_server/tools.py:219-223 | a match at a position with no match before it is the search's result |
| Patterns.SkipSpaces | agentic_ai/mcp_server/tools.py:219 | `\s*`: everything skipped is white space and the next character is not |
| Patterns.QuotedField | agentic_ai/mcp_server/tools.py:219-222 | `"key":\s*"([^"]+)"` (or `[^"]*` for the return date): a captured value holds no quote and is non-empty unless empty values are allowed |
| Patterns.QuotedFieldRoundTrip | agentic_ai/mcp_server/tools.py:219-222 | a field written as `"key": "value"` at the front of the text is read back as exactly that value |
| Patterns.DigitsField | agentic_ai/mcp_server/tools.py:223 | `"num_passengers":\s*(\d+)`: a captured value is a non-empty run of digits |
| Patterns.TakeDigits | agentic_ai/mcp_server/tools.py:223 | the digits taken are a run of digits inside the text |
| Patterns.LastSplitBelow | agentic_ai/mcp_server/tools.py:314 | the greedy route pattern splits at the last " to " it can use: no later split point below the bound exists |
| Patterns.SplitOfSimpleSegment | agentic_ai/mcp_server/tools.py:314 | "A to B" for single words splits right after A |
| Patterns.RouteOfSimpleQuery | agentic_ai/mcp_server/tools.py:313-317 | "from A to B" for single words gives the route (A, B) |
| Patterns.FirstIsoDate | agentic_ai/mcp_server/tools.py:319-322 | a date found is ten characters long |
| Patterns.FirstIsoDateAfterText | agentic_ai/mcp_server/tools.py:319-322 | a `YYYY-MM-DD` word after text without digits is the date found |
| CityCodes.Prefix | agentic_ai/mcp_server/tools.py:157 | `s[:n]`: the first `n` characters, or all of a shorter text |
| CityCodes.PadRight | agentic_ai/tools/travel_tools.py:215 | `ljust(n, c)`: the text, followed by `c` up to length `n` |
| CityCodes.SkyIdTable | agentic_ai/mcp_server/tools.py:24-104 | every city of the table maps to a three-letter upper-case code |
| CityCodes.CityToSkyId | agentic_ai/mcp_server/tools.py:13-106 | a listed city, in any case, gives its code; any other input gives the whole input upper-cased, not truncated |
| CityCodes.CityToSkyIdCaseInsensitive | agentic_ai/mcp_server/tools.py:106 | two spellings that differ only in case give the same code |
| CityCodes.HotelCodeTable | agentic_ai/mcp_server/tools.py:118-155 | every city of the table maps to a three-letter upper-case code |
| CityCodes.CityToHotelCode | agentic_ai/mcp_server/tools.py:108-157 | a listed city gives its code; any other input gives its first three characters upper-cased, so the code is three long unless the input is shorter |
| CityCodes.CityToHotelCodeCaseInsensitive | agentic_ai/mcp_server/tools.py:157 | two spellings that differ only in case give the same code |
| CityCodes.AirportTable | agentic_ai/tools/travel_tools.py:176-204 | every name of the table maps to a three-letter upper-case code |
| CityCodes.AirportCode | agentic_ai/tools/travel_tools.py:171-215 | always three characters: the listed code of the stripped upper-cased name, else a three-letter name itself, else its first three characters padded with 'A' |
| CityCodes.AirportCodeOfCode | agentic_ai/tools/travel_tools.py:210-212 | an unlisted three-letter code comes back upper-cased |
| CityCodes.ScraperSkyIdTable | agentic_ai/tools/FlightSearchTool.py:230-264 | every city of the table maps to a three-letter upper-case code |
| CityCodes.ScraperSkyId | agentic_ai/tools/FlightSearchTool.py:227-267 | at most three characters: the listed code of the stripped lower-cased name, else the first three characters of the upper-cased input |
| CityCodes.ScraperSkyIdIgnoresPadding | agentic_ai/tools/FlightSearchTool.py:266-267 | surrounding spaces do not stop a listed city from being found |
| McpTools.RecoverFromJson | agentic_ai/mcp_server/tools.py:200-212 | only an origin starting with `{"` is decoded; a decoded dict overrides each parameter it names and keeps the others; text that does not decode changes nothing; a decoded non-dict raises |
| McpTools.RecoverFromPatternOverrides | agentic_ai/mcp_server/tools.py:214-235 | the parameters change only when the origin mentions both "origin" and "destination" and all three of origin, destination and date are found; then they become the found values; the return date changes only to a found non-empty value |
| McpTools.CallSearch | agentic_ai/mcp_server/tools.py:243-265 | the search runs exactly when the three values are texts and the date parses; it converts both cities to codes and is round-trip exactly when a return date is given; otherwise the tool reports a processing error |
| McpTools.FlightSearch | agentic_ai/mcp_server/tools.py:199-241 | a search never runs with an empty or "None" destination or departure date, nor with a date that does not parse |
| McpTools.FlightSearchValidation | agentic_ai/mcp_server/tools.py:237-241 | a missing destination is reported first, then a missing date; the origin is not checked, so an empty origin still searches |
| McpTools.FlightSearchFromPackedJson | agentic_ai/mcp_server/tools.py:200-212 | a whole request packed into the origin as JSON is unpacked and searched, with the cities converted to their codes |
| McpTools.PatternValues | agentic_ai/mcp_server/tools.py:526-543 | each of origin, destination and date is set exactly when its pattern matches; a return date only when it is non-empty; the passenger count is a number |
| McpTools.FlexibleParams | agentic_ai/mcp_server/tools.py:521-545 | a request not wrapped in braces is read with the patterns and is never decoded |
| McpTools.CheckFlexible | agentic_ai/mcp_server/tools.py:547-573 | the origin is checked first, then the destination, then the date, and the first missing one is reported; a search runs only with all three present and a date that parses |
| McpTools.SearchFlexible | agentic_ai/mcp_server/tools.py:517-545 | the "could not parse" answer comes exactly when the request could not be read |
| McpTools.SearchFlexibleDecodesOnlyBraced | agentic_ai/mcp_server/tools.py:523-527 | the answer to a request not wrapped in braces does not depend on the JSON decoder |
| McpTools.SearchFlexibleWithoutOrigin | agentic_ai/mcp_server/tools.py:528-556 | a request without an origin field is answered with the missing-origin error |
| McpTools.SearchFlexibleDecodedDict | agentic_ai/mcp_server/tools.py:523-558 | a braced request that decodes to a dict with an origin and no destination is answered with the missing-destination error |
| McpTools.ParseFlightQuery | agentic_ai/mcp_server/tools.py:302-324 | one passenger and no return date; the date is the first `YYYY-MM-DD` word; origin and destination are found exactly when the route pattern matches |
| McpTools.ParseSimpleQuery | agentic_ai/mcp_server/tools.py:313-317 | "from A to B" for single words gives origin A and destination B |
| McpTools.MissingDetails | agentic_ai/mcp_server/tools.py:347-354 | each detail is named exactly when it is missing, at most three, always in the order origin, destination, date |
| McpTools.IntelligentFlightSearch | agentic_ai/mcp_server/tools.py:340-372 | with anything missing it asks for exactly the missing details; with nothing missing the keyword call to the tool object raises and the handler's invitation is the answer; no search ever runs |
| McpTools.IntelligentFlightSearchDirect | agentic_ai/mcp_server/tools.py:356-368 | the evidently intended reading: with anything missing it asks for the missing details; otherwise it searches with the parsed route and date, one passenger and no return date |
| McpTools.IntelligentSearchesAgree | agentic_ai/mcp_server/tools.py:356-372 | the two readings agree whenever a detail is missing; the tool as written answers with its invitation exactly when nothing is missing |
| McpTools.AskNeverInvites | agentic_ai/mcp_server/tools.py:357-372 | the request for missing details is never the handler's invitation |
| McpTools.IntelligentSearchKeepsDate | agentic_ai/mcp_server/tools.py:199-265 | the parsed departure date reaches the search unchanged unless the origin looks like a packed request |
| McpTools.IntelligentSearchAsksForAll | agentic_ai/mcp_server/tools.py:344-359 | a query with neither route nor date asks for all three details, in order |
| McpTools.DayBlocks | agentic_ai/mcp_server/tools.py:468-472 | `for day in range(1, n + 1)`: exactly `n` blocks (none when `n <= 0`), the k-th for day k |
| McpTools.GuideDaysHeaded | agentic_ai/mcp_server/tools.py:481-485 | the k-th block of the fallback guide starts with "Day k:" |
| McpTools.TravelPlannerKeepsDayedText | agentic_ai/mcp_server/tools.py:457-476 | a result that mentions "Day" at least `duration` times is kept after the title and focus lines, with no skeleton added |
| McpTools.TravelPlannerEmptyResult | agentic_ai/mcp_server/tools.py:477-488 | an empty result gives the travel guide with one block per day and the closing tips |
| McpTools.TravelPlannerError | agentic_ai/mcp_server/tools.py:490-496 | a failing planner gives the basic guide with one line per day |
| McpTools.TravelPlannerListResult | agentic_ai/mcp_server/tools.py:462-472 | a list result none of whose items is the text "Day" ends with the day-by-day skeleton |
| Currency.LiveToolRates | agentic_ai/tools/CurrencyTool_new.py:27-46 | every rate of the live-rate tool's fallback table is positive |
| Currency.LibraryToolRates | agentic_ai/tools/CurrencyTool_fixed.py:35-50 | every rate of the library tool's fallback table is positive |
| Currency.LibraryRatesWithinLiveRates | agentic_ai/tools/CurrencyTool_fixed.py:35-50 | every rate of the library tool's table is the live tool's rate for that pair; the live tool alone knows CHF and CNY |
| Currency.FallbackRate | agentic_ai/tools/CurrencyTool_new.py:138-147 | the listed rate of the pair; else the reciprocal of the reversed pair's rate; else 1; always positive |
| Currency.FallbackRateExamples | agentic_ai/tools/CurrencyTool_new.py:138-147 | USD to EUR is 0.85; EUR to INR, listed neither way, is 1; the library tool converts CHF 1:1 |
| Currency.Times | agentic_ai/tools/CurrencyTool_new.py:122 | `amount * rate` succeeds exactly for a numeric amount and is its value times the rate |
| Currency.SameCurrency | agentic_ai/tools/CurrencyTool_new.py:104-114 | the amount comes back unchanged at rate 1, with both codes upper-cased |
| Currency.FromTable | agentic_ai/tools/CurrencyTool_new.py:137-173 | a numeric amount is converted at the fallback rate of the upper-cased codes, tagged "fallback_rates" with the note; anything else is the error answer, which reports the codes as given |
| Currency.ConvertLive | agentic_ai/tools/CurrencyTool_new.py:99-173 | the same currency in any case short-cuts; a live rate and a numeric amount give the live answer; everything else is the fallback-table answer |
| Currency.LiveSameCurrencyIgnoresCase | agentic_ai/tools/CurrencyTool_new.py:105 | a code and its lower-case spelling are the same currency: the amount unchanged at rate 1 |
| Currency.LiveIgnoresCase | agentic_ai/tools/CurrencyTool_new.py:105-160 | for a numeric amount the case the codes are typed in changes nothing; for any amount the status is the same |
| Currency.LibraryIgnoresCase | agentic_ai/tools/CurrencyTool_fixed.py:58-111 | the same for the library-backed tool |
| Currency.LiveSourceIff | agentic_ai/tools/CurrencyTool_new.py:118-160 | the answer is tagged live exactly for different currencies, a live rate and a numeric amount; tagged fallback exactly when the live rate failed and the amount is numeric |
| Currency.LiveErrorIff | agentic_ai/tools/CurrencyTool_new.py:163-173 | the answer is an error exactly for different currencies and a non-numeric amount, and the error reports the codes as given |
| Currency.LiveCodesUpper | agentic_ai/tools/CurrencyTool_new.py:110-157 | every successful answer reports its codes upper-cased |
| Currency.ConvertWithLibrary | agentic_ai/tools/CurrencyTool_fixed.py:52-134 | the same currency short-cuts without a source; a working library gives its amount and rate; a missing or failing library falls through to the fallback table |
| Currency.LibraryFailureFallsThrough | agentic_ai/tools/CurrencyTool_fixed.py:83-111 | a library failure is not an error: a numeric amount is converted from the table, directly or by the reversed rate's reciprocal |
| Currency.SameCurrencyAgrees | agentic_ai/tools/CurrencyTool_fixed.py:58-66 | both tools short-cut the same pairs with the amount unchanged; only the live-rate tool tags that answer |
| Offers.OutboundOf | agentic_ai/tools/travel_tools.py:114-128 | an offer is used exactly when it is a dict with a non-empty itinerary list whose first entry has a non-empty segment list; then its price, itineraries, outbound itinerary and segments are those of the offer |
| Offers.TripOf | agentic_ai/tools/travel_tools.py:145-161 | one-way exactly for a single itinerary; a round trip records the return leg's stops (segments less one) and duration; a second itinerary without segments gives no trip type |
| Offers.Collect | agentic_ai/tools/travel_tools.py:109-167 | skipping offers never yields more records than offers |
| Offers.CollectFrom | agentic_ai/tools/travel_tools.py:109-167 | every record comes from some offer |
| Offers.CollectAppend | agentic_ai/tools/travel_tools.py:109-167 | the records of two runs of offers are those of each, in order |
| Offers.CollectAll | agentic_ai/tools/travel_tools.py:109-167 | when no offer is skipped, there is one record per offer |
| Offers.FirstTen | agentic_ai/tools/travel_tools.py:169 | `[:10]`: the first ten records, or all of fewer |
| TravelTools.ParseToolOffer | agentic_ai/tools/travel_tools.py:111-167 | an offer without itineraries or outbound segments is skipped; a kept one has stops equal to its segments less one, the caller's origin and destination, the outbound duration, and is one-way exactly with a single itinerary |
| TravelTools.ParseAmadeusResponse | agentic_ai/tools/travel_tools.py:107-169 | at most ten flights, and never more than there are offers |
| TravelTools.ParsedFlightFromOffer | agentic_ai/tools/travel_tools.py:109-167 | every flight is the parse of some offer |
| TravelTools.ParseAmadeusKeepsAll | agentic_ai/tools/travel_tools.py:109-169 | up to ten offers that all parse give one flight each |
| TravelTools.SkippedOfferAddsNothing | agentic_ai/tools/travel_tools.py:117-125 | an offer without itineraries or segments adds nothing at the end |
| TravelTools.ReplaceTime | agentic_ai/tools/travel_tools.py:244-245 | `date.replace(hour, minute)` succeeds exactly for hour at most 23 and minute at most 59, and stamps that time on the day |
| TravelTools.MakeFlight | agentic_ai/tools/travel_tools.py:233-275 | flight `i` has `i` stops, the i-th airline, the i-th price (round-trip adjusted), the route and date given, trip type "round-trip" exactly when a return date is given, and return fields exactly then |
| TravelTools.FallbackFlightsAsWrittenRaise | agentic_ai/tools/travel_tools.py:245 | the third flight asks for minute 60, so `_get_fallback_flights` as written always raises `ValueError` |
| TravelTools.FallbackFlightAt | agentic_ai/tools/travel_tools.py:233-275 | the corrected flight `i`: the same fields, with each arrival its departure plus the advertised duration, minutes carried into the hour |
| TravelTools.FallbackFlights | agentic_ai/tools/travel_tools.py:217-277 | exactly three flights, the i-th being the corrected flight `i` |
| TravelTools.FallbackPrices | agentic_ai/tools/travel_tools.py:224-239 | the prices are $450, $650, $850 one-way and $810, $1170, $1530 round-trip |
| TravelTools.FallbackTimesValid | agentic_ai/tools/travel_tools.py:242-266 | every corrected arrival is still within the same day |
| TravelTools.ClockAt | agentic_ai/tools/travel_tools.py:244-245 | `hour * 60 + minute` minutes after midnight reads `hour:minute` |
| TravelTools.FallbackAsWrittenAgrees | agentic_ai/tools/travel_tools.py:233-275 | where the code as written does not raise (the first two flights, one-way or round trip), it produces exactly the corrected flight |
| TravelTools.SearchFlights | agentic_ai/tools/travel_tools.py:53-105 | as written: a configured client with a successful response gives at most ten flights, exactly those the offer parser reads from the response; every other path reaches the fallback generator, twice, and ends in `ValueError` |
| TravelTools.SearchFlightsCorrected | agentic_ai/tools/travel_tools.py:53-105 | with the corrected generator: parsed flights exactly for a configured client with a response, and they are the offer parser's reading of it; otherwise the three fallback flights with 0, 1 and 2 stops |
| TravelTools.SearchFlightsAgree | agentic_ai/tools/travel_tools.py:53-105 | both readings give the same parsed flights; where the code as written raises, the corrected one returns the fallback flights |
| TravelTools.HotelPrice | agentic_ai/tools/travel_tools.py:383-384 | each nightly price lies in its tier's range |
| TravelTools.FallbackHotel | agentic_ai/tools/travel_tools.py:383-400 | hotel `i` is named after the location with its tier's suffix, has its price per night, and five amenity slots of which the first `3 + i` are filled |
| TravelTools.FallbackHotels | agentic_ai/tools/travel_tools.py:371-402 | exactly three hotels, Inn, Hotel and Resort in that order |
| TravelTools.FallbackHotelPrices | agentic_ai/tools/travel_tools.py:384-390 | the prices are $40, $110 and $240 per night |
| AmadeusSearch.Cabin | agentic_ai/tools/amadeus_flight_search.py:124 | a first segment without truthy co2Emissions books in ECONOMY |
| AmadeusSearch.ParseOffer | agentic_ai/tools/amadeus_flight_search.py:91-145 | an offer without itineraries or outbound segments is skipped; a kept offer reports stops as segments less one, one-way exactly for a single itinerary, the offer's id (or "unknown") and the outbound duration (or "N/A") |
| AmadeusSearch.ParseFlightOffers | agentic_ai/tools/amadeus_flight_search.py:87-151 | at most ten flights and never more than offers |
| AmadeusSearch.ParsedFlightFromOffer | agentic_ai/tools/amadeus_flight_search.py:87-151 | every returned flight is the parse of some offer |
| AmadeusSearch.ParseFlightOffersKeepsAll | agentic_ai/tools/amadeus_flight_search.py:87-151 | up to ten parseable offers all come back |
| AmadeusSearch.SkippedOfferAddsNothing | agentic_ai/tools/amadeus_flight_search.py:97-105 | an offer lacking itineraries or segments leaves the result unchanged |
| AmadeusSearch.AirlineCode | agentic_ai/tools/amadeus_flight_search.py:212-228 | the airline code is two letters |
| AmadeusSearch.FlightNumber | agentic_ai/tools/amadeus_flight_search.py:229 | the flight number begins with the airline code and carries digits after it |
| AmadeusSearch.FallbackFlight | agentic_ai/tools/amadeus_flight_search.py:211-241 | the i-th substitute flight is fallback_{i+1} with i stops, the airport codes of both cities, a round trip with i return stops exactly when a return date is given, and the shared base price (times 1.8 for a round trip) |
| AmadeusSearch.FallbackFlights | agentic_ai/tools/amadeus_flight_search.py:202-245 | exactly three substitute flights, the i-th in position i |
| AmadeusSearch.AirlineCodes | agentic_ai/tools/amadeus_flight_search.py:205-228 | the codes are AI, EM and BR |
| AmadeusSearch.FlightNumbers | agentic_ai/tools/amadeus_flight_search.py:229 | the flight numbers are AI1000, EM1001 and BR1002 |
| AmadeusSearch.FallbackPrices | agentic_ai/tools/amadeus_flight_search.py:206-216 | prices $450, $650, $850 one-way and $810, $1170, $1530 for a round trip |
| AmadeusSearch.FallbackTimesFixed | agentic_ai/tools/amadeus_flight_search.py:224-225 | departure and arrival times do not depend on the cities or the return date |
| AmadeusSearch.SearchFlights | agentic_ai/tools/amadeus_flight_search.py:30-85 | a failed request gives the three substitutes; a list of offers is parsed; a string or dict response yields no flights (each item fails and is skipped); any other response raises and gives the substitutes |
| FlyScraper.Fields | agentic_ai/tools/FlightSearchTool.py:209-223 | a scraped flight becomes a record of thirteen fields whose price is the formatted price |
| FlyScraper.Amount | agentic_ai/tools/FlightSearchTool.py:184 | the price is read from amount, else total, else value, else "N/A" |
| FlyScraper.PriceText | agentic_ai/tools/FlightSearchTool.py:182-188 | a price dict shows "currency amount" (USD by default) unless the amount is "N/A", which shows "Price unavailable"; any other truthy value is shown as text |
| FlyScraper.AirlineName | agentic_ai/tools/FlightSearchTool.py:191-195 | a dict gives its name, else displayName, else "Unknown Airline"; another truthy value is shown as text; a falsy one is "Unknown Airline" |
| FlyScraper.FormatTime | agentic_ai/tools/FlightSearchTool.py:277-289 | a time text with a "T" that the clock reads becomes its hour and minute; any other text (and an unreadable one) is kept; "N/A" and falsy values give "N/A"; other values are shown as text |
| FlyScraper.Truncate | agentic_ai/tools/FlightSearchTool.py:204 | int() of a float rounds toward zero |
| FlyScraper.MinutesText | agentic_ai/tools/FlightSearchTool.py:203-204 | a numeric duration reads as "Hh Mm" with M the floored minutes below 60 and H*60+M the floored total |
| FlyScraper.DurationText | agentic_ai/tools/FlightSearchTool.py:202-218 | a duration that is not a number is shown unchanged |
| FlyScraper.ExtractFlightDetails | agentic_ai/tools/FlightSearchTool.py:176-225 | a non-dict entry gives nothing; a dict entry succeeds exactly when its aircraft field supports .get, and then carries the day, both cities, the price text, the flight number (flightNumber, number, or FL{index+1}), the class (Economy by default) and the seat count |
| FlyScraper.ExtractedDurationAndStops | agentic_ai/tools/FlightSearchTool.py:202-219 | a duration of N minutes reads "{N div 60}h {N mod 60}m" and a textual stops value counts as 0 |
| FlyScraper.ExtractedDefaults | agentic_ai/tools/FlightSearchTool.py:182-213 | with no flight number the entry gets FL{index+1}, and a price dict shows "currency amount" |
| FlyScraper.ParseEntries | agentic_ai/tools/FlightSearchTool.py:161-168 | no more flights than entries, each the extraction of some entry at its own index |
| FlyScraper.ParseEntriesKeepsAll | agentic_ai/tools/FlightSearchTool.py:161-168 | when every entry extracts, all of them are kept |
| FlyScraper.SourceFlights | agentic_ai/tools/FlightSearchTool.py:158-168 | at most ten flights; a source that is not a non-empty list gives none; a list of up to ten entries gives their extractions |
| FlyScraper.Sources | agentic_ai/tools/FlightSearchTool.py:150-155 | the four sources exist exactly when the response is a dict whose data field (default {}) is a dict; the second is the top-level flights list |
| FlyScraper.FirstYieldFirstMatch | agentic_ai/tools/FlightSearchTool.py:157-171 | the result is empty exactly when every source yields nothing; otherwise it is the yield of the first source that yields anything |
| FlyScraper.FirstYield | agentic_ai/tools/FlightSearchTool.py:157-174 | at most ten flights |
| FlyScraper.ParseFlightResponse | agentic_ai/tools/FlightSearchTool.py:143-174 | the response parses exactly when the sources exist, giving at most ten flights from the first source that yields any |
| FlyScraper.NestedFlightsFirst | agentic_ai/tools/FlightSearchTool.py:150-171 | nested data.flights win when they yield anything; otherwise the remaining sources decide |
| FlyScraper.TopLevelFlights | agentic_ai/tools/FlightSearchTool.py:151-171 | without a data field, a top-level list of up to ten good entries gives one flight per entry |
| FlyScraper.PerPerson | agentic_ai/tools/FlightSearchTool.py:492-499 | a per-person price is read only from a text price of at least two words, and its currency is the first word |
| FlyScraper.PerPersonOfPrice | agentic_ai/tools/FlightSearchTool.py:495-498 | "CUR N" gives currency CUR and amount N |
| FlyScraper.SeatCount | agentic_ai/tools/FlightSearchTool.py:516-518 | a seat count is read only from an all-digit seat value |
| FlyScraper.SeatsText | agentic_ai/tools/FlightSearchTool.py:519-522 | the status starts with the tick mark exactly when there are enough seats |
| FlyScraper.WithTotal | agentic_ai/tools/FlightSearchTool.py:502-504 | the copy gets the total price, the price per person and the passenger count, and every other field is the flight's |
| FlyScraper.WithNote | agentic_ai/tools/FlightSearchTool.py:506-513 | the copy gets the passenger count and the per-person note, and every other field is the flight's |
| FlyScraper.Priced | agentic_ai/tools/FlightSearchTool.py:489-513 | a readable price is multiplied by the passenger count with the per-person price kept alongside; an unreadable one leaves the price and adds the note; untouched fields are the flight's |
| FlyScraper.Seated | agentic_ai/tools/FlightSearchTool.py:515-522 | a known seat count sets the seat status and nothing else; an unknown one changes nothing |
| FlyScraper.AdjustFlight | agentic_ai/tools/FlightSearchTool.py:488-524 | adjusting succeeds exactly when the price is text (a non-text price has no .split and raises) |
| FlyScraper.AdjustedFlight | agentic_ai/tools/FlightSearchTool.py:488-524 | an adjusted flight carries the passenger count, the multiplied price or the note, the seat status when seats are known, and otherwise the flight's own fields |
| FlyScraper.AdjustEach | agentic_ai/tools/FlightSearchTool.py:486-526 | the list adjusts exactly when every price is text, giving one adjusted flight per flight in order |
| FlyScraper.AdjustPricing | agentic_ai/tools/FlightSearchTool.py:472-526 | one passenger or fewer leaves the list untouched; otherwise each flight is adjusted, and one non-text price raises |
| FlyScraper.AdjustPricingCarriesCount | agentic_ai/tools/FlightSearchTool.py:504-512 | every adjusted flight records the passenger count |
| FlyScraper.AdjustWholePrice | agentic_ai/tools/FlightSearchTool.py:496-503 | "CUR N" becomes "CUR total" with "CUR N" per person |
| FlyScraper.Execute | agentic_ai/tools/FlightSearchTool.py:41-72 | with a key and a non-empty parsed answer the flights are returned in order; otherwise the substitute flights |
| FlyScraper.SearchOneWay | agentic_ai/tools/FlightSearchTool.py:344-373 | an unreadable date raises; otherwise the flights, adjusted for more than one passenger, and the substitutes when adjusting raises |
| FlyScraper.FlightList | agentic_ai/tools/FlightSearchTool.py:407-409 | one list item per flight (also lines 450-451) |
| FlyScraper.SearchRoundTrip | agentic_ai/tools/FlightSearchTool.py:375-425 | both dates must read; the answer is a round trip with both dates and the passenger count, holding the adjusted legs, or both substitute legs when adjusting raises |
| FlyScraper.SearchFlightsEnhanced | agentic_ai/tools/FlightSearchTool.py:427-470 | without a return date a one-way answer with no error; with one, the round trip, or when the return date does not read the outbound substitutes with an error, keeping the round-trip type; an unreadable departure date raises |
| FlyScraper.OneWayWithoutReturn | agentic_ai/tools/FlightSearchTool.py:447-456 | a one-way search reports trip type one-way, a null return date and the adjusted flights |
| Itinerary.FirstMentioned | agentic_ai/tools/travel_tools.py:754-762 | the index of the first name the text mentions, ignoring case, or none exactly when no name is mentioned |
| Itinerary.FirstPlaceLike | agentic_ai/tools/travel_tools.py:765-768 | the index of the first capitalised alphabetic word longer than three letters, or none exactly when there is no such word |
| Itinerary.ExtractDestination | agentic_ai/tools/travel_tools.py:747-771 | the first listed country the text mentions; failing that the first listed city; failing that the first place-like word; failing that "Your chosen destination" |
| Itinerary.GenericPhraseIsNoPlace | agentic_ai/tools/travel_tools.py:753-771 | the generic phrase is neither a listed country, a listed city nor a place-like word |
| Itinerary.GenericDestinationOnlyWhenNothingFound | agentic_ai/tools/travel_tools.py:752-771 | the generic phrase comes back only when no country, city or place-like word is found |
| Itinerary.Slice | agentic_ai/tools/travel_tools.py:798-812 | [:n] works on lists and strings only, keeps their kind and their first up-to-n elements, and returns a short value unchanged |
| Itinerary.ListMember | agentic_ai/tools/travel_tools.py:792-812 | a missing list field takes the defaults; a present one is cut to n items |
| Itinerary.DurationDays | agentic_ai/tools/travel_tools.py:779-783 | the duration is the number formed by the digits of its text, 5 when there are none or the field is missing |
| Itinerary.DurationOfDigits | agentic_ai/tools/travel_tools.py:780-781 | an all-digit text or an integer duration keeps its value |
| Itinerary.ValidateIdea | agentic_ai/tools/travel_tools.py:777-816 | validation succeeds exactly when every present list field can be cut; the result is filled in and capped, with the duration as digits and the destination defaulting to "Unknown Location" |
| Itinerary.ValidateEachFrom | agentic_ai/tools/travel_tools.py:776-816 | every validated suggestion comes from some dict in the input |
| Itinerary.ValidateEachAppend | agentic_ai/tools/travel_tools.py:776-816 | validating two runs of items is validating each in order, the first failure winning |
| Itinerary.NonDictIgnored | agentic_ai/tools/travel_tools.py:777 | an item that is not a dict is skipped |
| Itinerary.ValidateEachOfTwo | agentic_ai/tools/travel_tools.py:776-816 | two dicts give their two validations in order |
| Itinerary.ValidateAll | agentic_ai/tools/travel_tools.py:775-816 | one filled-in suggestion per dict, failing exactly when one of them fails |
| Itinerary.Alternative | agentic_ai/tools/travel_tools.py:820-849 | the padding suggestion is already in validated shape |
| Itinerary.Pad | agentic_ai/tools/travel_tools.py:819-849 | padding keeps the suggestions as a prefix, reaches two, adds Alternative Destination n+1 at position n, and leaves two or more alone |
| Itinerary.ValidateSuggestions | agentic_ai/tools/travel_tools.py:773-851 | exactly two validated suggestions, failing exactly when some dict fails |
| Itinerary.ValidateSuggestionsPads | agentic_ai/tools/travel_tools.py:818-851 | no dicts give both alternatives, one dict gives it and Alternative Destination 2, more give the first two |
| Itinerary.ValidateIdeaRoundTrip | agentic_ai/tools/travel_tools.py:777-816 | validating a suggestion that is already in validated shape returns it unchanged |
| Itinerary.ValidateSuggestionsOfTwo | agentic_ai/tools/travel_tools.py:773-851 | two validated suggestions pass through validation unchanged |
| Itinerary.MainFallback | agentic_ai/tools/travel_tools.py:685-714 | the main fallback names the destination and the duration as text, and is in validated shape for a non-negative duration |
| Itinerary.NearbyFallback | agentic_ai/tools/travel_tools.py:715-744 | the second fallback is "Alternative destinations in" the destination, lasting max(2, duration-1) days, in validated shape |
| Itinerary.FallbackSuggestions | agentic_ai/tools/travel_tools.py:679-745 | two suggestions for the destination extracted from the text and for the alternatives around it |
| Itinerary.FallbackSuggestionsValidated | agentic_ai/tools/travel_tools.py:679-745 | the fallback pair passes validation unchanged (also lines 773-851) |
| Itinerary.DigitRun | agentic_ai/tools/travel_tools.py:859 | the digit run is maximal: all its characters are digits and the next one is not |
| Itinerary.SectionsWithoutDelimiter | agentic_ai/tools/travel_tools.py:859 | text without a delimiter is one section |
| Itinerary.LineKey | agentic_ai/tools/travel_tools.py:874 | a key has no spaces and no upper-case letters |
| Itinerary.ListItems | agentic_ai/tools/travel_tools.py:880 | a bracketed value splits into at least one text item |
| Itinerary.LineEntry | agentic_ai/tools/travel_tools.py:877-884 | a list key gets a list (the single value when unbracketed); any other key keeps its text |
| Itinerary.ParseLine | agentic_ai/tools/travel_tools.py:866-884 | a line without a colon changes nothing; one with a colon sets its key to its value |
| Itinerary.ParseSections | agentic_ai/tools/travel_tools.py:861-888 | only non-empty suggestions are collected |
| Itinerary.ParseSectionTextOrLists | agentic_ai/tools/travel_tools.py:865-884 | every field a section yields is text or a list |
| Itinerary.ParsedSectionTextOrLists | agentic_ai/tools/travel_tools.py:861-888 | every collected suggestion holds only text and lists |
| Itinerary.TextOrListsValidates | agentic_ai/tools/travel_tools.py:777-816 | a suggestion holding only text and lists always validates |
| Itinerary.ParsedSectionsValidate | agentic_ai/tools/travel_tools.py:853-891 | every suggestion parsed from text validates |
| Itinerary.ParseStructuredText | agentic_ai/tools/travel_tools.py:853-892 | text with no key-value section raises ValueError; otherwise exactly two validated suggestions |
| Itinerary.Respond | agentic_ai/tools/travel_tools.py:633-673 | no answer gives the fallback pair; the method returns None exactly when a non-blank answer decodes to a value that is neither a list nor a dict; otherwise it returns two suggestions |
| TravelAgent.CabinClass | agentic_ai/agents/travel_agent.py:74-78 | Moderate flies premium economy, Luxury flies business, and anything else (Budget, unknown or missing) flies economy |
| TravelAgent.UpdateConfig | agentic_ai/agents/travel_agent.py:67-79 | the language, traveller count, budget range and cabin class are set from the preferences, and every other setting is kept |
| TravelAgent.UpdateConfigIdempotent | agentic_ai/agents/travel_agent.py:67-79 | updating twice with the same preferences is updating once |
| TravelAgent.Save | agentic_ai/agents/travel_agent.py:221-225 | saving adds the key to the memory |
| TravelAgent.Recall | agentic_ai/agents/travel_agent.py:227-231 | an unknown key recalls None |
| TravelAgent.SaveThenRecall | agentic_ai/agents/travel_agent.py:221-231 | a saved value is recalled under its key, and other keys are unaffected |
| TravelAgent.ParseAmount | agentic_ai/agents/travel_agent.py:237-239 | float() succeeds exactly on a decimal numeral, and a digit string reads as its value |
| TravelAgent.PriceOf | agentic_ai/agents/travel_agent.py:237-239 | an item that is not a dict raises; a dict without a price costs 0 |
| TravelAgent.DefaultPriceIsZero | agentic_ai/agents/travel_agent.py:237 | the default price "0" reads as 0 |
| TravelAgent.PriceOfDigits | agentic_ai/agents/travel_agent.py:237 | a digit-only price reads as its value |
| TravelAgent.PriceWithSeparators | agentic_ai/agents/travel_agent.py:237 | "$A,B" reads as the number AB |
| TravelAgent.PriceWithWords | agentic_ai/agents/travel_agent.py:237 | a price with a word inside it raises ValueError |
| TravelAgent.PriceOfSingle | agentic_ai/agents/travel_agent.py:237 | a dict's price is its cleaned price text read as a number |
| TravelAgent.Amounts | agentic_ai/agents/travel_agent.py:237-239 | one reading per item, in order |
| TravelAgent.SumPrices | agentic_ai/agents/travel_agent.py:237-239 | the sum over no items is 0 |
| TravelAgent.SumPricesAppend | agentic_ai/agents/travel_agent.py:237-239 | summing two runs succeeds exactly when both do, and gives the sum of the two sums |
| TravelAgent.SumPricesOfWhole | agentic_ai/agents/travel_agent.py:237-239 | items with whole listed prices sum to the total of those prices |
| TravelAgent.TotalCostSums | agentic_ai/agents/travel_agent.py:233-241 | the total succeeds exactly when each of the three sums does, and is their sum |
| TravelAgent.DigitItems | agentic_ai/agents/travel_agent.py:354 | joining the digits of a list works exactly when every item is text (otherwise AttributeError) and yields only digits |
| TravelAgent.SuggestionDays | agentic_ai/agents/travel_agent.py:351-356 | a missing duration is 5; a text duration is the number its digits form, or 5 without digits; a list holding a non-text item raises AttributeError, and nothing else fails |
| TravelAgent.SuggestionDaysOfNumber | agentic_ai/agents/travel_agent.py:353-354 | "N days" reads as N |
| TravelAgent.SuggestionDaysWithoutDigits | agentic_ai/agents/travel_agent.py:354 | a duration text without digits gives 5 |
| TravelAgent.Cap | agentic_ai/agents/travel_agent.py:291-326 | a list is cut to n items and replaced by the defaults when empty; anything else cannot be sliced |
| TravelAgent.SuggestionDestination | agentic_ai/agents/travel_agent.py:267-269 | the destination member unless it is missing or "Unknown", in which case "name, country" when a name is given and "Unknown" otherwise |
| TravelAgent.SuggestionDuration | agentic_ai/agents/travel_agent.py:276-280 | the digits of the duration member, or the caller's duration when it has none |
| TravelAgent.ValidateSuggestionData | agentic_ai/agents/travel_agent.py:264-340 | the list fields are non-empty and capped at five, three, two and three; the destination and duration are read as above; validation fails exactly when one of the list fields raises |
| TravelAgent.TextMembersWrapped | agentic_ai/agents/travel_agent.py:284-320 | a text value under "activities", "accommodation_suggestions", "transportation" or "local_tips" becomes a one-item list holding it |
| TravelAgent.ListMembersCapped | agentic_ai/agents/travel_agent.py:302-315 | more than three accommodations are cut to three; transportation to at most two |
| TravelAgent.ActivitiesOfList | agentic_ai/agents/travel_agent.py:283-291 | up to five activities are kept as given |
| TravelAgent.AccommodationsOfList | agentic_ai/agents/travel_agent.py:294-302 | up to three accommodations are kept as given |
| TravelAgent.TransportationOfList | agentic_ai/agents/travel_agent.py:305-315 | up to two transport lines are kept as given |
| TravelAgent.LocalTipsOfList | agentic_ai/agents/travel_agent.py:318-326 | up to three tips are kept as given |
| TravelAgent.WellFormedTexts | agentic_ai/agents/travel_agent.py:271-274 | the text members of a well-formed suggestion are read back unchanged (also lines 331-339) |
| TravelAgent.ValidateWellFormed | agentic_ai/agents/travel_agent.py:264-340 | validating a well-formed suggestion returns it unchanged |
| TravelAgent.OrText | agentic_ai/agents/travel_agent.py:507-530 | `x or default`: the default, or the given non-empty text |
| TravelAgent.FallbackActivities | agentic_ai/agents/travel_agent.py:493-505 | five activities |
| TravelAgent.FallbackAccommodations | agentic_ai/agents/travel_agent.py:507-512 | three accommodations |
| TravelAgent.FallbackTips | agentic_ai/agents/travel_agent.py:519-524 | three tips |
| TravelAgent.FallbackSuggestion | agentic_ai/agents/travel_agent.py:489-538 | five activities, three accommodations, two transport lines and three tips, for the given destination and duration |
| TravelAgent.FallbackIsValid | agentic_ai/agents/travel_agent.py:489-538 | a fallback suggestion is well formed and passes validation unchanged (also lines 264-340) |
| TravelAgent.WellFormedDestination | agentic_ai/agents/travel_agent.py:267-269 | the destination of a well-formed suggestion is read back unchanged |
| TravelAgent.WellFormedDuration | agentic_ai/agents/travel_agent.py:276-280 | the duration of a well-formed suggestion is read back unchanged (also line 333) |
| TravelAgent.WellFormedLists | agentic_ai/agents/travel_agent.py:282-326 | the four lists of a well-formed suggestion are read back unchanged |
| SimpleBackend.Before | agentic_ai/simple_backend.py:86-88 | `words[max(0, i-2):i]`: at most the two words before position i |
| SimpleBackend.ConversionStep | agentic_ai/simple_backend.py:82-89 | a word fails the loop exactly when it looks like an amount but float() rejects it; otherwise the word can only become the source or target code |
| SimpleBackend.ConversionFrom | agentic_ai/simple_backend.py:82-89 | the codes found are the starting ones or three-letter upper-case words of the rest of the query |
| SimpleBackend.ConversionParams | agentic_ai/simple_backend.py:76-89 | the source is USD or a code word of the query, and the target is EUR or a code word of the query |
| SimpleBackend.DefaultsWithoutAmountOrCodes | agentic_ai/simple_backend.py:77-79 | without amounts or codes the conversion is 100 USD to EUR |
| SimpleBackend.DigitWordIsAmount | agentic_ai/simple_backend.py:83-84 | a digit word is an amount with its own value and is not a code |
| SimpleBackend.LetterWordIsNoAmount | agentic_ai/simple_backend.py:83 | a word of letters is not an amount |
| SimpleBackend.SourceStep | agentic_ai/simple_backend.py:85-87 | a code right after a number is the source |
| SimpleBackend.TargetStep | agentic_ai/simple_backend.py:85-89 | a code after "to", not after "from" or a number, is the target |
| SimpleBackend.AmountFromTo | agentic_ai/simple_backend.py:76-89 | "Convert N A to B" converts N from A to B |
| SimpleBackend.UpToLabel | agentic_ai/simple_backend.py:117 | the words read up to, and not including, the next label |
| SimpleBackend.FlightStepWith | agentic_ai/simple_backend.py:113-121 | the loop fails exactly at a num_passengers: label followed by a word that int() rejects |
| SimpleBackend.HelpExampleAsWritten | agentic_ai/simple_backend.py:113-148 | the help text's own flight query reads the destination as two words, the city and "date:" |
| SimpleBackend.HelpExampleRead | agentic_ai/simple_backend.py:113-148 | read up to the next label, the help query gives its origin, its destination, the date 2025-07-01 and 2 passengers |
| SimpleBackend.PassengerDigits | agentic_ai/simple_backend.py:121 | int("2") is 2 |
| SimpleBackend.FlightSteps | agentic_ai/simple_backend.py:113-121 | an eight-word labelled query gives its origin, destination, date and passengers |
| SimpleBackend.ExecuteAgent | agentic_ai/simple_backend.py:65-155 | a query that is neither conversion nor flight search gets the help text; "convert" with usd, eur or jpy and readable parameters is answered by the currency tool with those parameters exactly when it is set up, and with the help otherwise; without a conversion request, both labels, the flight tool, a non-empty origin and destination as the loop reads them and a readable date give exactly that flight search, a missing tool or field gives the help, and a failing loop or unreadable date is a server error, in both directions |
| SimpleBackend.ExecuteAgentCorrected | agentic_ai/simple_backend.py:65-155 | the same routing, each case in both directions, with the destination read up to the next label |
| SimpleBackend.ExecuteAgentsAgree | agentic_ai/simple_backend.py:65-155 | where both readings of the flight query agree, the two agents answer alike |
| SimpleBackend.RoutingIgnoresCase | agentic_ai/simple_backend.py:68-102 | routing does not depend on letter case |
| SimpleBackend.PlainWordsKeepDefaults | agentic_ai/simple_backend.py:82-89 | words that are neither amounts nor codes leave the conversion as it was |
| MinimalBackend.ConversionStep | agentic_ai/backend_minimal.py:46-53 | a word fails the loop exactly when it looks like an amount but float() rejects it; an amount word sets the amount; a known code becomes the source or the target, upper-cased; any other word changes nothing |
| MinimalBackend.ConversionParams | agentic_ai/backend_minimal.py:40-53 | both currencies of a parsed conversion are among the six known codes |
| MinimalBackend.LettersAreNoAmount | agentic_ai/backend_minimal.py:47 | a word of letters is not an amount |
| MinimalBackend.DigitsAreAmount | agentic_ai/backend_minimal.py:47-48 | a digit word is an amount with its own value |
| MinimalBackend.NumberNeverMarksSourceAsWritten | agentic_ai/backend_minimal.py:48-50 | as written, a digit word before a code never marks it as the source, since the text of a float always holds a character that is not a digit: the point in the model, and in Python's exponent form ("1e+16") also "e" and "+" |
| MinimalBackend.NumberMarksSource | agentic_ai/backend_minimal.py:50 | read as intended, a number before a code marks it as the source |
| MinimalBackend.ToMarksNoSource | agentic_ai/backend_minimal.py:50-53 | "to" before a code makes it the target |
| MinimalBackend.CodeStep | agentic_ai/backend_minimal.py:49-53 | a code after a word that marks the source is the source, otherwise the target |
| MinimalBackend.AmountCodeToCodeAsWritten | agentic_ai/backend_minimal.py:46-53 | as written, "convert N A to B" converts N from USD to B |
| MinimalBackend.AmountCodeToCode | agentic_ai/backend_minimal.py:46-53 | read as intended, "convert N A to B" converts N from A to B |
| MinimalBackend.FiftyEurosAsWritten | agentic_ai/backend_minimal.py:46-53 | as written, "convert 50 eur to usd" converts 50 from USD to USD |
| MinimalBackend.FiftyEuros | agentic_ai/backend_minimal.py:46-53 | read as intended, "convert 50 eur to usd" converts 50 from EUR to USD |
| MinimalBackend.FlightWords | agentic_ai/backend_minimal.py:84 | the flight tokens are non-empty and hold no white space |
| MinimalBackend.FieldsFollowLabels | agentic_ai/backend_minimal.py:90-103 | every field the loop sets comes from the token after its label, the destination from the tokens up to the next label |
| MinimalBackend.DestinationHasNoLabel | agentic_ai/backend_minimal.py:94-99 | the destination is the tokens up to the next label, joined by spaces, and holds no label |
| MinimalBackend.LabelAsOrigin | agentic_ai/backend_minimal.py:91-92 | a label right after "origin:" is taken as the origin |
| MinimalBackend.ExecuteAgent | agentic_ai/backend_minimal.py:27-143 | the help text exactly when the query asks neither for a conversion nor for flights; a conversion exactly when one is asked for and the loop parses (as written), with known codes; a flight search only with the parsed query |
| MinimalBackend.ExecuteAgentIntended | agentic_ai/backend_minimal.py:27-75 | a conversion exactly when one is asked for and the loop, read as intended, parses |
| MinimalBackend.ReplyIgnoresCase | agentic_ai/backend_minimal.py:29 | the reply does not depend on letter case |
| MinimalBackend.ConversionFrom | agentic_ai/backend_minimal.py:46-53 | the loop keeps both currencies among the six known codes |

## Left out

- Text.Lower: only ASCII letters change case. The same holds for Text.Upper, Text.Title, Text.IsSpace, Text.IsDigit and the word boundary `\b` of the hand-written scanners. Python's Unicode case mapping, Unicode white space and Unicode digits are not modelled.
- Text.ParseInt: accepts an optional sign followed by ASCII digits. Its inputs are always single tokens without white space. Python's `int()` also accepts underscores between digits ("1_000"), which the model rejects.
- Text.ParseDecimal: accepts an optional sign, digits and at most one point. Python's `float()` also accepts exponents ("1e3"), underscores, "inf", "infinity" and "nan", which the model rejects.
- Json.Repr: always quotes strings and object keys with single quotes and copies their characters unescaped. Python's `repr` switches to double quotes when the text holds `'` and escapes `\` and control characters. The difference shows only where the code renders a non-string value, such as a non-object price in FlyScraper.PriceText or the list in McpTools.TravelPlannerListResult.
- Text.FloatText: always writes the fixed-point form `whole.fraction`. Python writes floats of magnitude 1e16 and above, or below 1e-4, in exponent form (`str(1e16)` is '1e+16'). The model's floats are exact decimals `mant / 10^exp`, so binary rounding in the shortest repr is not modelled either.
- Json.ParseFloat: inherits the narrower syntax of Text.ParseDecimal. A text such as "1e3" raises ValueError in the model but parses in Python.
- FlyScraper.PerPerson: reads the amount with Text.ParseDecimal. A price such as "USD 1e3" gets the per-person note in the model, while Python would scale it.
- TravelAgent.ParseAmount: uses Text.ParseDecimal. A price such as "1e3" makes the model's total raise, while Python would add 1000.
- TravelAgent.TotalCostSums: money is an exact `real`. Python's binary floating-point rounding in the sums is not modelled.
- Currency.ConvertLive: converted amounts and rates are exact `real` values, and `round(x, 2)`/`round(x, 6)` are not applied. The same holds for Currency.ConvertWithLibrary, Currency.FromTable and Currency.SameCurrency.
- FlyScraper.Priced: the `:,.0f` rendering of totals is the parameter `money`. The same holds for FlyScraper.AdjustFlight and FlyScraper.AdjustPricing.
- FlyScraper.FormatTime: `datetime.fromisoformat(...).strftime('%H:%M')` is the parameter `clock`.
- FlyScraper.SearchFlightsEnhanced: `strptime` of the two dates is the pair of flags `departureOk`/`returnOk`. The live searches and the random fallback flights of `FlightSearchTool.execute` are the inputs held in `found`. The same holds for FlyScraper.SearchOneWay and FlyScraper.SearchRoundTrip.
- FlyScraper.Execute: the HTTP search, the retry after status 429 and the backup endpoint are reduced to their outcome, `answer`. The random fallback flights of `_get_fallback_flights` (FlightSearchTool.py) are the input `fallback`.
- RequestRouter.ExtractOriginDestination: the three from/to regular expressions of the second step are not scanned. Their match groups, in order, are the parameter `routes`. The IATA codes, the city table and the detected-city rules are modelled in full.
- McpTools.CallSearch: the Amadeus request and the reply text built from its answer (the "Found N flights" listing of the first five, the no-flights and unavailable messages, and the in-band text of a failed request) are not modelled. The result is the `SearchCall` the tool would make. The same holds for McpTools.FlightSearch and McpTools.SearchFlexible.
- McpTools.ParseFlightQuery: models only the fallback parser that runs when the enhanced parser cannot be imported. The enhanced `flight_query_parser` module is not part of this model.
- McpTools.IntelligentFlightSearch: when nothing is missing, the model returns the handler's "I'd be happy to help…" reply. This relies on the decorated `flight_search` tool object rejecting keyword arguments, as LangChain's tool call does. The direct-call reading is McpTools.IntelligentFlightSearchDirect.
- McpTools.TravelPlannerListResult: the itinerary planner's own answer is an input. Its LLM call is not modelled.
- SessionStore.ExecuteAgentEffect: the LangChain agent run is the parameter `agent`. Its prompt, its iteration cap and the window of the last 10 exchanges kept by its memory are library behaviour and are not modelled. Fresh session ids (`uuid4`) and the clock are parameters.
- SessionStore.GetConversation: timestamps are integer seconds. Their `isoformat()` rendering is not modelled.
- Itinerary.Respond: the Ollama call and `json.loads` are inputs. The text answer is `text`, or None when the call fails or the reply lacks "response", and the decoded value is `decoded`.
- TravelTools.SearchFlights: the Amadeus client and its HTTP response are inputs. `date.replace` is modelled only as far as it checks the minute range.
- Currency.LiveToolRates: the RapidAPI rate request (`_get_conversion_rate_sync`) is the input `live`, and the `currency_converter` library is the input `converter` of Currency.ConvertWithLibrary.
- `extract_travel_dates`, `parse_date_string` and the other clock-dependent date helpers of the front end are not modelled, because they depend on the wall clock. The same holds for the Streamlit UI.
- The weather and location tools, `HotelSearchTool.execute`, `AmadeusFlightSearchTool.py`, `BaseAmadeusAPITool.py` and the LLM clients under `mcp_server/` are not part of this model. They are thin wrappers around network calls.
- The float hotel ratings of the fallback hotels are not modelled. Only names, prices and amenities are.
- Startup scripts and the FastAPI/uvicorn route registration are not modelled.

## Findings

| source | as written | input that shows it | evidently intended | confidence | as-written member | corrected member |
|---|---|---|---|---|---|---|
| agentic_ai/tools/travel_tools.py:243-246 | the third fallback flight arrives at `minute=30 + i * 15`, which is 60 for `i = 2`, so `date.replace` raises ValueError; `execute` calls the same generator from its handler, so every fallback path raises | any search that reaches the fallback, e.g. no Amadeus client configured | minutes past 59 carry into the hour, giving three fallback flights | not executed | TravelTools.FallbackFlightsAsWrittenRaise | TravelTools.FallbackFlights |
| agentic_ai/backend_minimal.py:46-53 | a code counts as the source only if the previous word contains `str(amount)`, which after `float()` is "50.0" and never occurs in the word "50" | "convert 50 eur to usd" converts USD to USD | the code after the amount is the source currency: EUR to USD | not executed | MinimalBackend.FiftyEurosAsWritten | MinimalBackend.FiftyEuros |
| agentic_ai/simple_backend.py:116-117 | the destination is the next two tokens joined, so the label that follows a one-word city is taken along | the help text's own example "origin: Seattle destination: Tokyo date: 2025-07-01 num_passengers: 2" searches for "Tokyo date:" | the destination runs up to the next label: "Tokyo" | not executed | SimpleBackend.HelpExampleAsWritten | SimpleBackend.HelpExampleRead |

=== FILE: amadeus_search.dfy ===
/** AmadeusFlightSearch of tools/amadeus_flight_search.py: flattening the Amadeus flight
    offers into flight records, the fixed fallback flights, and the choice between them. */
module AmadeusSearch {
  import opened Wrappers
  import opened Text
  import opened Json
  import opened Offers
  import CityCodes
  import TravelTools

  /** One flight record; parsed offers and fallback flights have the same keys. */
  datatype Flight = Flight(
    id: Json, price: string, currency: Json,
    departureAirport: Json, arrivalAirport: Json, departureTime: Json, arrivalTime: Json,
    duration: Json, stops: nat, airline: Json, flightNumber: string, aircraft: Json,
    bookingClass: Json, trip: Trip)

  // ---------------------------------------------------------------------------
  // _parse_flight_offers

  /** The cabin of the first segment: from its first CO2-emissions entry when that member
      is truthy; `None` for the exception of a truthy member that is not a list of dicts. */
  function Cabin(first: seq<(string, Json)>): (r: Option<Json>)
    ensures !Truthy(GetOr(first, "co2Emissions", Null)) ==> r == Some(Str("ECONOMY"))
  {
    var co2 := GetOr(first, "co2Emissions", Null);
    if !Truthy(co2) then Some(Str("ECONOMY"))
    else if co2.Arr? then Attr(co2.items[0], "cabin", Str("ECONOMY"))
    else None
  }

  /** The body of the loop for one offer; `None` when it is skipped or raises. */
  function ParseOffer(offer: Json): (r: Option<Flight>)
    ensures OutboundOf(offer).None? ==> r.None?
    ensures r.Some? ==>
      && OutboundOf(offer).Some?
      && r.value.stops == |OutboundOf(offer).value.segments| - 1
      && (r.value.trip == OneWay <==> |OutboundOf(offer).value.itineraries| == 1)
      && r.value.id == GetOr(offer.fields, "id", Str("unknown"))
      && r.value.duration == GetOr(OutboundOf(offer).value.itinerary, "duration", Str("N/A"))
  {
    match OutboundOf(offer)
    case None => None
    case Some(o) =>
      var first := o.segments[0];
      var last := o.segments[|o.segments| - 1];
      if !first.Obj? || !last.Obj? || !o.price.Obj? then None
      else
        var departure := GetOr(first.fields, "departure", Obj([]));
        var arrival := GetOr(last.fields, "arrival", Obj([]));
        if !departure.Obj? || !arrival.Obj? then None
        else
        var departureAirport := GetOr(departure.fields, "iataCode", Str("N/A"));
        var arrivalAirport := GetOr(arrival.fields, "iataCode", Str("N/A"));
        var departureTime := GetOr(departure.fields, "at", Str("N/A"));
        var arrivalTime := GetOr(arrival.fields, "at", Str("N/A"));
        var aircraft :- Nested(first, "aircraft", "code", Str("N/A"));
        var cabin :- Cabin(first.fields);
        var trip :- TripOf(o.itineraries);
        Some(Flight(
          GetOr(offer.fields, "id", Str("unknown")),
          "$" + Show(GetOr(o.price.fields, "total", Str("N/A"))),
          GetOr(o.price.fields, "currency", Str("USD")),
          departureAirport, arrivalAirport, departureTime, arrivalTime,
          GetOr(o.itinerary, "duration", Str("N/A")), |o.segments| - 1,
          GetOr(first.fields, "carrierCode", Str("Unknown")),
          Show(GetOr(first.fields, "carrierCode", Str(""))) + Show(GetOr(first.fields, "number", Str(""))),
          aircraft, cabin, trip))
  }

  /** `_parse_flight_offers`: the offers that parse, in order, at most ten. */
  function ParseFlightOffers(offers: seq<Json>): (r: seq<Flight>)
    ensures |r| <= 10 && |r| <= |offers|
  {
    FirstTen(Collect(offers, ParseOffer))
  }

  /** Every listed flight is the record of one of the offers. */
  lemma ParsedFlightFromOffer(offers: seq<Json>, k: nat)
    requires k < |ParseFlightOffers(offers)|
    ensures exists j :: 0 <= j < |offers| && ParseOffer(offers[j]) == Some(ParseFlightOffers(offers)[k])
  {
    CollectFrom(offers, ParseOffer, k);
  }

  /** Up to ten offers that all parse are all listed, in order. */
  lemma ParseFlightOffersKeepsAll(offers: seq<Json>)
    requires |offers| <= 10
    requires forall j :: 0 <= j < |offers| ==> ParseOffer(offers[j]).Some?
    ensures |ParseFlightOffers(offers)| == |offers|
  {
    CollectAll(offers, ParseOffer);
  }

  /** An offer without itineraries or outbound segments leaves the list unchanged. */
  lemma SkippedOfferAddsNothing(offers: seq<Json>, bad: Json)
    requires OutboundOf(bad).None?
    ensures ParseFlightOffers([bad] + offers) == ParseFlightOffers(offers)
  {
    CollectAppend([bad], offers, ParseOffer);
    assert Collect([bad], ParseOffer) == [] by {
      assert [bad][1..] == [];
    }
    assert [] + Collect(offers, ParseOffer) == Collect(offers, ParseOffer);
  }

  // ---------------------------------------------------------------------------
  // _get_fallback_flights

  const Airlines: seq<string> := ["Air India", "Emirates", "British Airways", "Lufthansa", "Singapore Airlines"]

  /** Python `return_date` used as a condition: given and not empty. */
  predicate Given(returnDate: Option<string>) {
    returnDate.Some? && returnDate.value != ""
  }

  /** `f'2025-07-{d}T{h}:00:00'`: a fixed July 2025 day, the hour without padding. */
  function JulyStamp(d: nat, h: nat): string {
    "2025-07-" + NatToString(d) + "T" + NatToString(h) + ":00:00"
  }

  /** `f'PT{h}H{m}M'`. */
  function Period(h: nat, m: nat): string {
    "PT" + NatToString(h) + "H" + NatToString(m) + "M"
  }

  /** The two-letter airline code of flight `i`: `airline[:2].upper()`. */
  function AirlineCode(i: nat): (c: string)
    requires i < 3
    ensures |c| == 2
  {
    Upper(Airlines[i][..2])
  }

  /** The airline code followed by `1000 + i`. */
  function FlightNumber(i: nat): (n: string)
    requires i < 3
    ensures |n| > 2 && n[..2] == AirlineCode(i)
  {
    AirlineCode(i) + NatToString(1000 + i)
  }

  /** Flight `i` of `_get_fallback_flights`. */
  function FallbackFlight(origin: string, destination: string, returnDate: Option<string>, i: nat): (f: Flight)
    requires i < 3
    ensures f.id == Str("fallback_" + NatToString(i + 1)) && f.stops == i
    ensures f.flightNumber == FlightNumber(i)
    ensures f.departureAirport == Str(CityCodes.AirportCode(origin))
    ensures f.arrivalAirport == Str(CityCodes.AirportCode(destination))
    ensures !Given(returnDate) ==> f.trip == OneWay
    ensures Given(returnDate) ==> f.trip.RoundTrip? && f.trip.leg.stops == i
    ensures f.price == "$" + NatToString(TravelTools.FallbackPrice(i, Given(returnDate)))
  {
    var price := TravelTools.FallbackPrice(i, Given(returnDate));
    Flight(
      Str("fallback_" + NatToString(i + 1)), "$" + NatToString(price), Str("USD"),
      Str(CityCodes.AirportCode(origin)), Str(CityCodes.AirportCode(destination)),
      Str(JulyStamp(15 + i, 8 + 2 * i)), Str(JulyStamp(15 + i, 14 + 3 * i)),
      Str(Period(6 + i, 30 + 15 * i)), i,
      Str(AirlineCode(i)), FlightNumber(i), Str("737"), Str("ECONOMY"),
      if Given(returnDate) then
        RoundTrip(ReturnLeg(Str(JulyStamp(20 + i, 10 + 2 * i)), Str(JulyStamp(20 + i, 16 + 3 * i)),
                            Str(Period(6 + i, 45 + 10 * i)), i))
      else OneWay)
  }

  /** `_get_fallback_flights`: three flights, whatever the departure date asked for. */
  function FallbackFlights(origin: string, destination: string, returnDate: Option<string>): (r: seq<Flight>)
    ensures |r| == 3
    ensures forall i :: 0 <= i < 3 ==> r[i] == FallbackFlight(origin, destination, returnDate, i)
  {
    seq(3, i requires 0 <= i < 3 => FallbackFlight(origin, destination, returnDate, i))
  }

  /** The airline codes are AI, EM and BR. */
  lemma AirlineCodes()
    ensures AirlineCode(0) == "AI" && AirlineCode(1) == "EM" && AirlineCode(2) == "BR"
  {
    assert Airlines[0][..2] == "Ai";
    assert Airlines[1][..2] == "Em";
    assert Airlines[2][..2] == "Br";
  }

  lemma FlightNumberTexts()
    ensures NatToString(1000) == "1000" && NatToString(1001) == "1001" && NatToString(1002) == "1002"
  {
  }

  /** The fallback flights are AI1000, EM1001 and BR1002. */
  lemma FlightNumbers()
    ensures FlightNumber(0) == "AI1000" && FlightNumber(1) == "EM1001" && FlightNumber(2) == "BR1002"
  {
    AirlineCodes();
    FlightNumberTexts();
  }

  /** They cost $450, $650 and $850 one-way and nine fifths of that, $810, $1170 and
      $1530, for a round trip. */
  lemma FallbackPrices(roundTrip: bool)
    ensures "$" + NatToString(TravelTools.FallbackPrice(0, roundTrip)) == if roundTrip then "$810" else "$450"
    ensures "$" + NatToString(TravelTools.FallbackPrice(1, roundTrip)) == if roundTrip then "$1170" else "$650"
    ensures "$" + NatToString(TravelTools.FallbackPrice(2, roundTrip)) == if roundTrip then "$1530" else "$850"
  {
    TravelTools.PriceDigits(roundTrip);
  }

  /** The flight times do not depend on the route or the return date, only on `i`. */
  lemma FallbackTimesFixed(o1: string, d1: string, r1: Option<string>, o2: string, d2: string, r2: Option<string>, i: nat)
    requires i < 3
    ensures FallbackFlight(o1, d1, r1, i).departureTime == FallbackFlight(o2, d2, r2, i).departureTime
    ensures FallbackFlight(o1, d1, r1, i).arrivalTime == FallbackFlight(o2, d2, r2, i).arrivalTime
  {
  }

  // ---------------------------------------------------------------------------
  // search_flights

  /** `search_flights`: `data` is the response data, `None` when the call raised or the
      status was not 200. Any exception gives the fallback flights; a successful response
      is parsed even when nothing in it parses. Iterating text or a dict yields strings,
      which are skipped, and iterating anything else raises. */
  function SearchFlights(origin: string, destination: string, returnDate: Option<string>, data: Option<Json>): (r: seq<Flight>)
    ensures data.None? ==> r == FallbackFlights(origin, destination, returnDate)
    ensures data.Some? && data.value.Arr? ==> r == ParseFlightOffers(data.value.items)
    ensures data.Some? && (data.value.Str? || data.value.Obj?) ==> r == []
    ensures data.Some? && !data.value.Arr? && !data.value.Str? && !data.value.Obj? ==>
              r == FallbackFlights(origin, destination, returnDate)
  {
    match data
    case None => FallbackFlights(origin, destination, returnDate)
    case Some(Arr(items)) => ParseFlightOffers(items)
    case Some(Str(_)) => []
    case Some(Obj(_)) => []
    case Some(_) => FallbackFlights(origin, destination, returnDate)
  }
}

=== FILE: backend_minimal.dfy ===
/** The keyword router of the minimal backend (backend_minimal.py): a request is a
    currency conversion, a flight search or anything else, which gets the help text.
    Unlike the simplified backend, the parameters are read from the lower-cased query,
    a failure inside a tool branch is reported as text in a successful response, and no
    empty origin or destination stops a flight search. The model stops at the tool call. */
module MinimalBackend {
  import opened Wrappers
  import opened Text
  import opened Json
  import SimpleBackend

  // ---------------------------------------------------------------------------
  // Currency parameters

  /** The currency codes the parser knows. */
  const KnownCodes: seq<string> := ["USD", "EUR", "JPY", "GBP", "CAD", "AUD"]

  /** A word that `word.replace('.', '').replace(',', '').isdigit()` accepts. */
  predicate IsAmountWord(word: string) {
    IsDigitString(RemoveChar(RemoveChar(word, '.'), ','))
  }

  /** A three-letter word naming a known code, in any case. */
  predicate IsCodeWord(word: string) {
    |word| == 3 && Upper(word) in KnownCodes
  }

  /** Whether the word before a code makes that code the source currency. As written
      (`intended` false) that is a word holding "from" or the text `str(amount)` of the
      amount read so far; as intended, a word holding "from" or an amount word. */
  predicate MarksSource(prev: string, amount: Json, intended: bool) {
    Contains(prev, "from") || (if intended then IsAmountWord(prev) else Contains(prev, Show(amount)))
  }

  /** The loop body for word `i`: an amount word sets the amount (`float()` of the word
      without commas, which raises for a word such as "1.2.3"); otherwise a known code
      becomes the source or the target currency, upper-cased. */
  function ConversionStep(words: seq<string>, i: nat, c: SimpleBackend.Conversion, intended: bool)
    : (r: Result<SimpleBackend.Conversion>)
    requires i < |words|
    ensures r.Failure? <==> IsAmountWord(words[i]) && ParseFloat(RemoveChar(words[i], ',')).Failure?
    ensures r.Success? && IsAmountWord(words[i]) ==>
              r.value == c.(amount := ParseFloat(RemoveChar(words[i], ',')).value)
    ensures !IsAmountWord(words[i]) && IsCodeWord(words[i]) ==>
              r == Success(c.(from := Upper(words[i]))) || r == Success(c.(to := Upper(words[i])))
    ensures !IsAmountWord(words[i]) && !IsCodeWord(words[i]) ==> r == Success(c)
  {
    var word := words[i];
    if IsAmountWord(word) then
      var amount :- ParseFloat(RemoveChar(word, ','));
      Success(c.(amount := amount))
    else if IsCodeWord(word) then
      if i > 0 && MarksSource(words[i - 1], c.amount, intended) then Success(c.(from := Upper(word)))
      else Success(c.(to := Upper(word)))
    else Success(c)
  }

  /** The loop from word `i` on: the currencies stay known codes. */
  function ConversionFrom(words: seq<string>, i: nat, c: SimpleBackend.Conversion, intended: bool)
    : (r: Result<SimpleBackend.Conversion>)
    requires i <= |words|
    requires c.from in KnownCodes && c.to in KnownCodes
    ensures r.Success? ==> r.value.from in KnownCodes && r.value.to in KnownCodes
    decreases |words| - i
  {
    if i == |words| then Success(c)
    else
      var next :- ConversionStep(words, i, c, intended);
      ConversionFrom(words, i + 1, next, intended)
  }

  /** The conversion parameters read from the words of the lower-cased query, 100 US
      dollars to euros by default: both currencies are known codes, whatever the query. */
  function ConversionParams(words: seq<string>, intended: bool): (r: Result<SimpleBackend.Conversion>)
    ensures r.Success? ==> r.value.from in KnownCodes && r.value.to in KnownCodes
  {
    ConversionFrom(words, 0, SimpleBackend.DefaultConversion, intended)
  }

  /** A word of letters is no amount. */
  lemma LettersAreNoAmount(w: string)
    requires IsAlphaString(w)
    ensures !IsAmountWord(w)
  {
    RemoveAbsentChar(w, '.');
    RemoveAbsentChar(w, ',');
    assert !IsDigit(w[0]);
  }

  /** A word of digits is the amount it spells. */
  lemma DigitsAreAmount(n: string)
    requires IsDigitString(n)
    ensures IsAmountWord(n) && ParseFloat(RemoveChar(n, ',')) == Success(Float(DigitsValue(n), 0))
  {
    RemoveAbsentChar(n, '.');
    RemoveAbsentChar(n, ',');
  }

  /** As written, a number never marks the code after it as the source: once read, the
      amount is a float whose text has a point, which a word of digits cannot contain. */
  lemma NumberNeverMarksSourceAsWritten(prev: string, m: nat, e: nat)
    requires AllDigits(prev)
    ensures !MarksSource(prev, Float(m, e), false)
  {
    NoPiece(prev, "from", 0);
    var k := PointOf(m, e);
    NoPiece(prev, Show(Float(m, e)), k);
  }

  /** As intended, a number marks the code after it as the source. */
  lemma NumberMarksSource(prev: string, amount: Json)
    requires IsDigitString(prev)
    ensures MarksSource(prev, amount, true)
  {
    DigitsAreAmount(prev);
  }

  /** "to" marks nothing as the source in either reading. */
  lemma ToMarksNoSource(m: nat, e: nat, intended: bool)
    ensures !MarksSource(ToWord, Float(m, e), intended)
  {
    NoPiece(ToWord, "from", 0);
    LettersAreNoAmount(ToWord);
    var k := PointOf(m, e);
    NoPiece(ToWord, Show(Float(m, e)), k);
  }

  /** Where the point is in the text of a float that is not negative. */
  lemma PointOf(m: nat, e: nat) returns (k: nat)
    ensures k < |Show(Float(m, e))| && Show(Float(m, e))[k] == '.'
  {
    var u := Show(Float(m, e));
    assert u == UnsignedFloatText(m, e);
    ContainsIff(u, ".");
    var i :| OccursAt(u, ".", i);
    assert u[i] == u[i..i + 1][0];
    k := i;
  }

  /** One turn of the loop. */
  lemma FromStep(words: seq<string>, i: nat, c: SimpleBackend.Conversion, intended: bool, next: SimpleBackend.Conversion)
    requires i < |words| && c.from in KnownCodes && c.to in KnownCodes
    ensures ConversionStep(words, i, c, intended) == Success(next) ==>
              && next.from in KnownCodes && next.to in KnownCodes
              && ConversionFrom(words, i, c, intended) == ConversionFrom(words, i + 1, next, intended)
  {
  }

  lemma ToStep(words: seq<string>, i: nat, c: SimpleBackend.Conversion, intended: bool)
    requires i < |words| && words[i] == ToWord
    ensures ConversionStep(words, i, c, intended) == Success(c)
  {
    LettersAreNoAmount(ToWord);
  }

  lemma ConvertStep(words: seq<string>, i: nat, c: SimpleBackend.Conversion, intended: bool)
    requires i < |words| && words[i] == ConvertWord
    ensures ConversionStep(words, i, c, intended) == Success(c)
  {
    LettersAreNoAmount(ConvertWord);
  }

  lemma AmountStep(words: seq<string>, i: nat, c: SimpleBackend.Conversion, intended: bool)
    requires i < |words| && IsDigitString(words[i])
    ensures ConversionStep(words, i, c, intended) == Success(c.(amount := Float(DigitsValue(words[i]), 0)))
  {
    DigitsAreAmount(words[i]);
  }

  lemma CodeStep(words: seq<string>, i: nat, c: SimpleBackend.Conversion, intended: bool)
    requires 0 < i < |words| && IsCodeWord(words[i]) && IsAlphaString(words[i])
    ensures ConversionStep(words, i, c, intended)
            == if MarksSource(words[i - 1], c.amount, intended) then Success(c.(from := Upper(words[i])))
               else Success(c.(to := Upper(words[i])))
  {
    LettersAreNoAmount(words[i]);
  }

  const ConvertWord: string := "convert"
  const ToWord: string := "to"

  /** The words of "convert N aaa to bbb". */
  function ConvertQuery(n: string, a: string, b: string): seq<string> {
    [ConvertWord, n, a, ToWord, b]
  }

  /** The loop over five words, one step at a time. */
  lemma FiveSteps(words: seq<string>, intended: bool, c0: SimpleBackend.Conversion, c1: SimpleBackend.Conversion,
                  c2: SimpleBackend.Conversion, c3: SimpleBackend.Conversion, c4: SimpleBackend.Conversion,
                  c5: SimpleBackend.Conversion)
    requires |words| == 5 && c0 == SimpleBackend.DefaultConversion
    ensures && ConversionStep(words, 0, c0, intended) == Success(c1)
            && ConversionStep(words, 1, c1, intended) == Success(c2)
            && ConversionStep(words, 2, c2, intended) == Success(c3)
            && ConversionStep(words, 3, c3, intended) == Success(c4)
            && ConversionStep(words, 4, c4, intended) == Success(c5)
            ==> ConversionParams(words, intended) == Success(c5)
  {
    if && ConversionStep(words, 0, c0, intended) == Success(c1)
       && ConversionStep(words, 1, c1, intended) == Success(c2)
       && ConversionStep(words, 2, c2, intended) == Success(c3)
       && ConversionStep(words, 3, c3, intended) == Success(c4)
       && ConversionStep(words, 4, c4, intended) == Success(c5)
    {
      FromStep(words, 0, c0, intended, c1);
      FromStep(words, 1, c1, intended, c2);
      FromStep(words, 2, c2, intended, c3);
      FromStep(words, 3, c3, intended, c4);
      FromStep(words, 4, c4, intended, c5);
      assert ConversionFrom(words, 5, c5, intended) == Success(c5);
    }
  }

  /** The first two words of the query set the amount. */
  lemma AmountFirst(n: string, a: string, b: string, intended: bool)
    requires IsDigitString(n)
    ensures ConversionStep(ConvertQuery(n, a, b), 0, SimpleBackend.DefaultConversion, intended)
            == Success(SimpleBackend.DefaultConversion)
    ensures ConversionStep(ConvertQuery(n, a, b), 1, SimpleBackend.DefaultConversion, intended)
            == Success(SimpleBackend.Conversion(Float(DigitsValue(n), 0), "USD", "EUR"))
  {
    var words := ConvertQuery(n, a, b);
    ConvertStep(words, 0, SimpleBackend.DefaultConversion, intended);
    AmountStep(words, 1, SimpleBackend.DefaultConversion, intended);
  }

  /** The last two words of the query: "to" changes nothing and the code after it is the
      target. */
  lemma TargetLast(n: string, a: string, b: string, intended: bool, c: SimpleBackend.Conversion)
    requires IsCodeWord(b) && IsAlphaString(b)
    requires c.amount.Float? && c.amount.mant >= 0
    ensures ConversionStep(ConvertQuery(n, a, b), 3, c, intended) == Success(c)
    ensures ConversionStep(ConvertQuery(n, a, b), 4, c, intended) == Success(c.(to := Upper(b)))
  {
    var words := ConvertQuery(n, a, b);
    ToStep(words, 3, c, intended);
    ToMarksNoSource(c.amount.mant, c.amount.exp, intended);
    CodeStep(words, 4, c, intended);
  }

  /** As written, a code after a number is the target. */
  lemma TargetAfterNumberAsWritten(words: seq<string>, i: nat, c: SimpleBackend.Conversion)
    requires 0 < i < |words| && IsDigitString(words[i - 1])
    requires IsCodeWord(words[i]) && IsAlphaString(words[i])
    requires c.amount.Float? && c.amount.mant >= 0
    ensures ConversionStep(words, i, c, false) == Success(c.(to := Upper(words[i])))
  {
    NumberNeverMarksSourceAsWritten(words[i - 1], c.amount.mant, c.amount.exp);
    CodeStep(words, i, c, false);
  }

  /** The five turns of the loop over "convert N aaa to bbb" as written. */
  lemma StepsAsWritten(n: string, a: string, b: string)
    requires IsDigitString(n)
    requires IsCodeWord(a) && IsAlphaString(a) && IsCodeWord(b) && IsAlphaString(b)
    ensures var c1 := SimpleBackend.Conversion(Float(DigitsValue(n), 0), "USD", "EUR");
            var c2 := c1.(to := Upper(a));
            var words := ConvertQuery(n, a, b);
            ConversionStep(words, 0, SimpleBackend.DefaultConversion, false) == Success(SimpleBackend.DefaultConversion)
            && ConversionStep(words, 1, SimpleBackend.DefaultConversion, false) == Success(c1)
            && ConversionStep(words, 2, c1, false) == Success(c2)
            && ConversionStep(words, 3, c2, false) == Success(c2)
            && ConversionStep(words, 4, c2, false) == Success(c2.(to := Upper(b)))
  {
    var words := ConvertQuery(n, a, b);
    var c1 := SimpleBackend.Conversion(Float(DigitsValue(n), 0), "USD", "EUR");
    var c2 := c1.(to := Upper(a));
    AmountFirst(n, a, b, false);
    TargetAfterNumberAsWritten(words, 2, c1);
    TargetLast(n, a, b, false, c2);
  }

  /** "convert N aaa to bbb" as written: the code after the number is taken for the
      target, then replaced by the code after "to", and the source stays US dollars. */
  lemma AmountCodeToCodeAsWritten(n: string, a: string, b: string)
    requires IsDigitString(n)
    requires IsCodeWord(a) && IsAlphaString(a) && IsCodeWord(b) && IsAlphaString(b)
    ensures ConversionParams(ConvertQuery(n, a, b), false)
            == Success(SimpleBackend.Conversion(Float(DigitsValue(n), 0), "USD", Upper(b)))
  {
    var c0 := SimpleBackend.DefaultConversion;
    var c1 := SimpleBackend.Conversion(Float(DigitsValue(n), 0), "USD", "EUR");
    var c2 := c1.(to := Upper(a));
    StepsAsWritten(n, a, b);
    FiveSteps(ConvertQuery(n, a, b), false, c0, c0, c1, c2, c2, c2.(to := Upper(b)));
  }

  /** As intended, a code after a number is the source. */
  lemma SourceAfterNumber(words: seq<string>, i: nat, c: SimpleBackend.Conversion)
    requires 0 < i < |words| && IsDigitString(words[i - 1])
    requires IsCodeWord(words[i]) && IsAlphaString(words[i])
    ensures ConversionStep(words, i, c, true) == Success(c.(from := Upper(words[i])))
  {
    NumberMarksSource(words[i - 1], c.amount);
    CodeStep(words, i, c, true);
  }

  /** The five turns of the loop over "convert N aaa to bbb" as intended. */
  lemma StepsIntended(n: string, a: string, b: string)
    requires IsDigitString(n)
    requires IsCodeWord(a) && IsAlphaString(a) && IsCodeWord(b) && IsAlphaString(b)
    ensures var c1 := SimpleBackend.Conversion(Float(DigitsValue(n), 0), "USD", "EUR");
            var c2 := c1.(from := Upper(a));
            var words := ConvertQuery(n, a, b);
            ConversionStep(words, 0, SimpleBackend.DefaultConversion, true) == Success(SimpleBackend.DefaultConversion)
            && ConversionStep(words, 1, SimpleBackend.DefaultConversion, true) == Success(c1)
            && ConversionStep(words, 2, c1, true) == Success(c2)
            && ConversionStep(words, 3, c2, true) == Success(c2)
            && ConversionStep(words, 4, c2, true) == Success(c2.(to := Upper(b)))
  {
    var words := ConvertQuery(n, a, b);
    var c1 := SimpleBackend.Conversion(Float(DigitsValue(n), 0), "USD", "EUR");
    var c2 := c1.(from := Upper(a));
    AmountFirst(n, a, b, true);
    SourceAfterNumber(words, 2, c1);
    TargetLast(n, a, b, true, c2);
  }

  /** The same query as intended: the code after the number is the source. */
  lemma AmountCodeToCode(n: string, a: string, b: string)
    requires IsDigitString(n)
    requires IsCodeWord(a) && IsAlphaString(a) && IsCodeWord(b) && IsAlphaString(b)
    ensures ConversionParams(ConvertQuery(n, a, b), true)
            == Success(SimpleBackend.Conversion(Float(DigitsValue(n), 0), Upper(a), Upper(b)))
  {
    var c0 := SimpleBackend.DefaultConversion;
    var c1 := SimpleBackend.Conversion(Float(DigitsValue(n), 0), "USD", "EUR");
    var c2 := c1.(from := Upper(a));
    StepsIntended(n, a, b);
    FiveSteps(ConvertQuery(n, a, b), true, c0, c0, c1, c2, c2, c2.(to := Upper(b)));
  }

  lemma EuroDollarCodes()
    ensures IsCodeWord("eur") && IsAlphaString("eur") && Upper("eur") == "EUR"
    ensures IsCodeWord("usd") && IsAlphaString("usd") && Upper("usd") == "USD"
    ensures IsDigitString("50") && DigitsValue("50") == 50
  {
    assert Upper("eur") == "EUR";
    assert Upper("usd") == "USD";
    assert DigitsValue("5") == 5;
  }

  /** "convert 50 eur to usd" as written converts 50 US dollars to US dollars. */
  lemma FiftyEurosAsWritten()
    ensures ConversionParams(ConvertQuery("50", "eur", "usd"), false)
            == Success(SimpleBackend.Conversion(Float(50, 0), "USD", "USD"))
  {
    EuroDollarCodes();
    AmountCodeToCodeAsWritten("50", "eur", "usd");
  }

  /** As intended, it converts 50 euros to US dollars. */
  lemma FiftyEuros()
    ensures ConversionParams(ConvertQuery("50", "eur", "usd"), true)
            == Success(SimpleBackend.Conversion(Float(50, 0), "EUR", "USD"))
  {
    EuroDollarCodes();
    AmountCodeToCode("50", "eur", "usd");
  }

  // ---------------------------------------------------------------------------
  // Flight parameters

  /** The tokens of the flight parser: the lower-cased query without commas, split on
      white space. */
  function FlightWords(query: string): (parts: seq<string>)
    ensures forall k :: 0 <= k < |parts| ==> |parts[k]| > 0 && NoSpace(parts[k])
  {
    Words(RemoveChar(Lower(query), ','))
  }

  /** Every field the loop sets comes from the token after its label: the origin, date
      and passenger count from that one token, the destination from the tokens up to
      the next label. */
  lemma {:induction false} FieldsFollowLabels(parts: seq<string>, i: nat, q: SimpleBackend.FlightQuery)
    requires i <= |parts|
    requires SimpleBackend.FlightFromWith(parts, i, q, SimpleBackend.DestinationAt).Success?
    ensures var r := SimpleBackend.FlightFromWith(parts, i, q, SimpleBackend.DestinationAt).value;
            && (r.origin == q.origin || exists j :: i < j < |parts| && parts[j - 1] == "origin:" && r.origin == parts[j])
            && (r.destination == q.destination
                || exists j :: i < j < |parts| && parts[j - 1] == "destination:"
                               && r.destination == SimpleBackend.DestinationAt(parts, j))
            && (r.date == q.date || exists j :: i < j < |parts| && parts[j - 1] == "date:" && r.date == parts[j])
            && (r.passengers == q.passengers
                || exists j :: i < j < |parts| && parts[j - 1] == "num_passengers:"
                               && ParseInt(parts[j]) == Some(r.passengers))
    decreases |parts| - i
  {
    if i < |parts| {
      var next := SimpleBackend.FlightStepWith(parts, i, q, SimpleBackend.DestinationAt).value;
      FieldsFollowLabels(parts, i + 1, next);
    }
  }

  /** No token of a destination is a label. */
  lemma DestinationHasNoLabel(parts: seq<string>, j: nat)
    requires j <= |parts|
    ensures SimpleBackend.DestinationAt(parts, j) == Join(" ", SimpleBackend.UpToLabel(parts, j))
    ensures forall k :: 0 <= k < |SimpleBackend.UpToLabel(parts, j)| ==>
              !SimpleBackend.IsLabel(SimpleBackend.UpToLabel(parts, j)[k])
  {
  }

  /** "origin: destination:" is searched for: the origin is the label "destination:" and
      the destination is empty. */
  lemma LabelAsOrigin()
    ensures SimpleBackend.FlightParams(["origin:", "destination:"])
            == Success(SimpleBackend.FlightQuery("destination:", "", "2025-07-01", 1))
  {
    var parts := ["origin:", "destination:"];
    var q := SimpleBackend.FlightQuery("destination:", "", "2025-07-01", 1);
    assert SimpleBackend.FlightFromWith(parts, 2, q, SimpleBackend.DestinationAt) == Success(q);
    assert SimpleBackend.FlightFromWith(parts, 1, q, SimpleBackend.DestinationAt) == Success(q);
  }

  // ---------------------------------------------------------------------------
  // execute_agent

  /** What a request leads to: a tool call with its arguments, the help text, or the
      text of an exception raised in a tool branch. Each is sent as a successful
      response. */
  datatype Reply =
    | Convert(conversion: SimpleBackend.Conversion)
    | SearchFlights(query: SimpleBackend.FlightQuery)
    | Help
    | ToolError(exception: string)

  /** The route to the currency tool: "convert" and one of four currency names in the
      lower-cased query. */
  predicate AsksConversion(low: string) {
    Contains(low, "convert")
    && (Contains(low, "usd") || Contains(low, "eur") || Contains(low, "jpy") || Contains(low, "gbp"))
  }

  /** `execute_agent`; `dateOk` says whether `strptime(date, '%Y-%m-%d')` accepts the
      date, and `intended` chooses between the currency parameters as written and as
      intended. */
  function ExecuteAgentWith(query: string, dateOk: string -> bool, intended: bool): (r: Reply)
    ensures r.Help? <==> !AsksConversion(Lower(query)) && !SimpleBackend.AsksFlights(Lower(query))
    ensures r.Convert? <==> AsksConversion(Lower(query)) && ConversionParams(Words(Lower(query)), intended).Success?
    ensures r.Convert? ==> ConversionParams(Words(Lower(query)), intended) == Success(r.conversion)
                           && r.conversion.from in KnownCodes && r.conversion.to in KnownCodes
    ensures r.SearchFlights? <==>
              && !AsksConversion(Lower(query)) && SimpleBackend.AsksFlights(Lower(query))
              && SimpleBackend.FlightParams(FlightWords(query)).Success?
              && dateOk(SimpleBackend.FlightParams(FlightWords(query)).value.date)
    ensures r.SearchFlights? ==> SimpleBackend.FlightParams(FlightWords(query)) == Success(r.query)
    ensures r.ToolError? <==>
              (AsksConversion(Lower(query)) && ConversionParams(Words(Lower(query)), intended).Failure?)
              || (!AsksConversion(Lower(query)) && SimpleBackend.AsksFlights(Lower(query))
                  && (SimpleBackend.FlightParams(FlightWords(query)).Failure?
                      || !dateOk(SimpleBackend.FlightParams(FlightWords(query)).value.date)))
  {
    var low := Lower(query);
    if AsksConversion(low) then
      match ConversionParams(Words(low), intended)
      case Failure(e) => ToolError(e)
      case Success(c) => Convert(c)
    else if SimpleBackend.AsksFlights(low) then
      match SimpleBackend.FlightParams(FlightWords(query))
      case Failure(e) => ToolError(e)
      case Success(f) => if dateOk(f.date) then SearchFlights(f) else ToolError("ValueError")
    else Help
  }

  /** `execute_agent` as written: a code after the amount's word is still taken as the
      target, because `str(amount)` is never found in that word. */
  function ExecuteAgent(query: string, dateOk: string -> bool): (r: Reply)
    ensures r.Help? <==> !AsksConversion(Lower(query)) && !SimpleBackend.AsksFlights(Lower(query))
    ensures r.Convert? <==> AsksConversion(Lower(query)) && ConversionParams(Words(Lower(query)), false).Success?
    ensures r.Convert? ==> ConversionParams(Words(Lower(query)), false) == Success(r.conversion)
                           && r.conversion.from in KnownCodes && r.conversion.to in KnownCodes
    ensures r.SearchFlights? ==> SimpleBackend.FlightParams(FlightWords(query)) == Success(r.query)
  {
    ExecuteAgentWith(query, dateOk, false)
  }

  /** `execute_agent` with a code after the amount taken as the source. */
  function ExecuteAgentIntended(query: string, dateOk: string -> bool): (r: Reply)
    ensures r.Convert? <==> AsksConversion(Lower(query)) && ConversionParams(Words(Lower(query)), true).Success?
    ensures r.Convert? ==> ConversionParams(Words(Lower(query)), true) == Success(r.conversion)
  {
    ExecuteAgentWith(query, dateOk, true)
  }

  /** The reply does not depend on the case the query is typed in. */
  lemma ReplyIgnoresCase(a: string, b: string, dateOk: string -> bool)
    requires Upper(a) == Upper(b)
    ensures ExecuteAgent(a, dateOk) == ExecuteAgent(b, dateOk)
  {
    LowerOfUpper(a);
    LowerOfUpper(b);
  }
}

=== FILE: city_codes.dfy ===
/** The name-to-code tables the flight and hotel tools use to turn a city typed by a user
    (or produced by an LLM) into an airport, SkyID or hotel city code. Each lookup is
    total: a name the table does not know falls back to a code built from the name. */
module CityCodes {
  import opened Wrappers
  import opened Text

  /** Three upper-case ASCII letters. */
  predicate IsCode(c: string) {
    |c| == 3 && IsUpperLetter(c[0]) && IsUpperLetter(c[1]) && IsUpperLetter(c[2])
  }

  /** Non-empty, with no whitespace at either end (every table key is). */
  predicate Trimmed(s: string) {
    |s| > 0 && !IsSpace(s[0]) && !IsSpace(s[|s| - 1])
  }

  /** Python `s[:n]`. */
  function Prefix(s: string, n: nat): (r: string)
    ensures |r| == if |s| < n then |s| else n
    ensures r == s[..|r|]
  {
    if |s| <= n then s else s[..n]
  }

  /** Python `s.ljust(n, c)`. */
  function PadRight(s: string, n: nat, c: char): (r: string)
    ensures |r| == if |s| >= n then |s| else n
    ensures r[..|s|] == s
    ensures forall i :: |s| <= i < |r| ==> r[i] == c
  {
    if |s| >= n then s else s + seq(n - |s|, _ => c)
  }

  // ---------------------------------------------------------------------------
  // SkyIDs of the flight_search tool (mcp_server/tools.py)

  /** City names, lower case, to SkyIDs (`convert_city_to_skyid`). */
  function SkyIdTable(key: string): (r: Option<string>)
    ensures r.Some? ==> IsCode(r.value)
  {
    match key
    case "mumbai" => Some("BOM")
    case "bombay" => Some("BOM")
    case "hyderabad" => Some("HYD")
    case "delhi" => Some("DEL")
    case "new delhi" => Some("DEL")
    case "chennai" => Some("MAA")
    case "madras" => Some("MAA")
    case "bangalore" => Some("BLR")
    case "bengaluru" => Some("BLR")
    case "kolkata" => Some("CCU")
    case "calcutta" => Some("CCU")
    case "pune" => Some("PNQ")
    case "goa" => Some("GOI")
    case "ahmedabad" => Some("AMD")
    case "kochi" => Some("COK")
    case "cochin" => Some("COK")
    case "thiruvananthapuram" => Some("TRV")
    case "trivandrum" => Some("TRV")
    case "jaipur" => Some("JAI")
    case "lucknow" => Some("LKO")
    case "chandigarh" => Some("IXC")
    case "indore" => Some("IDR")
    case "nagpur" => Some("NAG")
    case "vadodara" => Some("BDQ")
    case "visakhapatnam" => Some("VTZ")
    case "bhubaneswar" => Some("BBI")
    case "coimbatore" => Some("CJB")
    case "vijayawada" => Some("VGA")
    case "srinagar" => Some("SXR")
    case "agartala" => Some("IXA")
    case "imphal" => Some("IMF")
    case "dibrugarh" => Some("DIB")
    case "guwahati" => Some("GAU")
    case "raipur" => Some("RPR")
    case "ranchi" => Some("IXR")
    case "jodhpur" => Some("JDH")
    case "udaipur" => Some("UDR")
    case "jammu" => Some("IXJ")
    case "patna" => Some("PAT")
    case "varanasi" => Some("VNS")
    case "aurangabad" => Some("IXU")
    case "mangalore" => Some("IXE")
    case "hubli" => Some("HBX")
    case "tirupati" => Some("TIR")
    case "rajkot" => Some("RAJ")
    case "bhavnagar" => Some("BHU")
    case "porbandar" => Some("PBD")
    case "london" => Some("LHR")
    case "new york" => Some("JFK")
    case "paris" => Some("CDG")
    case "tokyo" => Some("NRT")
    case "dubai" => Some("DXB")
    case "singapore" => Some("SIN")
    case "kuala lumpur" => Some("KUL")
    case "bangkok" => Some("BKK")
    case "bali" => Some("DPS")
    case "hong kong" => Some("HKG")
    case "san francisco" => Some("SFO")
    case "los angeles" => Some("LAX")
    case "chicago" => Some("ORD")
    case "toronto" => Some("YYZ")
    case "sydney" => Some("SYD")
    case "melbourne" => Some("MEL")
    case "auckland" => Some("AKL")
    case "amsterdam" => Some("AMS")
    case "frankfurt" => Some("FRA")
    case "istanbul" => Some("IST")
    case "doha" => Some("DOH")
    case "moscow" => Some("SVO")
    case "beijing" => Some("PEK")
    case "shanghai" => Some("PVG")
    case "seoul" => Some("ICN")
    case "cairo" => Some("CAI")
    case "johannesburg" => Some("JNB")
    case "rio de janeiro" => Some("GIG")
    case "buenos aires" => Some("EZE")
    case _ => None
  }

  /** `convert_city_to_skyid`: the table entry for the lower-cased name, otherwise the
      whole name upper-cased (not shortened to three letters). */
  function CityToSkyId(city: string): (r: string)
    ensures SkyIdTable(Lower(city)).Some? ==> IsCode(r) && r == SkyIdTable(Lower(city)).value
    ensures SkyIdTable(Lower(city)).None? ==> r == Upper(city) && |r| == |city|
  {
    SkyIdTable(Lower(city)).GetOr(Upper(city))
  }

  /** The SkyID lookup ignores case, fallback included: names equal up to case get the
      same SkyID. */
  lemma CityToSkyIdCaseInsensitive(a: string, b: string)
    requires Lower(a) == Lower(b)
    ensures CityToSkyId(a) == CityToSkyId(b)
  {
    UpperOfLower(a);
    UpperOfLower(b);
  }

  // ---------------------------------------------------------------------------
  // Hotel city codes (mcp_server/tools.py)

  /** City names, lower case, to hotel city codes (`convert_city_to_hotel_code`). */
  function HotelCodeTable(key: string): (r: Option<string>)
    ensures r.Some? ==> IsCode(r.value)
  {
    match key
    case "paris" => Some("PAR")
    case "london" => Some("LON")
    case "new york" => Some("NYC")
    case "tokyo" => Some("TYO")
    case "dubai" => Some("DXB")
    case "singapore" => Some("SIN")
    case "bangkok" => Some("BKK")
    case "hong kong" => Some("HKG")
    case "madrid" => Some("MAD")
    case "barcelona" => Some("BCN")
    case "rome" => Some("ROM")
    case "milan" => Some("MIL")
    case "amsterdam" => Some("AMS")
    case "berlin" => Some("BER")
    case "munich" => Some("MUC")
    case "vienna" => Some("VIE")
    case "zurich" => Some("ZUR")
    case "istanbul" => Some("IST")
    case "moscow" => Some("MOW")
    case "sydney" => Some("SYD")
    case "melbourne" => Some("MEL")
    case "mumbai" => Some("BOM")
    case "delhi" => Some("DEL")
    case "bangalore" => Some("BLR")
    case "chennai" => Some("MAA")
    case "kolkata" => Some("CCU")
    case "hyderabad" => Some("HYD")
    case "pune" => Some("PNQ")
    case "ahmedabad" => Some("AMD")
    case "jaipur" => Some("JAI")
    case "kochi" => Some("COK")
    case "goa" => Some("GOI")
    case _ => None
  }

  /** `convert_city_to_hotel_code`: the table entry for the lower-cased name, otherwise
      the first three characters upper-cased. */
  function CityToHotelCode(city: string): (r: string)
    ensures |r| == if HotelCodeTable(Lower(city)).Some? || |city| >= 3 then 3 else |city|
    ensures HotelCodeTable(Lower(city)).Some? ==> IsCode(r) && r == HotelCodeTable(Lower(city)).value
    ensures HotelCodeTable(Lower(city)).None? ==> r == Upper(Prefix(city, 3))
  {
    HotelCodeTable(Lower(city)).GetOr(Upper(Prefix(city, 3)))
  }

  /** The hotel-code lookup ignores case as well, fallback included. */
  lemma CityToHotelCodeCaseInsensitive(a: string, b: string)
    requires Lower(a) == Lower(b)
    ensures CityToHotelCode(a) == CityToHotelCode(b)
  {
    var pa := Prefix(a, 3);
    var pb := Prefix(b, 3);
    assert Lower(pa) == Lower(pb) by {
      assert |pa| == |pb|;
      forall i | 0 <= i < |pa| ensures LowerChar(pa[i]) == LowerChar(pb[i]) {
        assert pa[i] == a[i] && pb[i] == b[i];
        assert Lower(a)[i] == Lower(b)[i];
      }
    }
    UpperOfLower(pa);
    UpperOfLower(pb);
  }

  // ---------------------------------------------------------------------------
  // IATA airport codes (tools/travel_tools.py, tools/amadeus_flight_search.py)

  /** City names, upper case, to IATA codes (`_get_airport_code`; both flight tools hold this same table). */
  function AirportTable(key: string): (r: Option<string>)
    ensures r.Some? ==> IsCode(r.value)
  {
    match key
    case "MUMBAI" => Some("BOM")
    case "BOMBAY" => Some("BOM")
    case "DELHI" => Some("DEL")
    case "NEW DELHI" => Some("DEL")
    case "BANGALORE" => Some("BLR")
    case "BENGALURU" => Some("BLR")
    case "CHENNAI" => Some("MAA")
    case "MADRAS" => Some("MAA")
    case "HYDERABAD" => Some("HYD")
    case "KOLKATA" => Some("CCU")
    case "CALCUTTA" => Some("CCU")
    case "PUNE" => Some("PNQ")
    case "GOA" => Some("GOI")
    case "KOCHI" => Some("COK")
    case "COCHIN" => Some("COK")
    case "AHMEDABAD" => Some("AMD")
    case "JAIPUR" => Some("JAI")
    case "LONDON" => Some("LHR")
    case "PARIS" => Some("CDG")
    case "NEW YORK" => Some("JFK")
    case "TOKYO" => Some("NRT")
    case "DUBAI" => Some("DXB")
    case "SINGAPORE" => Some("SIN")
    case "BANGKOK" => Some("BKK")
    case "HONG KONG" => Some("HKG")
    case "LOS ANGELES" => Some("LAX")
    case "CHICAGO" => Some("ORD")
    case "SYDNEY" => Some("SYD")
    case "MELBOURNE" => Some("MEL")
    case "TORONTO" => Some("YYZ")
    case "VANCOUVER" => Some("YVR")
    case "AMSTERDAM" => Some("AMS")
    case "FRANKFURT" => Some("FRA")
    case "ZURICH" => Some("ZUR")
    case "MILAN" => Some("MXP")
    case "ROME" => Some("FCO")
    case "MADRID" => Some("MAD")
    case "BARCELONA" => Some("BCN")
    case "ISTANBUL" => Some("IST")
    case "DOHA" => Some("DOH")
    case "ABU DHABI" => Some("AUH")
    case "KUALA LUMPUR" => Some("KUL")
    case "MANILA" => Some("MNL")
    case "JAKARTA" => Some("CGK")
    case "BALI" => Some("DPS")
    case "SEOUL" => Some("ICN")
    case "BEIJING" => Some("PEK")
    case "SHANGHAI" => Some("PVG")
    case "MOSCOW" => Some("SVO")
    case _ => None
  }

  /** `_get_airport_code` of both flight tools: the table entry for the upper-cased,
      stripped name; else that name itself when it is three letters; else its first three
      characters padded with 'A'. The result always has exactly three characters. */
  function AirportCode(location: string): (r: string)
    ensures |r| == 3
    ensures var u := Strip(Upper(location));
            && (AirportTable(u).Some? ==> IsCode(r) && r == AirportTable(u).value)
            && (AirportTable(u).None? && |u| == 3 && AllLetters(u) ==> r == u)
            && (AirportTable(u).None? && !(|u| == 3 && AllLetters(u)) ==>
                  r[..|Prefix(u, 3)|] == Prefix(u, 3)
                  && forall i :: |Prefix(u, 3)| <= i < 3 ==> r[i] == 'A')
  {
    var u := Strip(Upper(location));
    AirportChoice(u, AirportTable(u))
  }

  /** What `_get_airport_code` answers for the cleaned name `u` once the table gave `entry`. */
  function AirportChoice(u: string, entry: Option<string>): (r: string)
    ensures entry.None? && |u| == 3 && AllLetters(u) ==> r == u
  {
    match entry
    case Some(code) => code
    case None =>
      if |u| == 3 && IsAlphaString(u) then u
      else PadRight(Prefix(u, 3), 3, 'A')
  }

  /** A three-letter name the table does not know is taken to be a code already and comes
      back upper-cased. */
  lemma AirportCodeOfCode(code: string)
    requires |code| == 3 && AllLetters(code)
    requires AirportTable(Upper(code)).None?
    ensures AirportCode(code) == Upper(code)
    ensures IsCode(AirportCode(code))
  {
    UnknownCodeKept(code);
  }

  lemma UnknownCodeKept(code: string)
    requires |code| == 3 && AllLetters(code)
    requires AirportTable(Upper(code)).None?
    ensures AirportCode(code) == Upper(code)
  {
    UpperCodeIsStripped(code);
  }

  /** Three letters, upper-cased, are a code and their own strip. */
  lemma UpperCodeIsStripped(code: string)
    requires |code| == 3 && AllLetters(code)
    ensures var u := Upper(code); Strip(u) == u && |u| == 3 && AllLetters(u) && IsCode(u)
  {
    var u := Upper(code);
    assert IsCode(u) && AllLetters(u);
    StripUnchanged(u);
  }

  // ---------------------------------------------------------------------------
  // SkyIDs of the fly-scraper tool (tools/FlightSearchTool.py)

  /** City names, lower case, to SkyIDs (`_convert_to_sky_id` of the fly-scraper tool). */
  function ScraperSkyIdTable(key: string): (r: Option<string>)
    ensures r.Some? ==> IsCode(r.value) && Trimmed(key)
  {
    match key
    case "mumbai" => Some("BOM")
    case "bombay" => Some("BOM")
    case "delhi" => Some("DEL")
    case "new delhi" => Some("DEL")
    case "bangalore" => Some("BLR")
    case "bengaluru" => Some("BLR")
    case "chennai" => Some("MAA")
    case "madras" => Some("MAA")
    case "kolkata" => Some("CCU")
    case "calcutta" => Some("CCU")
    case "hyderabad" => Some("HYD")
    case "pune" => Some("PNQ")
    case "ahmedabad" => Some("AMD")
    case "kochi" => Some("COK")
    case "cochin" => Some("COK")
    case "goa" => Some("GOI")
    case "jaipur" => Some("JAI")
    case "london" => Some("LHR")
    case "new york" => Some("JFK")
    case "nyc" => Some("JFK")
    case "paris" => Some("CDG")
    case "tokyo" => Some("NRT")
    case "dubai" => Some("DXB")
    case "singapore" => Some("SIN")
    case "bangkok" => Some("BKK")
    case "bali" => Some("DPS")
    case "sydney" => Some("SYD")
    case "los angeles" => Some("LAX")
    case "san francisco" => Some("SFO")
    case "chicago" => Some("ORD")
    case "toronto" => Some("YYZ")
    case "amsterdam" => Some("AMS")
    case "frankfurt" => Some("FRA")
    case "madrid" => Some("MAD")
    case "rome" => Some("FCO")
    case "istanbul" => Some("IST")
    case "doha" => Some("DOH")
    case _ => None
  }

  /** `_convert_to_sky_id`: the table entry for the lower-cased, stripped name, otherwise
      the first three characters of the upper-cased (unstripped) name. */
  function ScraperSkyId(city: string): (r: string)
    ensures |r| <= 3
    ensures ScraperSkyIdTable(Strip(Lower(city))).Some? ==> r == ScraperSkyIdTable(Strip(Lower(city))).value && IsCode(r)
    ensures ScraperSkyIdTable(Strip(Lower(city))).None? ==> r == Prefix(Upper(city), 3)
  {
    ScraperSkyIdTable(Strip(Lower(city))).GetOr(Prefix(Upper(city), 3))
  }

  /** Spaces around a known city do not change its SkyID. */
  lemma ScraperSkyIdIgnoresPadding(city: string)
    requires ScraperSkyIdTable(Lower(city)).Some?
    ensures ScraperSkyId(" " + city + " ") == ScraperSkyIdTable(Lower(city)).value
  {
    var k := Lower(city);
    assert Lower(" " + city + " ") == " " + k + " ";
    ScraperKeysTrimmed(k);
    StripOfPadded(k);
  }

  /** No key of the table starts or ends with white space. */
  lemma ScraperKeysTrimmed(key: string)
    requires ScraperSkyIdTable(key).Some?
    ensures key != [] && !IsSpace(key[0]) && !IsSpace(key[|key| - 1])
  {
  }
}

=== FILE: currency.dfy ===
/** The two CurrencyTool variants (tools/CurrencyTool_new.py, backed by a live RapidAPI
    rate, and tools/CurrencyTool_fixed.py, backed by the `currency_converter` library):
    the same-currency short cut, the fallback rate table read directly, then reversed,
    then 1:1, and the shape of the answer. The live rate and the library conversion are
    parameters; amounts are exact (Python's `round` is not modelled). */
module Currency {
  import opened Wrappers
  import opened Text
  import opened Json

  // ---------------------------------------------------------------------------
  // Fallback rate tables

  /** `fallback_rates` of CurrencyTool_new.py. */
  function LiveToolRates(pair: (string, string)): (r: Option<real>)
    ensures r.Some? ==> r.value > 0.0
  {
    match pair
    case ("USD", "EUR") => Some(0.85)
    case ("EUR", "USD") => Some(1.18)
    case ("USD", "GBP") => Some(0.73)
    case ("GBP", "USD") => Some(1.37)
    case ("USD", "JPY") => Some(110.0)
    case ("JPY", "USD") => Some(0.0091)
    case ("USD", "INR") => Some(75.0)
    case ("INR", "USD") => Some(0.013)
    case ("EUR", "GBP") => Some(0.86)
    case ("GBP", "EUR") => Some(1.16)
    case ("USD", "CAD") => Some(1.25)
    case ("CAD", "USD") => Some(0.80)
    case ("USD", "AUD") => Some(1.35)
    case ("AUD", "USD") => Some(0.74)
    case ("USD", "CHF") => Some(0.92)
    case ("CHF", "USD") => Some(1.09)
    case ("USD", "CNY") => Some(6.45)
    case ("CNY", "USD") => Some(0.155)
    case _ => None
  }

  /** `fallback_rates` of CurrencyTool_fixed.py: the same rates without CHF and CNY. */
  function LibraryToolRates(pair: (string, string)): (r: Option<real>)
    ensures r.Some? ==> r.value > 0.0
  {
    match pair
    case ("USD", "EUR") => Some(0.85)
    case ("EUR", "USD") => Some(1.18)
    case ("USD", "GBP") => Some(0.73)
    case ("GBP", "USD") => Some(1.37)
    case ("USD", "JPY") => Some(110.0)
    case ("JPY", "USD") => Some(0.0091)
    case ("USD", "INR") => Some(75.0)
    case ("INR", "USD") => Some(0.013)
    case ("EUR", "GBP") => Some(0.86)
    case ("GBP", "EUR") => Some(1.16)
    case ("USD", "CAD") => Some(1.25)
    case ("CAD", "USD") => Some(0.80)
    case ("USD", "AUD") => Some(1.35)
    case ("AUD", "USD") => Some(0.74)
    case _ => None
  }

  /** Every rate of the library tool's table is the live tool's rate for that pair, and
      the live tool knows two more currencies. */
  lemma LibraryRatesWithinLiveRates(pair: (string, string))
    ensures LibraryToolRates(pair).Some? ==> LiveToolRates(pair) == LibraryToolRates(pair)
    ensures LibraryToolRates(("USD", "CHF")).None? && LiveToolRates(("USD", "CHF")) == Some(0.92)
    ensures LibraryToolRates(("CNY", "USD")).None? && LiveToolRates(("CNY", "USD")) == Some(0.155)
  {
  }

  /** The fallback rate: the table's rate for the pair, else the reciprocal of the rate of
      the reversed pair, else 1. */
  function FallbackRate(rates: ((string, string)) -> Option<real>, from: string, to: string): (r: real)
    requires forall p :: rates(p).Some? ==> rates(p).value > 0.0
    ensures rates((from, to)).Some? ==> r == rates((from, to)).value
    ensures rates((from, to)).None? && rates((to, from)).Some? ==> r * rates((to, from)).value == 1.0
    ensures rates((from, to)).None? && rates((to, from)).None? ==> r == 1.0
    ensures r > 0.0
  {
    match rates((from, to))
    case Some(rate) => rate
    case None =>
      match rates((to, from))
      case Some(rate) => 1.0 / rate
      case None => 1.0
  }

  /** Rates straight from the table, for a pair missing both ways (1:1), and for a pair only
      one tool lists. */
  lemma FallbackRateExamples()
    ensures FallbackRate(LiveToolRates, "USD", "EUR") == 0.85
    ensures FallbackRate(LiveToolRates, "EUR", "INR") == 1.0
    ensures FallbackRate(LiveToolRates, "CHF", "USD") * 0.92 != 1.0
    ensures FallbackRate(LibraryToolRates, "CHF", "USD") == 1.0
  {
  }

  // ---------------------------------------------------------------------------
  // Answers

  /** The converted amount: the amount as given (same currency), or a computed value. */
  datatype Quantity = AsGiven(v: Json) | Product(value: real)

  /** The dict `execute` returns: status `success` with the amounts, the upper-cased codes
      and optionally a `source` and a `note`; or status `error`, with `'N/A'` amounts, the
      codes as given and the exception. */
  datatype Conversion =
    | Converted(original: Json, converted: Quantity, rate: real, from: string, to: string,
                source: Option<string>, note: Option<string>)
    | ConversionError(original: Json, from: string, to: string, error: string)
  {
    function Status(): string {
      if Converted? then "success" else "error"
    }
  }

  /** The value of a numeric amount at `rate`. */
  function Scaled(amount: Json, rate: real): real
    requires IsNumber(amount)
  {
    NumberValue(amount) * rate
  }

  /** `amount * rate`; anything but a number raises `TypeError`. */
  function Times(amount: Json, rate: real): (r: Result<real>)
    ensures r.Success? <==> IsNumber(amount)
    ensures r.Success? ==> r.value == Scaled(amount, rate)
  {
    if IsNumber(amount) then Success(Scaled(amount, rate)) else Failure("TypeError")
  }

  /** The same-currency answer: the amount unchanged at rate 1. */
  function SameCurrency(amount: Json, from: string, to: string, source: Option<string>): (r: Conversion)
    ensures r.Converted? && r.converted == AsGiven(amount) && r.rate == 1.0
    ensures r.from == Upper(from) && r.to == Upper(to)
  {
    Converted(amount, AsGiven(amount), 1.0, Upper(from), Upper(to), source, None)
  }

  /** The fallback-table answer, or the error answer when the amount is not a number. */
  function FromTable(rates: ((string, string)) -> Option<real>, amount: Json, from: string, to: string)
    : (r: Conversion)
    requires forall p :: rates(p).Some? ==> rates(p).value > 0.0
    ensures r.Converted? <==> IsNumber(amount)
    ensures r.Converted? ==>
              && r.rate == FallbackRate(rates, Upper(from), Upper(to))
              && r.converted == Product(Scaled(amount, r.rate))
              && r.from == Upper(from) && r.to == Upper(to)
              && r.source == Some("fallback_rates") && r.note == Some("Using approximate exchange rates")
    ensures r.ConversionError? ==> r.from == from && r.to == to
  {
    var rate := FallbackRate(rates, Upper(from), Upper(to));
    match Times(amount, rate)
    case Success(converted) =>
      Converted(amount, Product(converted), rate, Upper(from), Upper(to),
                Some("fallback_rates"), Some("Using approximate exchange rates"))
    case Failure(e) => ConversionError(amount, from, to, e)
  }

  // ---------------------------------------------------------------------------
  // CurrencyTool_new.execute

  /** `execute` of the live-rate tool. `live` is the outcome of `_get_conversion_rate`:
      its rate, or the exception it raised. The RapidAPI key has a built-in default, so
      the live rate is always asked for; when it fails, or multiplying by it raises, the
      fallback table answers. */
  function ConvertLive(amount: Json, from: string, to: string, live: Result<real>): (r: Conversion)
    ensures Upper(from) == Upper(to) ==> r == SameCurrency(amount, from, to, Some("same_currency"))
    ensures Upper(from) != Upper(to) && live.Success? && IsNumber(amount) ==>
              r == Converted(amount, Product(Scaled(amount, live.value)), live.value,
                             Upper(from), Upper(to), Some("rapidapi_live"), None)
    ensures Upper(from) != Upper(to) && !(live.Success? && IsNumber(amount)) ==>
              r == FromTable(LiveToolRates, amount, from, to)
  {
    if Upper(from) == Upper(to) then SameCurrency(amount, from, to, Some("same_currency"))
    else
      match live
      case Success(rate) =>
        (match Times(amount, rate)
         case Success(converted) =>
           Converted(amount, Product(converted), rate, Upper(from), Upper(to), Some("rapidapi_live"), None)
         case Failure(_) => FromTable(LiveToolRates, amount, from, to))
      case Failure(_) => FromTable(LiveToolRates, amount, from, to)
  }

  /** The same-currency test ignores case: a code and its lower-case spelling give the
      amount back unchanged at rate 1, with the code reported in upper case. */
  lemma LiveSameCurrencyIgnoresCase(amount: Json, code: string, live: Result<real>)
    ensures var r := ConvertLive(amount, code, Lower(code), live);
            r.Converted? && r.converted == AsGiven(amount) && r.rate == 1.0
            && r.source == Some("same_currency") && r.to == Upper(code)
  {
    UpperOfLower(code);
  }

  /** The codes are compared and looked up upper-cased, so the case they are typed in
      changes nothing for a numeric amount; the error answer, which echoes the codes as
      given, differs only in them. */
  lemma LiveIgnoresCase(amount: Json, from: string, to: string, from2: string, to2: string, live: Result<real>)
    requires Upper(from) == Upper(from2) && Upper(to) == Upper(to2)
    ensures IsNumber(amount) ==> ConvertLive(amount, from, to, live) == ConvertLive(amount, from2, to2, live)
    ensures ConvertLive(amount, from, to, live).Status() == ConvertLive(amount, from2, to2, live).Status()
  {
  }

  /** The same holds for the library-backed tool. */
  lemma LibraryIgnoresCase(amount: Json, from: string, to: string, from2: string, to2: string,
                           converter: Option<Result<(real, real)>>)
    requires Upper(from) == Upper(from2) && Upper(to) == Upper(to2)
    ensures IsNumber(amount) ==> ConvertWithLibrary(amount, from, to, converter) == ConvertWithLibrary(amount, from2, to2, converter)
    ensures ConvertWithLibrary(amount, from, to, converter).Status() == ConvertWithLibrary(amount, from2, to2, converter).Status()
  {
  }

  /** Only a live rate, for two different currencies and a numeric amount, is reported as
      live; the fallback table is reported as such and carries the note. */
  lemma LiveSourceIff(amount: Json, from: string, to: string, live: Result<real>)
    ensures var r := ConvertLive(amount, from, to, live);
            r.Converted? && r.source == Some("rapidapi_live") <==>
              Upper(from) != Upper(to) && live.Success? && IsNumber(amount)
    ensures var r := ConvertLive(amount, from, to, live);
            r.Converted? && r.source == Some("fallback_rates") <==>
              Upper(from) != Upper(to) && !live.Success? && IsNumber(amount)
  {
  }

  /** The answer is an error exactly when the currencies differ and the amount is not a
      number; the error reports the codes as given. */
  lemma LiveErrorIff(amount: Json, from: string, to: string, live: Result<real>)
    ensures ConvertLive(amount, from, to, live).Status() == "error" <==> Upper(from) != Upper(to) && !IsNumber(amount)
    ensures ConvertLive(amount, from, to, live).ConversionError? ==>
              ConvertLive(amount, from, to, live).from == from && ConvertLive(amount, from, to, live).to == to
  {
  }

  /** Every successful answer reports its codes in upper case. */
  lemma LiveCodesUpper(amount: Json, from: string, to: string, live: Result<real>)
    ensures var r := ConvertLive(amount, from, to, live);
            r.Converted? ==> r.from == Upper(from) && r.to == Upper(to) && Upper(r.from) == r.from
  {
    var r := ConvertLive(amount, from, to, live);
    if r.Converted? {
      assert forall i :: 0 <= i < |from| ==> UpperChar(UpperChar(from[i])) == UpperChar(from[i]);
    }
  }

  // ---------------------------------------------------------------------------
  // CurrencyTool_fixed.execute

  /** `execute` of the library-backed tool. `converter` is `None` when the library is not
      available; otherwise the outcome of its two `convert` calls: the converted amount and
      the rate for one unit, or the exception either raised. A failing library falls
      through to the fallback table. The same-currency answer has no `source`. */
  function ConvertWithLibrary(amount: Json, from: string, to: string, converter: Option<Result<(real, real)>>)
    : (r: Conversion)
    ensures Upper(from) == Upper(to) ==> r == SameCurrency(amount, from, to, None)
    ensures Upper(from) != Upper(to) && converter.Some? && converter.value.Success? ==>
              r == Converted(amount, Product(converter.value.value.0), converter.value.value.1,
                             Upper(from), Upper(to), Some("currency_converter"), None)
    ensures Upper(from) != Upper(to) && !(converter.Some? && converter.value.Success?) ==>
              r == FromTable(LibraryToolRates, amount, from, to)
  {
    if Upper(from) == Upper(to) then SameCurrency(amount, from, to, None)
    else
      match converter
      case Some(Success((converted, rate))) =>
        Converted(amount, Product(converted), rate, Upper(from), Upper(to), Some("currency_converter"), None)
      case _ => FromTable(LibraryToolRates, amount, from, to)
  }

  /** A library failure is not an error: for a numeric amount the fallback table answers,
      with the reversed rate's reciprocal when only the reverse pair is listed. */
  lemma LibraryFailureFallsThrough(amount: Json, from: string, to: string, e: string)
    requires Upper(from) != Upper(to) && IsNumber(amount)
    ensures var r := ConvertWithLibrary(amount, from, to, Some(Failure(e)));
            && r.Converted? && r.source == Some("fallback_rates")
            && r.note == Some("Using approximate exchange rates")
            && (LibraryToolRates((Upper(from), Upper(to))).Some? ==> r.rate == LibraryToolRates((Upper(from), Upper(to))).value)
            && (LibraryToolRates((Upper(from), Upper(to))).None? && LibraryToolRates((Upper(to), Upper(from))).Some? ==>
                  r.rate * LibraryToolRates((Upper(to), Upper(from))).value == 1.0)
  {
  }

  /** Both tools short-cut the same pairs and give the amount back unchanged; only the
      live-rate tool tags that answer with a source. */
  lemma SameCurrencyAgrees(amount: Json, from: string, to: string, live: Result<real>,
                           converter: Option<Result<(real, real)>>)
    requires Upper(from) == Upper(to)
    ensures ConvertLive(amount, from, to, live).converted == ConvertWithLibrary(amount, from, to, converter).converted
    ensures ConvertLive(amount, from, to, live).source == Some("same_currency")
    ensures ConvertWithLibrary(amount, from, to, converter).source.None?
  {
  }
}

=== FILE: fly_scraper.dfy ===
/** The fly-scraper FlightSearchTool of tools/FlightSearchTool.py: how a RapidAPI answer
    of unknown shape is flattened into flight records, how prices are scaled for several
    passengers, and how the one-way and round-trip searches are shaped into one answer.
    The HTTP calls, `datetime.fromisoformat`, the `:,.0f` money format and the random
    fallback generator are parameters. */
module FlyScraper {
  import opened Wrappers
  import opened Text
  import opened Json
  import Offers

  const PriceKey: string := "price"
  const PerPersonKey: string := "price_per_person"
  const PassengersKey: string := "total_passengers"
  const NoteKey: string := "price_note"
  const SeatsStatusKey: string := "seats_status"
  const SeatsKey: string := "available_seats"
  /** The price read when a flight has none. */
  const NoPrice: string := "USD 0"
  const NotAvailable: string := "N/A"

  /** A Python dict, its entries in insertion order. */
  type Dict = seq<(string, Json)>

  // ---------------------------------------------------------------------------
  // _extract_flight_details

  /** The flight record `_extract_flight_details` builds; the values that are
      copied unchanged from the API's answer stay JSON values. */
  datatype ScrapedFlight = ScrapedFlight(
    date: string, price: string, airline: Json, flightNumber: string,
    departure: string, arrival: string, departureTime: string, arrivalTime: string,
    duration: string, stops: int, aircraft: Json, bookingClass: Json, availableSeats: Json)

  /** The record as the dict the tool returns, keys in the order the tool writes them. */
  function Fields(f: ScrapedFlight): (d: Dict)
    ensures |d| == 13
    ensures Lookup(d, PriceKey) == Some(Str(f.price))
  {
    [("date", Str(f.date)), (PriceKey, Str(f.price)), ("airline", f.airline),
     ("flight_number", Str(f.flightNumber)), ("departure", Str(f.departure)),
     ("arrival", Str(f.arrival)), ("departure_time", Str(f.departureTime)),
     ("arrival_time", Str(f.arrivalTime)), ("duration", Str(f.duration)),
     ("stops", Int(f.stops)), ("aircraft", f.aircraft), ("booking_class", f.bookingClass),
     (SeatsKey, f.availableSeats)]
  }

  /** The amount of a price dict: `amount`, else `total`, else `value`, else `'N/A'`. */
  function Amount(price: Dict): (r: Json)
    ensures Lookup(price, "amount").Some? ==> r == Lookup(price, "amount").value
    ensures Lookup(price, "amount").None? && Lookup(price, "total").Some? ==> r == Lookup(price, "total").value
    ensures Lookup(price, "amount").None? && Lookup(price, "total").None? ==> r == GetOr(price, "value", Str(NotAvailable))
  {
    GetOr(price, "amount", GetOr(price, "total", GetOr(price, "value", Str(NotAvailable))))
  }

  /** The price text: `"<currency> <amount>"` from a price dict (currency `USD` by
      default), `'Price unavailable'` when it has no amount; a price that is not a dict
      is shown as it is, or as `'Price unavailable'` when falsy. */
  function PriceText(price: Json): (r: string)
    ensures price.Obj? && Amount(price.fields) != Str(NotAvailable) ==>
              r == Show(GetOr(price.fields, "currency", Str("USD"))) + " " + Show(Amount(price.fields))
    ensures price.Obj? && Amount(price.fields) == Str(NotAvailable) ==> r == "Price unavailable"
    ensures !price.Obj? ==> r == if Truthy(price) then Show(price) else "Price unavailable"
  {
    if price.Obj? then
      var amount := Amount(price.fields);
      if amount != Str(NotAvailable) then Show(GetOr(price.fields, "currency", Str("USD"))) + " " + Show(amount)
      else "Price unavailable"
    else if Truthy(price) then Show(price)
    else "Price unavailable"
  }

  /** The airline: `name`, else `displayName`, else `'Unknown Airline'` of a dict; any
      other value shown as it is, or `'Unknown Airline'` when falsy. */
  function AirlineName(airline: Json): (r: Json)
    ensures airline.Obj? ==>
              r == GetOr(airline.fields, "name", GetOr(airline.fields, "displayName", Str("Unknown Airline")))
    ensures !airline.Obj? && Truthy(airline) ==> r == Str(Show(airline))
    ensures !airline.Obj? && !Truthy(airline) ==> r == Str("Unknown Airline")
  {
    if airline.Obj? then GetOr(airline.fields, "name", GetOr(airline.fields, "displayName", Str("Unknown Airline")))
    else if Truthy(airline) then Str(Show(airline))
    else Str("Unknown Airline")
  }

  /** `_format_time`. `clock(s)` stands for `datetime.fromisoformat(s.replace('Z', '+00:00'))`
      followed by `strftime('%H:%M')`, `None` when the text is not an ISO timestamp. A
      string containing `T` is reformatted when it parses and kept otherwise; other text
      is kept; any other value is shown, or `'N/A'` when falsy. */
  function FormatTime(v: Json, clock: string -> Option<string>): (r: string)
    ensures v.Str? && v.s != NotAvailable && Contains(v.s, "T") && clock(v.s).Some? ==> r == clock(v.s).value
    ensures v.Str? && v.s != NotAvailable && !(Contains(v.s, "T") && clock(v.s).Some?) ==> r == v.s
    ensures v == Str(NotAvailable) ==> r == NotAvailable
    ensures !v.Str? ==> r == if Truthy(v) then Show(v) else NotAvailable
  {
    if v.Str? && v.s != NotAvailable then
      if Contains(v.s, "T") && clock(v.s).Some? then clock(v.s).value else v.s
    else if Truthy(v) then Show(v)
    else NotAvailable
  }

  /** Python `int(x)` for a number: truncation toward zero. */
  function Truncate(x: real): (n: int)
    ensures x >= 0.0 ==> n as real <= x < n as real + 1.0
    ensures x < 0.0 ==> n as real - 1.0 < x <= n as real
  {
    if x >= 0.0 then x.Floor else -((-x).Floor)
  }

  /** `f"{int(d // 60)}h {int(d % 60)}m"` for a number of minutes `d`: whole hours (floor
      division) and the remaining whole minutes. */
  function MinutesText(d: Json): (r: string)
    requires IsNumber(d)
    ensures exists h: int, m: int :: 0 <= m < 60 && h * 60 + m == NumberValue(d).Floor
                                     && r == IntToString(h) + "h " + IntToString(m) + "m"
  {
    var total := NumberValue(d).Floor;
    assert (total / 60) * 60 + total % 60 == total;
    IntToString(total / 60) + "h " + IntToString(total % 60) + "m"
  }

  /** The duration text: minutes as hours and minutes, anything else shown as it is. */
  function DurationText(d: Json): (r: string)
    ensures !IsNumber(d) ==> r == Show(d)
  {
    if IsNumber(d) then MinutesText(d) else Show(d)
  }

  /** `_extract_flight_details` for the `index`-th entry of a source. `None` for an entry
      that is not a dict; `Failure` for the exception raised when `aircraft` is present
      but not a dict. `day` is the search date as `%Y-%m-%d`. */
  function ExtractFlightDetails(entry: Json, day: string, origin: string, destination: string, index: nat,
                                clock: string -> Option<string>): (r: Result<Option<ScrapedFlight>>)
    ensures !entry.Obj? ==> r == Success(None)
    ensures entry.Obj? ==>
              (r.Success? <==> Offers.Nested(entry, "aircraft", "name", Str(NotAvailable)).Some?)
    ensures r.Success? && entry.Obj? ==> r.value.Some?
    ensures r.Success? && r.value.Some? ==>
      var f := r.value.value;
      && f.date == day && f.departure == origin && f.arrival == destination
      && f.price == PriceText(GetOr(entry.fields, PriceKey, Obj([])))
      && f.flightNumber == Show(GetOr(entry.fields, "flightNumber",
                                  GetOr(entry.fields, "number", Str("FL" + NatToString(index + 1)))))
      && f.bookingClass == GetOr(entry.fields, "class", Str("Economy"))
      && f.availableSeats == GetOr(entry.fields, "availableSeats", Str(NotAvailable))
  {
    if !entry.Obj? then Success(None)
    else
      var d := entry.fields;
      var aircraft := Offers.Nested(entry, "aircraft", "name", Str(NotAvailable));
      if aircraft.None? then Failure("AttributeError")
      else
        var stops := GetOr(d, "stops", GetOr(d, "stopCount", Int(0)));
        Success(Some(ScrapedFlight(
          day,
          PriceText(GetOr(d, PriceKey, Obj([]))),
          AirlineName(GetOr(d, "airline", Obj([]))),
          Show(GetOr(d, "flightNumber", GetOr(d, "number", Str("FL" + NatToString(index + 1))))),
          origin, destination,
          FormatTime(GetOr(d, "departureTime", GetOr(d, "departure", Str(NotAvailable))), clock),
          FormatTime(GetOr(d, "arrivalTime", GetOr(d, "arrival", Str(NotAvailable))), clock),
          DurationText(GetOr(d, "duration", GetOr(d, "travelTime", Str(NotAvailable)))),
          if IsNumber(stops) then Truncate(NumberValue(stops)) else 0,
          aircraft.value,
          GetOr(d, "class", Str("Economy")),
          GetOr(d, "availableSeats", Str(NotAvailable)))))
  }

  /** A numeric duration of `m` minutes reads `"<m / 60>h <m % 60>m"`, and stops that are
      not a number read 0. */
  lemma ExtractedDurationAndStops(entry: Json, day: string, origin: string, destination: string, index: nat,
                                  clock: string -> Option<string>, minutes: nat)
    requires entry.Obj? && Lookup(entry.fields, "aircraft").None?
    requires Lookup(entry.fields, "duration") == Some(Int(minutes))
    requires Lookup(entry.fields, "stops") == Some(Str("direct"))
    ensures ExtractFlightDetails(entry, day, origin, destination, index, clock).Success?
    ensures ExtractFlightDetails(entry, day, origin, destination, index, clock).value.Some?
    ensures ExtractFlightDetails(entry, day, origin, destination, index, clock).value.value.duration ==
              NatToString(minutes / 60) + "h " + NatToString(minutes % 60) + "m"
    ensures ExtractFlightDetails(entry, day, origin, destination, index, clock).value.value.stops == 0
  {
    assert NumberValue(Int(minutes)).Floor == minutes;
  }

  /** Without a flight number in the entry, the `index`-th entry is flight `FL<index + 1>`;
      an amount and a currency in the price dict read `"<currency> <amount>"`. */
  lemma ExtractedDefaults(entry: Json, day: string, origin: string, destination: string, index: nat,
                          clock: string -> Option<string>, currency: string, amount: nat)
    requires entry.Obj? && Lookup(entry.fields, "aircraft").None?
    requires Lookup(entry.fields, "flightNumber").None? && Lookup(entry.fields, "number").None?
    requires Lookup(entry.fields, PriceKey) == Some(Obj([("amount", Int(amount)), ("currency", Str(currency))]))
    ensures ExtractFlightDetails(entry, day, origin, destination, index, clock) ==
              Success(Some(ExtractFlightDetails(entry, day, origin, destination, index, clock).value.value))
    ensures ExtractFlightDetails(entry, day, origin, destination, index, clock).value.value.flightNumber ==
              "FL" + NatToString(index + 1)
    ensures ExtractFlightDetails(entry, day, origin, destination, index, clock).value.value.price ==
              currency + " " + NatToString(amount)
  {
    var price := Obj([("amount", Int(amount)), ("currency", Str(currency))]);
    assert Amount(price.fields) == Int(amount);
    assert Lookup(price.fields[1..], "currency") == Some(Str(currency));
    assert GetOr(price.fields, "currency", Str("USD")) == Str(currency);
    assert Show(Int(amount)) == NatToString(amount);
  }

  // ---------------------------------------------------------------------------
  // _parse_flight_response

  /** The flights of the first `|entries|` entries of a source, in order: an entry that is
      not a dict or whose extraction raises is skipped. */
  function ParseEntries(entries: seq<Json>, day: string, origin: string, destination: string,
                        clock: string -> Option<string>): (r: seq<ScrapedFlight>)
    ensures |r| <= |entries|
    ensures forall k :: 0 <= k < |r| ==>
              exists j :: 0 <= j < |entries| &&
                ExtractFlightDetails(entries[j], day, origin, destination, j, clock) == Success(Some(r[k]))
  {
    if entries == [] then []
    else
      var n := |entries| - 1;
      var init := ParseEntries(entries[..n], day, origin, destination, clock);
      var last := ExtractFlightDetails(entries[n], day, origin, destination, n, clock);
      var r := if last.Success? && last.value.Some? then init + [last.value.value] else init;
      assert forall k :: 0 <= k < |init| ==>
               exists j :: 0 <= j < |entries| &&
                 ExtractFlightDetails(entries[j], day, origin, destination, j, clock) == Success(Some(init[k])) by {
        forall k | 0 <= k < |init|
          ensures exists j :: 0 <= j < |entries| &&
                    ExtractFlightDetails(entries[j], day, origin, destination, j, clock) == Success(Some(init[k]))
        {
          var j :| 0 <= j < n && ExtractFlightDetails(entries[..n][j], day, origin, destination, j, clock) == Success(Some(init[k]));
          assert entries[..n][j] == entries[j];
        }
      }
      r
  }

  /** Every dict entry whose extraction does not raise gives a flight. */
  lemma {:induction false} ParseEntriesKeepsAll(entries: seq<Json>, day: string, origin: string, destination: string,
                                                clock: string -> Option<string>)
    requires forall j :: 0 <= j < |entries| ==>
               ExtractFlightDetails(entries[j], day, origin, destination, j, clock).Success? &&
               ExtractFlightDetails(entries[j], day, origin, destination, j, clock).value.Some?
    ensures |ParseEntries(entries, day, origin, destination, clock)| == |entries|
  {
    if entries != [] {
      var n := |entries| - 1;
      assert forall j :: 0 <= j < n ==> entries[..n][j] == entries[j];
      ParseEntriesKeepsAll(entries[..n], day, origin, destination, clock);
    }
  }

  /** The flights of one source: at most its first ten entries, and nothing unless the
      source is a non-empty list. */
  function SourceFlights(source: Json, day: string, origin: string, destination: string,
                         clock: string -> Option<string>): (r: seq<ScrapedFlight>)
    ensures |r| <= 10
    ensures !(source.Arr? && |source.items| > 0) ==> r == []
    ensures source.Arr? && |source.items| <= 10 ==> r == ParseEntries(source.items, day, origin, destination, clock)
  {
    if Truthy(source) && source.Arr? then
      ParseEntries(Offers.FirstTen(source.items), day, origin, destination, clock)
    else []
  }

  /** The four places a flight list may sit in the answer, in the order they are tried:
      `data.flights`, `flights`, `itineraries`, `results`. Reading them raises when the
      answer, or its `data`, is not a dict. */
  function Sources(data: Json): (r: Result<seq<Json>>)
    ensures r.Success? <==> data.Obj? && GetOr(data.fields, "data", Obj([])).Obj?
    ensures r.Success? ==> |r.value| == 4 && r.value[1] == GetOr(data.fields, "flights", Arr([]))
  {
    if !data.Obj? then Failure("AttributeError")
    else
      var inner := GetOr(data.fields, "data", Obj([]));
      if !inner.Obj? then Failure("AttributeError")
      else
        Success([GetOr(inner.fields, "flights", Arr([])), GetOr(data.fields, "flights", Arr([])),
                 GetOr(data.fields, "itineraries", Arr([])), GetOr(data.fields, "results", Arr([]))])
  }

  /** What `flightsOf` gives for the first source for which it gives anything; nothing when
      it gives nothing for every source. */
  function FirstNonEmpty(sources: seq<Json>, flightsOf: Json -> seq<ScrapedFlight>): seq<ScrapedFlight> {
    if sources == [] then []
    else if flightsOf(sources[0]) != [] then flightsOf(sources[0])
    else FirstNonEmpty(sources[1..], flightsOf)
  }

  /** The answer is empty exactly when every source gives nothing; otherwise it is what
      some source gives, every source before it giving nothing. */
  lemma {:induction false} FirstNonEmptyFirstMatch(sources: seq<Json>, flightsOf: Json -> seq<ScrapedFlight>)
    ensures var r := FirstNonEmpty(sources, flightsOf);
            r == [] <==> forall j :: 0 <= j < |sources| ==> flightsOf(sources[j]) == []
    ensures var r := FirstNonEmpty(sources, flightsOf);
            r != [] ==>
              exists k :: 0 <= k < |sources| && r == flightsOf(sources[k])
                && forall j :: 0 <= j < k ==> flightsOf(sources[j]) == []
  {
    if sources != [] && flightsOf(sources[0]) == [] {
      var rest := FirstNonEmpty(sources[1..], flightsOf);
      FirstNonEmptyFirstMatch(sources[1..], flightsOf);
      assert forall j :: 1 <= j < |sources| ==> sources[j] == sources[1..][j - 1];
      if rest != [] {
        var k :| 0 <= k < |sources[1..]| && rest == flightsOf(sources[1..][k])
                 && forall j :: 0 <= j < k ==> flightsOf(sources[1..][j]) == [];
        assert rest == flightsOf(sources[k + 1]);
        assert forall j :: 0 <= j < k + 1 ==> flightsOf(sources[j]) == [] by {
          forall j | 0 <= j < k + 1
            ensures flightsOf(sources[j]) == []
          {
            if j > 0 {
              assert sources[j] == sources[1..][j - 1];
            }
          }
        }
      }
    }
  }

  /** The flights of the first source that yields any; none when none does. */
  function FirstYield(sources: seq<Json>, day: string, origin: string, destination: string,
                      clock: string -> Option<string>): (r: seq<ScrapedFlight>)
    ensures |r| <= 10
  {
    var flightsOf := source => SourceFlights(source, day, origin, destination, clock);
    FirstNonEmptyFirstMatch(sources, flightsOf);
    FirstNonEmpty(sources, flightsOf)
  }

  /** The answer is empty exactly when every source gives nothing; otherwise it is what
      some source gives, every source before it giving nothing. */
  lemma FirstYieldFirstMatch(sources: seq<Json>, day: string, origin: string, destination: string,
                             clock: string -> Option<string>)
    ensures var r := FirstYield(sources, day, origin, destination, clock);
            r == [] <==> forall j :: 0 <= j < |sources| ==> SourceFlights(sources[j], day, origin, destination, clock) == []
    ensures var r := FirstYield(sources, day, origin, destination, clock);
            r != [] ==>
              exists k :: 0 <= k < |sources|
                && r == SourceFlights(sources[k], day, origin, destination, clock)
                && forall j :: 0 <= j < k ==> SourceFlights(sources[j], day, origin, destination, clock) == []
  {
    FirstNonEmptyFirstMatch(sources, source => SourceFlights(source, day, origin, destination, clock));
  }

  /** `_parse_flight_response`: the first source, in the fixed order, from which at least
      one flight parses gives the answer; each source counts at most ten entries. A `data`
      that is not a dict, or whose `data` is not a dict, raises. */
  function ParseFlightResponse(data: Json, day: string, origin: string, destination: string,
                               clock: string -> Option<string>): (r: Result<seq<ScrapedFlight>>)
    ensures r.Success? <==> data.Obj? && GetOr(data.fields, "data", Obj([])).Obj?
    ensures r.Success? ==> |r.value| <= 10
    ensures r.Success? ==> r.value == FirstYield(Sources(data).value, day, origin, destination, clock)
  {
    var sources :- Sources(data);
    Success(FirstYield(sources, day, origin, destination, clock))
  }

  /** Flights found under `data.flights` win over every other source, and a source is
      only read when those before it give nothing. */
  lemma NestedFlightsFirst(data: Json, day: string, origin: string, destination: string,
                           clock: string -> Option<string>)
    requires Sources(data).Success?
    ensures var first := SourceFlights(Sources(data).value[0], day, origin, destination, clock);
            first != [] ==> ParseFlightResponse(data, day, origin, destination, clock) == Success(first)
    ensures var sources := Sources(data).value;
            SourceFlights(sources[0], day, origin, destination, clock) == [] ==>
              ParseFlightResponse(data, day, origin, destination, clock) ==
              Success(FirstYield(sources[1..], day, origin, destination, clock))
  {
  }

  /** A top-level list of up to ten dict entries, under `flights`, is taken whole when
      `data.flights` is absent and no entry raises. */
  lemma TopLevelFlights(data: Json, entries: seq<Json>, day: string, origin: string, destination: string,
                        clock: string -> Option<string>)
    requires data.Obj? && Lookup(data.fields, "data").None?
    requires Lookup(data.fields, "flights") == Some(Arr(entries)) && 0 < |entries| <= 10
    requires forall j :: 0 <= j < |entries| ==>
               ExtractFlightDetails(entries[j], day, origin, destination, j, clock).Success? &&
               ExtractFlightDetails(entries[j], day, origin, destination, j, clock).value.Some?
    ensures ParseFlightResponse(data, day, origin, destination, clock).Success?
    ensures ParseFlightResponse(data, day, origin, destination, clock).value ==
              ParseEntries(entries, day, origin, destination, clock)
    ensures |ParseFlightResponse(data, day, origin, destination, clock).value| == |entries|
  {
    ParseEntriesKeepsAll(entries, day, origin, destination, clock);
    var sources := Sources(data).value;
    assert sources[0] == Arr([]);
    assert SourceFlights(sources[0], day, origin, destination, clock) == [];
    assert sources[1..][0] == Arr(entries);
    var found := ParseEntries(entries, day, origin, destination, clock);
    assert SourceFlights(Arr(entries), day, origin, destination, clock) == found;
    assert found != [];
    assert FirstYield(sources[1..], day, origin, destination, clock) == found;
  }

  // ---------------------------------------------------------------------------
  // _adjust_pricing_for_passengers

  /** The currency and per-person amount of a well-formed price `"<currency> <amount>"`
      (further words ignored, thousands separators dropped); `None` when the price has
      fewer than two words or its second word is not a number. */
  function PerPerson(flight: Dict): (r: Option<(string, real)>)
    ensures r.Some? ==> GetOr(flight, PriceKey, Str(NoPrice)).Str?
    ensures r.Some? ==> |Words(GetOr(flight, PriceKey, Str(NoPrice)).s)| >= 2
                        && r.value.0 == Words(GetOr(flight, PriceKey, Str(NoPrice)).s)[0]
  {
    var price := GetOr(flight, PriceKey, Str(NoPrice));
    if !price.Str? then None
    else
      var parts := Words(price.s);
      if |parts| < 2 then None
      else
        match ParseDecimal(RemoveChar(parts[1], ','))
        case Some((m, e)) => Some((parts[0], m as real / Pow10(e) as real))
        case None => None
  }

  /** A price written as a currency word and a whole amount is read back as exactly those. */
  lemma PerPersonOfPrice(flight: Dict, currency: string, amount: nat)
    requires |currency| > 0 && NoSpace(currency)
    requires Lookup(flight, PriceKey) == Some(Str(currency + " " + NatToString(amount)))
    ensures PerPerson(flight) == Some((currency, amount as real))
  {
    var digits := NatToString(amount);
    PriceWords(currency, amount);
    assert GetOr(flight, PriceKey, Str(NoPrice)) == Str(currency + " " + digits);
    assert Words(currency + " " + digits)[1] == digits;
    var x := amount as real / Pow10(0) as real;
    assert PerPerson(flight) == Some((currency, x));
    assert x == amount as real by {
      assert Pow10(0) == 1;
    }
  }

  /** The two words of such a price, and the decimal the second one spells. */
  lemma PriceWords(currency: string, amount: nat)
    requires |currency| > 0 && NoSpace(currency)
    ensures Words(currency + " " + NatToString(amount)) == [currency, NatToString(amount)]
    ensures ParseDecimal(RemoveChar(NatToString(amount), ',')) == Some((amount, 0))
  {
    var digits := NatToString(amount);
    WordsOfTwo(currency, digits);
    RemoveAbsentChar(digits, ',');
    NatToStringValue(amount);
  }

  /** The number of free seats, when `available_seats` is known and shows as digits. */
  function SeatCount(flight: Dict): (r: Option<nat>)
    ensures r.Some? ==> IsDigitString(Show(GetOr(flight, SeatsKey, Str(NotAvailable))))
  {
    var seats := GetOr(flight, SeatsKey, Str(NotAvailable));
    if seats != Str(NotAvailable) && IsDigitString(Show(seats)) then Some(DigitsValue(Show(seats))) else None
  }

  /** The seat status of a flight with `seats` free seats for `n` passengers. */
  function SeatsText(seats: nat, n: int): (r: string)
    ensures |r| > 0
    ensures r[0] == '\U{2705}' <==> seats >= n
  {
    if seats >= n then "\U{2705} " + IntToString(n) + " seats available"
    else "\U{26A0}\U{FE0F} Only " + NatToString(seats) + " seats available (need " + IntToString(n) + ")"
  }

  /** The price of `n` passengers at `amount` each. */
  function Total(amount: real, n: int): real {
    amount * n as real
  }

  function PassengerNote(n: int): string {
    "Price shown is per person (x" + IntToString(n) + " passengers)"
  }

  /** The keys the adjustment may write. */
  predicate Touched(key: string) {
    key == PriceKey || key == PerPersonKey || key == PassengersKey || key == NoteKey
    || key == SeatsStatusKey
  }

  /** A well-formed price: the total, the per-person price and the passenger count. */
  function WithTotal(flight: Dict, total: string, each: string, n: int): (r: Dict)
    ensures Lookup(r, PassengersKey) == Some(Int(n))
    ensures Lookup(r, PriceKey) == Some(Str(total)) && Lookup(r, PerPersonKey) == Some(Str(each))
    ensures forall key :: key != PriceKey && key != PerPersonKey && key != PassengersKey ==>
              Lookup(r, key) == Lookup(flight, key)
  {
    var a := Set(flight, PriceKey, Str(total));
    var b := Set(a, PerPersonKey, Str(each));
    var c := Set(b, PassengersKey, Int(n));
    assert Lookup(b, PriceKey) == Some(Str(total));
    c
  }

  /** Any other price: the passenger count and a note that the price is per person. */
  function WithNote(flight: Dict, n: int): (r: Dict)
    ensures Lookup(r, PassengersKey) == Some(Int(n))
    ensures Lookup(r, NoteKey) == Some(Str(PassengerNote(n)))
    ensures forall key :: key != PassengersKey && key != NoteKey ==> Lookup(r, key) == Lookup(flight, key)
  {
    var a := Set(flight, PassengersKey, Int(n));
    Set(a, NoteKey, Str(PassengerNote(n)))
  }

  /** The price part of the adjustment, given what `PerPerson` reads from the price: the
      total and per-person prices when the price is well formed, a per-person note
      otherwise, and the passenger count either way. */
  function Priced(flight: Dict, per: Option<(string, real)>, n: int, money: real -> string): (r: Dict)
    ensures Lookup(r, PassengersKey) == Some(Int(n))
    ensures per.Some? ==>
              && Lookup(r, PriceKey) == Some(Str(per.value.0 + " " + money(Total(per.value.1, n))))
              && Lookup(r, PerPersonKey) == Some(Str(per.value.0 + " " + money(per.value.1)))
              && Lookup(r, NoteKey) == Lookup(flight, NoteKey)
    ensures per.None? ==>
              && Lookup(r, PriceKey) == Lookup(flight, PriceKey)
              && Lookup(r, PerPersonKey) == Lookup(flight, PerPersonKey)
              && Lookup(r, NoteKey) == Some(Str(PassengerNote(n)))
    ensures Lookup(r, SeatsStatusKey) == Lookup(flight, SeatsStatusKey)
    ensures forall key :: !Touched(key) ==> Lookup(r, key) == Lookup(flight, key)
  {
    match per
    case Some((currency, amount)) =>
      WithTotal(flight, currency + " " + money(Total(amount, n)), currency + " " + money(amount), n)
    case None => WithNote(flight, n)
  }

  /** The seat part of the adjustment, given what `SeatCount` reads: a status when the
      number of free seats is known. */
  function Seated(priced: Dict, seats: Option<nat>, n: int): (r: Dict)
    ensures seats.Some? ==> Lookup(r, SeatsStatusKey) == Some(Str(SeatsText(seats.value, n)))
    ensures seats.None? ==> r == priced
    ensures forall key :: key != SeatsStatusKey ==> Lookup(r, key) == Lookup(priced, key)
  {
    match seats
    case Some(k) => Set(priced, SeatsStatusKey, Str(SeatsText(k, n)))
    case None => priced
  }

  /** One flight of `_adjust_pricing_for_passengers`. `money(x)` stands for the
      `f"{x:,.0f}"` rendering of an amount. A price that is not text raises
      `AttributeError`, which the method does not catch. */
  function AdjustFlight(flight: Dict, n: int, money: real -> string): (r: Result<Dict>)
    ensures r.Success? <==> GetOr(flight, PriceKey, Str(NoPrice)).Str?
    ensures r.Success? ==> r.value == Seated(Priced(flight, PerPerson(flight), n, money), SeatCount(flight), n)
  {
    if !GetOr(flight, PriceKey, Str(NoPrice)).Str? then Failure("AttributeError")
    else Success(Seated(Priced(flight, PerPerson(flight), n, money), SeatCount(flight), n))
  }

  /** The adjustment of a flight whose price reads `per` and whose free seats read `seats`. */
  lemma AdjustedParts(flight: Dict, per: Option<(string, real)>, seats: Option<nat>, n: int, money: real -> string)
    ensures var r := Seated(Priced(flight, per, n, money), seats, n);
            && Lookup(r, PassengersKey) == Some(Int(n))
            && (per.Some? ==> Lookup(r, PriceKey) == Some(Str(per.value.0 + " " + money(Total(per.value.1, n)))))
            && (per.Some? ==> Lookup(r, PerPersonKey) == Some(Str(per.value.0 + " " + money(per.value.1))))
            && (per.None? ==> Lookup(r, NoteKey) == Some(Str(PassengerNote(n))))
            && (seats.Some? ==> Lookup(r, SeatsStatusKey) == Some(Str(SeatsText(seats.value, n))))
            && (seats.None? ==> Lookup(r, SeatsStatusKey) == Lookup(flight, SeatsStatusKey))
            && forall key :: !Touched(key) ==> Lookup(r, key) == Lookup(flight, key)
  {
    var priced := Priced(flight, per, n, money);
    assert Lookup(Seated(priced, seats, n), PassengersKey) == Lookup(priced, PassengersKey);
    assert Lookup(Seated(priced, seats, n), PriceKey) == Lookup(priced, PriceKey);
    assert Lookup(Seated(priced, seats, n), PerPersonKey) == Lookup(priced, PerPersonKey);
    assert Lookup(Seated(priced, seats, n), NoteKey) == Lookup(priced, NoteKey);
  }

  /** An adjusted flight carries the passenger count, the total and per-person prices (or
      the per-person note), the seat status when the seats are known, and every other
      entry of the flight unchanged. */
  lemma AdjustedFlight(flight: Dict, n: int, money: real -> string)
    requires GetOr(flight, PriceKey, Str(NoPrice)).Str?
    ensures var r := AdjustFlight(flight, n, money).value;
            && Lookup(r, PassengersKey) == Some(Int(n))
            && (PerPerson(flight).Some? ==>
                  Lookup(r, PriceKey) == Some(Str(PerPerson(flight).value.0 + " " +
                                                 money(Total(PerPerson(flight).value.1, n)))))
            && (PerPerson(flight).None? ==> Lookup(r, NoteKey) == Some(Str(PassengerNote(n))))
            && (SeatCount(flight).Some? ==>
                  Lookup(r, SeatsStatusKey) == Some(Str(SeatsText(SeatCount(flight).value, n))))
            && (SeatCount(flight).None? ==> Lookup(r, SeatsStatusKey) == Lookup(flight, SeatsStatusKey))
            && forall key :: !Touched(key) ==> Lookup(r, key) == Lookup(flight, key)
  {
    AdjustedParts(flight, PerPerson(flight), SeatCount(flight), n, money);
  }

  /** Every flight adjusted in turn by `adjust`; the first failure ends the loop. */
  function AdjustAll(flights: seq<Dict>, adjust: Dict -> Result<Dict>): (r: Result<seq<Dict>>)
    ensures r.Success? <==> forall j :: 0 <= j < |flights| ==> adjust(flights[j]).Success?
    ensures r.Success? ==> |r.value| == |flights|
    ensures r.Success? ==> forall j :: 0 <= j < |flights| ==> adjust(flights[j]) == Success(r.value[j])
  {
    if flights == [] then Success([])
    else
      var head :- adjust(flights[0]);
      var tail :- AdjustAll(flights[1..], adjust);
      assert forall j :: 1 <= j < |flights| ==> flights[j] == flights[1..][j - 1];
      Success([head] + tail)
  }

  /** Every flight adjusted in turn; the first that raises ends the loop. */
  function AdjustEach(flights: seq<Dict>, n: int, money: real -> string): (r: Result<seq<Dict>>)
    ensures r.Success? <==> forall j :: 0 <= j < |flights| ==> GetOr(flights[j], PriceKey, Str(NoPrice)).Str?
    ensures r.Success? ==> |r.value| == |flights|
    ensures r.Success? ==> forall j :: 0 <= j < |flights| ==> AdjustFlight(flights[j], n, money) == Success(r.value[j])
  {
    AdjustAll(flights, flight => AdjustFlight(flight, n, money))
  }

  /** `_adjust_pricing_for_passengers`: the flights unchanged for at most one passenger;
      otherwise one adjusted flight per flight, each carrying the passenger count. */
  function AdjustPricing(flights: seq<Dict>, n: int, money: real -> string): (r: Result<seq<Dict>>)
    ensures n <= 1 ==> r == Success(flights)
    ensures n > 1 ==> (r.Success? <==> forall j :: 0 <= j < |flights| ==> GetOr(flights[j], PriceKey, Str(NoPrice)).Str?)
    ensures n > 1 && r.Success? ==> |r.value| == |flights|
    ensures n > 1 && r.Success? ==>
              forall j :: 0 <= j < |flights| ==> AdjustFlight(flights[j], n, money) == Success(r.value[j])
  {
    if n <= 1 then Success(flights) else AdjustEach(flights, n, money)
  }

  /** For several passengers every adjusted flight carries their number. */
  lemma AdjustPricingCarriesCount(flights: seq<Dict>, n: int, money: real -> string)
    requires n > 1
    ensures AdjustPricing(flights, n, money).Success? ==>
              forall j :: 0 <= j < |flights| ==>
                Lookup(AdjustPricing(flights, n, money).value[j], PassengersKey) == Some(Int(n))
  {
    if AdjustPricing(flights, n, money).Success? {
      forall j | 0 <= j < |flights|
        ensures Lookup(AdjustPricing(flights, n, money).value[j], PassengersKey) == Some(Int(n))
      {
        assert GetOr(flights[j], PriceKey, Str(NoPrice)).Str?;
        AdjustedFlight(flights[j], n, money);
      }
    }
  }

  /** A flight priced `"<currency> <amount>"`, as `_extract_flight_details` writes a price
      dict with a whole amount, costs `n` times the amount for `n` passengers, and the
      amount per person. */
  lemma AdjustWholePrice(flight: Dict, currency: string, amount: nat, n: int, money: real -> string)
    requires |currency| > 0 && NoSpace(currency)
    requires Lookup(flight, PriceKey) == Some(Str(currency + " " + NatToString(amount)))
    ensures AdjustFlight(flight, n, money).Success?
    ensures Lookup(AdjustFlight(flight, n, money).value, PriceKey) ==
              Some(Str(currency + " " + money(Total(amount as real, n))))
    ensures Lookup(AdjustFlight(flight, n, money).value, PerPersonKey) ==
              Some(Str(currency + " " + money(amount as real)))
  {
    PerPersonOfPrice(flight, currency, amount);
    var per := PerPerson(flight);
    var seats := SeatCount(flight);
    AdjustedParts(flight, per, seats, n, money);
  }

  // ---------------------------------------------------------------------------
  // execute and the trip searches

  /** `execute`: without an API key, or when the live search raises or finds nothing, the
      (random) fallback flights; otherwise the flights found. `answer` is the outcome of
      the live search, `fallback` what the fallback generator returns. */
  function Execute(hasKey: bool, answer: Result<seq<ScrapedFlight>>, fallback: seq<Dict>): (r: seq<Dict>)
    ensures hasKey && answer.Success? && answer.value != [] ==>
              |r| == |answer.value| && forall k :: 0 <= k < |r| ==> r[k] == Fields(answer.value[k])
    ensures !(hasKey && answer.Success? && answer.value != []) ==> r == fallback
  {
    if hasKey && answer.Success? && answer.value != [] then
      seq(|answer.value|, k requires 0 <= k < |answer.value| => Fields(answer.value[k]))
    else fallback
  }

  /** What the two `execute` calls of a trip search return, and what the fallback
      generator returns for each direction. */
  datatype Found = Found(outbound: seq<Dict>, inbound: seq<Dict>, fallbackOut: seq<Dict>, fallbackBack: seq<Dict>)

  /** `search_one_way`. `departureOk` says whether `departure_date` parses as `%Y-%m-%d`;
      when it does not, the handler itself fails on the unassigned date. */
  function SearchOneWay(departureOk: bool, n: int, found: Found, money: real -> string): (r: Result<seq<Dict>>)
    ensures r.Success? <==> departureOk
    ensures departureOk && n <= 1 ==> r.value == found.outbound
    ensures departureOk && n > 1 && AdjustPricing(found.outbound, n, money).Success? ==>
              r.value == AdjustPricing(found.outbound, n, money).value
    ensures departureOk && AdjustPricing(found.outbound, n, money).Failure? ==> r.value == found.fallbackOut
  {
    if !departureOk then Failure("UnboundLocalError")
    else
      match AdjustPricing(found.outbound, n, money)
      case Success(flights) => Success(flights)
      case Failure(_) => Success(found.fallbackOut)
  }

  /** The flight lists of an answer: one list, or one per direction. */
  datatype Legs = OneList(flights: seq<Dict>) | BothWays(outbound: seq<Dict>, inbound: seq<Dict>)

  /** The dict a trip search answers with; `error` is present only after a failure. */
  datatype TripAnswer = TripAnswer(
    legs: Legs, tripType: string, totalPassengers: int, departureDate: string,
    returnDate: Option<string>, error: Option<string>)

  function FlightList(flights: seq<Dict>): (v: Json)
    ensures v.Arr? && |v.items| == |flights|
  {
    Arr(seq(|flights|, k requires 0 <= k < |flights| => Obj(flights[k])))
  }

  /** The answer as the dict the tool returns, keys in the order the tool writes them. */
  function AnswerFields(a: TripAnswer): Dict {
    (match a.legs
     case OneList(flights) => [("flights", FlightList(flights))]
     case BothWays(out, back) => [("outbound", FlightList(out)), ("return", FlightList(back))])
    + [("trip_type", Str(a.tripType)), (PassengersKey, Int(a.totalPassengers)),
       ("departure_date", Str(a.departureDate)),
       ("return_date", if a.returnDate.Some? then Str(a.returnDate.value) else Null)]
    + (if a.error.Some? then [("error", Str(a.error.value))] else [])
  }

  /** `search_round_trip`: both directions adjusted for the passengers; when an
      adjustment raises, both fallback lists unadjusted. A date that does not parse makes
      the handler fail on an unassigned date. */
  function SearchRoundTrip(departureOk: bool, returnOk: bool, n: int, found: Found, money: real -> string,
                           departureDate: string, returnDate: string): (r: Result<TripAnswer>)
    ensures r.Success? <==> departureOk && returnOk
    ensures r.Success? ==> r.value.legs.BothWays? && r.value.tripType == "round-trip" && r.value.error.None?
    ensures r.Success? ==> r.value.returnDate == Some(returnDate) && r.value.totalPassengers == n
    ensures r.Success? && AdjustPricing(found.outbound, n, money).Success? && AdjustPricing(found.inbound, n, money).Success? ==>
              r.value.legs == BothWays(AdjustPricing(found.outbound, n, money).value, AdjustPricing(found.inbound, n, money).value)
    ensures r.Success? && !(AdjustPricing(found.outbound, n, money).Success? && AdjustPricing(found.inbound, n, money).Success?) ==>
              r.value.legs == BothWays(found.fallbackOut, found.fallbackBack)
  {
    if !departureOk || !returnOk then Failure("UnboundLocalError")
    else
      var out := AdjustPricing(found.outbound, n, money);
      var back := AdjustPricing(found.inbound, n, money);
      var legs := if out.Success? && back.Success? then BothWays(out.value, back.value)
                  else BothWays(found.fallbackOut, found.fallbackBack);
      Success(TripAnswer(legs, "round-trip", n, departureDate, Some(returnDate), None))
  }

  /** A non-empty return date asks for a round trip. */
  predicate WantsReturn(returnDate: Option<string>) {
    returnDate.Some? && returnDate.value != ""
  }

  /** `search_flights_enhanced`. The `error` entry holds the name of the exception that
      was caught; a departure date that does not parse makes the handler raise again. */
  function SearchFlightsEnhanced(departureDate: string, returnDate: Option<string>, n: int,
                                 departureOk: bool, returnOk: bool, found: Found, money: real -> string)
    : (r: Result<TripAnswer>)
    ensures r.Success? <==> departureOk
    ensures r.Success? ==> r.value.tripType == (if WantsReturn(returnDate) then "round-trip" else "one-way")
    ensures r.Success? ==> r.value.totalPassengers == n && r.value.departureDate == departureDate
    ensures r.Success? && !WantsReturn(returnDate) ==>
              r.value.returnDate.None? && r.value.error.None? && r.value.legs.OneList?
    ensures r.Success? && WantsReturn(returnDate) && returnOk ==>
              r.value.legs.BothWays? && r.value.error.None? && r.value.returnDate == returnDate
    ensures r.Success? && WantsReturn(returnDate) && !returnOk ==>
              r.value.legs == OneList(found.fallbackOut) && r.value.error.Some? && r.value.returnDate == returnDate
  {
    var attempt :=
      if WantsReturn(returnDate) then
        SearchRoundTrip(departureOk, returnOk, n, found, money, departureDate, returnDate.value)
      else
        match SearchOneWay(departureOk, n, found, money)
        case Success(flights) => Success(TripAnswer(OneList(flights), "one-way", n, departureDate, None, None))
        case Failure(e) => Failure(e);
    if attempt.Success? then attempt
    else if !departureOk then Failure("ValueError")
    else
      Success(TripAnswer(OneList(found.fallbackOut), if WantsReturn(returnDate) then "round-trip" else "one-way",
                         n, departureDate, returnDate, Some(attempt.error)))
  }

  /** Without a return date the answer is one-way, with `return_date` None, holding the
      flights found, adjusted for the passengers when there are several. */
  lemma OneWayWithoutReturn(departureDate: string, n: int, found: Found, money: real -> string)
    requires AdjustPricing(found.outbound, n, money).Success?
    ensures var r := SearchFlightsEnhanced(departureDate, None, n, true, false, found, money);
            && r.Success?
            && Lookup(AnswerFields(r.value), "trip_type") == Some(Str("one-way"))
            && Lookup(AnswerFields(r.value), "return_date") == Some(Null)
            && r.value.legs == OneList(AdjustPricing(found.outbound, n, money).value)
  {
    var r := SearchFlightsEnhanced(departureDate, None, n, true, false, found, money);
    var d := AnswerFields(r.value);
    assert d[1] == ("trip_type", Str("one-way"));
    assert d[4] == ("return_date", Null);
    LookupAt(d, 1, "trip_type");
    LookupAt(d, 4, "return_date");
  }
}

=== FILE: itinerary.dfy ===
/** ItineraryPlannerTool of tools/travel_tools.py after the language model has answered:
    where a destination is read from free text, the fallback suggestions, the validation
    that always yields two suggestions, the plain-text parser used when the answer is not
    JSON, and the choice between them. */
module Itinerary {
  import opened Wrappers
  import opened Text
  import opened Json

  // ---------------------------------------------------------------------------
  // _extract_destination

  const Countries: seq<string> :=
    ["Japan", "India", "China", "Thailand", "France", "Italy", "Spain", "Germany", "UK", "USA",
     "Australia", "Canada"]
  const Cities: seq<string> :=
    ["Tokyo", "Paris", "London", "New York", "Bangkok", "Rome", "Barcelona", "Berlin", "Sydney",
     "Toronto"]
  const SomeDestination := "Your chosen destination"

  /** `name.lower() in text.lower()`. */
  predicate Mentions(text: string, name: string) {
    Contains(Lower(text), Lower(name))
  }

  /** A word that reads like a place: capitalised, alphabetic and longer than three letters. */
  predicate PlaceLike(w: string) {
    |w| > 3 && IsUpperLetter(w[0]) && AllLetters(w)
  }

  /** The index of the first name that `text` mentions. */
  function FirstMentioned(names: seq<string>, text: string): (r: Option<nat>)
    ensures r.Some? ==> r.value < |names| && Mentions(text, names[r.value])
    ensures r.Some? ==> forall j :: 0 <= j < r.value ==> !Mentions(text, names[j])
    ensures r.None? <==> forall j :: 0 <= j < |names| ==> !Mentions(text, names[j])
  {
    if names == [] then None
    else if Mentions(text, names[0]) then Some(0)
    else
      match FirstMentioned(names[1..], text)
      case None => None
      case Some(j) => Some(j + 1)
  }

  /** The index of the first word that reads like a place. */
  function FirstPlaceLike(words: seq<string>): (r: Option<nat>)
    ensures r.Some? ==> r.value < |words| && PlaceLike(words[r.value])
    ensures r.Some? ==> forall j :: 0 <= j < r.value ==> !PlaceLike(words[j])
    ensures r.None? <==> forall j :: 0 <= j < |words| ==> !PlaceLike(words[j])
  {
    if words == [] then None
    else if PlaceLike(words[0]) then Some(0)
    else
      match FirstPlaceLike(words[1..])
      case None => None
      case Some(j) => Some(j + 1)
  }

  /** `_extract_destination`: the first country mentioned, else the first city mentioned,
      else the first place-like word, else a generic phrase. */
  function ExtractDestination(text: string): (r: string)
    ensures (exists j :: 0 <= j < |Countries| && Mentions(text, Countries[j])) ==>
      exists j :: 0 <= j < |Countries| && r == Countries[j] && Mentions(text, r)
                  && forall i :: 0 <= i < j ==> !Mentions(text, Countries[i])
    ensures (forall j :: 0 <= j < |Countries| ==> !Mentions(text, Countries[j]))
            && (exists j :: 0 <= j < |Cities| && Mentions(text, Cities[j])) ==>
      exists j :: 0 <= j < |Cities| && r == Cities[j] && Mentions(text, r)
                  && forall i :: 0 <= i < j ==> !Mentions(text, Cities[i])
    ensures (forall j :: 0 <= j < |Countries| ==> !Mentions(text, Countries[j]))
            && (forall j :: 0 <= j < |Cities| ==> !Mentions(text, Cities[j])) ==>
      var ws := Words(text);
      || (r == SomeDestination && forall k :: 0 <= k < |ws| ==> !PlaceLike(ws[k]))
      || (exists k :: 0 <= k < |ws| && r == ws[k] && PlaceLike(r)
                      && forall i :: 0 <= i < k ==> !PlaceLike(ws[i]))
  {
    match FirstMentioned(Countries, text)
    case Some(j) => Countries[j]
    case None =>
      match FirstMentioned(Cities, text)
      case Some(j) => Cities[j]
      case None =>
        var ws := Words(text);
        match FirstPlaceLike(ws)
        case Some(k) => ws[k]
        case None => SomeDestination
  }

  /** The generic phrase is none of the known places and not a place-like word. */
  lemma GenericPhraseIsNoPlace()
    ensures SomeDestination !in Countries && SomeDestination !in Cities && !PlaceLike(SomeDestination)
  {
    assert |SomeDestination| == 23;
    assert forall j :: 0 <= j < |Countries| ==> |Countries[j]| < 23;
    assert forall j :: 0 <= j < |Cities| ==> |Cities[j]| < 23;
    assert !IsLetter(SomeDestination[4]);
  }

  /** The generic phrase is returned only when nothing in the text names a place. */
  lemma GenericDestinationOnlyWhenNothingFound(text: string)
    ensures ExtractDestination(text) == SomeDestination ==>
              && (forall j :: 0 <= j < |Countries| ==> !Mentions(text, Countries[j]))
              && (forall j :: 0 <= j < |Cities| ==> !Mentions(text, Cities[j]))
              && (forall k :: 0 <= k < |Words(text)| ==> !PlaceLike(Words(text)[k]))
  {
    GenericPhraseIsNoPlace();
  }

  // ---------------------------------------------------------------------------
  // Suggestion records

  /** A validated suggestion. The list members are whatever slicing the given value
      produced: a list, or text when the model wrote text. */
  datatype Idea = Idea(
    destination: Json, description: Json, bestTime: Json, budget: Json, duration: string,
    activities: Json, accommodations: Json, transportation: Json, localTips: Json,
    weather: Json, safety: Json)

  const DefaultActivities: seq<Json> :=
    [Str("Local sightseeing"), Str("Cultural experiences"), Str("Food tasting"),
     Str("Nature exploration"), Str("Local markets")]
  const DefaultAccommodations: seq<Json> :=
    [Str("Local hotel"), Str("Budget guesthouse"), Str("Boutique hostel")]
  const DefaultTransportation: seq<Json> := [Str("Public transport"), Str("Walking tours")]
  const DefaultTips: seq<Json> :=
    [Str("Research local customs"), Str("Learn basic phrases"), Str("Follow local guidelines")]

  const AnyDescription: string := "A great destination matching your preferences."
  const AnyBudget: string := "Varies based on preferences"
  const AnyWeather: string := "Check local weather before booking"
  const AnySafety: string := "Follow standard travel precautions"
  const AlternativePrefix: string := "Alternative Destination "
  const AlternativeBudget: string := "Within your specified budget"

  /** The length of a list or a text. */
  function Size(v: Json): nat {
    match v
    case Arr(items) => |items|
    case Str(s) => |s|
    case _ => 0
  }

  /** Python `v[:n]`: lists and texts are cut to their first `n` items; any other value
      cannot be sliced. */
  function Slice(v: Json, n: nat): (r: Result<Json>)
    ensures r.Success? <==> v.Arr? || v.Str?
    ensures r.Success? ==> r.value.Arr? == v.Arr? && Size(r.value) <= n && Size(r.value) <= Size(v)
    ensures r.Success? && v.Arr? ==> forall i :: 0 <= i < Size(r.value) ==> r.value.items[i] == v.items[i]
    ensures r.Success? && v.Str? ==> forall i :: 0 <= i < Size(r.value) ==> r.value.s[i] == v.s[i]
    ensures r.Success? ==> (Size(r.value) == Size(v) || Size(r.value) == n)
    ensures (v.Arr? || v.Str?) && Size(v) <= n ==> r == Success(v)
  {
    match v
    case Arr(items) => Success(Arr(if |items| <= n then items else items[..n]))
    case Str(s) => Success(Str(if |s| <= n then s else s[..n]))
    case _ => Failure("TypeError")
  }

  /** A list member: the value given, or the default list, cut to `n`. */
  function ListMember(fields: seq<(string, Json)>, key: string, n: nat, defaults: seq<Json>): (r: Result<Json>)
    requires |defaults| <= n
    ensures Lookup(fields, key).None? ==> r == Success(Arr(defaults))
    ensures Lookup(fields, key).Some? ==> r == Slice(Lookup(fields, key).value, n)
  {
    Slice(GetOr(fields, key, Arr(defaults)), n)
  }

  /** The number of days: the digits of the `duration` member as text, 5 when it is missing
      or has none. */
  function DurationDays(fields: seq<(string, Json)>): (n: nat)
    ensures Lookup(fields, "duration").None? ==> n == 5
    ensures var d := DigitsOf(Show(GetOr(fields, "duration", Str("5"))));
            n == if d == "" then 5 else DigitsValue(d)
  {
    var d := DigitsOf(Show(GetOr(fields, "duration", Str("5"))));
    DigitsOfDigits("5");
    if d == "" then 5 else DigitsValue(d)
  }

  /** Digits written as text or as a number are read back as themselves. */
  lemma DurationOfDigits(fields: seq<(string, Json)>, s: string, i: nat)
    ensures Lookup(fields, "duration") == Some(Str(s)) && IsDigitString(s) ==> DurationDays(fields) == DigitsValue(s)
    ensures Lookup(fields, "duration") == Some(Int(i)) ==> DurationDays(fields) == i
  {
    if IsDigitString(s) {
      DigitsOfDigits(s);
    }
    DigitsOfDigits(NatToString(i));
    NatToStringValue(i);
  }

  /** A suggestion member whose value is sliced does not stop the validation. */
  predicate Sliceable(fields: seq<(string, Json)>, key: string) {
    Lookup(fields, key).None? || Lookup(fields, key).value.Arr? || Lookup(fields, key).value.Str?
  }

  /** The list members within their caps. */
  predicate Capped(t: Idea) {
    && (t.activities.Arr? || t.activities.Str?) && Size(t.activities) <= 5
    && (t.accommodations.Arr? || t.accommodations.Str?) && Size(t.accommodations) <= 3
    && (t.transportation.Arr? || t.transportation.Str?) && Size(t.transportation) <= 2
    && (t.localTips.Arr? || t.localTips.Str?) && Size(t.localTips) <= 3
  }

  /** The shape of every validated suggestion: capped lists and a whole number of days. */
  predicate Validated(t: Idea) {
    Capped(t) && IsDigitString(t.duration) && NatToString(DigitsValue(t.duration)) == t.duration
  }

  /** One dict of `_validate_suggestions`; a failure is the exception of a member that
      cannot be sliced. */
  function ValidateIdea(fields: seq<(string, Json)>): (r: Result<Idea>)
    ensures r.Success? <==>
      && Sliceable(fields, "activities") && Sliceable(fields, "accommodation_suggestions")
      && Sliceable(fields, "transportation") && Sliceable(fields, "local_tips")
    ensures r.Success? ==> Validated(r.value)
    ensures r.Success? ==> r.value.duration == NatToString(DurationDays(fields))
    ensures r.Success? ==> r.value.destination == GetOr(fields, "destination", Str("Unknown Location"))
  {
    var activities :- ListMember(fields, "activities", 5, DefaultActivities);
    var accommodations :- ListMember(fields, "accommodation_suggestions", 3, DefaultAccommodations);
    var transportation :- ListMember(fields, "transportation", 2, DefaultTransportation);
    var tips :- ListMember(fields, "local_tips", 3, DefaultTips);
    NatToStringValue(DurationDays(fields));
    Success(Idea(
      GetOr(fields, "destination", Str("Unknown Location")),
      GetOr(fields, "description", Str(AnyDescription)),
      GetOr(fields, "best_time_to_visit", Str("Year-round")),
      GetOr(fields, "estimated_budget", Str(AnyBudget)),
      NatToString(DurationDays(fields)),
      activities, accommodations, transportation, tips,
      GetOr(fields, "weather_info", Str(AnyWeather)),
      GetOr(fields, "safety_info", Str(AnySafety))))
  }

  /** Every entry that is a dict validates. */
  predicate AllValidate(items: seq<Json>, validate: seq<(string, Json)> -> Result<Idea>) {
    forall i :: 0 <= i < |items| && items[i].Obj? ==> validate(items[i].fields).Success?
  }

  /** The number of dicts among the entries. */
  function DictCount(items: seq<Json>): (n: nat)
    ensures n <= |items|
  {
    if items == [] then 0 else (if items[0].Obj? then 1 else 0) + DictCount(items[1..])
  }

  /** The validation loop for a given validation of one dict: a record per dict in order,
      other entries dropped, the first exception escaping. */
  function ValidateEach(items: seq<Json>, validate: seq<(string, Json)> -> Result<Idea>): (r: Result<seq<Idea>>)
    ensures r.Success? <==> AllValidate(items, validate)
    ensures r.Success? ==> |r.value| == DictCount(items)
  {
    if items == [] then Success([])
    else
      var head :- if items[0].Obj? then (var t :- validate(items[0].fields); Success([t]))
                  else Success([]);
      var rest :- ValidateEach(items[1..], validate);
      assert AllValidate(items, validate) by {
        forall i | 0 <= i < |items| && items[i].Obj?
          ensures validate(items[i].fields).Success?
        {
          if i > 0 {
            assert items[i] == items[1..][i - 1];
          }
        }
      }
      Success(head + rest)
  }

  /** Each record of the loop is the validation of some dict. */
  lemma {:induction false} ValidateEachFrom(items: seq<Json>, validate: seq<(string, Json)> -> Result<Idea>, k: nat)
    requires ValidateEach(items, validate).Success? && k < |ValidateEach(items, validate).value|
    ensures exists i :: 0 <= i < |items| && items[i].Obj? && validate(items[i].fields) == Success(ValidateEach(items, validate).value[k])
  {
    var rest := ValidateEach(items[1..], validate).value;
    if items[0].Obj? && k == 0 {
      assert validate(items[0].fields) == Success(ValidateEach(items, validate).value[0]);
    } else {
      var k' := if items[0].Obj? then k - 1 else k;
      assert ValidateEach(items, validate).value[k] == rest[k'];
      ValidateEachFrom(items[1..], validate, k');
      var i :| 0 <= i < |items[1..]| && items[1..][i].Obj? && validate(items[1..][i].fields) == Success(rest[k']);
      assert items[i + 1] == items[1..][i];
    }
  }

  /** The loop distributes over concatenation: the first failure escapes, otherwise the
      records keep their order. */
  lemma {:induction false} ValidateEachAppend(a: seq<Json>, b: seq<Json>, validate: seq<(string, Json)> -> Result<Idea>)
    ensures ValidateEach(a, validate).Failure? ==> ValidateEach(a + b, validate) == ValidateEach(a, validate)
    ensures ValidateEach(a, validate).Success? && ValidateEach(b, validate).Failure? ==>
              ValidateEach(a + b, validate) == ValidateEach(b, validate)
    ensures ValidateEach(a, validate).Success? && ValidateEach(b, validate).Success? ==>
              ValidateEach(a + b, validate) == Success(ValidateEach(a, validate).value + ValidateEach(b, validate).value)
  {
    if a == [] {
      assert a + b == b;
      assert ValidateEach(a, validate) == Success([]);
      assert forall v: seq<Idea> :: [] + v == v;
    } else {
      assert (a + b)[0] == a[0];
      assert (a + b)[1..] == a[1..] + b;
      ValidateEachAppend(a[1..], b, validate);
      if a[0].Obj? && validate(a[0].fields).Failure? {
        assert ValidateEach(a + b, validate) == ValidateEach(a, validate);
      } else {
        var head := if a[0].Obj? then [validate(a[0].fields).value] else [];
        if ValidateEach(a, validate).Success? && ValidateEach(b, validate).Success? {
          calc {
            ValidateEach(a + b, validate).value;
            head + ValidateEach(a[1..] + b, validate).value;
            head + (ValidateEach(a[1..], validate).value + ValidateEach(b, validate).value);
            (head + ValidateEach(a[1..], validate).value) + ValidateEach(b, validate).value;
          }
        }
      }
    }
  }

  /** An entry that is not a dict leaves no trace. */
  lemma NonDictIgnored(a: seq<Json>, x: Json, b: seq<Json>, validate: seq<(string, Json)> -> Result<Idea>)
    requires !x.Obj?
    ensures ValidateEach(a + [x] + b, validate) == ValidateEach(a + b, validate)
  {
    assert ValidateEach([x], validate) == Success([]);
    assert forall v: seq<Idea> :: v + [] == v;
    ValidateEachAppend(a, [x], validate);
    ValidateEachAppend(a + [x], b, validate);
    ValidateEachAppend(a, b, validate);
  }

  /** Two dicts that validate give their two records. */
  lemma ValidateEachOfTwo(x: seq<(string, Json)>, y: seq<(string, Json)>, a: Idea, b: Idea,
                          validate: seq<(string, Json)> -> Result<Idea>)
    requires validate(x) == Success(a) && validate(y) == Success(b)
    ensures ValidateEach([Obj(x), Obj(y)], validate) == Success([a, b])
  {
    var items := [Obj(x), Obj(y)];
    assert items[1..] == [Obj(y)];
    assert [Obj(y)][1..] == [];
    var one := [Obj(y)];
    assert one[0] == Obj(y) && one[1..] == [];
    assert ValidateEach(one[1..], validate) == Success([]);
    assert [b] + [] == [b];
    assert ValidateEach(one, validate) == Success([b]);
    assert items[1..] == one && items[0] == Obj(x);
    assert [a] + [b] == [a, b];
  }

  /** The validation loop of `_validate_suggestions`. */
  function ValidateAll(items: seq<Json>): (r: Result<seq<Idea>>)
    ensures r.Success? <==> AllValidate(items, ValidateIdea)
    ensures r.Success? ==> |r.value| == DictCount(items)
    ensures r.Success? ==> forall k :: 0 <= k < |r.value| ==> Validated(r.value[k])
  {
    EachValidated(items);
    ValidateEach(items, ValidateIdea)
  }

  lemma EachValidated(items: seq<Json>)
    ensures ValidateEach(items, ValidateIdea).Success? ==>
              forall k :: 0 <= k < |ValidateEach(items, ValidateIdea).value| ==>
                Validated(ValidateEach(items, ValidateIdea).value[k])
  {
    var r := ValidateEach(items, ValidateIdea);
    if r.Success? {
      forall k | 0 <= k < |r.value| ensures Validated(r.value[k]) {
        ValidateEachFrom(items, ValidateIdea, k);
      }
    }
  }

  /** The padding record numbered `n`. */
  function Alternative(n: nat): (t: Idea)
    ensures Validated(t)
  {
    Idea(
      Str(AlternativePrefix + NatToString(n)),
      Str(AnyDescription),
      Str("Year-round"), Str(AlternativeBudget), "5",
      Arr(DefaultActivities), Arr(DefaultAccommodations), Arr(DefaultTransportation), Arr(DefaultTips),
      Str(AnyWeather), Str(AnySafety))
  }

  /** The `while` loop: pad with alternatives numbered by their position until there are two. */
  function Pad(v: seq<Idea>): (r: seq<Idea>)
    ensures |r| >= 2 && |r| >= |v| && r[..|v|] == v
    ensures |v| >= 2 ==> r == v
    ensures forall k :: |v| <= k < |r| ==> r[k] == Alternative(k + 1)
    decreases if |v| < 2 then 2 - |v| else 0
  {
    if |v| >= 2 then v else Pad(v + [Alternative(|v| + 1)])
  }

  /** `_validate_suggestions`: the first two validated records, padded with alternatives;
      every dict is validated before the cut, so a bad third entry still raises. */
  function ValidateSuggestions(items: seq<Json>): (r: Result<seq<Idea>>)
    ensures r.Success? <==> AllValidate(items, ValidateIdea)
    ensures r.Success? ==> |r.value| == 2 && Validated(r.value[0]) && Validated(r.value[1])
  {
    var v :- ValidateAll(items);
    Success(Pad(v)[..2])
  }

  /** What comes out for each number of dicts: two alternatives, one record and an
      alternative, or the first two records. */
  lemma ValidateSuggestionsPads(items: seq<Json>)
    requires AllValidate(items, ValidateIdea)
    ensures DictCount(items) == 0 ==> ValidateSuggestions(items) == Success([Alternative(1), Alternative(2)])
    ensures DictCount(items) == 1 ==> ValidateSuggestions(items) == Success([ValidateAll(items).value[0], Alternative(2)])
    ensures DictCount(items) >= 2 ==> ValidateSuggestions(items) == Success(ValidateAll(items).value[..2])
  {
    var v := ValidateAll(items).value;
    var p := Pad(v);
    if |v| == 0 {
      assert p[..2] == [p[0], p[1]];
    } else if |v| == 1 {
      assert p[0] == p[..1][0] == v[0];
      assert p[..2] == [p[0], p[1]];
    }
  }

  /** A record's members, as the dict the validation returns. */
  function IdeaFields(t: Idea): seq<(string, Json)> {
    [("destination", t.destination), ("description", t.description),
     ("best_time_to_visit", t.bestTime), ("estimated_budget", t.budget),
     ("duration", Str(t.duration)),
     ("activities", t.activities), ("accommodation_suggestions", t.accommodations),
     ("transportation", t.transportation), ("local_tips", t.localTips),
     ("weather_info", t.weather), ("safety_info", t.safety)]
  }

  lemma IdeaListMembers(t: Idea)
    requires Capped(t)
    ensures ListMember(IdeaFields(t), "activities", 5, DefaultActivities) == Success(t.activities)
    ensures ListMember(IdeaFields(t), "accommodation_suggestions", 3, DefaultAccommodations) == Success(t.accommodations)
    ensures ListMember(IdeaFields(t), "transportation", 2, DefaultTransportation) == Success(t.transportation)
    ensures ListMember(IdeaFields(t), "local_tips", 3, DefaultTips) == Success(t.localTips)
  {
    var f := IdeaFields(t);
    assert ListMember(f, "activities", 5, DefaultActivities) == Success(t.activities) by {
      LookupAt(f, 5, "activities");
    }
    assert ListMember(f, "accommodation_suggestions", 3, DefaultAccommodations) == Success(t.accommodations) by {
      LookupAt(f, 6, "accommodation_suggestions");
    }
    assert ListMember(f, "transportation", 2, DefaultTransportation) == Success(t.transportation) by {
      LookupAt(f, 7, "transportation");
    }
    assert ListMember(f, "local_tips", 3, DefaultTips) == Success(t.localTips) by {
      LookupAt(f, 8, "local_tips");
    }
  }

  lemma IdeaTextMembers(t: Idea)
    ensures GetOr(IdeaFields(t), "destination", Str("Unknown Location")) == t.destination
    ensures GetOr(IdeaFields(t), "description", Str(AnyDescription)) == t.description
    ensures GetOr(IdeaFields(t), "best_time_to_visit", Str("Year-round")) == t.bestTime
    ensures GetOr(IdeaFields(t), "estimated_budget", Str(AnyBudget)) == t.budget
    ensures GetOr(IdeaFields(t), "weather_info", Str(AnyWeather)) == t.weather
    ensures GetOr(IdeaFields(t), "safety_info", Str(AnySafety)) == t.safety
  {
    var f := IdeaFields(t);
    LookupAt(f, 0, "destination");
    LookupAt(f, 1, "description");
    LookupAt(f, 2, "best_time_to_visit");
    LookupAt(f, 3, "estimated_budget");
    LookupAt(f, 9, "weather_info");
    LookupAt(f, 10, "safety_info");
  }

  lemma IdeaDuration(t: Idea)
    requires Validated(t)
    ensures NatToString(DurationDays(IdeaFields(t))) == t.duration
  {
    LookupAt(IdeaFields(t), 4, "duration");
    DurationOfDigits(IdeaFields(t), t.duration, 0);
  }

  /** Validating a validated record gives it back unchanged. */
  lemma ValidateIdeaRoundTrip(t: Idea)
    requires Validated(t)
    ensures ValidateIdea(IdeaFields(t)) == Success(t)
  {
    IdeaListMembers(t);
    IdeaTextMembers(t);
    IdeaDuration(t);
  }

  /** Two validated records come back from the validation as they are. */
  lemma ValidateSuggestionsOfTwo(a: Idea, b: Idea)
    requires Validated(a) && Validated(b)
    ensures ValidateSuggestions([Obj(IdeaFields(a)), Obj(IdeaFields(b))]) == Success([a, b])
  {
    ValidateIdeaRoundTrip(a);
    ValidateIdeaRoundTrip(b);
    ValidateEachOfTwo(IdeaFields(a), IdeaFields(b), a, b, ValidateIdea);
    assert Pad([a, b])[..2] == [a, b];
  }

  // ---------------------------------------------------------------------------
  // _get_fallback_suggestions

  const MainActivities: seq<Json> :=
    [Str("Visit historic landmarks and cultural sites"), Str("Explore local markets and shopping districts"),
     Str("Try authentic local cuisine and restaurants"), Str("Take guided tours of major attractions"),
     Str("Experience local nightlife and entertainment")]
  const MainStays: seq<Json> :=
    [Str("Budget hostels ($20-40/night)"), Str("Mid-range hotels ($60-120/night)"),
     Str("Luxury resorts ($150-300/night)")]
  const MainTransport: seq<Json> :=
    [Str("Public transportation (buses, trains)"), Str("Taxi services and ride-sharing apps")]
  const MainTips: seq<Json> :=
    [Str("Learn basic local phrases"), Str("Research cultural customs and etiquette"),
     Str("Keep copies of important documents")]
  const NearbyActivities: seq<Json> :=
    [Str("Day trips to nearby towns and villages"), Str("Nature walks and outdoor activities"),
     Str("Local festivals and cultural events"), Str("Photography tours of scenic locations"),
     Str("Visit local museums and galleries")]
  const NearbyStays: seq<Json> :=
    [Str("Local guesthouses ($25-50/night)"), Str("Boutique hotels ($70-140/night)"),
     Str("Eco-lodges ($100-200/night)")]
  const NearbyTransport: seq<Json> := [Str("Rental cars for flexibility"), Str("Local bus services")]
  const NearbyTips: seq<Json> :=
    [Str("Book accommodations in advance"), Str("Try local specialties and street food"),
     Str("Respect local environment and wildlife")]

  const MainBlurbHead: string := "Explore the vibrant culture and attractions of "
  const MainBlurbTail: string := ". A perfect destination for travelers seeking authentic experiences."
  const MainBestTime: string := "Check local weather patterns for optimal timing"
  const MainBudget: string := "$50-150 per day depending on preferences"
  const MainWeather: string := "Check current weather forecasts before traveling"
  const MainSafety: string := "Follow standard travel safety precautions"
  const NearbyPrefix: string := "Alternative destinations in "
  const NearbyBlurbHead: string := "Discover nearby attractions and hidden gems around "
  const NearbyBlurbTail: string :=
    ". Perfect for extending your trip or exploring off-the-beaten-path destinations."
  const NearbyBestTime: string := "Similar climate to main destination"
  const NearbyBudget: string := "$40-120 per day for local experiences"
  const NearbyWeather: string := "Generally similar to main destination weather"
  const NearbySafety: string := "Check local conditions and travel advisories"

  /** The first fallback suggestion: the destination itself for the whole stay. */
  function MainFallback(d: string, duration: int): (t: Idea)
    ensures t.destination == Str(d) && t.duration == IntToString(duration)
    ensures duration >= 0 ==> Validated(t)
  {
    NatToStringValue(if duration >= 0 then duration else 0);
    Idea(
      Str(d), Str(MainBlurbHead + d + MainBlurbTail), Str(MainBestTime), Str(MainBudget),
      IntToString(duration),
      Arr(MainActivities), Arr(MainStays), Arr(MainTransport), Arr(MainTips),
      Str(MainWeather), Str(MainSafety))
  }

  /** The second fallback suggestion: the places around it, a day shorter but at least two. */
  function NearbyFallback(d: string, duration: int): (t: Idea)
    ensures t.destination == Str(NearbyPrefix + d)
    ensures t.duration == NatToString(if duration - 1 >= 2 then duration - 1 else 2)
    ensures Validated(t)
  {
    NatToStringValue(if duration - 1 >= 2 then duration - 1 else 2);
    Idea(
      Str(NearbyPrefix + d), Str(NearbyBlurbHead + d + NearbyBlurbTail), Str(NearbyBestTime),
      Str(NearbyBudget),
      NatToString(if duration - 1 >= 2 then duration - 1 else 2),
      Arr(NearbyActivities), Arr(NearbyStays), Arr(NearbyTransport), Arr(NearbyTips),
      Str(NearbyWeather), Str(NearbySafety))
  }

  /** `_get_fallback_suggestions`: the destination read from the text, then the places
      around it. */
  function FallbackSuggestions(location: string, duration: int): (r: seq<Idea>)
    ensures |r| == 2
    ensures r[0].destination == Str(ExtractDestination(location))
    ensures r[1].destination == Str(NearbyPrefix + ExtractDestination(location))
    ensures duration >= 0 ==> Validated(r[0])
    ensures Validated(r[1])
  {
    var d := ExtractDestination(location);
    [MainFallback(d, duration), NearbyFallback(d, duration)]
  }

  /** For a non-negative duration the fallback suggestions already have the validated
      shape: validating them changes nothing. */
  lemma FallbackSuggestionsValidated(location: string, duration: int)
    requires duration >= 0
    ensures var f := FallbackSuggestions(location, duration);
            ValidateSuggestions([Obj(IdeaFields(f[0])), Obj(IdeaFields(f[1]))]) == Success(f)
  {
    var f := FallbackSuggestions(location, duration);
    ValidateSuggestionsOfTwo(f[0], f[1]);
    assert [f[0], f[1]] == f;
  }

  // ---------------------------------------------------------------------------
  // _parse_structured_text

  /** The number of digits starting at `i`. */
  function DigitRun(s: string, i: nat): (n: nat)
    ensures i + n <= |s| || n == 0
    ensures forall j :: i <= j < i + n ==> IsDigit(s[j])
    ensures i + n < |s| ==> !IsDigit(s[i + n])
    decreases |s| - i
  {
    if i < |s| && IsDigit(s[i]) then 1 + DigitRun(s, i + 1) else 0
  }

  /** The number of newlines starting at `i`. */
  function NewlineRun(s: string, i: nat): (n: nat)
    ensures i + n <= |s| || n == 0
    decreases |s| - i
  {
    if i < |s| && s[i] == '\n' then 1 + NewlineRun(s, i + 1) else 0
  }

  /** The length of the match of `\d+[).:]|Suggestion \d+:|\n\n+` at `i`, 0 when none
      starts there. A digit run is taken whole, as a shorter run would be followed by a
      digit. */
  function DelimiterAt(s: string, i: nat): (n: nat)
    requires i <= |s|
    ensures i + n <= |s|
  {
    var d := DigitRun(s, i);
    if d > 0 && i + d < |s| && s[i + d] in {')', '.', ':'} then d + 1
    else if OccursAt(s, "Suggestion ", i)
            && DigitRun(s, i + 11) > 0 && i + 11 + DigitRun(s, i + 11) < |s|
            && s[i + 11 + DigitRun(s, i + 11)] == ':' then 12 + DigitRun(s, i + 11)
    else if NewlineRun(s, i) >= 2 then NewlineRun(s, i)
    else 0
  }

  /** Python `re.split` on the delimiter: the texts between matches, scanning from `i`
      with the current section starting at `start`. */
  function Sections(s: string, start: nat, i: nat): (r: seq<string>)
    requires start <= i <= |s|
    ensures |r| >= 1
    decreases |s| - i
  {
    if i == |s| then [s[start..]]
    else
      var n := DelimiterAt(s, i);
      if n > 0 then [s[start..i]] + Sections(s, i + n, i + n)
      else Sections(s, start, i + 1)
  }

  /** A text without delimiters is one section. */
  lemma {:induction false} SectionsWithoutDelimiter(s: string, start: nat, i: nat)
    requires start <= i <= |s|
    requires forall j :: i <= j < |s| ==> DelimiterAt(s, j) == 0
    ensures Sections(s, start, i) == [s[start..]]
    decreases |s| - i
  {
    if i < |s| {
      SectionsWithoutDelimiter(s, start, i + 1);
    }
  }

  const ListKeys: seq<string> := ["activities", "accommodation_suggestions", "transportation", "local_tips"]

  /** The key of a `key: value` line: stripped, lower-cased, spaces as underscores. */
  function LineKey(line: string): (k: string)
    ensures forall i :: 0 <= i < |k| ==> k[i] != ' ' && !IsUpperLetter(k[i])
  {
    ReplaceChar(Lower(Strip(TakeUntil(line, ':'))), ' ', '_')
  }

  /** The text after the first `:`, stripped. */
  function LineValue(line: string): string
    requires ':' in line
  {
    var k := TakeUntil(line, ':');
    Strip(line[|k| + 1..])
  }

  /** `[v.strip().strip('"') for v in value.strip('[]').split(',')]`. */
  function ListItems(value: string): (r: seq<Json>)
    ensures |r| >= 1
    ensures forall i :: 0 <= i < |r| ==> r[i].Str?
  {
    var parts := SplitOn(StripChars(value, {'[', ']'}), ',');
    seq(|parts|, i requires 0 <= i < |parts| => Str(StripChars(Strip(parts[i]), {'"'})))
  }

  /** The value stored for a key: list keys always get a list. */
  function LineEntry(key: string, value: string): (v: Json)
    ensures v.Arr? <==> key in ListKeys
    ensures v.Str? <==> key !in ListKeys
    ensures key !in ListKeys ==> v == Str(value)
    ensures key in ListKeys && !('[' in value && ']' in value) ==> v == Arr([Str(value)])
  {
    if key in ListKeys then
      if '[' in value && ']' in value then Arr(ListItems(value)) else Arr([Str(value)])
    else Str(value)
  }

  /** One line: a `key: value` line sets the key, any other line is ignored. */
  function ParseLine(line: string, current: seq<(string, Json)>): (r: seq<(string, Json)>)
    ensures ':' !in Strip(line) ==> r == current
    ensures ':' in Strip(line) ==> r == Set(current, LineKey(Strip(line)), LineEntry(LineKey(Strip(line)), LineValue(Strip(line))))
  {
    var l := Strip(line);
    if l == "" || ':' !in l then current
    else
      var key := LineKey(l);
      Set(current, key, LineEntry(key, LineValue(l)))
  }

  /** The lines of one section, in order. */
  function ParseLines(lines: seq<string>, current: seq<(string, Json)>): (r: seq<(string, Json)>)
    decreases |lines|
  {
    if lines == [] then current else ParseLines(lines[1..], ParseLine(lines[0], current))
  }

  /** The dict one section yields (empty when it has no `key: value` line). */
  function ParseSection(section: string): seq<(string, Json)> {
    if Strip(section) == "" then [] else ParseLines(SplitOn(Strip(section), '\n'), [])
  }

  /** The non-empty dicts `parse` makes of the sections, in order. */
  function ParseSectionsWith(sections: seq<string>, parse: string -> seq<(string, Json)>): (r: seq<seq<(string, Json)>>)
    ensures forall k :: 0 <= k < |r| ==> r[k] != []
  {
    if sections == [] then []
    else
      var d := parse(sections[0]);
      (if d != [] then [d] else []) + ParseSectionsWith(sections[1..], parse)
  }

  /** The dicts of the sections that yield one. */
  function ParseSections(sections: seq<string>): (r: seq<seq<(string, Json)>>)
    ensures forall k :: 0 <= k < |r| ==> r[k] != []
  {
    ParseSectionsWith(sections, ParseSection)
  }

  /** Every member is text or a list. */
  ghost predicate TextOrLists(fields: seq<(string, Json)>) {
    forall k :: Lookup(fields, k).Some? ==> Lookup(fields, k).value.Str? || Lookup(fields, k).value.Arr?
  }

  /** Parsing lines only ever stores text and lists. */
  lemma {:induction false} ParseLinesTextOrLists(lines: seq<string>, current: seq<(string, Json)>)
    requires TextOrLists(current)
    ensures TextOrLists(ParseLines(lines, current))
    decreases |lines|
  {
    if lines != [] {
      var next := ParseLine(lines[0], current);
      assert TextOrLists(next) by {
        if ':' in Strip(lines[0]) {
          var key := LineKey(Strip(lines[0]));
          forall k | Lookup(next, k).Some?
            ensures Lookup(next, k).value.Str? || Lookup(next, k).value.Arr?
          {
            if k != key {
              assert Lookup(next, k) == Lookup(current, k);
            }
          }
        }
      }
      ParseLinesTextOrLists(lines[1..], next);
    }
  }

  /** A section's dict holds only text and lists. */
  lemma ParseSectionTextOrLists(section: string)
    ensures TextOrLists(ParseSection(section))
  {
    if Strip(section) != "" {
      ParseLinesTextOrLists(SplitOn(Strip(section), '\n'), []);
    }
  }

  /** A dict of text and lists always validates: every list member can be sliced. */
  lemma TextOrListsValidates(fields: seq<(string, Json)>)
    requires TextOrLists(fields)
    ensures ValidateIdea(fields).Success?
  {
    assert Sliceable(fields, "activities");
    assert Sliceable(fields, "accommodation_suggestions");
    assert Sliceable(fields, "transportation");
    assert Sliceable(fields, "local_tips");
  }

  /** Each kept dict is the dict `parse` makes of one of the sections. */
  lemma {:induction false} ParsedSectionSource(sections: seq<string>, parse: string -> seq<(string, Json)>, i: nat)
    returns (j: nat)
    requires i < |ParseSectionsWith(sections, parse)|
    ensures j < |sections| && ParseSectionsWith(sections, parse)[i] == parse(sections[j])
    decreases |sections|
  {
    var d := parse(sections[0]);
    var rest := ParseSectionsWith(sections[1..], parse);
    assert ParseSectionsWith(sections, parse) == (if d != [] then [d] else []) + rest;
    if d != [] && i == 0 {
      j := 0;
    } else {
      var i' := if d != [] then i - 1 else i;
      assert ParseSectionsWith(sections, parse)[i] == rest[i'];
      var j' := ParsedSectionSource(sections[1..], parse, i');
      j := j' + 1;
    }
  }

  lemma ParsedSectionTextOrLists(sections: seq<string>, i: nat)
    requires i < |ParseSections(sections)|
    ensures TextOrLists(ParseSections(sections)[i])
  {
    var j := ParsedSectionSource(sections, ParseSection, i);
    ParseSectionTextOrLists(sections[j]);
  }

  /** Every parsed section validates. */
  lemma ParsedSectionsValidate(sections: seq<string>)
    ensures var found := ParseSections(sections);
            AllValidate(seq(|found|, i requires 0 <= i < |found| => Obj(found[i])), ValidateIdea)
  {
    var found := ParseSections(sections);
    var items := seq(|found|, i requires 0 <= i < |found| => Obj(found[i]));
    forall i | 0 <= i < |items| && items[i].Obj? ensures ValidateIdea(items[i].fields).Success? {
      ParsedSectionTextOrLists(sections, i);
      TextOrListsValidates(found[i]);
    }
  }

  /** `_parse_structured_text`: a failure is the `ValueError` raised when no section holds
      a `key: value` line; otherwise the sections are validated, which cannot fail. */
  function ParseStructuredText(text: string): (r: Result<seq<Idea>>)
    ensures r.Failure? <==> ParseSections(Sections(text, 0, 0)) == []
    ensures r.Failure? ==> r.error == "ValueError"
    ensures r.Success? ==> |r.value| == 2 && Validated(r.value[0]) && Validated(r.value[1])
  {
    var found := ParseSections(Sections(text, 0, 0));
    if found == [] then Failure("ValueError")
    else
      ParsedSectionsValidate(Sections(text, 0, 0));
      ValidateSuggestions(seq(|found|, i requires 0 <= i < |found| => Obj(found[i])))
  }

  // ---------------------------------------------------------------------------
  // ItineraryPlannerTool.execute, after the model call

  /** What the answer's text becomes once decoded: structured text when it is not JSON, the
      validated list or dict, and `None` for any other JSON value. */
  function DecodedAnswer(text: string, decoded: Option<Json>): (r: Option<Result<seq<Idea>>>)
    ensures r.None? <==> decoded.Some? && !decoded.value.Arr? && !decoded.value.Obj?
    ensures r.Some? && r.value.Success? ==> |r.value.value| == 2
  {
    match decoded
    case None => Some(ParseStructuredText(text))
    case Some(Arr(items)) => Some(ValidateSuggestions(items))
    case Some(Obj(fields)) => Some(ValidateSuggestions([Obj(fields)]))
    case Some(_) => None
  }

  /** The outcome for the model's answer: `text` is the `response` member (`None` when it
      is missing or the call raised) and `decoded` what `json.loads` made of it (`None`
      when it is not JSON). `None` is the implicit `None` returned when the answer decodes
      to neither a list nor a dict; every exception falls back to the built-in
      suggestions. */
  function Respond(text: Option<string>, decoded: Option<Json>, location: string, duration: int): (r: Option<seq<Idea>>)
    ensures r.None? <==>
      text.Some? && Strip(text.value) !in ["", "[", "]"] && decoded.Some?
      && !decoded.value.Arr? && !decoded.value.Obj?
    ensures r.Some? ==> |r.value| == 2
    ensures text.None? ==> r == Some(FallbackSuggestions(location, duration))
  {
    RespondWith(text, decoded, FallbackSuggestions(location, duration))
  }

  /** `Respond` with the fallback pair given. */
  function RespondWith(text: Option<string>, decoded: Option<Json>, fallback: seq<Idea>): (r: Option<seq<Idea>>)
    requires |fallback| == 2
    ensures r.None? <==>
      text.Some? && Strip(text.value) !in ["", "[", "]"] && decoded.Some?
      && !decoded.value.Arr? && !decoded.value.Obj?
    ensures r.Some? ==> |r.value| == 2
    ensures text.None? ==> r == Some(fallback)
  {
    if text.None? || Strip(text.value) in ["", "[", "]"] then Some(fallback)
    else
      match DecodedAnswer(text.value, decoded)
      case None => None
      case Some(result) => if result.Success? then Some(result.value) else Some(fallback)
  }
}

=== FILE: json.dfy ===
/** Python values as they arrive from JSON payloads and LLM output: None, booleans,
    ints, decimal floats, strings, lists and dicts (dicts keep insertion order).
    Gives Python's truthiness, `dict.get`, `str()` and `float()` on these values. */
module Json {
  import opened Wrappers
  import opened Text

  datatype Json =
    | Null
    | Bool(b: bool)
    | Int(i: int)
      /** The float `mant / 10^exp`. */
    | Float(mant: int, exp: nat)
    | Str(s: string)
    | Arr(items: seq<Json>)
    | Obj(fields: seq<(string, Json)>)

  /** Python `bool(v)`. */
  predicate Truthy(v: Json) {
    match v
    case Null => false
    case Bool(b) => b
    case Int(i) => i != 0
    case Float(m, _) => m != 0
    case Str(s) => |s| > 0
    case Arr(items) => |items| > 0
    case Obj(fields) => |fields| > 0
  }

  /** Python `isinstance(v, (int, float))`; `bool` is a subclass of `int`. */
  predicate IsNumber(v: Json) {
    v.Bool? || v.Int? || v.Float?
  }

  // ---------------------------------------------------------------------------
  // Dictionaries

  /** The value stored under `k`; the first entry wins, as a dict holds each key once. */
  function Lookup(fields: seq<(string, Json)>, k: string): (r: Option<Json>) {
    if fields == [] then None
    else if fields[0].0 == k then Some(fields[0].1)
    else Lookup(fields[1..], k)
  }

  /** A key is found exactly when some entry holds it, and what is found is an entry's value. */
  lemma {:induction false} LookupFinds(fields: seq<(string, Json)>, k: string)
    ensures Lookup(fields, k).Some? <==> exists i :: 0 <= i < |fields| && fields[i].0 == k
    ensures Lookup(fields, k).Some? ==> exists i :: 0 <= i < |fields| && fields[i] == (k, Lookup(fields, k).value)
  {
    if fields != [] && fields[0].0 != k {
      LookupFinds(fields[1..], k);
      assert forall i :: 0 < i < |fields| ==> fields[i] == fields[1..][i - 1];
      if exists i :: 0 <= i < |fields| && fields[i].0 == k {
        var i :| 0 <= i < |fields| && fields[i].0 == k;
        assert fields[1..][i - 1].0 == k;
      }
    } else if fields != [] {
      assert fields[0] == (k, Lookup(fields, k).value);
    }
  }

  /** The first entry holding `k` decides the lookup. */
  lemma {:induction false} LookupAt(fields: seq<(string, Json)>, i: nat, k: string)
    requires i < |fields| && fields[i].0 == k
    requires forall j :: 0 <= j < i ==> fields[j].0 != k
    ensures Lookup(fields, k) == Some(fields[i].1)
  {
    if i > 0 {
      LookupAt(fields[1..], i - 1, k);
    }
  }

  predicate HasKey(v: Json, k: string) {
    v.Obj? && Lookup(v.fields, k).Some?
  }

  /** Python `d.get(k, default)` on a dict. */
  function GetOr(fields: seq<(string, Json)>, k: string, default: Json): (r: Json)
    ensures Lookup(fields, k).None? ==> r == default
    ensures Lookup(fields, k).Some? ==> r == Lookup(fields, k).value
  {
    Lookup(fields, k).GetOr(default)
  }

  /** Python `v.get(k, default)` on any value: only a dict has `.get`. */
  function Get(v: Json, k: string, default: Json): (r: Result<Json>)
    ensures r.Success? <==> v.Obj?
    ensures v.Obj? ==> r.value == GetOr(v.fields, k, default)
  {
    if v.Obj? then Success(GetOr(v.fields, k, default)) else Failure("AttributeError")
  }

  /** Python `d[k] = val`: an existing key keeps its place, a new key goes last. */
  function Set(fields: seq<(string, Json)>, k: string, val: Json): (r: seq<(string, Json)>)
    ensures Lookup(r, k) == Some(val)
    ensures forall k' :: k' != k ==> Lookup(r, k') == Lookup(fields, k')
  {
    if fields == [] then [(k, val)]
    else if fields[0].0 == k then [(k, val)] + fields[1..]
    else [fields[0]] + Set(fields[1..], k, val)
  }

  // ---------------------------------------------------------------------------
  // Rendering

  /** Python `str(v)`: a string is itself; anything else is its `repr`. */
  function Show(v: Json): (s: string)
    ensures v.Str? ==> s == v.s
    decreases v, 1
  {
    match v
    case Str(s) => s
    case _ => Repr(v)
  }

  /** Python `repr(v)`; strings are quoted with single quotes. */
  function Repr(v: Json): string
    decreases v, 0
  {
    match v
    case Null => "None"
    case Bool(b) => if b then "True" else "False"
    case Int(i) => IntToString(i)
    case Float(m, e) => FloatText(m, e)
    case Str(s) => "'" + s + "'"
    case Arr(items) =>
      "[" + Join(", ", seq(|items|, i requires 0 <= i < |items| => Repr(items[i]))) + "]"
    case Obj(fields) =>
      "{" + Join(", ", seq(|fields|, i requires 0 <= i < |fields| =>
                             "'" + fields[i].0 + "': " + Repr(fields[i].1))) + "}"
  }

  // ---------------------------------------------------------------------------
  // Numbers

  /** The exact value of a number (`True` counts as 1). */
  function NumberValue(v: Json): real
    requires IsNumber(v)
  {
    match v
    case Bool(b) => if b then 1.0 else 0.0
    case Int(i) => i as real
    case Float(m, e) => m as real / Pow10(e) as real
  }

  /** Python `float(t)` on plain decimals only (see `ParseDecimal`): such a number becomes a
      float and anything else raises `ValueError`, including the exponent, `_`-separated,
      `inf` and `nan` forms that Python itself would accept. */
  function ParseFloat(t: string): (r: Result<Json>)
    ensures r.Success? <==> ParseDecimal(t).Some?
    ensures r.Success? ==> r.value == Float(ParseDecimal(t).value.0, ParseDecimal(t).value.1)
  {
    match ParseDecimal(t)
    case Some((m, e)) => Success(Float(m, e))
    case None => Failure("ValueError")
  }
}

=== FILE: mcp_tools.dfy ===
/** The LangChain tools of the MCP server (mcp_server/tools.py): how `flight_search`
    recovers its arguments from malformed LLM calls and validates them, how
    `search_flights_flexible` reads a JSON or JSON-like request, the fallback query
    parser behind `intelligent_flight_search`, and the day skeletons of `travel_planner`.
    What happens after validation (the Amadeus request and the text made from its answer)
    is represented by the `SearchCall` the tool would make. `json.loads` is the parameter
    `decode` and `datetime.strptime(d, '%Y-%m-%d')` succeeding is the parameter `validDate`. */
module McpTools {
  import opened Wrappers
  import opened Text
  import opened Json
  import opened Patterns
  import opened CityCodes

  const MissingDestinationMessage: string := "\U{274C} Error: Destination is required for flight search"
  const MissingDepartureMessage: string := "\U{274C} Error: Departure date is required for flight search"
  const UnparsableRequestMessage: string :=
    "\U{274C} Error: Could not parse flight request. Please provide JSON format with origin, destination, and departure_date."
  const FlexibleMissingOrigin: string := "\U{274C} Error: Origin is required"
  const FlexibleMissingDestination: string := "\U{274C} Error: Destination is required"
  const FlexibleMissingDeparture: string := "\U{274C} Error: Departure date is required"

  /** The arguments of a `flight_search` call, as the LLM supplied them (any JSON value). */
  datatype FlightArgs = FlightArgs(origin: Json, destination: Json, departureDate: Json,
                                   returnDate: Json, passengers: Json)

  /** The Amadeus search a tool would start once its arguments pass validation. */
  datatype SearchCall = SearchCall(
    origin: string, destination: string,
    originSkyId: string, destinationSkyId: string,
    departureDate: string, returnDate: Json, adults: Json,
    roundTrip: bool)

  /** What a tool call ends in: a fixed message, a search, or the
      "Error processing flight request" reply naming the exception that reached it. */
  datatype ToolReply = Says(message: string) | Searched(call: SearchCall) | ProcessingError(exception: string)

  /** A parameter the tools treat as missing: falsy, or the text "None" an LLM writes for null. */
  predicate Absent(v: Json) {
    !Truthy(v) || v == Str("None")
  }

  // ---------------------------------------------------------------------------
  // flight_search

  /** First recovery step: when `origin` is a string starting with `{"` that decodes, its
      members replace the arguments they name; a decode failure keeps the arguments, and a
      decoded value that is not a dict raises (it has no `.get`). */
  function RecoverFromJson(a: FlightArgs, decode: string -> Option<Json>): (r: Result<FlightArgs>)
    ensures !(a.origin.Str? && StartsWith(a.origin.s, "{\"")) ==> r == Success(a)
    ensures a.origin.Str? && StartsWith(a.origin.s, "{\"") ==>
      match decode(a.origin.s)
      case None => r == Success(a)
      case Some(Obj(f)) =>
        r == Success(FlightArgs(GetOr(f, "origin", a.origin), GetOr(f, "destination", a.destination),
                                GetOr(f, "departure_date", a.departureDate),
                                GetOr(f, "return_date", a.returnDate),
                                GetOr(f, "num_passengers", a.passengers)))
      case Some(_) => r.Failure?
  {
    if a.origin.Str? && StartsWith(a.origin.s, "{\"") then
      match decode(a.origin.s)
      case None => Success(a)
      case Some(Obj(f)) =>
        Success(FlightArgs(GetOr(f, "origin", a.origin), GetOr(f, "destination", a.destination),
                           GetOr(f, "departure_date", a.departureDate), GetOr(f, "return_date", a.returnDate),
                           GetOr(f, "num_passengers", a.passengers)))
      case Some(_) => Failure("AttributeError")
    else Success(a)
  }

  /** Second recovery step: when `origin` is a string mentioning both "origin" and
      "destination", the per-key patterns are tried on it. Origin, destination and departure
      date are replaced only when all three are found; return date only when its quoted
      value is non-empty; passengers whenever a digit run follows the key. */
  function RecoverFromPattern(a: FlightArgs): (r: FlightArgs)
  {
    if a.origin.Str? && Contains(a.origin.s, "origin") && Contains(a.origin.s, "destination") then
      var text := a.origin.s;
      match (QuotedField(text, "origin", false), QuotedField(text, "destination", false),
             QuotedField(text, "departure_date", false))
      case (Some(o), Some(d), Some(dep)) =>
        var ret := QuotedField(text, "return_date", true);
        var pax := DigitsField(text, "num_passengers");
        FlightArgs(Str(o), Str(d), Str(dep),
                   if ret.Some? && ret.value != "" then Str(ret.value) else a.returnDate,
                   if pax.Some? then Int(DigitsValue(pax.value)) else a.passengers)
      case _ => a
    else a
  }

  /** The pattern step leaves the arguments alone unless all three required keys are found
      in `origin`; when they are, the three come from the text and a return date is taken
      only when non-empty. */
  lemma RecoverFromPatternOverrides(a: FlightArgs)
    ensures var r := RecoverFromPattern(a);
            && (!(a.origin.Str? && Contains(a.origin.s, "origin") && Contains(a.origin.s, "destination")) ==> r == a)
            && (a.origin.Str? ==>
                  var o := QuotedField(a.origin.s, "origin", false);
                  var d := QuotedField(a.origin.s, "destination", false);
                  var dep := QuotedField(a.origin.s, "departure_date", false);
                  var ret := QuotedField(a.origin.s, "return_date", true);
                  && (o.None? || d.None? || dep.None? ==> r == a)
                  && (r != a ==> r.origin == Str(o.value) && r.destination == Str(d.value)
                                 && r.departureDate == Str(dep.value))
                  && (ret.None? || ret.value == "" ==> r.returnDate == a.returnDate)
                  && (r.returnDate != a.returnDate ==> ret.Some? && ret.value != "" && r.returnDate == Str(ret.value)))
  {
  }

  /** What both search tools do once the required values are present: SkyID conversion
      (which needs strings), date parsing, then the search. */
  function CallSearch(origin: Json, destination: Json, departure: Json, ret: Json, passengers: Json,
                      validDate: string -> bool): (r: ToolReply)
    ensures r.Searched? <==> origin.Str? && destination.Str? && departure.Str? && validDate(departure.s)
    ensures r.Searched? ==>
      && r.call.origin == origin.s && r.call.destination == destination.s
      && r.call.originSkyId == CityToSkyId(origin.s)
      && r.call.destinationSkyId == CityToSkyId(destination.s)
      && r.call.departureDate == departure.s
      && (r.call.roundTrip <==> Truthy(ret))
    ensures !r.Searched? ==> r.ProcessingError?
  {
    if !origin.Str? || !destination.Str? then ProcessingError("AttributeError")
    else if !departure.Str? then ProcessingError("TypeError")
    else if !validDate(departure.s) then ProcessingError("ValueError")
    else
      Searched(SearchCall(origin.s, destination.s, CityToSkyId(origin.s), CityToSkyId(destination.s),
                          departure.s, ret, passengers, Truthy(ret)))
  }

  /** `flight_search`. */
  function FlightSearch(a: FlightArgs, decode: string -> Option<Json>, validDate: string -> bool): (r: ToolReply)
    ensures r.Searched? ==>
      && r.call.destination != "" && r.call.destination != "None"
      && r.call.departureDate != "" && r.call.departureDate != "None"
      && validDate(r.call.departureDate)
  {
    match RecoverFromJson(a, decode)
    case Failure(e) => ProcessingError(e)
    case Success(a1) =>
      var b := RecoverFromPattern(a1);
      if Absent(b.destination) then Says(MissingDestinationMessage)
      else if Absent(b.departureDate) then Says(MissingDepartureMessage)
      else CallSearch(b.origin, b.destination, b.departureDate, b.returnDate, b.passengers, validDate)
  }

  /** The validation reports the destination before the departure date, and never checks
      the origin that way: an empty origin still reaches the search. */
  lemma FlightSearchValidation(a: FlightArgs, decode: string -> Option<Json>, validDate: string -> bool)
    requires !(a.origin.Str? && (StartsWith(a.origin.s, "{\"") || Contains(a.origin.s, "origin")))
    ensures Absent(a.destination) ==> FlightSearch(a, decode, validDate) == Says(MissingDestinationMessage)
    ensures !Absent(a.destination) && Absent(a.departureDate) ==>
              FlightSearch(a, decode, validDate) == Says(MissingDepartureMessage)
    ensures a.origin == Str("") && a.destination.Str? && !Absent(a.destination)
            && a.departureDate.Str? && !Absent(a.departureDate) && validDate(a.departureDate.s) ==>
              FlightSearch(a, decode, validDate).Searched?
  {
  }

  /** A call whose whole argument set arrived as one JSON string in `origin` searches with
      the decoded values. */
  lemma FlightSearchFromPackedJson(text: string, f: seq<(string, Json)>, decode: string -> Option<Json>,
                                   validDate: string -> bool)
    requires StartsWith(text, "{\"") && decode(text) == Some(Obj(f))
    requires Lookup(f, "origin") == Some(Str("Mumbai"))
    requires Lookup(f, "destination") == Some(Str("Delhi"))
    requires Lookup(f, "departure_date") == Some(Str("2025-07-15"))
    requires validDate("2025-07-15")
    ensures FlightSearch(FlightArgs(Str(text), Null, Null, Null, Int(1)), decode, validDate)
            == Searched(SearchCall("Mumbai", "Delhi", "BOM", "DEL", "2025-07-15",
                                   GetOr(f, "return_date", Null), GetOr(f, "num_passengers", Int(1)),
                                   Truthy(GetOr(f, "return_date", Null))))
  {
    assert !Contains("Mumbai", "destination") by {
      ContainsIff("Mumbai", "destination");
    }
    assert Lower("Mumbai") == "mumbai";
    assert Lower("Delhi") == "delhi";
  }

  // ---------------------------------------------------------------------------
  // search_flights_flexible

  /** The values `search_flights_flexible` reads from its `params` dict with `.get`
      (a missing member reads as None, a missing passenger count as 1). */
  datatype FlexibleValues = FlexibleValues(origin: Json, destination: Json, departureDate: Json,
                                           returnDate: Json, passengers: Json)

  function ValuesOf(fields: seq<(string, Json)>): FlexibleValues {
    FlexibleValues(GetOr(fields, "origin", Null), GetOr(fields, "destination", Null),
                   GetOr(fields, "departure_date", Null), GetOr(fields, "return_date", Null),
                   GetOr(fields, "num_passengers", Int(1)))
  }

  /** The values of an unbraced request, found by the per-key patterns: each member is
      present only when its pattern matches, and an empty return date is not stored. */
  function PatternValues(request: string): (v: FlexibleValues)
    ensures v.origin == Null <==> QuotedField(request, "origin", false).None?
    ensures v.destination == Null <==> QuotedField(request, "destination", false).None?
    ensures v.departureDate == Null <==> QuotedField(request, "departure_date", false).None?
    ensures v.returnDate != Null ==> v.returnDate.Str? && v.returnDate.s != ""
    ensures v.passengers.Int? && v.passengers.i >= 0
  {
    var o := QuotedField(request, "origin", false);
    var d := QuotedField(request, "destination", false);
    var dep := QuotedField(request, "departure_date", false);
    var ret := QuotedField(request, "return_date", true);
    var pax := DigitsField(request, "num_passengers");
    FlexibleValues(if o.Some? then Str(o.value) else Null,
                   if d.Some? then Str(d.value) else Null,
                   if dep.Some? then Str(dep.value) else Null,
                   if ret.Some? && ret.value != "" then Str(ret.value) else Null,
                   if pax.Some? then Int(DigitsValue(pax.value)) else Int(1))
  }

  /** Reading the request: a braced request is decoded (`None` when decoding fails, a
      failure when the decoded value is not a dict); any other request goes to the patterns. */
  function FlexibleParams(request: string, decode: string -> Option<Json>): (r: Option<Result<FlexibleValues>>)
    ensures !(StartsWith(request, "{") && EndsWith(request, "}")) ==> r == Some(Success(PatternValues(request)))
  {
    if StartsWith(request, "{") && EndsWith(request, "}") then
      match decode(request)
      case None => None
      case Some(Obj(fields)) => Some(Success(ValuesOf(fields)))
      case Some(_) => Some(Failure("AttributeError"))
    else Some(Success(PatternValues(request)))
  }

  /** Validation and search once the values are read. */
  function CheckFlexible(v: FlexibleValues, validDate: string -> bool): (r: ToolReply)
    ensures !Truthy(v.origin) ==> r == Says(FlexibleMissingOrigin)
    ensures Truthy(v.origin) && !Truthy(v.destination) ==> r == Says(FlexibleMissingDestination)
    ensures Truthy(v.origin) && Truthy(v.destination) && !Truthy(v.departureDate) ==>
              r == Says(FlexibleMissingDeparture)
    ensures r.Searched? ==> r.call.origin != "" && r.call.destination != "" && r.call.departureDate != ""
                            && validDate(r.call.departureDate)
  {
    if !Truthy(v.origin) then Says(FlexibleMissingOrigin)
    else if !Truthy(v.destination) then Says(FlexibleMissingDestination)
    else if !Truthy(v.departureDate) then Says(FlexibleMissingDeparture)
    else CallSearch(v.origin, v.destination, v.departureDate, v.returnDate, v.passengers, validDate)
  }

  /** `search_flights_flexible`. */
  function SearchFlexible(request: string, decode: string -> Option<Json>, validDate: string -> bool): (r: ToolReply)
    ensures FlexibleParams(request, decode).None? <==> r == Says(UnparsableRequestMessage)
  {
    match FlexibleParams(request, decode)
    case None => Says(UnparsableRequestMessage)
    case Some(Failure(e)) => ProcessingError(e)
    case Some(Success(v)) => CheckFlexible(v, validDate)
  }

  /** Only a braced request is handed to the JSON decoder; any other request is read by
      the patterns alone, so the decoder cannot influence the outcome. */
  lemma SearchFlexibleDecodesOnlyBraced(request: string, d1: string -> Option<Json>, d2: string -> Option<Json>,
                                        validDate: string -> bool)
    requires !(StartsWith(request, "{") && EndsWith(request, "}"))
    ensures SearchFlexible(request, d1, validDate) == SearchFlexible(request, d2, validDate)
  {
  }

  /** An unbraced request without an origin member asks for the origin. */
  lemma SearchFlexibleWithoutOrigin(request: string, decode: string -> Option<Json>, validDate: string -> bool)
    requires !StartsWith(request, "{")
    requires QuotedField(request, "origin", false).None?
    ensures SearchFlexible(request, decode, validDate) == Says(FlexibleMissingOrigin)
  {
  }

  /** A decoded dict is read member by member; one without a destination is refused. */
  lemma SearchFlexibleDecodedDict(request: string, fields: seq<(string, Json)>, decode: string -> Option<Json>,
                                  validDate: string -> bool)
    requires StartsWith(request, "{") && EndsWith(request, "}") && decode(request) == Some(Obj(fields))
    requires Lookup(fields, "origin") == Some(Str("Mumbai")) && Lookup(fields, "destination").None?
    ensures SearchFlexible(request, decode, validDate) == Says(FlexibleMissingDestination)
  {
  }

  // ---------------------------------------------------------------------------
  // parse_flight_query (the fallback parser) and intelligent_flight_search

  datatype ParsedQuery = ParsedQuery(origin: Option<string>, destination: Option<string>,
                                     departureDate: Option<string>, returnDate: Option<string>,
                                     passengers: int)

  /** The fallback of `parse_flight_query`: the from/to route, the first `YYYY-MM-DD`
      date, no return date and one passenger. */
  function ParseFlightQuery(query: string): (p: ParsedQuery)
    ensures p.passengers == 1 && p.returnDate.None?
    ensures p.departureDate == FirstIsoDate(query)
    ensures p.origin.Some? <==> Route(query).Some?
    ensures p.destination.Some? <==> Route(query).Some?
  {
    var route := Route(query);
    ParsedQuery(if route.Some? then Some(route.value.0) else None,
                if route.Some? then Some(route.value.1) else None,
                FirstIsoDate(query), None, 1)
  }

  /** The fallback parser on "from A to B on D" for one-word places. Everything after
      "to" up to a comma is the destination, so the date words become part of it. */
  lemma ParseSimpleQuery(a: string, b: string)
    requires IsPlainWord(a) && IsPlainWord(b)
    ensures ParseFlightQuery("from " + a + " to " + b).origin == Some(a)
    ensures ParseFlightQuery("from " + a + " to " + b).destination == Some(b)
  {
    RouteOfSimpleQuery(a, b);
  }

  predicate Missing(v: Option<string>) {
    v.None? || v.value == ""
  }

  const OriginDetail: string := "origin city"
  const DestinationDetail: string := "destination city"
  const DateDetail: string := "departure date"

  /** The names of the missing details, always in the order origin, destination, date. */
  function MissingDetails(p: ParsedQuery): (names: seq<string>)
    ensures OriginDetail in names <==> Missing(p.origin)
    ensures DestinationDetail in names <==> Missing(p.destination)
    ensures DateDetail in names <==> Missing(p.departureDate)
    ensures |names| <= 3
    ensures forall i, j :: 0 <= i < j < |names| ==> DetailRank(names[i]) < DetailRank(names[j])
  {
    (if Missing(p.origin) then [OriginDetail] else [])
    + (if Missing(p.destination) then [DestinationDetail] else [])
    + (if Missing(p.departureDate) then [DateDetail] else [])
  }

  function DetailRank(name: string): nat {
    if name == OriginDetail then 0 else if name == DestinationDetail then 1 else 2
  }

  const AskHead: string := "To search for flights, I need the "
  const AskTail: string :=
    ". Could you please provide these details? For example: 'flights from Mumbai to Delhi on 2025-07-15'"

  function AskForDetails(names: seq<string>): string {
    AskHead + Join(", ", names) + AskTail
  }

  /** The reply of `intelligent_flight_search`'s handler for any exception. */
  const HappyToHelp: string :=
    "I'd " + "be happy to help you search for flights! Please provide the origin city, destination city, and departure date. For example: 'flights from Mumbai to Delhi on 2025-07-15'"

  /** `intelligent_flight_search` as written: with anything missing it asks for exactly the
      missing details. With nothing missing it calls the `flight_search` tool object with
      keyword arguments; a tool object takes its input as one positional argument, so the
      call raises a TypeError and the handler answers with its invitation instead. No query
      ever reaches a search. */
  function IntelligentFlightSearch(query: string) : (r: ToolReply)
    ensures r.Says?
    ensures var p := ParseFlightQuery(query);
            (Missing(p.origin) || Missing(p.destination) || Missing(p.departureDate)) ==>
              r == Says(AskForDetails(MissingDetails(p)))
    ensures var p := ParseFlightQuery(query);
            !(Missing(p.origin) || Missing(p.destination) || Missing(p.departureDate)) ==>
              r == Says(HappyToHelp)
  {
    var p := ParseFlightQuery(query);
    var missing := MissingDetails(p);
    if |missing| > 0 then Says(AskForDetails(missing))
    else Says(HappyToHelp)
  }

  /** `intelligent_flight_search` as evidently intended, with `flight_search` callable as a
      plain function: with nothing missing it searches on the parsed values. */
  function IntelligentFlightSearchDirect(query: string, decode: string -> Option<Json>, validDate: string -> bool)
    : (r: ToolReply)
    ensures var p := ParseFlightQuery(query);
            (Missing(p.origin) || Missing(p.destination) || Missing(p.departureDate)) ==>
              r == Says(AskForDetails(MissingDetails(p)))
    ensures var p := ParseFlightQuery(query);
            !(Missing(p.origin) || Missing(p.destination) || Missing(p.departureDate)) ==>
              r == FlightSearch(FlightArgs(Str(p.origin.value), Str(p.destination.value),
                                           Str(p.departureDate.value), Null, Int(1)), decode, validDate)
  {
    var p := ParseFlightQuery(query);
    var missing := MissingDetails(p);
    if |missing| > 0 then Says(AskForDetails(missing))
    else
      FlightSearch(FlightArgs(Str(p.origin.value), Str(p.destination.value),
                              Str(p.departureDate.value), Null, Int(1)), decode, validDate)
  }

  /** The two readings differ only once every detail is present: then the tool as written
      invites the user to retry while the intended one searches. */
  lemma IntelligentSearchesAgree(query: string, decode: string -> Option<Json>, validDate: string -> bool)
    ensures var p := ParseFlightQuery(query);
            (Missing(p.origin) || Missing(p.destination) || Missing(p.departureDate)) ==>
              IntelligentFlightSearch(query) == IntelligentFlightSearchDirect(query, decode, validDate)
    ensures var p := ParseFlightQuery(query);
            IntelligentFlightSearch(query) == Says(HappyToHelp)
            <==> !(Missing(p.origin) || Missing(p.destination) || Missing(p.departureDate))
  {
    var p := ParseFlightQuery(query);
    AskNeverInvites(MissingDetails(p));
  }

  /** An answer naming missing details is never the handler's invitation. */
  lemma AskNeverInvites(names: seq<string>)
    ensures AskForDetails(names) != HappyToHelp
  {
    var ask := AskHead;
    assert AskForDetails(names)[0] == ask[0] == 'T';
    assert HappyToHelp[0] == 'I';
  }

  /** The route and date found by the parser reach `flight_search` unchanged unless the
      origin itself looks like a packed call. */
  lemma IntelligentSearchKeepsDate(o: string, d: string, dep: string,
                                   decode: string -> Option<Json>, validDate: string -> bool)
    ensures var r := FlightSearch(FlightArgs(Str(o), Str(d), Str(dep), Null, Int(1)), decode, validDate);
            r.Searched? && !(StartsWith(o, "{\"") || (Contains(o, "origin") && Contains(o, "destination")))
            ==> r.call.departureDate == dep
  {
  }

  /** A query naming neither route nor date asks for all three details, in order. */
  lemma IntelligentSearchAsksForAll(query: string)
    requires Route(query).None? && FirstIsoDate(query).None?
    ensures IntelligentFlightSearch(query)
            == Says(AskForDetails([OriginDetail, DestinationDetail, DateDetail]))
  {
    var p := ParseFlightQuery(query);
    assert MissingDetails(p) == [OriginDetail, DestinationDetail, DateDetail];
  }

  // ---------------------------------------------------------------------------
  // travel_planner

  const GuideMorning: string := ":\n- Morning: Explore "
  const GuideRest: string :=
    "'s main attractions\n- Afternoon: Local cuisine and cultural sites\n- Evening: Experience local nightlife/entertainment\n\n"
  const BasicRest: string := ": Plan activities, dining, and sightseeing\n"
  const SkeletonRest: string :=
    ":\n- Morning: Explore local attractions\n- Afternoon: Cultural activities and dining\n- Evening: Local entertainment\n\n"

  /** One day of the fallback guide. */
  function GuideDay(destination: string, k: int): string {
    "Day " + IntToString(k) + GuideMorning + destination + GuideRest
  }

  /** One line of the guide given when the planner raises. */
  function BasicDay(k: int): string {
    "Day " + IntToString(k) + BasicRest
  }

  /** One day of the skeleton appended to a result without enough days. */
  function SkeletonDay(k: int): string {
    "Day " + IntToString(k) + SkeletonRest
  }

  /** `for day in range(1, n + 1)`: the blocks for days 1..n in order (none when n <= 0). */
  function DayBlocks(n: int, block: int -> string): (days: seq<string>)
    ensures |days| == if n <= 0 then 0 else n
    ensures forall k :: 0 <= k < |days| ==> days[k] == block(k + 1)
  {
    if n <= 0 then [] else DayBlocks(n - 1, block) + [block(n)]
  }

  function Concat(parts: seq<string>): string {
    if parts == [] then [] else parts[0] + Concat(parts[1..])
  }

  /** Every fallback day opens with its own "Day k:" heading. */
  lemma GuideDaysHeaded(destination: string, n: int)
    ensures var days := DayBlocks(n, k => GuideDay(destination, k));
            forall k :: 0 <= k < |days| ==> StartsWith(days[k], "Day " + IntToString(k + 1) + ":")
  {
  }

  /** `"Day" in result` for the planner's result; only text, lists and dicts support `in`. */
  function MentionsDay(result: Json): Result<bool> {
    match result
    case Str(s) => Success(Contains(s, "Day"))
    case Arr(items) => Success(Str("Day") in items)
    case Obj(fields) => Success(Lookup(fields, "Day").Some?)
    case _ => Failure("TypeError")
  }

  /** `result.count("Day")`; dicts have no `count`. */
  function CountDay(result: Json): Result<int> {
    match result
    case Str(s) => Success(Count(s, "Day"))
    case Arr(items) => Success(|set i | 0 <= i < |items| && items[i] == Str("Day")|)
    case _ => Failure("AttributeError")
  }

  /** Whether a truthy result gets the skeleton appended:
      `"Day" not in result or result.count("Day") < duration`. */
  function NeedsSkeleton(result: Json, duration: int): Result<bool> {
    var mentions :- MentionsDay(result);
    if !mentions then Success(true)
    else
      var n :- CountDay(result);
      Success(n < duration)
  }

  const BasicTitle: string := "\U{1F30D} Basic "
  const BasicGuideFor: string := "-Day Guide for "
  const Globe: string := "\U{1F30D} "
  const TravelGuideFor: string := "-Day Travel Guide for "
  const Tips: string :=
    "\U{1F4A1} Tips: Research local transportation, book accommodations in advance, and try local specialties!\n"
  const ItineraryFor: string := "-Day Travel Itinerary for "
  const FocusLabel: string := "Focus: "
  const Breakdown: string := "\U{1F4C5} Day-by-Day Breakdown:\n\n"

  /** The one-line-per-day guide given when the planner raises. */
  function BasicGuide(destination: string, duration: int): string {
    BasicTitle + IntToString(duration) + BasicGuideFor + destination + "\n\n" + Concat(DayBlocks(duration, BasicDay))
  }

  /** The full guide given for a falsy result. */
  function FullGuide(destination: string, duration: int): string {
    Globe + IntToString(duration) + TravelGuideFor + destination + "\n\n"
    + Concat(DayBlocks(duration, k => GuideDay(destination, k))) + Tips
  }

  /** The header put above a truthy result. */
  function ItineraryHeader(destination: string, duration: int, preferences: string): string {
    Globe + IntToString(duration) + ItineraryFor + destination + "\n" + FocusLabel + preferences + "\n\n"
  }

  /** `travel_planner`. `outcome` is what the itinerary planner returned, or the exception
      it raised. */
  function TravelPlanner(destination: string, duration: int, preferences: string, outcome: Result<Json>)
    : (text: string)
  {
    match outcome
    case Failure(_) => BasicGuide(destination, duration)
    case Success(result) =>
      if !Truthy(result) then FullGuide(destination, duration)
      else
        var header := ItineraryHeader(destination, duration, preferences);
        match NeedsSkeleton(result, duration)
        case Failure(_) => BasicGuide(destination, duration)
        case Success(true) =>
          header + Show(result) + "\n\n" + Breakdown + Concat(DayBlocks(duration, SkeletonDay))
        case Success(false) => if result.Str? then header + result.s else BasicGuide(destination, duration)
  }

  /** A text that already mentions "Day" at least once per day is kept as it is, under the header. */
  lemma TravelPlannerKeepsDayedText(destination: string, duration: int, preferences: string, s: string)
    requires Contains(s, "Day") && Count(s, "Day") >= duration
    ensures TravelPlanner(destination, duration, preferences, Success(Str(s)))
            == Globe + IntToString(duration) + ItineraryFor + destination + "\n" + FocusLabel + preferences + "\n\n" + s
  {
  }

  /** A falsy result gives the full guide, one block per day. */
  lemma TravelPlannerEmptyResult(destination: string, duration: int, preferences: string)
    ensures TravelPlanner(destination, duration, preferences, Success(Str("")))
            == Globe + IntToString(duration) + TravelGuideFor + destination + "\n\n"
               + Concat(DayBlocks(duration, k => GuideDay(destination, k))) + Tips
  {
  }

  /** A raised error gives the one-line-per-day guide. */
  lemma TravelPlannerError(destination: string, duration: int, preferences: string, e: string)
    ensures TravelPlanner(destination, duration, preferences, Failure(e))
            == BasicTitle + IntToString(duration) + BasicGuideFor + destination + "\n\n"
               + Concat(DayBlocks(duration, BasicDay))
  {
  }

  /** A list of suggestions (what the itinerary planner returns) always gets the day
      skeleton, since no list element is the text "Day". */
  lemma TravelPlannerListResult(destination: string, duration: int, preferences: string, items: seq<Json>)
    requires |items| > 0 && Str("Day") !in items
    ensures EndsWith(TravelPlanner(destination, duration, preferences, Success(Arr(items))),
                     Concat(DayBlocks(duration, SkeletonDay)))
  {
    var header := ItineraryHeader(destination, duration, preferences);
    var tail := Concat(DayBlocks(duration, SkeletonDay));
    assert NeedsSkeleton(Arr(items), duration) == Success(true);
    EndsWithAppended(header + Show(Arr(items)) + "\n\n" + Breakdown, tail);
  }
}

=== FILE: offers.dfy ===
/** The shape shared by the two Amadeus flight-offer parsers (tools/travel_tools.py and
    tools/amadeus_flight_search.py): the outbound itinerary and its segments, the return
    leg, and the "skip what does not parse, keep at most ten" collection. */
module Offers {
  import opened Wrappers
  import opened Json

  /** Python `v.get(k, default)`; `None` stands for the `AttributeError` of a non-dict. */
  function Attr(v: Json, k: string, default: Json): (r: Option<Json>)
    ensures r.Some? <==> v.Obj?
    ensures v.Obj? ==> r.value == GetOr(v.fields, k, default)
  {
    Get(v, k, default).ToOption()
  }

  /** Python `v.get(k, {}).get(k2, default)`. */
  function Nested(v: Json, k: string, k2: string, default: Json): (r: Option<Json>)
    ensures r.Some? <==> v.Obj? && (Lookup(v.fields, k).None? || Lookup(v.fields, k).value.Obj?)
  {
    var inner :- Attr(v, k, Obj([]));
    Attr(inner, k2, default)
  }

  /** The parts of an offer the parsers read before building a record. */
  datatype Outbound = Outbound(
    price: Json,
    itineraries: seq<Json>,
    itinerary: seq<(string, Json)>,
    segments: seq<Json>)

  /** The `continue` checks and indexing at the top of the loop body. `None` when the offer
      is skipped: no itineraries, no outbound segments, or an exception. A truthy
      `itineraries` or `segments` that is not a list always raises: a string's first item
      is a string without `.get`, a dict has no key `0`, and a number cannot be indexed. */
  function OutboundOf(offer: Json): (r: Option<Outbound>)
    ensures r.Some? <==>
      && offer.Obj?
      && GetOr(offer.fields, "itineraries", Arr([])).Arr?
      && |GetOr(offer.fields, "itineraries", Arr([])).items| > 0
      && GetOr(offer.fields, "itineraries", Arr([])).items[0].Obj?
      && GetOr(GetOr(offer.fields, "itineraries", Arr([])).items[0].fields, "segments", Arr([])).Arr?
      && |GetOr(GetOr(offer.fields, "itineraries", Arr([])).items[0].fields, "segments", Arr([])).items| > 0
    ensures r.Some? ==>
      && r.value.price == GetOr(offer.fields, "price", Obj([]))
      && Arr(r.value.itineraries) == GetOr(offer.fields, "itineraries", Arr([]))
      && Obj(r.value.itinerary) == r.value.itineraries[0]
      && Arr(r.value.segments) == GetOr(r.value.itinerary, "segments", Arr([]))
  {
    if !offer.Obj? then None
    else
      var price := GetOr(offer.fields, "price", Obj([]));
      var its := GetOr(offer.fields, "itineraries", Arr([]));
      if !Truthy(its) || !its.Arr? || !its.items[0].Obj? then None
      else
        var leg := its.items[0].fields;
        var segs := GetOr(leg, "segments", Arr([]));
        if !Truthy(segs) || !segs.Arr? then None
        else Some(Outbound(price, its.items, leg, segs.items))
  }

  /** The return leg of a round trip. */
  datatype ReturnLeg = ReturnLeg(departureTime: Json, arrivalTime: Json, duration: Json, stops: nat)

  /** The `trip_type` part of a record: one-way, round-trip with its leg, or no `trip_type`
      key at all (a second itinerary without segments). */
  datatype Trip = OneWay | RoundTrip(leg: ReturnLeg) | Untyped

  /** The trip part read from the itineraries; `None` for an exception. */
  function TripOf(its: seq<Json>): (r: Option<Trip>)
    requires |its| > 0
    ensures r == Some(OneWay) <==> |its| == 1
    ensures r.Some? && r.value.RoundTrip? ==>
      && |its| > 1 && its[1].Obj?
      && GetOr(its[1].fields, "segments", Arr([])).Arr?
      && r.value.leg.stops == |GetOr(its[1].fields, "segments", Arr([])).items| - 1
      && r.value.leg.duration == GetOr(its[1].fields, "duration", Str("N/A"))
    ensures r == Some(Untyped) <==>
      |its| > 1 && its[1].Obj? && !Truthy(GetOr(its[1].fields, "segments", Arr([])))
  {
    if |its| == 1 then Some(OneWay)
    else
      var back :- if its[1].Obj? then Some(its[1].fields) else None;
      var segs := GetOr(back, "segments", Arr([]));
      if !Truthy(segs) then Some(Untyped)
      else if !segs.Arr? then None
      else
        var departure :- Nested(segs.items[0], "departure", "at", Str("N/A"));
        var arrival :- Nested(segs.items[|segs.items| - 1], "arrival", "at", Str("N/A"));
        Some(RoundTrip(ReturnLeg(departure, arrival, GetOr(back, "duration", Str("N/A")), |segs.items| - 1)))
  }

  /** The records of the offers that parse, in order; the others are skipped. */
  function Collect<T>(offers: seq<Json>, parse: Json -> Option<T>): (r: seq<T>)
    ensures |r| <= |offers|
  {
    if offers == [] then [] else Keep(offers[0], parse) + Collect(offers[1..], parse)
  }

  /** The record of one offer, or nothing when it is skipped. */
  function Keep<T>(offer: Json, parse: Json -> Option<T>): (r: seq<T>)
    ensures |r| <= 1
  {
    if parse(offer).Some? then [parse(offer).value] else []
  }

  /** Every collected record is the parse of some offer. */
  lemma {:induction false} CollectFrom<T>(offers: seq<Json>, parse: Json -> Option<T>, k: nat)
    requires k < |Collect(offers, parse)|
    ensures exists j :: 0 <= j < |offers| && parse(offers[j]) == Some(Collect(offers, parse)[k])
  {
    var rest := Collect(offers[1..], parse);
    if parse(offers[0]).Some? && k == 0 {
      assert parse(offers[0]) == Some(Collect(offers, parse)[0]);
    } else {
      var k' := if parse(offers[0]).Some? then k - 1 else k;
      assert Collect(offers, parse)[k] == rest[k'];
      CollectFrom(offers[1..], parse, k');
      var j :| 0 <= j < |offers[1..]| && parse(offers[1..][j]) == Some(rest[k']);
      assert offers[j + 1] == offers[1..][j];
    }
  }

  /** Collecting distributes over concatenation, so order is kept. */
  lemma {:induction false} CollectAppend<T>(a: seq<Json>, b: seq<Json>, parse: Json -> Option<T>)
    ensures Collect(a + b, parse) == Collect(a, parse) + Collect(b, parse)
  {
    if a == [] {
      assert a + b == b;
    } else {
      assert (a + b)[0] == a[0];
      assert (a + b)[1..] == a[1..] + b;
      CollectAppend(a[1..], b, parse);
      calc {
        Collect(a + b, parse);
        Keep(a[0], parse) + Collect(a[1..] + b, parse);
        Keep(a[0], parse) + (Collect(a[1..], parse) + Collect(b, parse));
        (Keep(a[0], parse) + Collect(a[1..], parse)) + Collect(b, parse);
      }
    }
  }

  /** When every offer parses, nothing is skipped. */
  lemma {:induction false} CollectAll<T>(offers: seq<Json>, parse: Json -> Option<T>)
    requires forall j :: 0 <= j < |offers| ==> parse(offers[j]).Some?
    ensures |Collect(offers, parse)| == |offers|
  {
    if offers != [] {
      CollectAll(offers[1..], parse);
    }
  }

  /** Python `records[:10]`. */
  function FirstTen<T>(records: seq<T>): (r: seq<T>)
    ensures |r| <= 10
    ensures |records| <= 10 ==> r == records
    ensures |records| > 10 ==> |r| == 10
    ensures forall k :: 0 <= k < |r| ==> r[k] == records[k]
  {
    if |records| <= 10 then records else records[..10]
  }
}

=== FILE: patterns.dfy ===
/** Scanners for the handful of regular expressions the flight tools apply to user and
    LLM text. Each follows Python's `re.search`: the match starting at the leftmost
    position wins, and within it the quantifiers behave as the pattern's greedy
    backtracking would. */
module Patterns {
  import opened Wrappers
  import opened Text

  // ---------------------------------------------------------------------------
  // Leftmost search

  /** The first position in `[from, n)` at which `at` matches, with what it matched. */
  function SearchFrom<T>(n: nat, from: nat, at: nat -> Option<T>): (r: Option<(nat, T)>)
    ensures r.Some? ==> from <= r.value.0 < n && at(r.value.0) == Some(r.value.1)
    ensures r.Some? ==> forall j :: from <= j < r.value.0 ==> at(j).None?
    ensures r.None? ==> forall j :: from <= j < n ==> at(j).None?
    decreases n - from
  {
    if from >= n then None
    else match at(from)
      case Some(v) => Some((from, v))
      case None => SearchFrom(n, from + 1, at)
  }

  /** Python `re.search(pattern, s)` for a pattern whose match at each position is `at`. */
  function Search<T>(s: string, at: nat -> Option<T>): (r: Option<T>)
    ensures r.Some? ==> exists i :: 0 <= i <= |s| && at(i) == r && forall j :: 0 <= j < i ==> at(j).None?
    ensures r.None? ==> forall j :: 0 <= j <= |s| ==> at(j).None?
  {
    match SearchFrom(|s| + 1, 0, at)
    case Some((i, v)) => Some(v)
    case None => None
  }

  /** A match at `k` with none before it is what the search returns. */
  lemma SearchFinds<T>(s: string, at: nat -> Option<T>, k: nat, v: T)
    requires k <= |s| && at(k) == Some(v)
    requires forall j: nat :: j < k ==> at(j).None?
    ensures Search(s, at) == Some(v)
  {
  }

  /** The first index at or after `j` that is not whitespace (`|s|` when there is none):
      where a greedy `\s*` starting at `j` stops. */
  function SkipSpaces(s: string, j: nat): (k: nat)
    ensures j <= k <= |s| || (j > |s| && k == j)
    ensures forall m :: j <= m < k ==> IsSpace(s[m])
    ensures k < |s| ==> !IsSpace(s[k])
    decreases |s| - j
  {
    if j < |s| && IsSpace(s[j]) then SkipSpaces(s, j + 1) else j
  }

  // ---------------------------------------------------------------------------
  // "key": "value" and "key": digits

  /** The literal `"key":`. */
  function KeyLiteral(key: string): string {
    "\"" + key + "\":"
  }

  /** The match at `i` of `"key":\s*"([^"]+)"` (or `[^"]*` when `allowEmpty`): the
      characters between the quotes. */
  function QuotedAt(s: string, i: nat, key: string, allowEmpty: bool): (r: Option<string>)
    ensures r.Some? ==> (allowEmpty || |r.value| > 0) && forall m :: 0 <= m < |r.value| ==> r.value[m] != '"'
  {
    var lit := KeyLiteral(key);
    if !OccursAt(s, lit, i) then None
    else
      var j := SkipSpaces(s, i + |lit|);
      if j < |s| && s[j] == '"' then
        var v := TakeUntil(s[j + 1..], '"');
        if j + 1 + |v| < |s| && (allowEmpty || |v| > 0) then Some(v) else None
      else None
  }

  /** `re.search(r'"key":\s*"([^"]+)"', s).group(1)`, or with `*` when `allowEmpty`. */
  function QuotedField(s: string, key: string, allowEmpty: bool): (r: Option<string>)
    ensures r.Some? ==> (allowEmpty || |r.value| > 0) && forall m :: 0 <= m < |r.value| ==> r.value[m] != '"'
  {
    Search(s, QuotedMatcher(s, key, allowEmpty))
  }

  function QuotedMatcher(s: string, key: string, allowEmpty: bool): nat -> Option<string> {
    (i: nat) => QuotedAt(s, i, key, allowEmpty)
  }

  /** The match at `i` of `"key":\s*(\d+)`: the whole run of digits. */
  function DigitsAt(s: string, i: nat, key: string): (r: Option<string>)
    ensures r.Some? ==> IsDigitString(r.value)
  {
    var lit := KeyLiteral(key);
    if !OccursAt(s, lit, i) then None
    else
      var j := SkipSpaces(s, i + |lit|);
      var d := TakeDigits(s, j);
      if |d| > 0 then Some(d) else None
  }

  /** The run of digits starting at `j`. */
  function TakeDigits(s: string, j: nat): (d: string)
    ensures AllDigits(d)
    ensures j + |d| <= |s| || d == []
    decreases |s| - j
  {
    if j < |s| && IsDigit(s[j]) then [s[j]] + TakeDigits(s, j + 1) else []
  }

  /** `re.search(r'"key":\s*(\d+)', s).group(1)`. */
  function DigitsField(s: string, key: string): (r: Option<string>)
    ensures r.Some? ==> IsDigitString(r.value)
  {
    Search(s, DigitsMatcher(s, key))
  }

  function DigitsMatcher(s: string, key: string): nat -> Option<string> {
    (i: nat) => DigitsAt(s, i, key)
  }

  /** How a JSON encoder writes one string member: `"key": "value"`. */
  function EncodeField(key: string, value: string): string {
    KeyLiteral(key) + " \"" + value + "\""
  }

  lemma TakeUntilPrefix(v: string, c: char, rest: string)
    requires forall m :: 0 <= m < |v| ==> v[m] != c
    ensures TakeUntil(v + [c] + rest, c) == v
  {
    if v != [] {
      assert (v + [c] + rest)[1..] == v[1..] + [c] + rest;
      TakeUntilPrefix(v[1..], c, rest);
    }
  }

  /** Scanning a text that starts with an encoded member gives back the encoded value:
      the pattern recovers what a JSON encoder wrote. */
  lemma {:induction false} QuotedFieldRoundTrip(key: string, value: string, rest: string, allowEmpty: bool)
    requires allowEmpty || |value| > 0
    requires forall m :: 0 <= m < |value| ==> value[m] != '"'
    ensures QuotedField(EncodeField(key, value) + rest, key, allowEmpty) == Some(value)
  {
    var s := EncodeField(key, value) + rest;
    var lit := KeyLiteral(key);
    assert s == lit + " \"" + value + "\"" + rest;
    assert OccursAt(s, lit, 0) by {
      assert s[..|lit|] == lit;
    }
    assert s[|lit|] == ' ' && s[|lit| + 1] == '"';
    assert SkipSpaces(s, |lit| + 1) == |lit| + 1;
    assert SkipSpaces(s, |lit|) == |lit| + 1;
    assert s[|lit| + 2..] == value + ['"'] + rest;
    TakeUntilPrefix(value, '"', rest);
    assert QuotedAt(s, 0, key, allowEmpty) == Some(value);
    SearchFinds(s, QuotedMatcher(s, key, allowEmpty), 0, value);
  }

  // ---------------------------------------------------------------------------
  // from ... to ...

  /** A regular-expression word boundary just before position `i` that is followed by a
      word character. */
  predicate WordStart(s: string, i: nat) {
    i == 0 || (i <= |s| && !IsWordChar(s[i - 1]))
  }

  /** `to`, in any case, as a whitespace-delimited word at `p` of `seg`, with a word before
      it and a non-blank remainder after it. */
  predicate ToSplitAt(seg: string, p: nat) {
    0 < p && p + 2 < |seg|
    && IsSpace(seg[p - 1]) && Lower(seg[p..p + 2]) == "to" && IsSpace(seg[p + 2])
    && SkipSpaces(seg, p + 2) < |seg|
  }

  /** The largest split point below `p`. */
  function LastSplitBelow(seg: string, p: nat): (r: Option<nat>)
    ensures r.Some? ==> r.value < p && ToSplitAt(seg, r.value)
    ensures r.Some? ==> forall q :: r.value < q < p ==> !ToSplitAt(seg, q)
    ensures r.None? ==> forall q: nat :: q < p ==> !ToSplitAt(seg, q)
  {
    if p == 0 then None
    else if ToSplitAt(seg, p - 1) then Some(p - 1)
    else LastSplitBelow(seg, p - 1)
  }

  /** The match at `i` of `\bfrom\s+([^,\s]+(?:\s+[^,\s]+)*)\s+to\s+([^,\s]+(?:\s+[^,\s]+)*)`
      (case-insensitive), both groups stripped. Both groups stay inside the comma-free
      stretch after `from`; the greedy first group reaches the last usable `to`. */
  function RouteAt(s: string, i: nat): (r: Option<(string, string)>)
  {
    if !(WordStart(s, i) && i + 4 < |s| && Lower(s[i..i + 4]) == "from" && IsSpace(s[i + 4])) then None
    else
      var q := SkipSpaces(s, i + 4);
      var seg := TakeUntil(s[q..], ',');
      match LastSplitBelow(seg, |seg|)
      case None => None
      case Some(p) => Some((Strip(seg[..p]), Strip(seg[p + 2..])))
  }

  /** `re.search(<the from/to pattern>, s, re.IGNORECASE)` as (origin, destination). */
  function Route(s: string): (r: Option<(string, string)>)
  {
    Search(s, RouteMatcher(s))
  }

  function RouteMatcher(s: string): nat -> Option<(string, string)> {
    (i: nat) => RouteAt(s, i)
  }

  /** No whitespace and no comma: what `[^,\s]+` matches. */
  predicate IsPlainWord(w: string) {
    |w| > 0 && forall m :: 0 <= m < |w| ==> !IsSpace(w[m]) && w[m] != ','
  }

  /** In "A to B" with one-word A and B, the only split point is the "to". */
  lemma {:induction false} SplitOfSimpleSegment(a: string, b: string)
    requires IsPlainWord(a) && IsPlainWord(b)
    ensures LastSplitBelow(a + " to " + b, |a + " to " + b|) == Some(|a| + 1)
  {
    var seg := a + " to " + b;
    var p := |a| + 1;
    assert seg[p..p + 2] == "to";
    assert Lower("to") == "to";
    assert SkipSpaces(seg, p + 2) == p + 3 by {
      assert seg[p + 3] == b[0];
      assert SkipSpaces(seg, p + 3) == p + 3;
    }
    assert ToSplitAt(seg, p);
    forall q | p < q < |seg| ensures !ToSplitAt(seg, q) {
      if q - 1 == |a| + 1 {
        assert seg[q - 1] == 't';
      } else if q - 1 == |a| + 2 {
        assert seg[q - 1] == 'o';
      } else if q - 1 == |a| + 3 {
        if q + 2 < |seg| {
          assert seg[q + 2] == b[2];
        }
      } else {
        assert seg[q - 1] == b[q - 1 - (|a| + 4)];
      }
    }
  }

  /** Strip removes the one space padding a plain word. */
  lemma StripPaddedWord(w: string)
    requires IsPlainWord(w)
    ensures Strip(w + " ") == w && Strip(" " + w) == w
  {
    StripUnchanged(w);
    assert LStrip(w + " ") == w + " ";
    assert (w + " ")[..|w|] == w;
    assert (" " + w)[1..] == w;
  }

  /** In "from A to B" the pattern's guard holds at 0 and the comma-free stretch is "A to B". */
  lemma RouteSegmentOfSimpleQuery(a: string, b: string)
    requires IsPlainWord(a) && IsPlainWord(b)
    ensures var s := "from " + a + " to " + b;
            && WordStart(s, 0) && 4 < |s| && Lower(s[..4]) == "from" && IsSpace(s[4])
            && SkipSpaces(s, 4) == 5
            && TakeUntil(s[5..], ',') == a + " to " + b
  {
    var s := "from " + a + " to " + b;
    var seg := a + " to " + b;
    assert s[..4] == "from" && s[4] == ' ';
    assert Lower("from") == "from";
    assert s[5..] == seg;
    assert SkipSpaces(s, 4) == 5 by {
      assert s[5] == a[0];
      assert SkipSpaces(s, 5) == 5;
    }
    TakeUntilAbsent(seg, ',');
  }

  /** The two halves of "A to B" around the split strip to A and B. */
  lemma HalvesOfSimpleSegment(a: string, b: string)
    requires IsPlainWord(a) && IsPlainWord(b)
    ensures var seg := a + " to " + b;
            Strip(seg[..|a| + 1]) == a && Strip(seg[|a| + 3..]) == b
  {
    var seg := a + " to " + b;
    assert seg[..|a| + 1] == a + " ";
    assert seg[|a| + 3..] == " " + b;
    StripPaddedWord(a);
    StripPaddedWord(b);
  }

  /** The from/to pattern matches "from A to B" at its first character. */
  lemma RouteAtSimpleQuery(a: string, b: string)
    requires IsPlainWord(a) && IsPlainWord(b)
    ensures RouteAt("from " + a + " to " + b, 0) == Some((a, b))
  {
    RouteSegmentOfSimpleQuery(a, b);
    SplitOfSimpleSegment(a, b);
    HalvesOfSimpleSegment(a, b);
  }

  /** A query of the form "from A to B" with one-word places yields exactly (A, B),
      whatever A and B are, "to" included. */
  lemma RouteOfSimpleQuery(a: string, b: string)
    requires IsPlainWord(a) && IsPlainWord(b)
    ensures Route("from " + a + " to " + b) == Some((a, b))
  {
    RouteAtSimpleQuery(a, b);
    SearchFinds("from " + a + " to " + b, RouteMatcher("from " + a + " to " + b), 0, (a, b));
  }

  // ---------------------------------------------------------------------------
  // YYYY-MM-DD

  /** `\d{4}-\d{2}-\d{2}` at `i`. */
  predicate IsoDateShape(s: string, i: nat) {
    i + 10 <= |s|
    && IsDigit(s[i]) && IsDigit(s[i + 1]) && IsDigit(s[i + 2]) && IsDigit(s[i + 3]) && s[i + 4] == '-'
    && IsDigit(s[i + 5]) && IsDigit(s[i + 6]) && s[i + 7] == '-' && IsDigit(s[i + 8]) && IsDigit(s[i + 9])
  }

  /** The match at `i` of `\b(\d{4}-\d{2}-\d{2})\b`. */
  function IsoDateAt(s: string, i: nat): (r: Option<string>)
    ensures r.Some? ==> |r.value| == 10
  {
    if WordStart(s, i) && IsoDateShape(s, i) && (i + 10 == |s| || !IsWordChar(s[i + 10]))
    then Some(s[i..i + 10]) else None
  }

  /** `re.search(r'\b(\d{4}-\d{2}-\d{2})\b', s).group(1)`. */
  function FirstIsoDate(s: string): (r: Option<string>)
    ensures r.Some? ==> |r.value| == 10
  {
    Search(s, IsoDateMatcher(s))
  }

  function IsoDateMatcher(s: string): nat -> Option<string> {
    (i: nat) => IsoDateAt(s, i)
  }

  /** After text free of digits and a space, a date at the end of the query is found. */
  lemma {:induction false} FirstIsoDateAfterText(prefix: string, date: string)
    requires forall m :: 0 <= m < |prefix| ==> !IsDigit(prefix[m])
    requires IsoDateShape(date, 0) && |date| == 10
    ensures FirstIsoDate(prefix + " " + date) == Some(date)
  {
    var s := prefix + " " + date;
    forall j: nat | j <= |prefix| ensures IsoDateAt(s, j).None? {
      if j < |prefix| {
        assert s[j] == prefix[j];
      } else {
        assert s[j] == ' ';
      }
    }
    var k := |prefix| + 1;
    assert s[k..k + 10] == date;
    assert forall m :: 0 <= m < 10 ==> s[k + m] == date[m];
    assert IsoDateAt(s, k) == Some(date);
    SearchFinds(s, IsoDateMatcher(s), k, date);
  }
}

=== FILE: request_router.dfy ===
/** The pure helpers of the Streamlit front end (app.py): the classifier that routes a
    request to suggestions, an itinerary or a flight search; the origin/destination slot
    extraction; the travel-entity extraction; and the conversion of nested values before
    JSON encoding. All matching is done on the lower-cased request. */
module RequestRouter {
  import opened Wrappers
  import opened Text
  import opened Json
  import Patterns
  import CityCodes

  // ---------------------------------------------------------------------------
  // Keyword lists

  /** Some keyword of the list occurs in `text` (Python `any(kw in text for kw in keywords)`). */
  predicate HasAny(keywords: seq<string>, text: string) {
    exists k :: k in keywords && Contains(text, k)
  }

  /** `[kw for kw in keywords if kw in text]`: the keywords that occur, in list order. */
  function KeywordsIn(keywords: seq<string>, text: string): (r: seq<string>)
    ensures |r| <= |keywords|
    ensures forall k :: k in r <==> k in keywords && Contains(text, k)
    ensures r != [] <==> HasAny(keywords, text)
  {
    if keywords == [] then []
    else (if Contains(text, keywords[0]) then [keywords[0]] else []) + KeywordsIn(keywords[1..], text)
  }

  /** Two different keywords that both occur are counted twice. */
  lemma TwoKeywordsCounted(keywords: seq<string>, text: string, a: string, b: string)
    requires a in keywords && b in keywords && a != b
    requires Contains(text, a) && Contains(text, b)
    ensures |KeywordsIn(keywords, text)| >= 2
  {
    var r := KeywordsIn(keywords, text);
    assert a in r && b in r;
  }

  // ---------------------------------------------------------------------------
  // detect_request_type

  datatype RequestType = Suggestions | Flights | Itinerary {
    /** The label the front end switches on. */
    function Label(): string {
      match this
      case Suggestions => "suggestions"
      case Flights => "flights"
      case Itinerary => "itinerary"
    }
  }

  /** Signs of comprehensive travel planning, even when flights are mentioned. */
  const Comprehensive: seq<string> := [
    "curate", "experience", "activities", "places to visit", "things to do",
    "romantic experience", "island escape", "day by day", "itinerary",
    "recommend resorts", "recommend hotels", "attractions", "sightseeing",
    "what to do", "where to go", "travel guide", "complete details",
    "day-by-day", "personalized tips", "unforgettable", "honeymoon"]

  /** Signs of a plain, direct flight search. */
  const PureFlight: seq<string> := [
    "search flights only", "find flights only", "flight prices only",
    "compare flights", "cheapest flights", "flight deals only"]

  /** Signs of a request for an itinerary. */
  const ItineraryWords: seq<string> := [
    "create itinerary", "make itinerary", "detailed itinerary", "travel plan",
    "schedule", "day 1", "day 2", "day 3", "morning", "afternoon", "evening"]

  const FlightWords: seq<string> := ["flight", "flights", "round-trip", "round trip"]

  const TravelContent: seq<string> := [
    "recommend", "suggest", "experience", "activities", "places", "resort", "hotel"]

  /** Fewer than two comprehensive keywords occur in the lower-cased request. */
  predicate FewComprehensive(low: string) {
    |KeywordsIn(Comprehensive, low)| < 2
  }

  /** `detect_request_type`: a first-match cascade over the lower-cased request. Two
      comprehensive keywords win outright; then a pure-flight keyword; then an itinerary
      keyword; then flight words, which mean a flight search unless travel content
      comes with them. A flight search needs a flight keyword, an itinerary needs an
      itinerary keyword, and a request with neither is for suggestions. */
  function DetectRequestType(userInput: string): (r: RequestType)
    ensures var low := Lower(userInput);
      r == Flights ==> FewComprehensive(low) && (HasAny(PureFlight, low) || HasAny(FlightWords, low))
    ensures var low := Lower(userInput);
      r == Itinerary ==> HasAny(ItineraryWords, low) && !HasAny(PureFlight, low)
    ensures var low := Lower(userInput);
      !HasAny(PureFlight, low) && !HasAny(ItineraryWords, low) && !HasAny(FlightWords, low) ==> r == Suggestions
  {
    var low := Lower(userInput);
    if |KeywordsIn(Comprehensive, low)| >= 2 then Suggestions
    else if KeywordsIn(PureFlight, low) != [] then Flights
    else if KeywordsIn(ItineraryWords, low) != [] then Itinerary
    else
      var flightWords := KeywordsIn(FlightWords, low) != [];
      var travelContent := KeywordsIn(TravelContent, low) != [];
      if flightWords && travelContent then Suggestions
      else if flightWords then Flights
      else Suggestions
  }

  /** The classification ignores case. */
  lemma DetectRequestTypeIgnoresCase(a: string, b: string)
    requires Upper(a) == Upper(b)
    ensures DetectRequestType(a) == DetectRequestType(b)
  {
    LowerOfUpper(a);
    LowerOfUpper(b);
  }

  /** Two different comprehensive keywords make a request for suggestions, whatever
      flight or itinerary keywords it also holds. */
  lemma TwoComprehensiveKeywords(userInput: string, a: string, b: string)
    ensures && a in Comprehensive && b in Comprehensive && a != b
            && Contains(Lower(userInput), a) && Contains(Lower(userInput), b)
            ==> DetectRequestType(userInput) == Suggestions
  {
    if && a in Comprehensive && b in Comprehensive && a != b
       && Contains(Lower(userInput), a) && Contains(Lower(userInput), b)
    {
      TwoKeywordsCounted(Comprehensive, Lower(userInput), a, b);
    }
  }

  /** "romantic experience" alone is enough: it also contains "experience". */
  lemma RomanticExperienceSuffices(userInput: string)
    requires Contains(Lower(userInput), "romantic experience")
    ensures DetectRequestType(userInput) == Suggestions
  {
    ContainsPiece(Lower(userInput), "romantic experience", "experience", 9);
    assert Comprehensive[1] == "experience" && Comprehensive[5] == "romantic experience";
    TwoComprehensiveKeywords(userInput, "experience", "romantic experience");
  }

  /** Below the comprehensive threshold a pure-flight keyword beats any itinerary keyword. */
  lemma PureFlightBeatsItinerary(userInput: string, k: string)
    ensures FewComprehensive(Lower(userInput)) && k in PureFlight && Contains(Lower(userInput), k)
            ==> DetectRequestType(userInput) == Flights
  {
  }

  /** Below the threshold and without a pure-flight keyword, an itinerary keyword makes an
      itinerary request, whatever flight words it also holds. */
  lemma ItineraryKeywordGivesItinerary(userInput: string, k: string)
    ensures var low := Lower(userInput);
            && FewComprehensive(low) && !HasAny(PureFlight, low)
            && k in ItineraryWords && Contains(low, k)
            ==> DetectRequestType(userInput) == Itinerary
  {
  }

  /** Flight words that come with travel content, and no keyword of an earlier step, make a
      request for suggestions. */
  lemma FlightWithTravelContentIsSuggestions(userInput: string, f: string, t: string)
    ensures var low := Lower(userInput);
            && FewComprehensive(low) && !HasAny(PureFlight, low) && !HasAny(ItineraryWords, low)
            && f in FlightWords && Contains(low, f) && t in TravelContent && Contains(low, t)
            ==> DetectRequestType(userInput) == Suggestions
  {
  }

  /** Flight words without travel content, and no keyword of an earlier step, make a flight
      search. */
  lemma FlightWordsAloneAreFlights(userInput: string, f: string)
    ensures var low := Lower(userInput);
            && FewComprehensive(low) && !HasAny(PureFlight, low) && !HasAny(ItineraryWords, low)
            && !HasAny(TravelContent, low) && f in FlightWords && Contains(low, f)
            ==> DetectRequestType(userInput) == Flights
  {
  }

  /** A request that mentions "flight" and none of the other keywords is a flight search. */
  lemma FlightWordAloneIsFlightSearch(userInput: string)
    requires Contains(Lower(userInput), "flight")
    requires forall k :: k in Comprehensive + PureFlight + ItineraryWords + TravelContent ==>
               !Contains(Lower(userInput), k)
    ensures DetectRequestType(userInput) == Flights
  {
    var low := Lower(userInput);
    var all := Comprehensive + PureFlight + ItineraryWords + TravelContent;
    assert HasAny(FlightWords, low) by { assert FlightWords[0] == "flight"; }
    assert !HasAny(Comprehensive, low) by {
      forall k | k in Comprehensive ensures !Contains(low, k) { assert k in all; }
    }
    assert !HasAny(PureFlight, low) by {
      forall k | k in PureFlight ensures !Contains(low, k) { assert k in all; }
    }
    assert !HasAny(ItineraryWords, low) by {
      forall k | k in ItineraryWords ensures !Contains(low, k) { assert k in all; }
    }
    assert !HasAny(TravelContent, low) by {
      forall k | k in TravelContent ensures !Contains(low, k) { assert k in all; }
    }
  }

  // ---------------------------------------------------------------------------
  // extract_origin_destination: tables

  /** IATA airport codes, lower case, to the cities they serve. */
  function IataCity(code: string): (r: Option<string>)
    ensures r.Some? ==> r.value != ""
  {
    match code
    case "dmm" => Some("Dammam")
    case "szx" => Some("Shenzhen")
    case "bom" => Some("Mumbai")
    case "del" => Some("Delhi")
    case "blr" => Some("Bangalore")
    case "maa" => Some("Chennai")
    case "hyd" => Some("Hyderabad")
    case "ccu" => Some("Kolkata")
    case "lhr" => Some("London")
    case "cdg" => Some("Paris")
    case "nrt" => Some("Tokyo")
    case "jfk" => Some("New York")
    case "lga" => Some("New York")
    case "ewr" => Some("New York")
    case "dxb" => Some("Dubai")
    case "sin" => Some("Singapore")
    case "bkk" => Some("Bangkok")
    case "dps" => Some("Bali")
    case "sfo" => Some("San Francisco")
    case "lax" => Some("Los Angeles")
    case "ord" => Some("Chicago")
    case "syd" => Some("Sydney")
    case "mel" => Some("Melbourne")
    case "yyz" => Some("Toronto")
    case "yvr" => Some("Vancouver")
    case "pvg" => Some("Shanghai")
    case "pek" => Some("Beijing")
    case "icn" => Some("Seoul")
    case "hkg" => Some("Hong Kong")
    case "tpe" => Some("Taipei")
    case "kul" => Some("Kuala Lumpur")
    case _ => None
  }

  /** Well-known city names, lower case, with their display names. Cities are detected in
      the order of this list, not in the order they appear in the request. */
  const CommonCities: seq<(string, string)> := [
    ("mumbai", "Mumbai"), ("delhi", "Delhi"), ("bangalore", "Bangalore"),
    ("chennai", "Chennai"), ("hyderabad", "Hyderabad"), ("kolkata", "Kolkata"),
    ("london", "London"), ("paris", "Paris"), ("tokyo", "Tokyo"),
    ("new york", "New York"), ("dubai", "Dubai"), ("singapore", "Singapore"),
    ("bangkok", "Bangkok"), ("bali", "Bali"), ("san francisco", "San Francisco"),
    ("los angeles", "Los Angeles"), ("chicago", "Chicago"), ("sydney", "Sydney"),
    ("melbourne", "Melbourne"), ("toronto", "Toronto"), ("vancouver", "Vancouver"),
    ("dammam", "Dammam"), ("shenzhen", "Shenzhen"), ("shanghai", "Shanghai"),
    ("beijing", "Beijing"), ("seoul", "Seoul"), ("hong kong", "Hong Kong"),
    ("taipei", "Taipei"), ("kuala lumpur", "Kuala Lumpur")]

  /** The display names of the entries whose key satisfies `p`, in table order. */
  function Matching(table: seq<(string, string)>, p: string -> bool): seq<string> {
    MatchingFrom(table, p, 0)
  }

  /** The same from entry `k` on. */
  function MatchingFrom(table: seq<(string, string)>, p: string -> bool, k: nat): seq<string>
    decreases |table| - k
  {
    if k >= |table| then []
    else (if p(table[k].0) then [table[k].1] else []) + MatchingFrom(table, p, k + 1)
  }

  /** A name is listed exactly when some entry from `k` on with that name has a matching key. */
  lemma {:induction false} MatchingIff(table: seq<(string, string)>, p: string -> bool, k: nat)
    requires k <= |table|
    ensures |MatchingFrom(table, p, k)| <= |table| - k
    ensures forall n :: n in MatchingFrom(table, p, k) <==>
                        exists j :: k <= j < |table| && table[j].1 == n && p(table[j].0)
    decreases |table| - k
  {
    if k < |table| {
      MatchingIff(table, p, k + 1);
    }
  }

  /** The first name listed is that of the earliest entry from `k` on whose key matches. */
  lemma {:induction false} MatchingFirst(table: seq<(string, string)>, p: string -> bool, k: nat)
    requires k <= |table|
    ensures MatchingFrom(table, p, k) == [] <==> forall j :: k <= j < |table| ==> !p(table[j].0)
    ensures MatchingFrom(table, p, k) != [] ==>
      exists j :: k <= j < |table| && table[j].1 == MatchingFrom(table, p, k)[0] && p(table[j].0)
                  && forall i :: k <= i < j ==> !p(table[i].0)
    decreases |table| - k
  {
    if k < |table| {
      MatchingFirst(table, p, k + 1);
      var rest := MatchingFrom(table, p, k + 1);
      assert MatchingFrom(table, p, k) == (if p(table[k].0) then [table[k].1] else []) + rest;
      if !p(table[k].0) && rest != [] {
        var j :| k + 1 <= j < |table| && table[j].1 == rest[0] && p(table[j].0)
                 && forall i :: k + 1 <= i < j ==> !p(table[i].0);
        assert forall i :: k <= i < j ==> !p(table[i].0);
      }
    }
  }

  // ---------------------------------------------------------------------------
  // Step 1: parenthesised airport codes

  /** `(`, three letters A-Z and `)` at the start of `s`. */
  predicate StartsWithParenCode(s: string) {
    |s| >= 5 && s[0] == '(' && IsUpperLetter(s[1]) && IsUpperLetter(s[2]) && IsUpperLetter(s[3]) && s[4] == ')'
  }

  /** `re.findall(r'\(([A-Z]{3})\)', s)`: the letters of every parenthesised code, left
      to right. */
  function ParenCodes(s: string): (r: seq<string>)
    ensures forall k :: 0 <= k < |r| ==> CityCodes.IsCode(r[k])
    decreases |s|
  {
    if |s| < 5 then []
    else if StartsWithParenCode(s) then [s[1..4]] + ParenCodes(s[5..])
    else ParenCodes(s[1..])
  }

  /** A code written in parentheses is found, and scanning goes on after it. */
  lemma ParenCodesOfCode(code: string, rest: string)
    requires CityCodes.IsCode(code)
    ensures ParenCodes("(" + code + ")" + rest) == [code] + ParenCodes(rest)
  {
    var s := "(" + code + ")" + rest;
    assert s[1..4] == code;
    assert s[5..] == rest;
  }

  /** Text without an opening parenthesis holds no code and does not disturb what follows. */
  lemma {:induction false} ParenCodesSkipText(a: string, b: string)
    requires forall m :: 0 <= m < |a| ==> a[m] != '('
    ensures ParenCodes(a + b) == ParenCodes(b)
    decreases |a|
  {
    if a != [] {
      var s := a + b;
      if |s| >= 5 {
        assert s[0] == a[0];
        assert s[1..] == a[1..] + b;
        ParenCodesSkipText(a[1..], b);
      } else {
        assert |b| < 5;
      }
    } else {
      assert a + b == b;
    }
  }

  /** `iata_to_city.get(code.lower(), code.upper())` for a found code. */
  function CodeCity(code: string): (r: string)
    ensures IataCity(Lower(code)).Some? ==> r == IataCity(Lower(code)).value
  {
    IataCity(Lower(code)).GetOr(Upper(Lower(code)))
  }

  /** A code the table does not know is kept as it was written. */
  lemma UnknownCodeKept(code: string)
    requires CityCodes.IsCode(code) && IataCity(Lower(code)).None?
    ensures CodeCity(code) == code
  {
    UpperOfLower(code);
    assert Upper(code) == code;
  }

  lemma DammamShenzhen()
    ensures CodeCity("DMM") == "Dammam" && CodeCity("SZX") == "Shenzhen"
  {
    assert Lower("DMM") == "dmm";
    assert Lower("SZX") == "szx";
  }

  // ---------------------------------------------------------------------------
  // Step 2: the from/to patterns

  /** The end of a match of `\s*\([A-Z]{3}\)` (case-insensitive) at the start of `t`. */
  function CodeMatchEnd(t: string): (e: Option<nat>)
    ensures e.Some? ==> 5 <= e.value <= |t|
  {
    var j := Patterns.SkipSpaces(t, 0);
    if j + 5 <= |t| && t[j] == '(' && IsLetter(t[j + 1]) && IsLetter(t[j + 2]) && IsLetter(t[j + 3])
       && t[j + 4] == ')'
    then Some(j + 5) else None
  }

  /** `re.sub(r'\s*\([A-Z]{3}\)', '', t, flags=re.IGNORECASE)`. */
  function RemoveCodes(t: string): (r: string)
    ensures |r| <= |t|
    decreases |t|
  {
    if t == [] then []
    else match CodeMatchEnd(t)
      case Some(e) => RemoveCodes(t[e..])
      case None => [t[0]] + RemoveCodes(t[1..])
  }

  /** Where no code starts, the first character is kept. */
  lemma RemoveCodesKeeps(t: string)
    requires t != [] && CodeMatchEnd(t).None?
    ensures RemoveCodes(t) == [t[0]] + RemoveCodes(t[1..])
  {
  }

  /** No code match starts inside text without parentheses that ends in a non-space. */
  lemma NoCodeMatchInText(w: string, tail: string)
    requires forall m :: 0 <= m < |w| ==> w[m] != '('
    requires w != [] && !IsSpace(w[|w| - 1])
    ensures CodeMatchEnd(w + tail).None?
  {
    var t := w + tail;
    var j := Patterns.SkipSpaces(t, 0);
    assert t[|w| - 1] == w[|w| - 1];
    assert !IsSpace(t[|w| - 1]);
    assert j < |w|;
    assert t[j] == w[j];
  }

  /** Text without parentheses that does not end in whitespace is kept, and removal goes
      on after it. */
  lemma {:induction false} RemoveCodesKeepsText(w: string, tail: string)
    requires forall m :: 0 <= m < |w| ==> w[m] != '('
    requires w == [] || !IsSpace(w[|w| - 1])
    ensures RemoveCodes(w + tail) == w + RemoveCodes(tail)
    decreases |w|
  {
    if w == [] {
      assert w + tail == tail;
    } else {
      NoCodeMatchInText(w, tail);
      var v := w[1..];
      assert v == [] || v[|v| - 1] == w[|w| - 1];
      calc {
        RemoveCodes(w + tail);
      == { RemoveCodesKeeps(w + tail); }
        [w[0]] + RemoveCodes((w + tail)[1..]);
      == { assert (w + tail)[1..] == v + tail; }
        [w[0]] + RemoveCodes(v + tail);
      == { RemoveCodesKeepsText(v, tail); }
        [w[0]] + (v + RemoveCodes(tail));
      == { assert [w[0]] + v == w; }
        w + RemoveCodes(tail);
      }
    }
  }

  /** A space and a code in parentheses are one match, removed whole. */
  lemma SpacedCodeRemoved(code: string)
    requires |code| == 3 && AllLetters(code)
    ensures RemoveCodes(" (" + code + ")") == []
  {
    var tail := " (" + code + ")";
    assert tail[0] == ' ' && tail[1] == '(' && tail[5] == ')';
    assert tail[2..5] == code;
    assert Patterns.SkipSpaces(tail, 1) == 1;
    assert Patterns.SkipSpaces(tail, 0) == 1;
    assert CodeMatchEnd(tail) == Some(6);
    assert tail[6..] == [];
  }

  /** A code in parentheses after a space is removed with the space. */
  lemma RemoveTrailingCode(w: string, code: string)
    requires forall m :: 0 <= m < |w| ==> w[m] != '('
    requires w == [] || !IsSpace(w[|w| - 1])
    requires |code| == 3 && AllLetters(code)
    ensures RemoveCodes(w + " (" + code + ")") == w
  {
    var tail := " (" + code + ")";
    assert w + " (" + code + ")" == w + tail;
    RemoveCodesKeepsText(w, tail);
    SpacedCodeRemoved(code);
    assert w + [] == w;
  }

  /** A group as cleaned before use: `strip().rstrip(',')`, then codes removed. */
  function CleanGroup(g: string): string {
    RemoveCodes(RStripBy(Strip(g), c => c == ','))
  }

  /** The well-known cities whose key occurs anywhere in `text`, in table order. */
  function CitiesIn(text: string): seq<string> {
    Matching(CommonCities, key => Contains(text, key))
  }

  /** Origin and destination while they are worked out; `None` is Python's `None`. */
  datatype Slots = Slots(origin: Option<string>, destination: Option<string>)

  /** Python truthiness of a slot: set and not empty. */
  predicate Filled(v: Option<string>) {
    v.Some? && v.value != ""
  }

  /** A slot that is still empty takes the first well-known city in its cleaned group,
      else the cleaned group in title case. */
  function FillSlot(slot: Option<string>, group: string): (r: Option<string>)
    ensures Filled(slot) ==> r == slot
    ensures !Filled(slot) ==> r.Some?
    ensures !Filled(slot) && CitiesIn(Lower(CleanGroup(group))) != [] ==>
              r.value in CitiesIn(Lower(CleanGroup(group)))
  {
    if Filled(slot) then slot
    else
      var text := CleanGroup(group);
      var known := CitiesIn(Lower(text));
      if known != [] then Some(known[0]) else Some(Title(text))
  }

  /** Where the from/to step stands: both slots filled, which ends the extraction, or
      still open. */
  datatype RouteOutcome = Found(origin: string, destination: string) | Open(slots: Slots)

  /** The loop over the from/to patterns: `routes` holds, for each pattern in order, its
      two groups when it matches the lower-cased request. Slots filled by one pattern stay
      filled for the next. */
  function ApplyRoutes(routes: seq<Option<(string, string)>>, s: Slots): (r: RouteOutcome)
    ensures r.Found? ==> r.origin != "" && r.destination != ""
    ensures r.Found? && Filled(s.origin) ==> Some(r.origin) == s.origin
    ensures r.Found? && Filled(s.destination) ==> Some(r.destination) == s.destination
  {
    assert forall slot, g :: Filled(slot) ==> FillSlot(slot, g) == slot;
    ApplyRoutesWith(routes, s, FillSlot)
  }

  /** The same loop for any way `fill` of filling a slot from a group. */
  function ApplyRoutesWith(routes: seq<Option<(string, string)>>, s: Slots, fill: (Option<string>, string) -> Option<string>)
    : (r: RouteOutcome)
    ensures r.Found? ==> r.origin != "" && r.destination != ""
    ensures (forall slot, g :: Filled(slot) ==> fill(slot, g) == slot) ==>
              (r.Found? && Filled(s.origin) ==> Some(r.origin) == s.origin)
              && (r.Found? && Filled(s.destination) ==> Some(r.destination) == s.destination)
  {
    if routes == [] then Open(s)
    else match routes[0]
      case None => ApplyRoutesWith(routes[1..], s, fill)
      case Some((o, d)) =>
        var next := Slots(fill(s.origin, o), fill(s.destination, d));
        if Filled(next.origin) && Filled(next.destination) then Found(next.origin.value, next.destination.value)
        else ApplyRoutesWith(routes[1..], next, fill)
  }

  /** When no from/to pattern matches, the step leaves the slots as they were. */
  lemma NoRouteLeavesSlots(routes: seq<Option<(string, string)>>, s: Slots)
    requires forall k :: 0 <= k < |routes| ==> routes[k].None?
    ensures ApplyRoutes(routes, s) == Open(s)
  {
    NoRouteLeavesSlotsWith(routes, s, FillSlot);
  }

  lemma {:induction false} NoRouteLeavesSlotsWith(routes: seq<Option<(string, string)>>, s: Slots,
                                                  fill: (Option<string>, string) -> Option<string>)
    requires forall k :: 0 <= k < |routes| ==> routes[k].None?
    ensures ApplyRoutesWith(routes, s, fill) == Open(s)
  {
    if routes != [] {
      assert routes[0].None?;
      NoRouteLeavesSlotsWith(routes[1..], s, fill);
    }
  }

  // ---------------------------------------------------------------------------
  // Steps 3 and 4: cities mentioned anywhere

  /** `re.search(r'\b' + re.escape(key) + r'\b', s)` matches at `i`. */
  predicate MentionedAt(s: string, key: string, i: nat) {
    OccursAt(s, key, i)
    && (i == 0 || !IsWordChar(s[i - 1]))
    && (i + |key| == |s| || !IsWordChar(s[i + |key|]))
  }

  predicate Mentions(s: string, key: string) {
    exists i: nat :: i <= |s| && MentionedAt(s, key, i)
  }

  /** The well-known cities named as whole words in `low`, in table order. */
  function DetectedCities(low: string): seq<string> {
    Matching(CommonCities, MentionedIn(low))
  }

  /** The test each table key is put to: named as a whole word in `low`. */
  function MentionedIn(low: string): string -> bool {
    key => Mentions(low, key)
  }

  /** A city is detected exactly when the request names it as a whole word. */
  lemma CityDetected(low: string, n: string)
    ensures n in DetectedCities(low) <==> exists k :: 0 <= k < |CommonCities| && CommonCities[k].1 == n
                                                     && Mentions(low, CommonCities[k].0)
  {
    MatchingIff(CommonCities, MentionedIn(low), 0);
  }

  /** `[city for city in detected if city != origin]`. */
  function Without(cities: seq<string>, city: string): (r: seq<string>)
    ensures forall n :: n in r <==> n in cities && n != city
  {
    if cities == [] then []
    else (if cities[0] == city then [] else [cities[0]]) + Without(cities[1..], city)
  }

  /** Steps 3 and 4 from the slots the from/to step left open. */
  function FromDetected(s: Slots, detected: seq<string>, preferred: string): (r: Slots)
    ensures |detected| == 1 && preferred != "" ==> r == Slots(Some(preferred), Some(detected[0]))
    ensures |detected| > 1 && !(preferred != "" && preferred in detected) ==>
              r == Slots(Some(detected[0]), Some(detected[1]))
    ensures |detected| > 1 && preferred != "" && preferred in detected ==> r.origin == Some(preferred)
    ensures |detected| > 1 && preferred != "" && Without(detected, preferred) != [] ==>
              r.destination.Some? && r.destination.value in detected && r.destination.value != preferred
    ensures detected == [] && preferred != "" && !Filled(s.destination) ==> r == Slots(Some(preferred), s.destination)
    ensures detected == [] && (preferred == "" || Filled(s.destination)) ==> r == s
  {
    var remaining := Without(detected, preferred);
    if |detected| == 1 && preferred != "" then Slots(Some(preferred), Some(detected[0]))
    else if |detected| > 1 && preferred != "" && preferred in detected && remaining != [] then
      Slots(Some(preferred), Some(remaining[0]))
    else if |detected| > 1 && !(preferred != "" && preferred in detected) then
      Slots(Some(detected[0]), Some(detected[1]))
    else
      var s3 :=
        if |detected| == 1 then Slots(s.origin, Some(detected[0]))
        else if |detected| > 1 then Slots(Some(preferred), s.destination)
        else s;
      var origin := if preferred != "" && !Filled(s3.destination) then Some(preferred) else s3.origin;
      var destination :=
        if Filled(origin) && !Filled(s3.destination) && detected != [] then Some(detected[0]) else s3.destination;
      Slots(origin, destination)
  }

  /** `extract_origin_destination(user_input, preferred_departure_city)`. `routes` stands for
      the groups of the three from/to patterns matched against the lower-cased request. */
  function ExtractOriginDestination(userInput: string, preferred: string, routes: seq<Option<(string, string)>>)
    : (r: Slots)
    ensures var codes := ParenCodes(Upper(userInput));
      |codes| >= 2 ==> r == Slots(Some(CodeCity(codes[0])), Some(CodeCity(codes[1])))
    ensures var codes := ParenCodes(Upper(userInput));
      |codes| < 2 && ApplyRoutes(routes, Slots(None, None)).Found? ==>
        var found := ApplyRoutes(routes, Slots(None, None));
        r == Slots(Some(found.origin), Some(found.destination))
    ensures var codes := ParenCodes(Upper(userInput));
      |codes| < 2 && ApplyRoutes(routes, Slots(None, None)).Open? ==>
        r == FromDetected(ApplyRoutes(routes, Slots(None, None)).slots, DetectedCities(Lower(userInput)), preferred)
  {
    var codes := ParenCodes(Upper(userInput));
    if |codes| >= 2 then Slots(Some(CodeCity(codes[0])), Some(CodeCity(codes[1])))
    else match ApplyRoutes(routes, Slots(None, None))
      case Found(o, d) => Slots(Some(o), Some(d))
      case Open(s) => FromDetected(s, DetectedCities(Lower(userInput)), preferred)
  }

  /** Two parenthesised codes decide the route whatever the from/to text says: "(DMM)"
      before "(SZX)" is Dammam to Shenzhen. */
  lemma CodesTakePriority(userInput: string, preferred: string, routes: seq<Option<(string, string)>>,
                          a: string, b: string, rest: string)
    requires forall m :: 0 <= m < |a| ==> a[m] != '('
    requires forall m :: 0 <= m < |b| ==> b[m] != '('
    requires Upper(userInput) == a + "(DMM)" + b + "(SZX)" + rest
    ensures ExtractOriginDestination(userInput, preferred, routes) == Slots(Some("Dammam"), Some("Shenzhen"))
  {
    var up := Upper(userInput);
    assert up == a + ("(" + "DMM" + ")" + (b + ("(" + "SZX" + ")" + rest)));
    ParenCodesSkipText(a, "(" + "DMM" + ")" + (b + ("(" + "SZX" + ")" + rest)));
    ParenCodesOfCode("DMM", b + ("(" + "SZX" + ")" + rest));
    ParenCodesSkipText(b, "(" + "SZX" + ")" + rest);
    ParenCodesOfCode("SZX", rest);
    DammamShenzhen();
  }

  /** Without codes or a from/to match, the cities named in the request decide. */
  lemma CitiesDecideWithoutPatterns(userInput: string, preferred: string, routes: seq<Option<(string, string)>>)
    requires |ParenCodes(Upper(userInput))| < 2
    requires forall k :: 0 <= k < |routes| ==> routes[k].None?
    ensures ExtractOriginDestination(userInput, preferred, routes)
            == FromDetected(Slots(None, None), DetectedCities(Lower(userInput)), preferred)
  {
    NoRouteLeavesSlots(routes, Slots(None, None));
  }

  /** From empty slots, one city detected is the destination, flown to from the preferred
      city; of several, the first two in table order when the preferred city is not among
      them; with none, the preferred city is the origin and there is no destination. */
  lemma FromDetectedOpen(detected: seq<string>, preferred: string)
    ensures var r := FromDetected(Slots(None, None), detected, preferred);
            && (|detected| == 1 && preferred != "" ==> r == Slots(Some(preferred), Some(detected[0])))
            && (|detected| > 1 && preferred !in detected ==> r == Slots(Some(detected[0]), Some(detected[1])))
            && (detected == [] ==> r == Slots(if preferred != "" then Some(preferred) else None, None))
  {
  }

  /** The first city detected is the earliest entry of the city table named in the
      request, wherever the request names it. */
  lemma FirstDetectedCity(low: string)
    requires DetectedCities(low) != []
    ensures exists k :: 0 <= k < |CommonCities| && CommonCities[k].1 == DetectedCities(low)[0]
                        && Mentions(low, CommonCities[k].0)
                        && forall j :: 0 <= j < k ==> !Mentions(low, CommonCities[j].0)
  {
    var p := MentionedIn(low);
    MatchingFirst(CommonCities, p, 0);
    var k :| 0 <= k < |CommonCities| && CommonCities[k].1 == DetectedCities(low)[0] && p(CommonCities[k].0)
             && forall i :: 0 <= i < k ==> !p(CommonCities[i].0);
    forall j | 0 <= j < k
      ensures !Mentions(low, CommonCities[j].0)
    {
      assert !p(CommonCities[j].0);
    }
  }

  /** A city name standing alone between non-word characters is detected. */
  lemma MentionedBetween(a: string, key: string, b: string)
    requires a == [] || !IsWordChar(a[|a| - 1])
    requires b == [] || !IsWordChar(b[0])
    ensures Mentions(a + key + b, key)
  {
    var s := a + key + b;
    assert s[|a|..|a| + |key|] == key;
    assert MentionedAt(s, key, |a|);
  }

  // ---------------------------------------------------------------------------
  // extract_travel_entities

  /** The match at `i` of `(\d+)\s*(day|days|week|weeks|month|months)` as a number of days:
      the alternation stops at its first alternative, so the unit read is "day", "week" or
      "month", and weeks count 7 days and months 30. */
  function DurationAt(s: string, i: nat): (r: Option<nat>)
  {
    if i < |s| && IsDigit(s[i]) then
      var digits := Patterns.TakeDigits(s, i);
      var j := Patterns.SkipSpaces(s, i + |digits|);
      var unit := if j <= |s| then s[j..] else [];
      match UnitDays(unit)
      case Some(f) => Some(DigitsValue(digits) * f)
      case None => None
    else None
  }

  /** The days in one unit of `(day|days|week|weeks|month|months)` matched at the start of
      `unit`; the alternation stops at its first alternative that matches. */
  function UnitDays(unit: string): (r: Option<nat>)
  {
    if StartsWith(unit, "day") then Some(1)
    else if StartsWith(unit, "week") then Some(7)
    else if StartsWith(unit, "month") then Some(30)
    else None
  }

  lemma UnitsInDays(unit: string)
    ensures StartsWith(unit, "day") ==> UnitDays(unit) == Some(1)
    ensures StartsWith(unit, "week") ==> UnitDays(unit) == Some(7)
    ensures StartsWith(unit, "month") ==> UnitDays(unit) == Some(30)
  {
    if StartsWith(unit, "week") || StartsWith(unit, "month") {
      assert unit[0] != 'd';
      assert !StartsWith(unit, "day");
    }
    if StartsWith(unit, "month") {
      assert unit[0] != 'w';
    }
  }

  /** The days of the first duration in `s`. The second pattern, the same with "for"
      before it, matches only where the first already does, so it never decides. */
  function Duration(s: string): (r: Option<nat>)
    ensures r.Some? ==> exists i :: 0 <= i <= |s| && DurationAt(s, i) == r
    ensures r.None? ==> forall i :: 0 <= i <= |s| ==> DurationAt(s, i).None?
  {
    assert forall i :: DurationMatcher(s)(i) == DurationAt(s, i);
    Patterns.Search(s, DurationMatcher(s))
  }

  function DurationMatcher(s: string): nat -> Option<nat> {
    (i: nat) => DurationAt(s, i)
  }

  /** A run of digits followed by a non-digit is taken whole. */
  lemma {:induction false} TakeDigitsOf(s: string, i: nat, d: string)
    requires AllDigits(d) && i + |d| <= |s| && s[i..i + |d|] == d
    requires i + |d| == |s| || !IsDigit(s[i + |d|])
    ensures Patterns.TakeDigits(s, i) == d
    decreases |d|
  {
    if d != [] {
      assert s[i] == d[0];
      assert s[i + 1..i + 1 + |d[1..]|] == d[1..];
      TakeDigitsOf(s, i + 1, d[1..]);
      assert [d[0]] + d[1..] == d;
    } else if i < |s| {
      assert !IsDigit(s[i]);
    }
  }

  /** No match starts inside text without digits. */
  lemma NoDurationInPrefix(prefix: string, tail: string)
    requires forall m :: 0 <= m < |prefix| ==> !IsDigit(prefix[m])
    ensures forall j: nat :: j < |prefix| ==> DurationAt(prefix + tail, j).None?
  {
    forall j: nat | j < |prefix| ensures DurationAt(prefix + tail, j).None? {
      assert (prefix + tail)[j] == prefix[j];
    }
  }

  /** A match with none before it is the duration found. */
  lemma DurationFirstAt(s: string, i: nat, days: nat)
    requires i <= |s| && DurationAt(s, i) == Some(days)
    requires forall j: nat :: j < i ==> DurationAt(s, j).None?
    ensures Duration(s) == Some(days)
  {
    Patterns.SearchFinds(s, DurationMatcher(s), i, days);
  }

  /** Digits, one space and a word: the digits are the number and the word is where the
      unit is read. */
  lemma NumberThenWord(s: string, i: nat, d: string)
    requires IsDigitString(d) && i + |d| + 1 < |s| && s[i..i + |d|] == d
    requires s[i + |d|] == ' ' && !IsSpace(s[i + |d| + 1])
    ensures IsDigit(s[i]) && Patterns.TakeDigits(s, i) == d
    ensures Patterns.SkipSpaces(s, i + |d|) == i + |d| + 1
  {
    assert s[i] == d[0];
    TakeDigitsOf(s, i, d);
    assert Patterns.SkipSpaces(s, i + |d| + 1) == i + |d| + 1;
  }

  /** The first number in `s`, followed by one space and a unit, gives the duration. */
  lemma DurationOfNumber(s: string, i: nat, d: string, days: nat)
    requires IsDigitString(d) && i + |d| + 1 < |s| && s[i..i + |d|] == d
    requires s[i + |d|] == ' ' && !IsSpace(s[i + |d| + 1])
    requires forall j: nat :: j < i ==> DurationAt(s, j).None?
    requires UnitDays(s[i + |d| + 1..]) == Some(days)
    ensures Duration(s) == Some(DigitsValue(d) * days)
  {
    assert DurationAt(s, i) == Some(DigitsValue(d) * days) by {
      NumberThenWord(s, i, d);
      DurationAtParts(s, i, d, i + |d| + 1, days);
    }
    DurationFirstAt(s, i, DigitsValue(d) * days);
  }

  /** The duration read at `i` from its digits, the position of its unit and the unit. */
  lemma DurationAtParts(s: string, i: nat, d: string, k: nat, days: nat)
    requires i < |s| && k <= |s|
    ensures && IsDigit(s[i]) && Patterns.TakeDigits(s, i) == d
            && Patterns.SkipSpaces(s, i + |d|) == k && UnitDays(s[k..]) == Some(days)
            ==> DurationAt(s, i) == Some(DigitsValue(d) * days)
  {
  }

  /** A number followed by a space and "week" or "weeks", after text without digits,
      reads as seven days a week. */
  lemma WeeksInDays(prefix: string, d: string, rest: string)
    requires forall m :: 0 <= m < |prefix| ==> !IsDigit(prefix[m])
    requires IsDigitString(d)
    ensures Duration(prefix + d + " week" + rest) == Some(DigitsValue(d) * 7)
  {
    var s := prefix + d + " week" + rest;
    var i := |prefix|;
    assert s == prefix + (d + " week" + rest);
    NoDurationInPrefix(prefix, d + " week" + rest);
    assert s[i..i + |d|] == d;
    assert s[i + |d|..i + |d| + 5] == " week";
    assert s[i + |d| + 1..][..4] == "week";
    UnitsInDays(s[i + |d| + 1..]);
    DurationOfNumber(s, i, d, 7);
  }

  /** The same for "month" and "months": thirty days a month. */
  lemma MonthsInDays(prefix: string, d: string, rest: string)
    requires forall m :: 0 <= m < |prefix| ==> !IsDigit(prefix[m])
    requires IsDigitString(d)
    ensures Duration(prefix + d + " month" + rest) == Some(DigitsValue(d) * 30)
  {
    var s := prefix + d + " month" + rest;
    var i := |prefix|;
    assert s == prefix + (d + " month" + rest);
    NoDurationInPrefix(prefix, d + " month" + rest);
    assert s[i..i + |d|] == d;
    assert s[i + |d|..i + |d| + 6] == " month";
    assert s[i + |d| + 1..][..5] == "month";
    UnitsInDays(s[i + |d| + 1..]);
    DurationOfNumber(s, i, d, 30);
  }

  const DestinationWords: seq<string> := ["city", "country", "beach", "mountain", "hotel", "resort"]

  const ActivityWords: seq<string> := [
    "hiking", "sightseeing", "museum", "restaurant", "shopping", "adventure", "cultural", "food"]

  const BudgetWords: seq<string> := ["budget", "cheap", "expensive", "luxury", "affordable", "cost"]

  /** What `extract_travel_entities` finds; an empty list stands for a category the result
      does not hold. */
  datatype Entities = Entities(
    duration: Option<nat>, destinations: seq<string>, activities: seq<string>, budgetTerms: seq<string>)
  {
    /** The result dict: "duration" as "N days", then each category found, in this order. */
    function Fields(): (r: seq<(string, Json)>)
      ensures duration.Some? ==> Lookup(r, "duration") == Some(Str(NatToString(duration.value) + " days"))
    {
      (if duration.Some? then [("duration", Str(NatToString(duration.value) + " days"))] else [])
      + (if destinations != [] then [("destinations", StrList(destinations))] else [])
      + (if activities != [] then [("activities", StrList(activities))] else [])
      + (if budgetTerms != [] then [("budget_terms", StrList(budgetTerms))] else [])
    }
  }

  /** A list of strings as a JSON list. */
  function StrList(ws: seq<string>): (r: Json)
    ensures r.Arr? && |r.items| == |ws|
  {
    Arr(seq(|ws|, i requires 0 <= i < |ws| => Str(ws[i])))
  }

  /** `extract_travel_entities(text)`, on the lower-cased text. */
  function ExtractTravelEntities(text: string): (r: Entities)
    ensures r.duration == Duration(Lower(text))
    ensures forall k :: k in r.destinations <==> k in DestinationWords && Contains(Lower(text), k)
    ensures forall k :: k in r.activities <==> k in ActivityWords && Contains(Lower(text), k)
    ensures forall k :: k in r.budgetTerms <==> k in BudgetWords && Contains(Lower(text), k)
  {
    var low := Lower(text);
    Entities(Duration(low), KeywordsIn(DestinationWords, low), KeywordsIn(ActivityWords, low),
             KeywordsIn(BudgetWords, low))
  }

  // ---------------------------------------------------------------------------
  // json_serializable

  /** A `datetime`: its `isoformat()` text is left to a parameter. */
  datatype Moment = Moment(year: int, month: nat, day: nat, hour: nat, minute: nat, second: nat, microsecond: nat)

  /** The values `json_serializable` walks through: plain JSON values, datetimes, lists and
      dicts of them, and any other object, which it leaves alone. */
  datatype Value =
    | Plain(j: Json)
    | Stamp(m: Moment)
    | List(items: seq<Value>)
    | Dict(entries: seq<(string, Value)>)
    | Other(kind: string)

  /** No datetime anywhere in lists or dicts. */
  predicate NoStamps(v: Value) {
    match v
    case Stamp(_) => false
    case List(items) => forall i :: 0 <= i < |items| ==> NoStamps(items[i])
    case Dict(entries) => forall i :: 0 <= i < |entries| ==> NoStamps(entries[i].1)
    case _ => true
  }

  /** Same lists with the same lengths, same dicts with the same keys in the same order,
      and every leaf other than a datetime identical. */
  predicate SameShape(a: Value, b: Value) {
    match a
    case Stamp(_) => b.Plain? && b.j.Str?
    case List(items) =>
      b.List? && |b.items| == |items| && forall i :: 0 <= i < |items| ==> SameShape(items[i], b.items[i])
    case Dict(entries) =>
      b.Dict? && |b.entries| == |entries|
      && forall i :: 0 <= i < |entries| ==> b.entries[i].0 == entries[i].0 && SameShape(entries[i].1, b.entries[i].1)
    case _ => b == a
  }

  /** `json_serializable(obj)`: every datetime becomes its ISO text, through lists and dict
      values; anything else is returned as it is. */
  function JsonSerializable(v: Value, isoformat: Moment -> string): (r: Value)
    ensures SameShape(v, r)
    ensures NoStamps(r)
  {
    match v
    case Stamp(m) => Plain(Str(isoformat(m)))
    case List(items) => List(seq(|items|, i requires 0 <= i < |items| => JsonSerializable(items[i], isoformat)))
    case Dict(entries) =>
      Dict(seq(|entries|, i requires 0 <= i < |entries| => (entries[i].0, JsonSerializable(entries[i].1, isoformat))))
    case _ => v
  }

  /** A value without datetimes is returned unchanged, so the conversion is idempotent. */
  lemma {:induction false} SerializableUnchanged(v: Value, isoformat: Moment -> string)
    requires NoStamps(v)
    ensures JsonSerializable(v, isoformat) == v
  {
    match v
    case List(items) =>
      forall i | 0 <= i < |items| ensures JsonSerializable(items[i], isoformat) == items[i] {
        SerializableUnchanged(items[i], isoformat);
      }
      assert JsonSerializable(v, isoformat).items == items;
    case Dict(entries) =>
      forall i | 0 <= i < |entries| ensures JsonSerializable(entries[i].1, isoformat) == entries[i].1 {
        SerializableUnchanged(entries[i].1, isoformat);
      }
      assert JsonSerializable(v, isoformat).entries == entries;
    case _ =>
  }

  lemma SerializableIdempotent(v: Value, isoformat: Moment -> string)
    ensures JsonSerializable(JsonSerializable(v, isoformat), isoformat) == JsonSerializable(v, isoformat)
  {
    SerializableUnchanged(JsonSerializable(v, isoformat), isoformat);
  }
}

=== FILE: session_store.dfy ===
/** The conversation-session store of the MCP server (mcp_server/server.py): sessions keyed
    by id, each with a chat history, a context dict and an activity timestamp; an expiry
    sweep; and the tool registry that `/invoke_tool` resolves names against.
    Time is an integer number of seconds passed in by the caller. */
module SessionStore {
  import opened Wrappers
  import opened Json

  /** Who wrote a stored chat message. */
  datatype Speaker = Human | Ai

  datatype ChatMessage = ChatMessage(speaker: Speaker, content: Json)

  /** One entry of `get_messages()`: a role name and the message content. */
  datatype RoleMessage = RoleMessage(role: string, content: Json)

  datatype Session = Session(
    id: string,
    createdAt: int,
    lastActivity: int,
    history: seq<ChatMessage>,
    context: map<string, Json>,
    preferences: map<string, Json>)

  /** Sessions idle for longer than this many hours are swept. */
  const MaxAgeHours: int := 24
  const SecondsPerHour: int := 3600

  /** A fresh `ConversationSession`: no messages, empty context and preferences. */
  function NewSession(id: string, now: int): (s: Session)
    ensures s.id == id && s.history == [] && s.context == map[] && s.preferences == map[]
    ensures s.createdAt == now && s.lastActivity == now
  {
    Session(id, now, now, [], map[], map[])
  }

  /** `add_message`: "user" and "assistant" append one message; any other role appends
      nothing; the activity time moves to `now` in every case. */
  function AddMessage(s: Session, role: string, content: Json, now: int): (r: Session)
    ensures r.lastActivity == now
    ensures r.id == s.id && r.createdAt == s.createdAt
    ensures r.context == s.context && r.preferences == s.preferences
    ensures role == "user" ==> r.history == s.history + [ChatMessage(Human, content)]
    ensures role == "assistant" ==> r.history == s.history + [ChatMessage(Ai, content)]
    ensures role != "user" && role != "assistant" ==> r.history == s.history
  {
    var h :=
      if role == "user" then s.history + [ChatMessage(Human, content)]
      else if role == "assistant" then s.history + [ChatMessage(Ai, content)]
      else s.history;
    s.(history := h, lastActivity := now)
  }

  function RoleName(sp: Speaker): string {
    match sp
    case Human => "user"
    case Ai => "assistant"
  }

  /** `get_messages`: the stored messages in order, as role/content pairs. */
  function GetMessages(s: Session): (r: seq<RoleMessage>)
    ensures |r| == |s.history|
    ensures forall i :: 0 <= i < |r| ==>
      r[i].content == s.history[i].content
      && (r[i].role == "user" <==> s.history[i].speaker == Human)
      && (r[i].role == "assistant" <==> s.history[i].speaker == Ai)
  {
    seq(|s.history|, i requires 0 <= i < |s.history| =>
      RoleMessage(RoleName(s.history[i].speaker), s.history[i].content))
  }

  /** Adding a message of a known role adds exactly that entry at the end of `get_messages`. */
  lemma AddThenGetMessages(s: Session, role: string, content: Json, now: int)
    requires role == "user" || role == "assistant"
    ensures GetMessages(AddMessage(s, role, content, now)) == GetMessages(s) + [RoleMessage(role, content)]
  {
    var r := AddMessage(s, role, content, now);
    var lhs := GetMessages(r);
    var rhs := GetMessages(s) + [RoleMessage(role, content)];
    assert |lhs| == |rhs|;
    forall i | 0 <= i < |lhs| ensures lhs[i] == rhs[i] {
      if i < |s.history| {
        assert r.history[i] == s.history[i];
      }
    }
  }

  /** `is_expired`: strictly more than `maxAgeHours` since the last activity. */
  predicate IsExpired(s: Session, now: int, maxAgeHours: int) {
    now - s.lastActivity > maxAgeHours * SecondsPerHour
  }

  /** A session touched at time `t` survives until exactly 24 hours later and expires one
      second after that. */
  lemma ExpiryBoundary(s: Session, now: int, t: int)
    requires s.lastActivity == t
    ensures !IsExpired(s, t + MaxAgeHours * SecondsPerHour, MaxAgeHours)
    ensures IsExpired(s, t + MaxAgeHours * SecondsPerHour + 1, MaxAgeHours)
    ensures IsExpired(s, now, MaxAgeHours) <==> now > t + 86400
  {
  }

  // ---------------------------------------------------------------------------
  // The server's session map

  type Sessions = map<string, Session>

  /** `get_or_create_session`: a known id returns its session and leaves the map alone;
      an unknown id gets a fresh session stored under it. */
  function GetOrCreate(sessions: Sessions, id: string, now: int): (r: (Sessions, Session))
    ensures id in r.0 && r.0[id] == r.1
    ensures id in sessions ==> r.0 == sessions && r.1 == sessions[id]
    ensures id !in sessions ==> r.1 == NewSession(id, now) && r.0 == sessions[id := r.1]
  {
    if id in sessions then (sessions, sessions[id])
    else
      var s := NewSession(id, now);
      (sessions[id := s], s)
  }

  /** Asking twice for the same id yields the same session and no further change. */
  lemma GetOrCreateIdempotent(sessions: Sessions, id: string, now: int, later: int)
    ensures var (m1, s1) := GetOrCreate(sessions, id, now);
            GetOrCreate(m1, id, later) == (m1, s1)
  {
  }

  /** `cleanup_expired_sessions`: drop every session idle for more than 24 hours. */
  function Cleanup(sessions: Sessions, now: int): (r: Sessions)
    ensures forall id :: id in r ==> id in sessions && r[id] == sessions[id]
    ensures forall id :: id in r ==> !IsExpired(r[id], now, MaxAgeHours)
    ensures forall id :: id in sessions && !IsExpired(sessions[id], now, MaxAgeHours) ==> id in r
  {
    map id | id in sessions && !IsExpired(sessions[id], now, MaxAgeHours) :: sessions[id]
  }

  /** A second sweep at the same time removes nothing more. */
  lemma CleanupIdempotent(sessions: Sessions, now: int)
    ensures Cleanup(Cleanup(sessions, now), now) == Cleanup(sessions, now)
  {
  }

  // ---------------------------------------------------------------------------
  // HTTP outcomes

  /** A route's outcome: a value, or an `HTTPException` with status code and detail. */
  datatype Reply<T> = Ok(value: T) | HttpError(status: int, detail: string)

  const NotFound: int := 404
  const ServerError: int := 500

  /** The body of `GET /conversation/{id}`. */
  datatype ConversationView = ConversationView(
    sessionId: string,
    history: seq<RoleMessage>,
    context: map<string, Json>,
    createdAt: int,
    lastActivity: int)

  /** `GET /conversation/{id}`: the session's history and context, or 404. */
  function GetConversation(sessions: Sessions, id: string): (r: Reply<ConversationView>)
    ensures r.HttpError? <==> id !in sessions
    ensures r.HttpError? ==> r.status == NotFound
    ensures r.Ok? ==> r.value.sessionId == id && r.value.history == GetMessages(sessions[id])
                      && r.value.context == sessions[id].context
  {
    if id !in sessions then HttpError(NotFound, "Session not found")
    else
      var s := sessions[id];
      Ok(ConversationView(id, GetMessages(s), s.context, s.createdAt, s.lastActivity))
  }

  /** `DELETE /conversation/{id}`: removes that one session, or 404 when it is unknown. */
  function DeleteConversation(sessions: Sessions, id: string): (r: (Sessions, Reply<string>))
    ensures r.1.HttpError? <==> id !in sessions
    ensures r.1.HttpError? ==> r.1.status == NotFound && r.0 == sessions
    ensures id !in r.0
    ensures forall k :: k != id ==> (k in r.0 <==> k in sessions)
    ensures forall k :: k in r.0 ==> r.0[k] == sessions[k]
  {
    if id in sessions then (sessions - {id}, Ok("Session deleted"))
    else (sessions, HttpError(NotFound, "Session not found"))
  }

  /** Once deleted, a conversation is not found. */
  lemma DeleteThenGet(sessions: Sessions, id: string)
    ensures GetConversation(DeleteConversation(sessions, id).0, id).HttpError?
    ensures DeleteConversation(DeleteConversation(sessions, id).0, id).1.HttpError?
  {
  }

  // ---------------------------------------------------------------------------
  // Tools

  /** `register_tool`: the name now resolves to this tool; other names are untouched. */
  function RegisterTool<T>(tools: map<string, T>, name: string, tool: T): (r: map<string, T>)
    ensures name in r && r[name] == tool
    ensures forall k :: k != name ==> (k in r <==> k in tools) && (k in tools ==> r[k] == tools[k])
  {
    tools[name := tool]
  }

  /** `POST /invoke_tool`: 404 for an unregistered name; otherwise the tool's result, or
      500 when running it raises. `run` stands for the tool's own `arun`. */
  function InvokeTool<T>(tools: map<string, T>, name: string, params: Json,
                         run: (T, Json) -> Result<Json>): (r: Reply<Json>)
    ensures name !in tools ==> r == HttpError(NotFound, "Tool " + name + " not found")
    ensures name in tools ==> (r.Ok? <==> run(tools[name], params).Success?)
    ensures name in tools && r.Ok? ==> r.value == run(tools[name], params).value
    ensures r.HttpError? && name in tools ==> r.status == ServerError
  {
    if name !in tools then HttpError(NotFound, "Tool " + name + " not found")
    else
      match run(tools[name], params)
      case Success(v) => Ok(v)
      case Failure(e) => HttpError(ServerError, e)
  }

  /** A registered tool is always found: invoking it never answers 404. */
  lemma RegisterThenInvoke<T>(tools: map<string, T>, name: string, tool: T, params: Json,
                              run: (T, Json) -> Result<Json>)
    ensures var r := InvokeTool(RegisterTool(tools, name, tool), name, params, run);
            (r.Ok? <==> run(tool, params).Success?) && (r.HttpError? ==> r.status != NotFound)
  {
  }

  // ---------------------------------------------------------------------------
  // POST /agent/execute

  datatype AgentRequest = AgentRequest(query: string, sessionId: Option<string>, context: map<string, Json>)

  datatype AgentReply = AgentReply(result: seq<(string, Json)>, sessionId: string, history: seq<RoleMessage>)

  /** The server: its sessions and whether the agent executor was set up. */
  datatype Server = Server(sessions: Sessions, agentReady: bool)

  /** `request.session_id or str(uuid.uuid4())`: a missing or empty id gets a fresh one. */
  function ResolveSessionId(requested: Option<string>, freshId: string): (id: string)
    ensures requested.Some? && requested.value != "" ==> id == requested.value
    ensures requested.None? || requested.value == "" ==> id == freshId
  {
    match requested
    case Some(s) => if s != "" then s else freshId
    case None => freshId
  }

  /** The session as it stands just before the agent runs: resolved, user turn appended,
      request context merged over the stored one (later keys win). */
  function PrepareSession(swept: Sessions, req: AgentRequest, id: string, now: int): (s: Session)
  {
    var (_, s0) := GetOrCreate(swept, id, now);
    var s1 := AddMessage(s0, "user", Str(req.query), now);
    s1.(context := s1.context + req.context)
  }

  /** `execute_agent`. `agent` stands for the LangChain executor: given the query, the
      session context and the history it returns a result dict, or raises.
      `now` is the time the request arrives, `doneAt` the time the agent returns. */
  function ExecuteAgent(server: Server, req: AgentRequest, now: int, doneAt: int, freshId: string,
                        agent: (string, map<string, Json>, seq<ChatMessage>) -> Result<seq<(string, Json)>>)
    : (r: (Server, Reply<AgentReply>))
  {
    if !server.agentReady then (server, HttpError(ServerError, "Agent not initialized"))
    else
      var swept := Cleanup(server.sessions, now);
      var id := ResolveSessionId(req.sessionId, freshId);
      var s := PrepareSession(swept, req, id, now);
      var stored := Server(swept[id := s], true);
      match agent(req.query, s.context, s.history)
      case Failure(e) => (stored, HttpError(ServerError, e))
      case Success(result) =>
        var s' := match Lookup(result, "output")
                  case Some(out) => AddMessage(s, "assistant", out, doneAt)
                  case None => s;
        (Server(swept[id := s'], true), Ok(AgentReply(result, id, GetMessages(s'))))
  }

  /** What `execute_agent` does to the store: sweep first, then touch only the resolved
      session, whose history grows by the user turn and, when the agent's result has an
      "output", by the assistant turn; its context is the old one overlaid by the request's.
      A failing agent still leaves the sweep and the user turn in place. */
  lemma ExecuteAgentEffect(server: Server, req: AgentRequest, now: int, doneAt: int, freshId: string,
                           agent: (string, map<string, Json>, seq<ChatMessage>) -> Result<seq<(string, Json)>>)
    requires server.agentReady
    ensures var (server', reply) := ExecuteAgent(server, req, now, doneAt, freshId, agent);
            var id := ResolveSessionId(req.sessionId, freshId);
            var swept := Cleanup(server.sessions, now);
            var before := if id in swept then swept[id].history else [];
            var outcome := agent(req.query, PrepareSession(swept, req, id, now).context,
                                 PrepareSession(swept, req, id, now).history);
            && id in server'.sessions
            && (forall k :: k != id ==> (k in server'.sessions <==> k in swept))
            && (forall k :: k != id && k in swept ==> server'.sessions[k] == swept[k])
            && server'.sessions[id].context
               == (if id in swept then swept[id].context else map[]) + req.context
            && (reply.Ok? <==> outcome.Success?)
            && (outcome.Failure? ==>
                  server'.sessions[id].history == before + [ChatMessage(Human, Str(req.query))])
            && (outcome.Success? && Lookup(outcome.value, "output").Some? ==>
                  server'.sessions[id].history
                  == before + [ChatMessage(Human, Str(req.query)),
                               ChatMessage(Ai, Lookup(outcome.value, "output").value)])
            && (outcome.Success? && Lookup(outcome.value, "output").None? ==>
                  server'.sessions[id].history == before + [ChatMessage(Human, Str(req.query))])
            && (reply.Ok? ==> reply.value.sessionId == id
                              && reply.value.history == GetMessages(server'.sessions[id]))
  {
    var id := ResolveSessionId(req.sessionId, freshId);
    var swept := Cleanup(server.sessions, now);
    var s := PrepareSession(swept, req, id, now);
    var before := if id in swept then swept[id].history else [];
    assert s.history == before + [ChatMessage(Human, Str(req.query))];
    match agent(req.query, s.context, s.history)
    case Failure(_) =>
    case Success(result) =>
      match Lookup(result, "output")
      case Some(out) =>
        assert before + [ChatMessage(Human, Str(req.query))] + [ChatMessage(Ai, out)]
            == before + [ChatMessage(Human, Str(req.query)), ChatMessage(Ai, out)];
      case None =>
  }

  /** Without an agent executor every request answers 500 and the store is untouched. */
  lemma ExecuteAgentNotReady(server: Server, req: AgentRequest, now: int, doneAt: int, freshId: string,
                             agent: (string, map<string, Json>, seq<ChatMessage>) -> Result<seq<(string, Json)>>)
    requires !server.agentReady
    ensures ExecuteAgent(server, req, now, doneAt, freshId, agent)
            == (server, HttpError(ServerError, "Agent not initialized"))
  {
  }
}

=== FILE: simple_backend.dfy ===
/** The keyword router of the simplified backend (simple_backend.py): a request is a
    currency conversion, a flight search or anything else, which gets the help text.
    The model stops at the tool call: it gives which tool is called with which arguments.
    The route is chosen on the lower-cased query, but the parameters are read from the
    words of the query as typed. */
module SimpleBackend {
  import opened Wrappers
  import opened Text
  import opened Json

  // ---------------------------------------------------------------------------
  // Currency parameters

  /** The arguments of a currency conversion. */
  datatype Conversion = Conversion(amount: Json, from: string, to: string)

  /** 100 US dollars to euros. */
  const DefaultConversion := Conversion(Int(100), "USD", "EUR")

  /** A word that `word.replace('.', '').isdigit()` accepts. */
  predicate IsAmountWord(word: string) {
    IsDigitString(RemoveChar(word, '.'))
  }

  /** A word taken as a currency code: three letters, all upper case. */
  predicate IsCodeWord(word: string) {
    |word| == 3 && IsUpperString(word)
  }

  /** Python `words[max(0, i - 2):i]`: the up to two words before word `i`. */
  function Before(words: seq<string>, i: nat): (r: seq<string>)
    requires i <= |words|
    ensures |r| <= 2
    ensures forall w :: w in r <==> exists j :: i - 2 <= j < i && 0 <= j && words[j] == w
  {
    if i >= 2 then words[i - 2..i] else words[..i]
  }

  /** The loop body for word `i`: an amount word sets the amount (`float(word)`, which
      raises for a word such as "1.2.3"); a code word becomes the source currency after
      "from" or a number, else the target currency after "to". */
  function ConversionStep(words: seq<string>, i: nat, c: Conversion): (r: Result<Conversion>)
    requires i < |words|
    ensures r.Failure? <==> IsAmountWord(words[i]) && ParseFloat(words[i]).Failure?
    ensures r.Success? ==> r.value.from == c.from || r.value.from == words[i]
    ensures r.Success? ==> r.value.to == c.to || r.value.to == words[i]
  {
    var word := words[i];
    var amount :- if IsAmountWord(word) then ParseFloat(word) else Success(c.amount);
    if IsCodeWord(word) then
      if "from" in Before(words, i) || (i > 0 && IsDigitString(words[i - 1])) then
        Success(Conversion(amount, word, c.to))
      else if "to" in Before(words, i) then Success(Conversion(amount, c.from, word))
      else Success(Conversion(amount, c.from, c.to))
    else Success(Conversion(amount, c.from, c.to))
  }

  /** The loop from word `i` on. */
  function ConversionFrom(words: seq<string>, i: nat, c: Conversion): (r: Result<Conversion>)
    requires i <= |words|
    ensures r.Success? ==> r.value.from == c.from || (r.value.from in words[i..] && IsCodeWord(r.value.from))
    ensures r.Success? ==> r.value.to == c.to || (r.value.to in words[i..] && IsCodeWord(r.value.to))
    decreases |words| - i
  {
    if i == |words| then Success(c)
    else
      var next :- ConversionStep(words, i, c);
      ConversionFrom(words, i + 1, next)
  }

  /** The conversion parameters read from the words of the query: the currencies are the
      defaults or code words of the query. */
  function ConversionParams(words: seq<string>): (r: Result<Conversion>)
    ensures r.Success? ==> r.value.from == "USD" || (r.value.from in words && IsCodeWord(r.value.from))
    ensures r.Success? ==> r.value.to == "EUR" || (r.value.to in words && IsCodeWord(r.value.to))
  {
    ConversionFrom(words, 0, DefaultConversion)
  }

  /** Words that are neither amounts nor codes leave the defaults in place. */
  lemma {:induction false} PlainWordsKeepDefaults(words: seq<string>, i: nat, c: Conversion)
    requires i <= |words|
    requires forall j :: i <= j < |words| ==> !IsAmountWord(words[j]) && !IsCodeWord(words[j])
    ensures ConversionFrom(words, i, c) == Success(c)
    decreases |words| - i
  {
    if i < |words| {
      assert ConversionStep(words, i, c) == Success(c);
      PlainWordsKeepDefaults(words, i + 1, c);
    }
  }

  lemma DefaultsWithoutAmountOrCodes(words: seq<string>)
    requires forall j :: 0 <= j < |words| ==> !IsAmountWord(words[j]) && !IsCodeWord(words[j])
    ensures ConversionParams(words) == Success(Conversion(Int(100), "USD", "EUR"))
  {
    PlainWordsKeepDefaults(words, 0, DefaultConversion);
  }

  /** A word of digits has no point to remove. */
  lemma DigitWordIsAmount(n: string)
    requires IsDigitString(n)
    ensures IsAmountWord(n) && ParseFloat(n) == Success(Float(DigitsValue(n), 0))
    ensures !IsCodeWord(n)
  {
    RemoveAbsentChar(n, '.');
  }

  /** A word of letters has no point to remove and is no number. */
  lemma LetterWordIsNoAmount(w: string)
    requires IsAlphaString(w)
    ensures !IsAmountWord(w)
  {
    RemoveAbsentChar(w, '.');
    assert !IsDigit(w[0]);
  }

  lemma PlainStep(words: seq<string>, i: nat, c: Conversion)
    requires i < |words| && !IsAmountWord(words[i]) && !IsCodeWord(words[i])
    ensures ConversionStep(words, i, c) == Success(c)
  {
  }

  lemma AmountStep(words: seq<string>, i: nat, c: Conversion)
    requires i < |words| && IsDigitString(words[i])
    ensures ConversionStep(words, i, c) == Success(c.(amount := Float(DigitsValue(words[i]), 0)))
  {
    DigitWordIsAmount(words[i]);
  }

  lemma SourceStep(words: seq<string>, i: nat, c: Conversion)
    requires 0 < i < |words| && IsCodeWord(words[i]) && IsAlphaString(words[i]) && IsDigitString(words[i - 1])
    ensures ConversionStep(words, i, c) == Success(c.(from := words[i]))
  {
    LetterWordIsNoAmount(words[i]);
  }

  lemma TargetStep(words: seq<string>, i: nat, c: Conversion)
    requires 0 < i < |words| && IsCodeWord(words[i]) && IsAlphaString(words[i]) && !IsDigitString(words[i - 1])
    requires "to" in Before(words, i) && "from" !in Before(words, i)
    ensures ConversionStep(words, i, c) == Success(c.(to := words[i]))
  {
    LetterWordIsNoAmount(words[i]);
  }

  /** One turn of the loop. */
  lemma FromStep(words: seq<string>, i: nat, c: Conversion, next: Conversion)
    requires i < |words| && ConversionStep(words, i, c) == Success(next)
    ensures ConversionFrom(words, i, c) == ConversionFrom(words, i + 1, next)
  {
  }

  /** The words of "verb N aaa to bbb". */
  function AmountQuery(verb: string, n: string, a: string, b: string): seq<string> {
    [verb, n, a, "to", b]
  }

  /** The verb changes nothing and the number sets the amount. */
  lemma AmountQueryStart(verb: string, n: string, a: string, b: string)
    requires IsAlphaString(verb) && |verb| != 3
    requires IsDigitString(n)
    ensures ConversionStep(AmountQuery(verb, n, a, b), 0, DefaultConversion) == Success(DefaultConversion)
    ensures ConversionStep(AmountQuery(verb, n, a, b), 1, DefaultConversion)
            == Success(Conversion(Float(DigitsValue(n), 0), "USD", "EUR"))
  {
    var words := AmountQuery(verb, n, a, b);
    LetterWordIsNoAmount(verb);
    PlainStep(words, 0, DefaultConversion);
    AmountStep(words, 1, DefaultConversion);
  }

  /** The code after the number is the source. */
  lemma AmountQuerySource(verb: string, n: string, a: string, b: string, c: Conversion)
    requires IsDigitString(n) && IsCodeWord(a) && IsAlphaString(a)
    ensures ConversionStep(AmountQuery(verb, n, a, b), 2, c) == Success(c.(from := a))
  {
    SourceStep(AmountQuery(verb, n, a, b), 2, c);
  }

  /** "to" changes nothing. */
  lemma AmountQueryTo(verb: string, n: string, a: string, b: string, c: Conversion)
    ensures ConversionStep(AmountQuery(verb, n, a, b), 3, c) == Success(c)
  {
    LetterWordIsNoAmount("to");
    PlainStep(AmountQuery(verb, n, a, b), 3, c);
  }

  /** The code after "to" is the target. */
  lemma AmountQueryTarget(verb: string, n: string, a: string, b: string, c: Conversion)
    requires IsCodeWord(a) && IsCodeWord(b) && IsAlphaString(b)
    ensures ConversionStep(AmountQuery(verb, n, a, b), 4, c) == Success(c.(to := b))
  {
    var words := AmountQuery(verb, n, a, b);
    assert Before(words, 4) == [a, "to"];
    assert !IsDigit(words[3][0]);
    TargetStep(words, 4, c);
  }

  /** "Convert 100 USD to EUR", the example of the help text, in its general form: the
      code after the number is the source, the code after "to" the target. */
  lemma AmountFromTo(verb: string, n: string, a: string, b: string)
    requires IsAlphaString(verb) && |verb| != 3
    requires IsDigitString(n)
    requires IsCodeWord(a) && IsAlphaString(a) && IsCodeWord(b) && IsAlphaString(b)
    ensures ConversionParams(AmountQuery(verb, n, a, b)) == Success(Conversion(Float(DigitsValue(n), 0), a, b))
  {
    var words := AmountQuery(verb, n, a, b);
    var amount := Float(DigitsValue(n), 0);
    var c2 := Conversion(amount, "USD", "EUR");
    var c3 := Conversion(amount, a, "EUR");
    var c4 := Conversion(amount, a, b);
    AmountQueryStart(verb, n, a, b);
    AmountQuerySource(verb, n, a, b, c2);
    AmountQueryTo(verb, n, a, b, c3);
    AmountQueryTarget(verb, n, a, b, c3);
    FromStep(words, 0, DefaultConversion, DefaultConversion);
    FromStep(words, 1, DefaultConversion, c2);
    FromStep(words, 2, c2, c3);
    FromStep(words, 3, c3, c3);
    FromStep(words, 4, c3, c4);
    assert ConversionFrom(words, 5, c4) == Success(c4);
  }

  // ---------------------------------------------------------------------------
  // Flight parameters

  /** The arguments of a flight search and the passenger count that goes with them. */
  datatype FlightQuery = FlightQuery(origin: string, destination: string, date: string, passengers: int)

  const DefaultFlightQuery := FlightQuery("", "", "2025-07-01", 1)

  /** A label: a token ending in ':'. */
  predicate IsLabel(part: string) {
    |part| > 0 && part[|part| - 1] == ':'
  }

  /** `parts[i:i + 2]` joined by a space: the destination as the loop reads it. */
  function TwoTokens(parts: seq<string>, i: nat): string
    requires i <= |parts|
  {
    Join(" ", if i + 2 <= |parts| then parts[i..i + 2] else parts[i..])
  }

  /** The tokens from `j` up to the first label. */
  function UpToLabel(parts: seq<string>, j: nat): (r: seq<string>)
    requires j <= |parts|
    ensures |r| <= |parts| - j && r == parts[j..j + |r|]
    ensures forall k :: 0 <= k < |r| ==> !IsLabel(r[k])
    ensures j + |r| == |parts| || IsLabel(parts[j + |r|])
    decreases |parts| - j
  {
    if j == |parts| || IsLabel(parts[j]) then [] else [parts[j]] + UpToLabel(parts, j + 1)
  }

  /** The destination read up to the next label, as the minimal backend reads it;
      `ExecuteAgentCorrected` uses this reading. */
  function DestinationAt(parts: seq<string>, i: nat): string
    requires i <= |parts|
  {
    Join(" ", UpToLabel(parts, i))
  }

  /** The loop body for token `i`, the destination read by `destination`; `int()` of the
      passenger count raises `ValueError` for a token that is not an integer. */
  function FlightStepWith(parts: seq<string>, i: nat, q: FlightQuery, destination: (seq<string>, nat) --> string)
    : (r: Result<FlightQuery>)
    requires i < |parts|
    requires forall j :: 0 <= j <= |parts| ==> destination.requires(parts, j)
    ensures r.Failure? <==> parts[i] == "num_passengers:" && i + 1 < |parts| && ParseInt(parts[i + 1]).None?
  {
    var part := parts[i];
    if i + 1 >= |parts| then Success(q)
    else if part == "origin:" then Success(q.(origin := parts[i + 1]))
    else if part == "destination:" then Success(q.(destination := destination(parts, i + 1)))
    else if part == "date:" then Success(q.(date := parts[i + 1]))
    else if part == "num_passengers:" then
      var n :- Need(ParseInt(parts[i + 1]), "ValueError");
      Success(q.(passengers := n))
    else Success(q)
  }

  function FlightFromWith(parts: seq<string>, i: nat, q: FlightQuery, destination: (seq<string>, nat) --> string)
    : (r: Result<FlightQuery>)
    requires i <= |parts|
    requires forall j :: 0 <= j <= |parts| ==> destination.requires(parts, j)
    decreases |parts| - i
  {
    if i == |parts| then Success(q)
    else
      var next :- FlightStepWith(parts, i, q, destination);
      FlightFromWith(parts, i + 1, next, destination)
  }

  /** The flight parameters as the loop is written: the destination is the two tokens
      after "destination:", whatever they are. */
  function FlightParamsAsWritten(parts: seq<string>): Result<FlightQuery> {
    FlightFromWith(parts, 0, DefaultFlightQuery, TwoTokens)
  }

  /** The flight parameters with the destination read up to the next label. */
  function FlightParams(parts: seq<string>): Result<FlightQuery> {
    FlightFromWith(parts, 0, DefaultFlightQuery, DestinationAt)
  }

  /** The query the help text offers, as split into tokens, with one-word places. */
  function HelpExample(origin: string, destination: string): seq<string> {
    ["origin:", origin, "destination:", destination, "date:", "2025-07-01", "num_passengers:", "2"]
  }

  /** As written, the help text's own example searches for a destination that ends in the
      label "date:". */
  lemma {:induction false} HelpExampleAsWritten(origin: string, destination: string)
    requires !IsLabel(origin) && !IsLabel(destination)
    requires origin != "" && destination != ""
    ensures FlightParamsAsWritten(HelpExample(origin, destination))
            == Success(FlightQuery(origin, destination + " date:", "2025-07-01", 2))
  {
    var parts := HelpExample(origin, destination);
    assert parts[3..5] == [destination, "date:"];
    assert [destination, "date:"][1..] == ["date:"];
    assert Join(" ", [destination, "date:"]) == destination + " " + "date:";
    assert TwoTokens(parts, 3) == destination + " date:";
    PassengerDigits();
    FlightSteps(parts, TwoTokens, origin, destination, destination + " date:");
  }

  /** With the destination read up to the next label, the example searches for the
      destination it names. */
  lemma {:induction false} HelpExampleRead(origin: string, destination: string)
    requires !IsLabel(origin) && !IsLabel(destination)
    requires origin != "" && destination != ""
    ensures FlightParams(HelpExample(origin, destination))
            == Success(FlightQuery(origin, destination, "2025-07-01", 2))
  {
    var parts := HelpExample(origin, destination);
    assert UpToLabel(parts, 4) == [];
    assert UpToLabel(parts, 3) == [destination];
    assert DestinationAt(parts, 3) == destination;
    PassengerDigits();
    FlightSteps(parts, DestinationAt, origin, destination, destination);
  }

  lemma PassengerDigits()
    ensures ParseInt("2") == Some(2)
  {
    assert IsDigitString("2");
    assert DigitsValue("2") == DigitsValue("") * 10 + 2;
  }

  /** The loop over the help example, for any way of reading the destination. */
  lemma FlightSteps(parts: seq<string>, destination: (seq<string>, nat) --> string, o: string, p3: string, d: string)
    requires parts == ["origin:", o, "destination:", p3, "date:", "2025-07-01", "num_passengers:", "2"]
    requires forall j :: 0 <= j <= |parts| ==> destination.requires(parts, j)
    requires destination(parts, 3) == d
    requires o != "origin:" && o != "destination:" && o != "date:" && o != "num_passengers:"
    requires p3 != "origin:" && p3 != "destination:" && p3 != "date:" && p3 != "num_passengers:"
    requires ParseInt("2") == Some(2)
    ensures FlightFromWith(parts, 0, DefaultFlightQuery, destination) == Success(FlightQuery(o, d, "2025-07-01", 2))
  {
    var q1 := FlightQuery(o, "", "2025-07-01", 1);
    var q3 := FlightQuery(o, d, "2025-07-01", 1);
    var q7 := FlightQuery(o, d, "2025-07-01", 2);
    assert FlightStepWith(parts, 0, DefaultFlightQuery, destination) == Success(q1);
    assert FlightStepWith(parts, 1, q1, destination) == Success(q1);
    assert FlightStepWith(parts, 2, q1, destination) == Success(q3);
    assert FlightStepWith(parts, 3, q3, destination) == Success(q3);
    assert FlightStepWith(parts, 4, q3, destination) == Success(q3);
    assert FlightStepWith(parts, 5, q3, destination) == Success(q3);
    assert FlightStepWith(parts, 6, q3, destination) == Success(q7);
    assert FlightStepWith(parts, 7, q7, destination) == Success(q7);
    assert FlightFromWith(parts, 8, q7, destination) == Success(q7);
    assert FlightFromWith(parts, 7, q7, destination) == Success(q7);
    assert FlightFromWith(parts, 6, q3, destination) == Success(q7);
    assert FlightFromWith(parts, 5, q3, destination) == Success(q7);
    assert FlightFromWith(parts, 4, q3, destination) == Success(q7);
    assert FlightFromWith(parts, 3, q3, destination) == Success(q7);
    assert FlightFromWith(parts, 2, q1, destination) == Success(q7);
    assert FlightFromWith(parts, 1, q1, destination) == Success(q7);
  }

  // ---------------------------------------------------------------------------
  // execute_agent

  /** What a request leads to: a tool call with its arguments, the help text, or an
      exception, which the endpoint turns into an HTTP 500 error. */
  datatype Reply =
    | Convert(conversion: Conversion)
    | SearchFlights(query: FlightQuery)
    | Help
    | ServerError(exception: string)
  {
    /** The HTTP status of the reply. */
    function Status(): int {
      if ServerError? then 500 else 200
    }
  }

  /** The route to the currency tool: "convert" and a currency name in the lower-cased query. */
  predicate AsksConversion(low: string) {
    Contains(low, "convert") && (Contains(low, "usd") || Contains(low, "eur") || Contains(low, "jpy"))
  }

  /** The route to the flight tool: both labels in the lower-cased query. */
  predicate AsksFlights(low: string) {
    Contains(low, "origin:") && Contains(low, "destination:")
  }

  /** `execute_agent` for a given reading `parse` of the flight parameters. `hasCurrency`
      and `hasFlight` say whether the tools were set up; `dateOk` says whether
      `strptime(date, '%Y-%m-%d')` accepts the date. Without its tool, or without an origin
      or destination, a request falls through to the help. */
  function ExecuteAgentWith(query: string, hasCurrency: bool, hasFlight: bool, dateOk: string -> bool,
                            parse: seq<string> -> Result<FlightQuery>): (r: Reply)
    ensures !AsksConversion(Lower(query)) && !AsksFlights(Lower(query)) ==> r == Help
    ensures r.Convert? ==> AsksConversion(Lower(query)) && hasCurrency
                           && ConversionParams(Words(query)) == Success(r.conversion)
    ensures r.SearchFlights? ==>
              !AsksConversion(Lower(query)) && AsksFlights(Lower(query)) && hasFlight
              && parse(Words(query)) == Success(r.query)
              && r.query.origin != "" && r.query.destination != "" && dateOk(r.query.date)
    ensures AsksConversion(Lower(query)) && hasCurrency && ConversionParams(Words(query)).Success? ==>
              r == Convert(ConversionParams(Words(query)).value)
    ensures AsksConversion(Lower(query)) && !hasCurrency && ConversionParams(Words(query)).Success? ==> r == Help
    ensures AsksConversion(Lower(query)) ==> !r.SearchFlights?
    ensures !AsksConversion(Lower(query)) && AsksFlights(Lower(query)) && hasFlight
            && parse(Words(query)).Success? && parse(Words(query)).value.origin != ""
            && parse(Words(query)).value.destination != "" && dateOk(parse(Words(query)).value.date) ==>
              r == SearchFlights(parse(Words(query)).value)
    ensures !AsksConversion(Lower(query)) && AsksFlights(Lower(query)) && parse(Words(query)).Success?
            && (!hasFlight || parse(Words(query)).value.origin == "" || parse(Words(query)).value.destination == "") ==>
              r == Help
    ensures r.ServerError? <==>
              (AsksConversion(Lower(query)) && ConversionParams(Words(query)).Failure?)
              || (!AsksConversion(Lower(query)) && AsksFlights(Lower(query))
                  && (parse(Words(query)).Failure?
                      || (hasFlight && parse(Words(query)).value.origin != ""
                          && parse(Words(query)).value.destination != ""
                          && !dateOk(parse(Words(query)).value.date))))
  {
    var low := Lower(query);
    if AsksConversion(low) then
      match ConversionParams(Words(query))
      case Failure(e) => ServerError(e)
      case Success(c) => if hasCurrency then Convert(c) else Help
    else if AsksFlights(low) then
      match parse(Words(query))
      case Failure(e) => ServerError(e)
      case Success(f) =>
        if hasFlight && f.origin != "" && f.destination != "" then
          if dateOk(f.date) then SearchFlights(f) else ServerError("ValueError")
        else Help
    else Help
  }

  /** `execute_agent` as written: the destination is the two tokens after its label. */
  function ExecuteAgent(query: string, hasCurrency: bool, hasFlight: bool, dateOk: string -> bool): (r: Reply)
    ensures !AsksConversion(Lower(query)) && !AsksFlights(Lower(query)) ==> r == Help
    ensures r.Convert? ==> AsksConversion(Lower(query)) && hasCurrency
                           && ConversionParams(Words(query)) == Success(r.conversion)
    ensures AsksConversion(Lower(query)) && hasCurrency && ConversionParams(Words(query)).Success? ==>
              r == Convert(ConversionParams(Words(query)).value)
    ensures AsksConversion(Lower(query)) && !hasCurrency && ConversionParams(Words(query)).Success? ==> r == Help
    ensures AsksConversion(Lower(query)) ==> !r.SearchFlights?
    ensures r.SearchFlights? ==>
              !AsksConversion(Lower(query)) && AsksFlights(Lower(query)) && hasFlight
              && FlightParamsAsWritten(Words(query)) == Success(r.query)
              && r.query.origin != "" && r.query.destination != "" && dateOk(r.query.date)
    ensures !AsksConversion(Lower(query)) && AsksFlights(Lower(query)) && hasFlight
            && FlightParamsAsWritten(Words(query)).Success? && FlightParamsAsWritten(Words(query)).value.origin != ""
            && FlightParamsAsWritten(Words(query)).value.destination != "" && dateOk(FlightParamsAsWritten(Words(query)).value.date) ==>
              r == SearchFlights(FlightParamsAsWritten(Words(query)).value)
    ensures !AsksConversion(Lower(query)) && AsksFlights(Lower(query)) && FlightParamsAsWritten(Words(query)).Success?
            && (!hasFlight || FlightParamsAsWritten(Words(query)).value.origin == "" || FlightParamsAsWritten(Words(query)).value.destination == "") ==>
              r == Help
    ensures r.ServerError? <==>
              (AsksConversion(Lower(query)) && ConversionParams(Words(query)).Failure?)
              || (!AsksConversion(Lower(query)) && AsksFlights(Lower(query))
                  && (FlightParamsAsWritten(Words(query)).Failure?
                      || (hasFlight && FlightParamsAsWritten(Words(query)).value.origin != ""
                          && FlightParamsAsWritten(Words(query)).value.destination != ""
                          && !dateOk(FlightParamsAsWritten(Words(query)).value.date))))
  {
    ExecuteAgentWith(query, hasCurrency, hasFlight, dateOk, FlightParamsAsWritten)
  }

  /** `execute_agent` with the destination read up to the next label. */
  function ExecuteAgentCorrected(query: string, hasCurrency: bool, hasFlight: bool, dateOk: string -> bool): (r: Reply)
    ensures !AsksConversion(Lower(query)) && !AsksFlights(Lower(query)) ==> r == Help
    ensures r.Convert? ==> AsksConversion(Lower(query)) && hasCurrency
                           && ConversionParams(Words(query)) == Success(r.conversion)
    ensures AsksConversion(Lower(query)) && hasCurrency && ConversionParams(Words(query)).Success? ==>
              r == Convert(ConversionParams(Words(query)).value)
    ensures AsksConversion(Lower(query)) && !hasCurrency && ConversionParams(Words(query)).Success? ==> r == Help
    ensures AsksConversion(Lower(query)) ==> !r.SearchFlights?
    ensures r.SearchFlights? ==>
              !AsksConversion(Lower(query)) && AsksFlights(Lower(query)) && hasFlight
              && FlightParams(Words(query)) == Success(r.query)
              && r.query.origin != "" && r.query.destination != "" && dateOk(r.query.date)
    ensures !AsksConversion(Lower(query)) && AsksFlights(Lower(query)) && hasFlight
            && FlightParams(Words(query)).Success? && FlightParams(Words(query)).value.origin != ""
            && FlightParams(Words(query)).value.destination != "" && dateOk(FlightParams(Words(query)).value.date) ==>
              r == SearchFlights(FlightParams(Words(query)).value)
    ensures !AsksConversion(Lower(query)) && AsksFlights(Lower(query)) && FlightParams(Words(query)).Success?
            && (!hasFlight || FlightParams(Words(query)).value.origin == "" || FlightParams(Words(query)).value.destination == "") ==>
              r == Help
    ensures r.ServerError? <==>
              (AsksConversion(Lower(query)) && ConversionParams(Words(query)).Failure?)
              || (!AsksConversion(Lower(query)) && AsksFlights(Lower(query))
                  && (FlightParams(Words(query)).Failure?
                      || (hasFlight && FlightParams(Words(query)).value.origin != ""
                          && FlightParams(Words(query)).value.destination != ""
                          && !dateOk(FlightParams(Words(query)).value.date))))
  {
    ExecuteAgentWith(query, hasCurrency, hasFlight, dateOk, FlightParams)
  }

  /** The two readings lead to different replies only where they read the flight
      parameters differently. */
  lemma ExecuteAgentsAgree(query: string, hasCurrency: bool, hasFlight: bool, dateOk: string -> bool)
    requires FlightParamsAsWritten(Words(query)) == FlightParams(Words(query))
    ensures ExecuteAgent(query, hasCurrency, hasFlight, dateOk) == ExecuteAgentCorrected(query, hasCurrency, hasFlight, dateOk)
  {
  }

  /** Routing ignores case; the parameters do not. */
  lemma RoutingIgnoresCase(a: string, b: string)
    requires Upper(a) == Upper(b)
    ensures AsksConversion(Lower(a)) == AsksConversion(Lower(b))
    ensures AsksFlights(Lower(a)) == AsksFlights(Lower(b))
  {
    LowerOfUpper(a);
    LowerOfUpper(b);
  }
}

=== FILE: text.dfy ===
/** Character and string helpers standing for the Python `str` methods the system uses
    (`lower`, `upper`, `strip`, `split`, `isdigit`, `in`, `title`, ...).
    Characters outside ASCII are treated as neither letters, digits nor whitespace, and
    case mapping leaves them unchanged. */
module Text {
  import opened Wrappers

  // ---------------------------------------------------------------------------
  // Character classes

  predicate IsDigit(c: char) { '0' <= c <= '9' }
  predicate IsUpperLetter(c: char) { 'A' <= c <= 'Z' }
  predicate IsLowerLetter(c: char) { 'a' <= c <= 'z' }
  predicate IsLetter(c: char) { IsUpperLetter(c) || IsLowerLetter(c) }
  predicate IsAlnum(c: char) { IsLetter(c) || IsDigit(c) }

  /** A character of a regular-expression word (`\w`): letter, digit or underscore. */
  predicate IsWordChar(c: char) { IsAlnum(c) || c == '_' }

  /** Python's `str.isspace` on ASCII (also the regular-expression class `\s`). */
  predicate IsSpace(c: char) {
    c == ' ' || c == '\t' || c == '\n' || c == '\r' || c == '\U{B}' || c == '\U{C}'
    || ('\U{1C}' <= c <= '\U{1F}')
  }

  function LowerChar(c: char): (r: char)
    ensures IsLetter(c) ==> IsLowerLetter(r)
    ensures !IsUpperLetter(c) ==> r == c
  {
    if IsUpperLetter(c) then (c as int + 32) as char else c
  }

  function UpperChar(c: char): (r: char)
    ensures IsLetter(c) ==> IsUpperLetter(r)
    ensures !IsLowerLetter(c) ==> r == c
  {
    if IsLowerLetter(c) then (c as int - 32) as char else c
  }

  // ---------------------------------------------------------------------------
  // Predicates over whole strings

  predicate AllDigits(s: string) { forall i :: 0 <= i < |s| ==> IsDigit(s[i]) }
  predicate AllLetters(s: string) { forall i :: 0 <= i < |s| ==> IsLetter(s[i]) }
  predicate NoSpace(s: string) { forall i :: 0 <= i < |s| ==> !IsSpace(s[i]) }

  /** Python `s.isdigit()`: non-empty and every character a digit. */
  predicate IsDigitString(s: string) { |s| > 0 && AllDigits(s) }

  /** Python `s.isalpha()`. */
  predicate IsAlphaString(s: string) { |s| > 0 && AllLetters(s) }

  /** Python `s.isupper()` on ASCII: some letter, and no lower-case letter. */
  predicate IsUpperString(s: string) {
    (exists i :: 0 <= i < |s| && IsUpperLetter(s[i]))
    && (forall i :: 0 <= i < |s| ==> !IsLowerLetter(s[i]))
  }

  // ---------------------------------------------------------------------------
  // Case mapping

  function Lower(s: string): (r: string)
    ensures |r| == |s|
    ensures forall i :: 0 <= i < |s| ==> r[i] == LowerChar(s[i])
  {
    seq(|s|, i requires 0 <= i < |s| => LowerChar(s[i]))
  }

  function Upper(s: string): (r: string)
    ensures |r| == |s|
    ensures forall i :: 0 <= i < |s| ==> r[i] == UpperChar(s[i])
  {
    seq(|s|, i requires 0 <= i < |s| => UpperChar(s[i]))
  }

  /** Upper-casing forgets the case the string was written in. */
  lemma UpperOfLower(s: string)
    ensures Upper(Lower(s)) == Upper(s)
  {
  }

  lemma LowerIdempotent(s: string)
    ensures Lower(Lower(s)) == Lower(s)
  {
  }

  lemma LowerOfUpper(s: string)
    ensures Lower(Upper(s)) == Lower(s)
  {
  }

  // ---------------------------------------------------------------------------
  // Prefixes, suffixes, substrings

  predicate StartsWith(s: string, p: string) { |p| <= |s| && s[..|p|] == p }
  predicate EndsWith(s: string, p: string) { |p| <= |s| && s[|s| - |p|..] == p }

  /** A text ends with whatever was appended to it last. */
  lemma EndsWithAppended(s: string, p: string)
    ensures EndsWith(s + p, p)
  {
    assert (s + p)[|s|..] == p;
  }

  /** `sub` occurs in `s` starting at index `i`. */
  predicate OccursAt(s: string, sub: string, i: int) {
    0 <= i && i + |sub| <= |s| && s[i..i + |sub|] == sub
  }

  /** The first index at or after `from` where `sub` occurs (Python `s.find(sub, from)`). */
  function FindFrom(s: string, sub: string, from: nat): (r: Option<nat>)
    ensures r.Some? ==> from <= r.value && OccursAt(s, sub, r.value)
    ensures r.Some? ==> forall j :: from <= j < r.value ==> !OccursAt(s, sub, j)
    ensures r.None? ==> forall j :: from <= j ==> !OccursAt(s, sub, j)
    decreases |s| - from
  {
    if from + |sub| > |s| then None
    else if s[from..from + |sub|] == sub then Some(from)
    else FindFrom(s, sub, from + 1)
  }

  /** Python `sub in s`. */
  predicate Contains(s: string, sub: string) {
    FindFrom(s, sub, 0).Some?
  }

  lemma ContainsIff(s: string, sub: string)
    ensures Contains(s, sub) <==> exists i :: OccursAt(s, sub, i)
  {
    var r := FindFrom(s, sub, 0);
    if r.Some? {
      assert OccursAt(s, sub, r.value);
    }
  }

  /** A text holding `big` holds every piece `small` of it. */
  lemma ContainsPiece(text: string, big: string, small: string, offset: nat)
    requires offset + |small| <= |big| && big[offset..offset + |small|] == small
    requires Contains(text, big)
    ensures Contains(text, small)
  {
    ContainsIff(text, big);
    var i :| OccursAt(text, big, i);
    assert text[i..i + |big|] == big;
    assert forall m :: 0 <= m < |small| ==> text[i + offset + m] == big[offset + m] == small[m];
    assert text[i + offset..i + offset + |small|] == small;
    assert OccursAt(text, small, i + offset);
    ContainsIff(text, small);
  }

  /** A string lacking some character of `t` does not contain `t`. */
  lemma NoPiece(s: string, t: string, k: nat)
    requires k < |t|
    requires forall j :: 0 <= j < |s| ==> s[j] != t[k]
    ensures !Contains(s, t)
  {
    ContainsIff(s, t);
    forall i | 0 <= i && i + |t| <= |s|
      ensures !OccursAt(s, t, i)
    {
      assert s[i..i + |t|][k] == s[i + k];
    }
  }

  /** Python `s.count(sub)` for a non-empty `sub`: non-overlapping occurrences, left to right. */
  function CountFrom(s: string, sub: string, from: nat): (n: nat)
    requires |sub| > 0
    ensures n > 0 <==> FindFrom(s, sub, from).Some?
    decreases |s| - from
  {
    match FindFrom(s, sub, from)
    case None => 0
    case Some(i) => 1 + CountFrom(s, sub, i + |sub|)
  }

  function Count(s: string, sub: string): nat
    requires |sub| > 0
  {
    CountFrom(s, sub, 0)
  }

  // ---------------------------------------------------------------------------
  // Character filtering and replacement

  /** Python `''.join(c for c in s if c.isdigit())`. */
  function DigitsOf(s: string): (r: string)
    ensures AllDigits(r)
    ensures |r| <= |s|
  {
    if s == [] then []
    else (if IsDigit(s[0]) then [s[0]] else []) + DigitsOf(s[1..])
  }

  lemma DigitsOfAppend(a: string, b: string)
    ensures DigitsOf(a + b) == DigitsOf(a) + DigitsOf(b)
  {
    if a == [] {
      assert a + b == b;
    } else {
      assert (a + b)[1..] == a[1..] + b;
      DigitsOfAppend(a[1..], b);
    }
  }

  /** Keeping the digits of an all-digit string keeps all of it. */
  /** Text without a digit has no digits to keep. */
  lemma {:induction false} DigitsOfNone(s: string)
    requires forall i :: 0 <= i < |s| ==> !IsDigit(s[i])
    ensures DigitsOf(s) == ""
  {
    if s != [] {
      DigitsOfNone(s[1..]);
    }
  }

  lemma {:induction false} DigitsOfDigits(s: string)
    requires AllDigits(s)
    ensures DigitsOf(s) == s
  {
    if s != [] {
      DigitsOfDigits(s[1..]);
      assert [s[0]] + s[1..] == s;
    }
  }

  /** Python `s.replace(c, '')`. */
  function RemoveChar(s: string, c: char): (r: string)
    ensures forall i :: 0 <= i < |r| ==> r[i] != c
    ensures |r| <= |s|
  {
    if s == [] then []
    else (if s[0] == c then [] else [s[0]]) + RemoveChar(s[1..], c)
  }

  /** Removing a character that does not occur changes nothing. */
  lemma {:induction false} RemoveAbsentChar(s: string, c: char)
    requires forall i :: 0 <= i < |s| ==> s[i] != c
    ensures RemoveChar(s, c) == s
  {
    if s != [] {
      RemoveAbsentChar(s[1..], c);
      assert [s[0]] + s[1..] == s;
    }
  }

  /** Removing a character distributes over concatenation. */
  lemma {:induction false} RemoveCharAppend(a: string, b: string, c: char)
    ensures RemoveChar(a + b, c) == RemoveChar(a, c) + RemoveChar(b, c)
  {
    if a != [] {
      assert (a + b)[0] == a[0];
      assert (a + b)[1..] == a[1..] + b;
      RemoveCharAppend(a[1..], b, c);
    } else {
      assert a + b == b;
    }
  }

  /** Python `s.replace(c, d)` for single characters. */
  function ReplaceChar(s: string, c: char, d: char): (r: string)
    ensures |r| == |s|
    ensures forall i :: 0 <= i < |s| ==> r[i] == (if s[i] == c then d else s[i])
  {
    seq(|s|, i requires 0 <= i < |s| => if s[i] == c then d else s[i])
  }

  // ---------------------------------------------------------------------------
  // Stripping

  /** Python `s.lstrip(chars)` with the characters given as a predicate. */
  function LStripBy(s: string, drop: char -> bool): (r: string)
    ensures |r| <= |s| && r == s[|s| - |r|..]
    ensures r != [] ==> !drop(r[0])
    ensures forall i :: 0 <= i < |s| - |r| ==> drop(s[i])
  {
    if s != [] && drop(s[0]) then LStripBy(s[1..], drop) else s
  }

  /** Python `s.rstrip(chars)` with the characters given as a predicate. */
  function RStripBy(s: string, drop: char -> bool): (r: string)
    ensures |r| <= |s| && r == s[..|r|]
    ensures r != [] ==> !drop(r[|r| - 1])
    ensures forall i :: |r| <= i < |s| ==> drop(s[i])
  {
    if s != [] && drop(s[|s| - 1]) then RStripBy(s[..|s| - 1], drop) else s
  }

  /** Python `s.lstrip()`. */
  function LStrip(s: string): (r: string)
    ensures |r| <= |s| && r == s[|s| - |r|..]
    ensures r != [] ==> !IsSpace(r[0])
    ensures forall i :: 0 <= i < |s| - |r| ==> IsSpace(s[i])
  {
    if s != [] && IsSpace(s[0]) then LStrip(s[1..]) else s
  }

  /** Python `s.rstrip()`. */
  function RStrip(s: string): (r: string)
    ensures |r| <= |s| && r == s[..|r|]
    ensures r != [] ==> !IsSpace(r[|r| - 1])
    ensures forall i :: |r| <= i < |s| ==> IsSpace(s[i])
  {
    if s != [] && IsSpace(s[|s| - 1]) then RStrip(s[..|s| - 1]) else s
  }

  /** Python `s.strip()`. */
  function Strip(s: string): (r: string)
    ensures r == [] || (!IsSpace(r[0]) && !IsSpace(r[|r| - 1]))
    ensures |r| <= |s|
  {
    RStrip(LStrip(s))
  }

  /** A string that neither starts nor ends with whitespace is its own strip. */
  lemma StripUnchanged(s: string)
    ensures (s == [] || (!IsSpace(s[0]) && !IsSpace(s[|s| - 1]))) ==> Strip(s) == s
  {
  }

  /** One space on each side of a trimmed text is stripped away again. */
  lemma StripOfPadded(k: string)
    requires k == [] || (!IsSpace(k[0]) && !IsSpace(k[|k| - 1]))
    ensures Strip(" " + k + " ") == k
  {
    if k == [] {
      assert " " + k + " " == "  ";
      assert LStrip("  ") == LStrip(" ") == LStrip([]) == [];
    } else {
      assert (" " + k + " ")[1..] == k + " ";
      assert LStrip(" " + k + " ") == k + " ";
      assert (k + " ")[..|k|] == k;
      assert RStrip(k + " ") == k;
    }
  }

  /** Python `s.strip(chars)` for an explicit character set. */
  function StripChars(s: string, chars: set<char>): (r: string)
    ensures r == [] || (r[0] !in chars && r[|r| - 1] !in chars)
  {
    RStripBy(LStripBy(s, c => c in chars), c => c in chars)
  }

  // ---------------------------------------------------------------------------
  // Splitting and joining

  /** The longest prefix of `s` free of whitespace. */
  function TakeWord(s: string): (w: string)
    ensures |w| <= |s| && w == s[..|w|]
    ensures NoSpace(w)
    ensures |w| < |s| ==> IsSpace(s[|w|])
  {
    if s == [] || IsSpace(s[0]) then [] else [s[0]] + TakeWord(s[1..])
  }

  /** Python `s.split()`: maximal runs of non-whitespace characters, in order. */
  function Words(s: string): (ws: seq<string>)
    ensures forall k :: 0 <= k < |ws| ==> |ws[k]| > 0 && NoSpace(ws[k])
    decreases |s|
  {
    if s == [] then []
    else if IsSpace(s[0]) then Words(s[1..])
    else
      var w := TakeWord(s);
      [w] + Words(s[|w|..])
  }

  /** A word followed by whitespace or nothing is taken whole. */
  lemma {:induction false} TakeWordOf(w: string, rest: string)
    requires NoSpace(w)
    requires rest == [] || IsSpace(rest[0])
    ensures TakeWord(w + rest) == w
  {
    if w != [] {
      assert (w + rest)[1..] == w[1..] + rest;
      TakeWordOf(w[1..], rest);
      assert [w[0]] + w[1..] == w;
    }
  }

  /** Two words separated by one space split into those two words. */
  lemma WordsOfTwo(a: string, b: string)
    requires |a| > 0 && NoSpace(a) && |b| > 0 && NoSpace(b)
    ensures Words(a + " " + b) == [a, b]
  {
    var s := a + " " + b;
    TakeWordOf(a, " " + b);
    assert s == a + (" " + b);
    assert !IsSpace(s[0]);
    assert s[|a|..] == " " + b;
    assert Words(s) == [a] + Words(" " + b);
    assert (" " + b)[1..] == b;
    assert Words(" " + b) == Words(b);
    TakeWordOf(b, []);
    assert b + [] == b;
    assert b[|b|..] == [];
    assert Words(b) == [b] + Words([]);
  }

  /** The longest prefix of `s` without the character `sep`. */
  function TakeUntil(s: string, sep: char): (w: string)
    ensures |w| <= |s| && w == s[..|w|]
    ensures forall i :: 0 <= i < |w| ==> w[i] != sep
    ensures |w| < |s| ==> s[|w|] == sep
  {
    if s == [] || s[0] == sep then [] else [s[0]] + TakeUntil(s[1..], sep)
  }

  /** Without `sep`, the whole string is taken. */
  lemma {:induction false} TakeUntilAbsent(s: string, sep: char)
    requires forall i :: 0 <= i < |s| ==> s[i] != sep
    ensures TakeUntil(s, sep) == s
  {
    if s != [] {
      TakeUntilAbsent(s[1..], sep);
      assert [s[0]] + s[1..] == s;
    }
  }

  /** Python `s.split(sep)` for a one-character separator: always at least one piece. */
  function SplitOn(s: string, sep: char): (parts: seq<string>)
    ensures |parts| >= 1
    ensures forall k :: 0 <= k < |parts| ==> forall i :: 0 <= i < |parts[k]| ==> parts[k][i] != sep
    decreases |s|
  {
    var w := TakeUntil(s, sep);
    if |w| == |s| then [s] else [w] + SplitOn(s[|w| + 1..], sep)
  }

  /** Python `sep.join(parts)`. */
  function Join(sep: string, parts: seq<string>): string {
    if parts == [] then []
    else if |parts| == 1 then parts[0]
    else parts[0] + sep + Join(sep, parts[1..])
  }

  // ---------------------------------------------------------------------------
  // Numbers

  /** Python `int(s)` for a string of ASCII digits. */
  function DigitsValue(s: string): nat
    requires AllDigits(s)
  {
    if s == [] then 0 else DigitsValue(s[..|s| - 1]) * 10 + (s[|s| - 1] as int - '0' as int)
  }

  function DigitChar(d: nat): (c: char)
    requires d < 10
    ensures IsDigit(c)
  {
    ('0' as int + d) as char
  }

  /** Python `str(n)` for a natural number. */
  function NatToString(n: nat): (s: string)
    ensures IsDigitString(s)
  {
    if n < 10 then [DigitChar(n)] else NatToString(n / 10) + [DigitChar(n % 10)]
  }

  /** Reading back the digits `str(n)` writes gives `n`. */
  lemma {:induction false} NatToStringValue(n: nat)
    ensures DigitsValue(NatToString(n)) == n
  {
    var s := NatToString(n);
    if n >= 10 {
      NatToStringValue(n / 10);
      assert s[..|s| - 1] == NatToString(n / 10);
    }
  }

  /** Python `str(i)` for an integer. */
  function IntToString(i: int): (s: string)
    ensures i >= 0 ==> s == NatToString(i)
    ensures i < 0 ==> s == "-" + NatToString(-i)
  {
    if i >= 0 then NatToString(i) else "-" + NatToString(-i)
  }

  /** Python `int(s)` on a whitespace-free string, restricted to an optional sign followed by
      ASCII digits: the `_`-separated digit groups Python also accepts give `None` here. */
  function ParseInt(t: string): (r: Option<int>)
    ensures IsDigitString(t) ==> r == Some(DigitsValue(t))
    ensures r.Some? ==> |t| > 0
  {
    if IsDigitString(t) then Some(DigitsValue(t))
    else if |t| > 1 && t[0] == '+' && IsDigitString(t[1..]) then Some(DigitsValue(t[1..]))
    else if |t| > 1 && t[0] == '-' && IsDigitString(t[1..]) then Some(0 - DigitsValue(t[1..]) as int)
    else None
  }

  function Pow10(n: nat): (p: nat)
    ensures p >= 1
  {
    if n == 0 then 1 else 10 * Pow10(n - 1)
  }

  /** `NatToString(n)` left-padded with zeros to at least `width` characters. */
  function PadNat(n: nat, width: nat): (s: string)
    ensures |s| >= width
    ensures AllDigits(s)
  {
    var d := NatToString(n);
    if |d| >= width then d else seq(width - |d|, _ => '0') + d
  }

  /** `mag / 10^exp` written as an integer part, a point and the shortest fraction
      (at least one digit), by placing the point `exp` digits from the right. */
  function UnsignedFloatText(mag: nat, exp: nat): (s: string)
    ensures Contains(s, ".")
  {
    var d := PadNat(mag, exp + 1);
    var whole := d[..|d| - exp];
    var t := RStripBy(d[|d| - exp..], c => c == '0');
    var frac := if t == [] then "0" else t;
    assert OccursAt(whole + "." + frac, ".", |whole|);
    ContainsIff(whole + "." + frac, ".");
    whole + "." + frac
  }

  /** Python `repr(f)` for a float of moderate magnitude, such as `450.0`, `1.25`, `-0.5`. */
  function FloatText(mant: int, exp: nat): string {
    if mant < 0 then "-" + UnsignedFloatText(-mant, exp) else UnsignedFloatText(mant, exp)
  }

  /** The unsigned decimal `digits[.digits]`, with at least one digit. */
  function ParseUnsignedDecimal(t: string): (r: Option<(nat, nat)>)
  {
    var whole := TakeUntil(t, '.');
    if |whole| == |t| then
      if IsDigitString(t) then Some((DigitsValue(t), 0)) else None
    else
      var frac := t[|whole| + 1..];
      if |whole| + |frac| > 0 && AllDigits(whole) && AllDigits(frac) then
        assert AllDigits(whole + frac);
        Some((DigitsValue(whole + frac), |frac|))
      else None
  }

  /** Python `float(t)` restricted to plain decimals: surrounding whitespace, an optional
      sign, then `digits[.digits]`; the result is `mant / 10^exp`. Exponents, `_` separators,
      `inf` and `nan`, which Python accepts, give `None`. */
  function ParseDecimal(t: string): (r: Option<(int, nat)>)
    ensures IsDigitString(t) ==> r == Some((DigitsValue(t) as int, 0))
  {
    StripUnchanged(t);
    var s := Strip(t);
    var neg := |s| > 0 && s[0] == '-';
    var body := if |s| > 0 && (s[0] == '-' || s[0] == '+') then s[1..] else s;
    assert IsDigitString(t) ==> body == t && TakeUntil(t, '.') == t;
    match ParseUnsignedDecimal(body)
    case Some((m, e)) => Some((if neg then 0 - m else m, e))
    case None => None
  }

  /** Text that starts and ends with a digit, has no point and has a non-digit inside is
      not a number. */
  lemma ParseDecimalOfWords(t: string, k: nat)
    requires |t| > 0 && IsDigit(t[0]) && IsDigit(t[|t| - 1])
    requires forall i :: 0 <= i < |t| ==> t[i] != '.'
    requires k < |t| && !IsDigit(t[k])
    ensures ParseDecimal(t).None?
  {
    StripUnchanged(t);
    assert Strip(t) == t;
    assert !(t[0] == '-' || t[0] == '+');
    TakeUntilAbsent(t, '.');
    assert !IsDigitString(t);
    assert ParseUnsignedDecimal(t).None?;
  }

  // ---------------------------------------------------------------------------
  // Title case

  /** Python `s.title()`: a letter is upper-cased when it does not follow a letter,
      lower-cased otherwise. */
  function Title(s: string): (r: string)
    ensures |r| == |s|
    ensures forall i :: 0 <= i < |s| ==>
      r[i] == (if i > 0 && IsLetter(s[i - 1]) then LowerChar(s[i]) else UpperChar(s[i]))
  {
    seq(|s|, i requires 0 <= i < |s| =>
      if i > 0 && IsLetter(s[i - 1]) then LowerChar(s[i]) else UpperChar(s[i]))
  }
}

=== FILE: travel_agent.dfy ===
/** The deterministic parts of the travel agent (agents/travel_agent.py): the cabin class
    chosen from a budget level, the agent's key/value memory, the trip cost, the duration
    read from extracted entities, the clean-up of LLM suggestion records and the fallback
    suggestion built from preferences. */
module TravelAgent {
  import opened Wrappers
  import opened Text
  import opened Json

  function Min(a: int, b: int): int { if a <= b then a else b }

  // ---------------------------------------------------------------------------
  // Preferences and configuration

  /** `TravelPreferences`; optional members are `None` when not given. */
  datatype TravelPreferences = TravelPreferences(
    departureCity: Option<string>, budgetRange: Option<string>, travelStyle: Option<string>,
    interests: Option<seq<string>>, groupSize: int, language: string,
    dietaryRestrictions: Option<seq<string>>, accommodationType: Option<string>)

  const EconomyCabin: string := "CABIN_CLASS_ECONOMY"
  const PremiumEconomyCabin: string := "CABIN_CLASS_PREMIUM_ECONOMY"
  const BusinessCabin: string := "CABIN_CLASS_BUSINESS"

  /** The cabin class for a budget level: Budget, Moderate and Luxury have their own
      classes and anything else (including no level) flies economy. */
  function CabinClass(budgetRange: Option<string>): (cabin: string)
    ensures cabin in {EconomyCabin, PremiumEconomyCabin, BusinessCabin}
    ensures cabin == PremiumEconomyCabin <==> budgetRange == Some("Moderate")
    ensures cabin == BusinessCabin <==> budgetRange == Some("Luxury")
    ensures cabin == EconomyCabin <==> budgetRange != Some("Moderate") && budgetRange != Some("Luxury")
  {
    match budgetRange
    case Some("Budget") => EconomyCabin
    case Some("Moderate") => PremiumEconomyCabin
    case Some("Luxury") => BusinessCabin
    case _ => EconomyCabin
  }

  type Config = map<string, Json>

  function OptionalText(v: Option<string>): Json {
    if v.Some? then Str(v.value) else Null
  }

  /** `update_config`: four entries are overwritten from the preferences and every other
      entry is kept. */
  function UpdateConfig(config: Config, p: TravelPreferences): (c: Config)
    ensures c.Keys == config.Keys + {"language", "num_travelers", "budget_range", "cabin_class"}
    ensures c["language"] == Str(p.language) && c["num_travelers"] == Int(p.groupSize)
    ensures c["budget_range"] == OptionalText(p.budgetRange)
    ensures c["cabin_class"] == Str(CabinClass(p.budgetRange))
    ensures forall k :: k in config && k !in {"language", "num_travelers", "budget_range", "cabin_class"}
                        ==> c[k] == config[k]
  {
    config + map["language" := Str(p.language), "num_travelers" := Int(p.groupSize),
                 "budget_range" := OptionalText(p.budgetRange),
                 "cabin_class" := Str(CabinClass(p.budgetRange))]
  }

  /** Updating twice with the same preferences is the same as updating once. */
  lemma UpdateConfigIdempotent(config: Config, p: TravelPreferences)
    ensures UpdateConfig(UpdateConfig(config, p), p) == UpdateConfig(config, p)
  {
  }

  // ---------------------------------------------------------------------------
  // Memory

  type Memory = map<string, Json>

  /** `save_to_memory`. */
  function Save(m: Memory, k: string, v: Json): (r: Memory)
    ensures r.Keys == m.Keys + {k}
  {
    m[k := v]
  }

  /** `get_from_memory`: a missing key reads as None. */
  function Recall(m: Memory, k: string): (v: Json)
    ensures k !in m ==> v == Null
  {
    if k in m then m[k] else Null
  }

  /** What was saved last under a key is what is recalled; other keys are untouched. */
  lemma SaveThenRecall(m: Memory, k: string, v: Json, other: string)
    ensures Recall(Save(m, k, v), k) == v
    ensures other != k ==> Recall(Save(m, k, v), other) == Recall(m, other)
  {
  }

  // ---------------------------------------------------------------------------
  // Trip cost

  /** The text `float` is applied to: `str(price)` without '$' and ','. */
  function PriceText(price: Json): string {
    RemoveChar(RemoveChar(Show(price), '$'), ',')
  }

  /** The value of the decimal `m / 10^e`. */
  function DecimalValue(m: int, e: nat): real {
    if e == 0 then m as real else DecimalValue(m, e - 1) / 10.0
  }

  /** Python `float(t)` as an exact amount; only plain decimals parse. */
  function ParseAmount(t: string): (r: Result<real>)
    ensures r.Success? <==> ParseDecimal(t).Some?
    ensures IsDigitString(t) ==> r == Success(DigitsValue(t) as real)
  {
    match ParseDecimal(t)
    case Some((m, e)) => Success(DecimalValue(m, e))
    case None => Failure("ValueError")
  }

  /** The price of one item: `float(str(item.get('price', '0')))` after removing '$' and ','.
      A missing price reads as "0", that is 0. A non-dict item raises `AttributeError`, and a
      price that is not a plain number after the clean-up raises `ValueError`. */
  function PriceOf(item: Json): (r: Result<real>)
    ensures !item.Obj? ==> r.Failure?
    ensures item.Obj? && Lookup(item.fields, "price").None? ==> r == Success(0.0)
  {
    if !item.Obj? then Failure("AttributeError")
    else
      match Lookup(item.fields, "price")
      case None => Success(0.0)
      case Some(p) => ParseAmount(PriceText(p))
  }

  /** The default price text "0" is indeed read as 0. */
  lemma DefaultPriceIsZero()
    ensures ParseAmount(PriceText(Str("0"))) == Success(0.0)
  {
    PriceOfDigits("0");
    assert DigitsValue("0") == 0;
  }

  /** A price written as plain digits is read as that number. */
  lemma PriceOfDigits(t: string)
    requires IsDigitString(t)
    ensures ParseAmount(PriceText(Str(t))) == Success(DigitsValue(t) as real)
  {
    RemoveAbsentChar(t, '$');
    RemoveAbsentChar(t, ',');
    assert PriceText(Str(t)) == t;
  }

  /** The sum of a list of amounts, failing with the first failure. */
  function SumAmounts(rs: seq<Result<real>>): Result<real> {
    if rs == [] then Success(0.0)
    else
      var x :- rs[0];
      var y :- SumAmounts(rs[1..]);
      Success(x + y)
  }

  /** The amounts of a list under a pricing function. */
  function Amounts(items: seq<Json>, price: Json -> Result<real>): (rs: seq<Result<real>>)
    ensures |rs| == |items| && forall i :: 0 <= i < |items| ==> rs[i] == price(items[i])
  {
    seq(|items|, i requires 0 <= i < |items| => price(items[i]))
  }

  /** The sum of the prices of a list, `sum(... for item in items)`. */
  function SumPrices(items: seq<Json>, price: Json -> Result<real>): (r: Result<real>)
    ensures items == [] ==> r == Success(0.0)
  {
    SumAmounts(Amounts(items, price))
  }

  /** `_calculate_total_cost`: the flight, hotel and activity costs added, or the first error. */
  function TotalCost(flights: seq<Json>, hotels: seq<Json>, activities: seq<Json>): (r: Result<real>)
  {
    var f :- SumPrices(flights, PriceOf);
    var h :- SumPrices(hotels, PriceOf);
    var a :- SumPrices(activities, PriceOf);
    Success(f + h + a)
  }

  /** The total is the sum of the three list sums, and it fails exactly when one of them does. */
  lemma TotalCostSums(flights: seq<Json>, hotels: seq<Json>, activities: seq<Json>)
    ensures TotalCost(flights, hotels, activities).Success? <==>
              SumPrices(flights, PriceOf).Success? && SumPrices(hotels, PriceOf).Success? &&
              SumPrices(activities, PriceOf).Success?
    ensures TotalCost(flights, hotels, activities).Success? ==>
              TotalCost(flights, hotels, activities).value ==
              SumPrices(flights, PriceOf).value + SumPrices(hotels, PriceOf).value + SumPrices(activities, PriceOf).value
  {
  }

  /** Summing is additive over concatenation. */
  lemma {:induction false} SumAmountsAppend(a: seq<Result<real>>, b: seq<Result<real>>)
    ensures SumAmounts(a + b).Success? <==> SumAmounts(a).Success? && SumAmounts(b).Success?
    ensures SumAmounts(a + b).Success? ==> SumAmounts(a + b).value == SumAmounts(a).value + SumAmounts(b).value
  {
    if a == [] {
      assert a + b == b;
    } else {
      assert (a + b)[0] == a[0];
      assert (a + b)[1..] == a[1..] + b;
      SumAmountsAppend(a[1..], b);
    }
  }

  /** The cost of two lists together is the sum of their costs, whatever the pricing. */
  lemma SumPricesAppend(a: seq<Json>, b: seq<Json>, price: Json -> Result<real>)
    ensures SumPrices(a + b, price).Success? <==> SumPrices(a, price).Success? && SumPrices(b, price).Success?
    ensures SumPrices(a + b, price).Success? ==>
              SumPrices(a + b, price).value == SumPrices(a, price).value + SumPrices(b, price).value
  {
    assert Amounts(a + b, price) == Amounts(a, price) + Amounts(b, price);
    SumAmountsAppend(Amounts(a, price), Amounts(b, price));
  }

  /** An item whose price is a whole number of dollars, or that has no price. */
  predicate WholePriced(item: Json) {
    item.Obj? &&
    match Lookup(item.fields, "price")
    case None => true
    case Some(p) => p.Int? && p.i >= 0
  }

  function ListedPrice(item: Json): nat
    requires WholePriced(item)
  {
    match Lookup(item.fields, "price")
    case None => 0
    case Some(p) => p.i
  }

  /** Reference sum of listed prices. */
  function ListedTotal(items: seq<Json>): nat
    requires forall i :: 0 <= i < |items| ==> WholePriced(items[i])
  {
    if items == [] then 0 else ListedPrice(items[0]) + ListedTotal(items[1..])
  }

  /** A whole-dollar price is read back as that amount. */
  lemma {:induction false} PriceOfWhole(item: Json)
    requires WholePriced(item)
    ensures PriceOf(item) == Success(ListedPrice(item) as real)
  {
    if Lookup(item.fields, "price").Some? {
      var shown := NatToString(ListedPrice(item));
      assert Show(Lookup(item.fields, "price").value) == shown;
      NatToStringValue(ListedPrice(item));
      PriceOfDigits(shown);
    }
  }

  /** The amounts of whole-priced items add up to the listed total. */
  lemma {:induction false} SumOfWholeAmounts(items: seq<Json>, rs: seq<Result<real>>)
    requires forall i :: 0 <= i < |items| ==> WholePriced(items[i])
    requires |rs| == |items| && forall i :: 0 <= i < |items| ==> rs[i] == Success(ListedPrice(items[i]) as real)
    ensures SumAmounts(rs) == Success(ListedTotal(items) as real)
  {
    if items != [] {
      SumOfWholeAmounts(items[1..], rs[1..]);
    }
  }

  /** With whole-dollar or missing prices, the computed sum is the listed total. */
  lemma SumPricesOfWhole(items: seq<Json>)
    requires forall i :: 0 <= i < |items| ==> WholePriced(items[i])
    ensures SumPrices(items, PriceOf) == Success(ListedTotal(items) as real)
  {
    var rs := Amounts(items, PriceOf);
    forall i | 0 <= i < |items|
      ensures rs[i] == Success(ListedPrice(items[i]) as real)
    {
      PriceOfWhole(items[i]);
    }
    SumOfWholeAmounts(items, rs);
  }

  /** An item holding only a price is priced by that price alone. */
  lemma PriceOfSingle(p: Json)
    ensures PriceOf(Obj([("price", p)])) == ParseAmount(PriceText(p))
  {
    LookupAt([("price", p)], 0, "price");
  }

  /** Dropping the dollar sign from "$" + a + "," + b. */
  lemma DropDollar(a: string, b: string)
    requires IsDigitString(a) && IsDigitString(b)
    ensures RemoveChar("$" + a + "," + b, '$') == a + "," + b
  {
    RemoveAbsentChar(a, '$');
    RemoveAbsentChar(b, '$');
    RemoveCharAppend("$" + a + ",", b, '$');
    RemoveCharAppend("$" + a, ",", '$');
    RemoveCharAppend("$", a, '$');
  }

  /** Dropping the separator from a + "," + b. */
  lemma DropComma(a: string, b: string)
    requires IsDigitString(a) && IsDigitString(b)
    ensures RemoveChar(a + "," + b, ',') == a + b
  {
    RemoveAbsentChar(a, ',');
    RemoveAbsentChar(b, ',');
    RemoveCharAppend(a + ",", b, ',');
    RemoveCharAppend(a, ",", ',');
  }

  /** Cleaning "$" + a + "," + b leaves the digits a + b. */
  lemma CleanSeparated(a: string, b: string)
    requires IsDigitString(a) && IsDigitString(b)
    ensures PriceText(Str("$" + a + "," + b)) == a + b
  {
    DropDollar(a, b);
    DropComma(a, b);
  }

  /** A dollar sign in front and a thousands separator inside are ignored: "$1,250" is 1250. */
  lemma PriceWithSeparators(a: string, b: string)
    requires IsDigitString(a) && IsDigitString(b)
    ensures ParseAmount(PriceText(Str("$" + a + "," + b))) == Success(DigitsValue(a + b) as real)
  {
    CleanSeparated(a, b);
    PriceOfDigits(a + b);
  }

  /** Any other text in a price, such as "$200 per night", makes the calculation raise. */
  lemma PriceWithWords(t: string, k: nat)
    requires |t| > 0 && IsDigit(t[0]) && IsDigit(t[|t| - 1])
    requires forall i :: 0 <= i < |t| ==> t[i] != '.' && t[i] != ',' && t[i] != '$'
    requires k < |t| && !IsDigit(t[k])
    ensures ParseAmount(PriceText(Str(t))).Failure?
  {
    RemoveAbsentChar(t, '$');
    RemoveAbsentChar(t, ',');
    assert PriceText(Str(t)) == t;
    ParseDecimalOfWords(t, k);
  }

  // ---------------------------------------------------------------------------
  // Duration in create_suggestions

  /** The digits of the listed strings that consist only of digits, joined; an item that
      is not text fails with the `AttributeError` of its `isdigit`. */
  function DigitItems(items: seq<Json>): (r: Result<string>)
    ensures r.Success? <==> forall i :: 0 <= i < |items| ==> items[i].Str?
    ensures r.Failure? ==> r.error == "AttributeError"
    ensures r.Success? ==> AllDigits(r.value)
  {
    if items == [] then Success("")
    else if !items[0].Str? then Failure("AttributeError")
    else
      var rest :- DigitItems(items[1..]);
      assert forall i :: 1 <= i < |items| ==> items[i] == items[1..][i - 1];
      var head := if IsDigitString(items[0].s) then items[0].s else "";
      Success(head + rest)
  }

  /** The duration assumed when the entities name none. */
  const DefaultDuration := "5 days"

  lemma DefaultDurationDays()
    ensures DigitsOf(DefaultDuration) == "5" && DigitsValue("5") == 5
  {
    assert DigitsOf(DefaultDuration) == "5";
  }

  /** `int(''.join(c for c in duration_str if c.isdigit()) or '5')`. Text keeps its
      digits; a list or dict is iterated item by item (dict keys are text); iterating
      anything else raises `TypeError`, which gives 5. A list item that is not text makes
      `isdigit` raise `AttributeError`, which escapes. */
  function SuggestionDays(entities: seq<(string, Json)>): (r: Result<nat>)
    ensures Lookup(entities, "duration").None? ==> r == Success(5)
    ensures Lookup(entities, "duration").Some? && Lookup(entities, "duration").value.Str? ==>
              var d := DigitsOf(Lookup(entities, "duration").value.s);
              r == Success(if d == "" then 5 else DigitsValue(d))
    ensures r.Failure? <==>
              && Lookup(entities, "duration").Some? && Lookup(entities, "duration").value.Arr?
              && exists i :: 0 <= i < |Lookup(entities, "duration").value.items|
                               && !Lookup(entities, "duration").value.items[i].Str?
    ensures r.Failure? ==> r.error == "AttributeError"
  {
    var v := GetOr(entities, "duration", Str(DefaultDuration));
    DefaultDurationDays();
    var digits :=
      match v
      case Str(s) => Success(DigitsOf(s))
      case Arr(items) => DigitItems(items)
      case Obj(fields) => DigitItems(seq(|fields|, i requires 0 <= i < |fields| => Str(fields[i].0)))
      case _ => Success("");
    match digits
    case Success(d) => Success(if d == "" then 5 else DigitsValue(d))
    case Failure(e) => Failure(e)
  }

  /** A duration written as a number followed by words, such as "10 days", is read as that
      number. */
  lemma SuggestionDaysOfNumber(entities: seq<(string, Json)>, n: nat, words: string)
    requires Lookup(entities, "duration") == Some(Str(NatToString(n) + words))
    requires forall i :: 0 <= i < |words| ==> !IsDigit(words[i])
    ensures SuggestionDays(entities) == Success(n)
  {
    var t := NatToString(n);
    assert DigitsOf(t + words) == t by {
      DigitsOfAppend(t, words);
      DigitsOfDigits(t);
      DigitsOfNone(words);
    }
    NatToStringValue(n);
  }

  /** A duration without any digit, such as "a week", gives the default of 5 days. */
  lemma SuggestionDaysWithoutDigits(entities: seq<(string, Json)>, text: string)
    requires Lookup(entities, "duration") == Some(Str(text))
    requires forall i :: 0 <= i < |text| ==> !IsDigit(text[i])
    ensures SuggestionDays(entities) == Success(5)
  {
    DigitsOfNone(text);
  }

  // ---------------------------------------------------------------------------
  // Suggestion records

  /** The cleaned suggestion record that `_validate_suggestion_data` returns. */
  datatype Suggestion = Suggestion(
    destination: Json, description: Json, bestTimeToVisit: Json, estimatedBudget: Json,
    duration: string,
    activities: seq<Json>, accommodations: seq<Json>, transportation: seq<Json>, localTips: seq<Json>,
    weatherInfo: Json, safetyInfo: Json)

  const DefaultActivities: seq<Json> :=
    [Str("Local exploration"), Str("Cultural activities"), Str("Food experiences"),
     Str("Nature exploration"), Str("Local markets")]
  const DefaultAccommodations: seq<Json> :=
    [Str("Recommended hotels"), Str("Local guesthouses"), Str("Budget options")]
  const DefaultTransportation: seq<Json> := [Str("Public transportation"), Str("Walking tours")]
  const DefaultTips: seq<Json> :=
    [Str("Research local customs"), Str("Learn basic phrases"), Str("Follow local guidelines")]

  /** Python `for x in v` over a value: list items, the characters of a text, the keys of a
      dict; other values are not iterable. */
  function Iterate(v: Json): (r: Result<seq<Json>>)
    ensures v.Arr? ==> r == Success(v.items)
  {
    match v
    case Arr(items) => Success(items)
    case Str(s) => Success(seq(|s|, i requires 0 <= i < |s| => Str([s[i]])))
    case Obj(fields) => Success(seq(|fields|, i requires 0 <= i < |fields| => Str(fields[i].0)))
    case _ => Failure("TypeError")
  }

  /** `[item[key] for item in items]`: every item must be a dict holding the key. */
  function PickEach(items: seq<Json>, key: string): (r: Result<seq<Json>>)
    ensures r.Success? ==> |r.value| == |items|
  {
    if items == [] then Success([])
    else
      var head :-
        if !items[0].Obj? then Failure("TypeError")
        else if Lookup(items[0].fields, key).None? then Failure("KeyError")
        else Success(Lookup(items[0].fields, key).value);
      var rest :- PickEach(items[1..], key);
      Success([head] + rest)
  }

  /** `[item.get(key, default) for item in items]`: every item must be a dict. */
  function GetEach(items: seq<Json>, key: string, default: Json): (r: Result<seq<Json>>)
    ensures r.Success? ==> |r.value| == |items|
  {
    if items == [] then Success([])
    else
      var head :- Get(items[0], key, default);
      var rest :- GetEach(items[1..], key, default);
      Success([head] + rest)
  }

  /** The transportation lines made from a `transportInformation` dict: one per route for a
      list of routes, one per mode otherwise. */
  function TransportLines(modes: seq<(string, Json)>): (r: Result<seq<Json>>)
  {
    if modes == [] then Success([])
    else
      var (mode, info) := modes[0];
      var lines :-
        if info.Arr? then
          var names :- GetEach(info.items, "routeName", Str("Local route"));
          Success(seq(|names|, i requires 0 <= i < |names| => Str(mode + ": " + Show(names[i]))))
        else Success([Str(mode + ": Local routes available")]);
      var rest :- TransportLines(modes[1..]);
      Success(lines + rest)
  }

  /** A list member as read: absent means an empty list, and text becomes a one-item list. */
  function ListMember(data: seq<(string, Json)>, key: string): (v: Json)
    ensures !v.Str?
  {
    var v := GetOr(data, key, Arr([]));
    if v.Str? then Arr([v]) else v
  }

  /** `v[:n] or defaults`: a list is cut to `n` items and replaced by the defaults when
      that leaves nothing; anything else cannot be sliced. */
  function Cap(v: Json, n: nat, defaults: seq<Json>): (r: Result<seq<Json>>)
    requires !v.Str?
    requires 0 < |defaults| <= n
    ensures r.Success? <==> v.Arr?
    ensures r.Success? ==> 0 < |r.value| <= n
    ensures v.Arr? && v.items != [] ==> r == Success(v.items[..Min(n, |v.items|)])
    ensures v.Arr? && v.items == [] ==> r == Success(defaults)
  {
    if v.Arr? then
      var cut := v.items[..Min(n, |v.items|)];
      Success(if cut == [] then defaults else cut)
    else Failure("TypeError")
  }

  function Activities(data: seq<(string, Json)>): Result<seq<Json>> {
    var v := ListMember(data, "activities");
    var alt := GetOr(data, "activitySuggestions", Null);
    var chosen :-
      if !Truthy(v) && Truthy(alt) then
        if alt.Arr? then Success(alt)
        else if alt.Obj? then
          var options :- Iterate(GetOr(alt.fields, "options", Arr([])));
          var titles :- PickEach(options, "title");
          Success(Arr(titles))
        else Success(v)
      else Success(v);
    Cap(chosen, 5, DefaultActivities)
  }

  function Accommodations(data: seq<(string, Json)>): Result<seq<Json>> {
    var v := ListMember(data, "accommodation_suggestions");
    var alt := GetOr(data, "accommodations", Null);
    var chosen :-
      if !Truthy(v) && Truthy(alt) then
        if alt.Arr? then
          var names :- GetEach(alt.items, "name", Str("Hotel"));
          Success(Arr(names))
        else if alt.Obj? then Success(Arr([GetOr(alt.fields, "name", Str("Hotel"))]))
        else Success(v)
      else Success(v);
    Cap(chosen, 3, DefaultAccommodations)
  }

  function Transportation(data: seq<(string, Json)>): Result<seq<Json>> {
    var v := ListMember(data, "transportation");
    var alt := GetOr(data, "transportInformation", Null);
    var chosen :-
      if !Truthy(v) && Truthy(alt) && alt.Obj? then
        // the lines are appended to `v` itself, which only a list allows
        if v.Arr? then
          var lines :- TransportLines(alt.fields);
          Success(Arr(v.items + lines))
        else Failure("AttributeError")
      else Success(v);
    Cap(chosen, 2, DefaultTransportation)
  }

  function LocalTips(data: seq<(string, Json)>): Result<seq<Json>> {
    var v := ListMember(data, "local_tips");
    var alt := GetOr(data, "localTips", Null);
    var chosen :-
      if !Truthy(v) && Truthy(alt) then
        if alt.Arr? then Success(alt)
        else if alt.Obj? then
          var tips :- Iterate(GetOr(alt.fields, "tips", Arr([])));
          var texts :- PickEach(tips, "text");
          Success(Arr(texts))
        else Success(v)
      else Success(v);
    Cap(chosen, 3, DefaultTips)
  }

  /** The destination: the `destination` member, or "name, country" built from a `name`
      member when the destination is missing or "Unknown". */
  function SuggestionDestination(data: seq<(string, Json)>): (d: Json)
    ensures Lookup(data, "destination").Some? && Lookup(data, "destination").value != Str("Unknown") ==>
              d == Lookup(data, "destination").value
    ensures GetOr(data, "destination", Str("Unknown")) == Str("Unknown") && Truthy(GetOr(data, "name", Null)) ==>
              d == Str(Show(GetOr(data, "name", Null)) + ", "
                       + Show(GetOr(data, "country", Str("Location Unknown"))))
    ensures GetOr(data, "destination", Str("Unknown")) == Str("Unknown") && !Truthy(GetOr(data, "name", Null)) ==>
              d == Str("Unknown")
  {
    var d := GetOr(data, "destination", Str("Unknown"));
    var name := GetOr(data, "name", Null);
    if d == Str("Unknown") && Truthy(name) then
      Str(Show(name) + ", " + Show(GetOr(data, "country", Str("Location Unknown"))))
    else d
  }

  /** The number of days: the digits of the `duration` member as text, or the caller's
      duration when the member is missing or has no digits. */
  function SuggestionDuration(data: seq<(string, Json)>, duration: int): (n: int)
    ensures Lookup(data, "duration").None? ==> n == (if duration >= 0 then duration else DigitsValue(DigitsOf(IntToString(duration))))
    ensures var d := DigitsOf(Show(GetOr(data, "duration", Int(duration))));
            n == if d == "" then duration else DigitsValue(d)
  {
    var d := DigitsOf(Show(GetOr(data, "duration", Int(duration))));
    DigitsOfDigits(NatToString(if duration >= 0 then duration else 0));
    NatToStringValue(if duration >= 0 then duration else 0);
    if d == "" then duration else DigitsValue(d)
  }

  /** `_validate_suggestion_data`: a failure is the exception that escapes it. */
  function ValidateSuggestionData(data: seq<(string, Json)>, duration: int): (r: Result<Suggestion>)
    ensures r.Success? ==>
      && 0 < |r.value.activities| <= 5 && 0 < |r.value.accommodations| <= 3
      && 0 < |r.value.transportation| <= 2 && 0 < |r.value.localTips| <= 3
      && r.value.destination == SuggestionDestination(data)
      && r.value.duration == IntToString(SuggestionDuration(data, duration))
    ensures r.Success? <==>
      Activities(data).Success? && Accommodations(data).Success?
      && Transportation(data).Success? && LocalTips(data).Success?
  {
    var description := GetOr(data, "description", Str(""));
    var description' :=
      if !Truthy(description) && Truthy(GetOr(data, "Description", Null)) then GetOr(data, "Description", Null)
      else description;
    var activities :- Activities(data);
    var accommodations :- Accommodations(data);
    var transportation :- Transportation(data);
    var tips :- LocalTips(data);
    Success(Suggestion(
      SuggestionDestination(data), description',
      GetOr(data, "best_time_to_visit", Str("Check local seasons")),
      GetOr(data, "estimated_budget", Str("Varies based on preferences")),
      IntToString(SuggestionDuration(data, duration)),
      activities, accommodations, transportation, tips,
      GetOr(data, "weather_info", Str("Check local weather conditions")),
      GetOr(data, "safety_info", Str("Follow standard travel precautions"))))
  }

  /** Text in a list member becomes a one-item list. */
  lemma TextMembersWrapped(data: seq<(string, Json)>, s: string)
    ensures Lookup(data, "activities") == Some(Str(s)) ==> Activities(data) == Success([Str(s)])
    ensures Lookup(data, "accommodation_suggestions") == Some(Str(s)) ==> Accommodations(data) == Success([Str(s)])
    ensures Lookup(data, "transportation") == Some(Str(s)) ==> Transportation(data) == Success([Str(s)])
    ensures Lookup(data, "local_tips") == Some(Str(s)) ==> LocalTips(data) == Success([Str(s)])
  {
    assert [Str(s)][..Min(5, 1)] == [Str(s)];
    assert [Str(s)][..Min(3, 1)] == [Str(s)];
    assert [Str(s)][..Min(2, 1)] == [Str(s)];
  }

  /** A longer list is cut to its cap. */
  lemma ListMembersCapped(data: seq<(string, Json)>, items: seq<Json>)
    ensures Lookup(data, "accommodation_suggestions") == Some(Arr(items)) && |items| > 3 ==>
              Accommodations(data) == Success(items[..3])
    ensures Lookup(data, "transportation") == Some(Arr(items)) && |items| > 0 ==>
              Transportation(data) == Success(items[..Min(2, |items|)])
  {
  }

  /** A record's members, as the dict that the validation returns. */
  function SuggestionFields(s: Suggestion): seq<(string, Json)> {
    [("destination", s.destination), ("description", s.description),
     ("best_time_to_visit", s.bestTimeToVisit), ("estimated_budget", s.estimatedBudget),
     ("duration", Str(s.duration)),
     ("activities", Arr(s.activities)), ("accommodation_suggestions", Arr(s.accommodations)),
     ("transportation", Arr(s.transportation)), ("local_tips", Arr(s.localTips)),
     ("weather_info", s.weatherInfo), ("safety_info", s.safetyInfo)]
  }

  /** The shape every validated record has. */
  predicate WellFormed(s: Suggestion) {
    && 0 < |s.activities| <= 5 && 0 < |s.accommodations| <= 3
    && 0 < |s.transportation| <= 2 && 0 < |s.localTips| <= 3
    && IsDigitString(s.duration) && NatToString(DigitsValue(s.duration)) == s.duration
    && s.destination != Str("Unknown")
  }

  lemma ActivitiesOfList(data: seq<(string, Json)>, items: seq<Json>)
    requires Lookup(data, "activities") == Some(Arr(items)) && 0 < |items| <= 5
    ensures Activities(data) == Success(items)
  {
    assert items[..Min(5, |items|)] == items;
  }

  lemma AccommodationsOfList(data: seq<(string, Json)>, items: seq<Json>)
    requires Lookup(data, "accommodation_suggestions") == Some(Arr(items)) && 0 < |items| <= 3
    ensures Accommodations(data) == Success(items)
  {
    assert items[..Min(3, |items|)] == items;
  }

  lemma TransportationOfList(data: seq<(string, Json)>, items: seq<Json>)
    requires Lookup(data, "transportation") == Some(Arr(items)) && 0 < |items| <= 2
    ensures Transportation(data) == Success(items)
  {
    assert items[..Min(2, |items|)] == items;
  }

  lemma LocalTipsOfList(data: seq<(string, Json)>, items: seq<Json>)
    requires Lookup(data, "local_tips") == Some(Arr(items)) && 0 < |items| <= 3
    ensures LocalTips(data) == Success(items)
  {
    assert items[..Min(3, |items|)] == items;
  }

  lemma WellFormedDestination(s: Suggestion)
    requires WellFormed(s)
    ensures SuggestionDestination(SuggestionFields(s)) == s.destination
  {
    LookupAt(SuggestionFields(s), 0, "destination");
  }

  lemma WellFormedDuration(s: Suggestion, duration: int)
    requires WellFormed(s)
    ensures IntToString(SuggestionDuration(SuggestionFields(s), duration)) == s.duration
  {
    var f := SuggestionFields(s);
    LookupAt(f, 4, "duration");
    assert GetOr(f, "duration", Int(duration)) == Str(s.duration);
    DigitsOfDigits(s.duration);
    assert SuggestionDuration(f, duration) == DigitsValue(s.duration);
  }

  lemma ActivitiesRead(s: Suggestion)
    requires WellFormed(s)
    ensures Activities(SuggestionFields(s)) == Success(s.activities)
  {
    LookupAt(SuggestionFields(s), 5, "activities");
    ActivitiesOfList(SuggestionFields(s), s.activities);
  }

  lemma AccommodationsRead(s: Suggestion)
    requires WellFormed(s)
    ensures Accommodations(SuggestionFields(s)) == Success(s.accommodations)
  {
    LookupAt(SuggestionFields(s), 6, "accommodation_suggestions");
    AccommodationsOfList(SuggestionFields(s), s.accommodations);
  }

  lemma TransportationRead(s: Suggestion)
    requires WellFormed(s)
    ensures Transportation(SuggestionFields(s)) == Success(s.transportation)
  {
    LookupAt(SuggestionFields(s), 7, "transportation");
    TransportationOfList(SuggestionFields(s), s.transportation);
  }

  lemma LocalTipsRead(s: Suggestion)
    requires WellFormed(s)
    ensures LocalTips(SuggestionFields(s)) == Success(s.localTips)
  {
    LookupAt(SuggestionFields(s), 8, "local_tips");
    LocalTipsOfList(SuggestionFields(s), s.localTips);
  }

  lemma WellFormedLists(s: Suggestion)
    requires WellFormed(s)
    ensures Activities(SuggestionFields(s)) == Success(s.activities)
    ensures Accommodations(SuggestionFields(s)) == Success(s.accommodations)
    ensures Transportation(SuggestionFields(s)) == Success(s.transportation)
    ensures LocalTips(SuggestionFields(s)) == Success(s.localTips)
  {
    ActivitiesRead(s);
    AccommodationsRead(s);
    TransportationRead(s);
    LocalTipsRead(s);
  }

  /** The record's own description is found, and no `Description` member shadows it. */
  lemma WellFormedDescription(s: Suggestion)
    ensures GetOr(SuggestionFields(s), "description", Str("")) == s.description
    ensures GetOr(SuggestionFields(s), "Description", Null) == Null
  {
    var f := SuggestionFields(s);
    LookupAt(f, 1, "description");
    LookupFinds(f, "Description");
    forall i | 0 <= i < |f| ensures f[i].0 != "Description" {
      assert f[i].0[0] != 'D';
    }
  }

  lemma WellFormedTexts(s: Suggestion)
    ensures GetOr(SuggestionFields(s), "description", Str("")) == s.description
    ensures GetOr(SuggestionFields(s), "Description", Null) == Null
    ensures GetOr(SuggestionFields(s), "best_time_to_visit", Str("Check local seasons")) == s.bestTimeToVisit
    ensures GetOr(SuggestionFields(s), "estimated_budget", Str("Varies based on preferences")) == s.estimatedBudget
    ensures GetOr(SuggestionFields(s), "weather_info", Str("Check local weather conditions")) == s.weatherInfo
    ensures GetOr(SuggestionFields(s), "safety_info", Str("Follow standard travel precautions")) == s.safetyInfo
  {
    var f := SuggestionFields(s);
    WellFormedDescription(s);
    LookupAt(f, 2, "best_time_to_visit");
    LookupAt(f, 3, "estimated_budget");
    LookupAt(f, 9, "weather_info");
    LookupAt(f, 10, "safety_info");
  }

  /** Validating an already validated record gives it back unchanged. */
  lemma ValidateWellFormed(s: Suggestion, duration: int)
    requires WellFormed(s)
    ensures ValidateSuggestionData(SuggestionFields(s), duration) == Success(s)
  {
    WellFormedDestination(s);
    WellFormedDuration(s, duration);
    WellFormedLists(s);
    WellFormedTexts(s);
  }

  // ---------------------------------------------------------------------------
  // Fallback suggestion

  /** Python `x or default` for optional text. */
  function OrText(v: Option<string>, default: string): (r: string)
    ensures r == default || (v.Some? && r == v.value && r != "")
  {
    if v.Some? && v.value != "" then v.value else default
  }

  /** The five activities of the fallback record, led by the travel style when one is given. */
  function FallbackActivities(style: string): (r: seq<Json>)
    ensures |r| == 5
  {
    if style != "" then
      [Str(Title(style) + " activities in the area"), Str("Local cultural experiences"),
       Str("Food experiences suitable for your dietary needs"), Str("Nature and outdoor activities"),
       Str("Local market exploration")]
    else
      [Str("Local cultural experiences"), Str("Traditional food tasting"), Str("Historical site visits"),
       Str("Nature exploration"), Str("Local market tours")]
  }

  /** The three accommodation suggestions for the preferred kind. */
  function FallbackAccommodations(kind: string): (r: seq<Json>)
    ensures |r| == 3
  {
    [Str(kind + " in central location"), Str("Budget-friendly " + Lower(kind)),
     Str("Local guesthouses with good reviews")]
  }

  const FallbackTransportation: seq<Json> :=
    [Str("Public transportation with route guidance"), Str("Walking tours in safe areas")]

  /** The three local tips, the first naming the dietary restrictions. */
  function FallbackTips(diet: seq<string>): (r: seq<Json>)
    ensures |r| == 3
  {
    [Str("Find " + Join("-", diet) + " friendly restaurants"), Str("Learn basic local phrases"),
     Str("Research local customs and traditions")]
  }

  /** The description of the fallback record, built from the style and budget preferences. */
  function FallbackDescription(p: TravelPreferences): Json {
    Str("A destination selected to match your " + OrText(p.travelStyle, "preferred") + " travel style and "
        + OrText(p.budgetRange, "moderate") + " budget.")
  }

  /** `_create_fallback_suggestion`. */
  function FallbackSuggestion(text: string, p: TravelPreferences, duration: int): (s: Suggestion)
    ensures |s.activities| == 5 && |s.accommodations| == 3 && |s.transportation| == 2 && |s.localTips| == 3
    ensures s.destination == Str(text) && s.duration == IntToString(duration)
  {
    var kind := OrText(p.accommodationType, "Hotel");
    var diet := if p.dietaryRestrictions.Some? && p.dietaryRestrictions.value != [] then p.dietaryRestrictions.value
                else ["local"];
    Suggestion(
      Str(text), FallbackDescription(p), Str("Please check seasonal information"),
      Str("Within " + OrText(p.budgetRange, "moderate") + " range"), IntToString(duration),
      FallbackActivities(OrText(p.travelStyle, "")), FallbackAccommodations(kind), FallbackTransportation,
      FallbackTips(diet), Str("Research current weather patterns"), Str("Follow standard travel safety guidelines"))
  }

  /** The fallback record already has the validated shape, so validating it changes nothing. */
  lemma FallbackIsValid(text: string, p: TravelPreferences, duration: nat)
    requires text != "Unknown"
    ensures WellFormed(FallbackSuggestion(text, p, duration))
    ensures ValidateSuggestionData(SuggestionFields(FallbackSuggestion(text, p, duration)), duration)
            == Success(FallbackSuggestion(text, p, duration))
  {
    var s := FallbackSuggestion(text, p, duration);
    assert WellFormed(s) by {
      assert s.duration == NatToString(duration);
      NatToStringValue(duration);
    }
    ValidateWellFormed(s, duration);
  }
}

=== FILE: travel_tools.dfy ===
/** The flight, hotel and itinerary tools of tools/travel_tools.py: the Amadeus response
    parser, the fallback flight and hotel generators, and the normalisation of the
    itinerary planner's suggestions. */
module TravelTools {
  import opened Wrappers
  import opened Text
  import opened Json
  import opened Offers
  import CityCodes

  // ---------------------------------------------------------------------------
  // FlightSearchTool._parse_amadeus_response

  /** One flight as `_parse_amadeus_response` records it. */
  datatype ToolFlight = ToolFlight(
    airline: Json, flightNumber: string, departure: string, arrival: string,
    departureTime: Json, arrivalTime: Json, price: string, duration: Json, stops: nat,
    aircraft: Json, bookingClass: Json, trip: Trip)

  /** The body of the loop for one offer; `None` when it is skipped or raises. */
  function ParseToolOffer(offer: Json, origin: string, destination: string): (r: Option<ToolFlight>)
    ensures OutboundOf(offer).None? ==> r.None?
    ensures r.Some? ==>
      && OutboundOf(offer).Some?
      && r.value.stops == |OutboundOf(offer).value.segments| - 1
      && r.value.departure == origin && r.value.arrival == destination
      && (r.value.trip == OneWay <==> |OutboundOf(offer).value.itineraries| == 1)
      && r.value.duration == GetOr(OutboundOf(offer).value.itinerary, "duration", Str("N/A"))
  {
    match OutboundOf(offer)
    case None => None
    case Some(o) =>
    var first := o.segments[0];
    var last := o.segments[|o.segments| - 1];
    if !first.Obj? then None
    else
    var airline := GetOr(first.fields, "carrierCode", Str("Unknown"));
    var carrier := GetOr(first.fields, "carrierCode", Str(""));
    var number := GetOr(first.fields, "number", Str(""));
    var departureTime :- Nested(first, "departure", "at", Str("N/A"));
    var arrivalTime :- Nested(last, "arrival", "at", Str("N/A"));
    var total :- Attr(o.price, "total", Str("N/A"));
    var aircraft :- Nested(first, "aircraft", "code", Str("N/A"));
    var cabin := GetOr(first.fields, "cabin", Str("ECONOMY"));
    var trip :- TripOf(o.itineraries);
    Some(ToolFlight(
      airline, Show(carrier) + Show(number), origin, destination, departureTime, arrivalTime,
      "$" + Show(total), GetOr(o.itinerary, "duration", Str("N/A")), |o.segments| - 1,
      aircraft, cabin, trip))
  }

  function ToolOfferParser(origin: string, destination: string): Json -> Option<ToolFlight> {
    offer => ParseToolOffer(offer, origin, destination)
  }

  /** `_parse_amadeus_response`: the offers that parse, in order, at most ten. */
  function ParseAmadeusResponse(offers: seq<Json>, origin: string, destination: string): (r: seq<ToolFlight>)
    ensures |r| <= 10 && |r| <= |offers|
  {
    FirstTen(Collect(offers, ToolOfferParser(origin, destination)))
  }

  /** Every listed flight is the record of one of the offers, so its stops count its
      outbound segments and it is one-way exactly when that offer has one itinerary. */
  lemma ParsedFlightFromOffer(offers: seq<Json>, origin: string, destination: string, k: nat)
    requires k < |ParseAmadeusResponse(offers, origin, destination)|
    ensures var f := ParseAmadeusResponse(offers, origin, destination)[k];
            exists j :: 0 <= j < |offers| && ParseToolOffer(offers[j], origin, destination) == Some(f)
  {
    CollectFrom(offers, ToolOfferParser(origin, destination), k);
  }

  /** Up to ten offers that all parse are all listed, in order. */
  lemma ParseAmadeusKeepsAll(offers: seq<Json>, origin: string, destination: string)
    requires |offers| <= 10
    requires forall j :: 0 <= j < |offers| ==> ParseToolOffer(offers[j], origin, destination).Some?
    ensures |ParseAmadeusResponse(offers, origin, destination)| == |offers|
  {
    CollectAll(offers, ToolOfferParser(origin, destination));
  }

  /** An offer that does not parse leaves the list unchanged. */
  lemma SkippedOfferAddsNothing(offers: seq<Json>, bad: Json, origin: string, destination: string)
    requires OutboundOf(bad).None?
    ensures ParseAmadeusResponse(offers + [bad], origin, destination) == ParseAmadeusResponse(offers, origin, destination)
  {
    var parse := ToolOfferParser(origin, destination);
    CollectAppend(offers, [bad], parse);
    assert Collect([bad], parse) == [] by {
      assert [bad][1..] == [];
    }
    assert offers + [bad] != [] ==> Collect(offers + [bad], parse) == Collect(offers, parse);
  }

  // ---------------------------------------------------------------------------
  // FlightSearchTool._get_fallback_flights

  const FallbackAirlines: seq<string> :=
    ["Air India", "Emirates", "British Airways", "Lufthansa", "Singapore Airlines", "Qatar Airways"]
  const BasePrices: seq<nat> := [450, 650, 850, 1200, 1500]

  /** The return part of a round-trip fallback flight. */
  datatype FallbackReturn = FallbackReturn(
    departureTime: string, arrivalTime: string, duration: string, date: string)

  /** One fallback flight; `back` holds the return keys, present only for a round trip. */
  datatype FallbackFlight = FallbackFlight(
    airline: string, flightNumber: string, departure: string, arrival: string,
    departureTime: string, arrivalTime: string, price: string, duration: string,
    stops: nat, tripType: string, departureDate: string, back: Option<FallbackReturn>)

  /** `datetime.isoformat()` of a whole-minute time on `day` (given as `%Y-%m-%d`). */
  function Stamp(day: string, hour: nat, minute: nat): string {
    day + "T" + PadNat(hour, 2) + ":" + PadNat(minute, 2) + ":00"
  }

  /** `date.replace(hour=h, minute=m, second=0, microsecond=0).isoformat()`: `replace`
      raises `ValueError` for an hour above 23 or a minute above 59. */
  function ReplaceTime(day: string, hour: nat, minute: nat): (r: Result<string>)
    ensures r.Success? <==> hour <= 23 && minute <= 59
    ensures r.Success? ==> r.value == Stamp(day, hour, minute)
  {
    if hour <= 23 && minute <= 59 then Success(Stamp(day, hour, minute)) else Failure("ValueError")
  }

  /** `int(price * 1.8)`; for the listed base prices (multiples of 50) the float product
      is exact, so this is nine fifths. */
  function RoundTripPrice(base: nat): nat {
    base * 9 / 5
  }

  /** The price of flight `i`. */
  function FallbackPrice(i: nat, roundTrip: bool): nat
    requires i < 3
  {
    if roundTrip then RoundTripPrice(BasePrices[i]) else BasePrices[i]
  }

  /** `f'{airline[:2].upper()}{1000 + i}'`. */
  function FallbackNumber(i: nat): string
    requires i < 3
  {
    Upper(FallbackAirlines[i][..2]) + NatToString(1000 + i)
  }

  function DurationText(hours: nat, minutes: nat): string {
    NatToString(hours) + "h " + NatToString(minutes) + "m"
  }

  function TripType(back: Option<string>): string {
    if back.Some? then "round-trip" else "one-way"
  }

  /** The record of flight `i` from its four times; the return keys are present exactly
      for a round trip. */
  function MakeFlight(origin: string, destination: string, day: string, back: Option<string>, i: nat,
                      departure: string, arrival: string, returnDeparture: Option<string>, returnArrival: string)
    : (f: FallbackFlight)
    requires i < 3
    requires returnDeparture.Some? <==> back.Some?
    ensures f.stops == i && f.airline == FallbackAirlines[i]
    ensures f.price == "$" + NatToString(FallbackPrice(i, back.Some?))
    ensures f.departure == origin && f.arrival == destination && f.departureDate == day
    ensures f.tripType == "round-trip" <==> back.Some?
    ensures f.back.Some? <==> back.Some?
    ensures f.departureTime == departure && f.arrivalTime == arrival
    ensures f.back.Some? ==>
              f.back.value == FallbackReturn(returnDeparture.value, returnArrival, DurationText(6 + i, 45 + i * 10), back.value)
  {
    var ret :=
      if back.None? then None
      else Some(FallbackReturn(returnDeparture.value, returnArrival, DurationText(6 + i, 45 + i * 10), back.value));
    FallbackFlight(
      FallbackAirlines[i], FallbackNumber(i), origin, destination, departure, arrival,
      "$" + NatToString(FallbackPrice(i, back.Some?)), DurationText(6 + i, 30 + i * 15), i,
      TripType(back), day, ret)
  }

  /** Flight `i` of the loop as written: arrival at `(14 + 3i):(30 + 15i)` and return
      arrival at `(16 + 3i):(45 + 10i)`, each passed straight to `replace`. */
  function FallbackFlightAsWritten(origin: string, destination: string, day: string, back: Option<string>, i: nat)
    : (r: Result<FallbackFlight>)
    requires i < 3
  {
    // The departures, at minute 0 of hours 8 to 14, never make `replace` raise.
    var departure := Stamp(day, 8 + i * 2, 0);
    var arrival := ReplaceTime(day, 8 + i * 2 + 6 + i, 30 + i * 15);
    if arrival.Failure? then Failure("ValueError")
    else
    var returnArrival :=
      if back.None? then Success("") else ReplaceTime(back.value, 10 + i * 2 + 6 + i, 45 + i * 10);
    if returnArrival.Failure? then Failure("ValueError")
    else
    var ret := if back.None? then None else Some(Stamp(back.value, 10 + i * 2, 0));
    Success(MakeFlight(origin, destination, day, back, i, departure, arrival.value, ret, returnArrival.value))
  }

  /** The loop `for i in range(3)` as written: the first exception ends it. */
  function FallbackFlightsAsWrittenFrom(origin: string, destination: string, day: string, back: Option<string>, i: nat)
    : (r: Result<seq<FallbackFlight>>)
    requires i <= 3
    decreases 3 - i
  {
    if i == 3 then Success([])
    else
      var f :- FallbackFlightAsWritten(origin, destination, day, back, i);
      var rest :- FallbackFlightsAsWrittenFrom(origin, destination, day, back, i + 1);
      Success([f] + rest)
  }

  /** `_get_fallback_flights` as written. */
  function FallbackFlightsAsWritten(origin: string, destination: string, day: string, back: Option<string>)
    : Result<seq<FallbackFlight>>
  {
    FallbackFlightsAsWrittenFrom(origin, destination, day, back, 0)
  }

  /** The third flight asks `replace` for minute 60, so the generator raises on every call,
      one-way or round-trip. */
  lemma FallbackFlightsAsWrittenRaise(origin: string, destination: string, day: string, back: Option<string>)
    ensures FallbackFlightAsWritten(origin, destination, day, back, 2) == Failure("ValueError")
    ensures FallbackFlightsAsWritten(origin, destination, day, back) == Failure("ValueError")
  {
    assert ReplaceTime(day, 8 + 2 * 2 + 6 + 2, 30 + 2 * 15) == Failure("ValueError");
  }

  /** A time of day `minutes` after midnight on `day`, hours and minutes carried. */
  function Clock(day: string, minutes: nat): string {
    Stamp(day, minutes / 60, minutes % 60)
  }

  function DepartureMinutes(i: nat): nat { (8 + i * 2) * 60 }
  function FlightMinutes(i: nat): nat { (6 + i) * 60 + 30 + i * 15 }
  function ReturnDepartureMinutes(i: nat): nat { (10 + i * 2) * 60 }
  function ReturnFlightMinutes(i: nat): nat { (6 + i) * 60 + 45 + i * 10 }

  /** Flight `i` with the minutes carried into the hour: each arrival is its departure
      plus the advertised duration. */
  function FallbackFlightAt(origin: string, destination: string, day: string, back: Option<string>, i: nat)
    : (f: FallbackFlight)
    requires i < 3
    ensures f.stops == i && f.airline == FallbackAirlines[i]
    ensures f.price == "$" + NatToString(FallbackPrice(i, back.Some?))
    ensures f.departure == origin && f.arrival == destination && f.departureDate == day
    ensures f.tripType == "round-trip" <==> back.Some?
    ensures f.back.Some? <==> back.Some?
    ensures f.departureTime == Clock(day, DepartureMinutes(i))
    ensures f.arrivalTime == Clock(day, DepartureMinutes(i) + FlightMinutes(i))
    ensures f.back.Some? ==>
              && f.back.value.departureTime == Clock(back.value, ReturnDepartureMinutes(i))
              && f.back.value.arrivalTime == Clock(back.value, ReturnDepartureMinutes(i) + ReturnFlightMinutes(i))
              && f.back.value.date == back.value
  {
    var ret := if back.None? then None else Some(Clock(back.value, ReturnDepartureMinutes(i)));
    var returnArrival := if back.None? then "" else Clock(back.value, ReturnDepartureMinutes(i) + ReturnFlightMinutes(i));
    MakeFlight(origin, destination, day, back, i, Clock(day, DepartureMinutes(i)),
               Clock(day, DepartureMinutes(i) + FlightMinutes(i)), ret, returnArrival)
  }

  /** `_get_fallback_flights` with the minute carry: three flights, 0, 1 and 2 stops. */
  function FallbackFlights(origin: string, destination: string, day: string, back: Option<string>)
    : (r: seq<FallbackFlight>)
    ensures |r| == 3
    ensures forall i :: 0 <= i < 3 ==> r[i] == FallbackFlightAt(origin, destination, day, back, i)
  {
    seq(3, i requires 0 <= i < 3 => FallbackFlightAt(origin, destination, day, back, i))
  }

  /** Steps of `FallbackPrices`: the decimal texts of the one-way prices. */
  lemma OneWayPriceTexts()
    ensures NatToString(450) == "450" && NatToString(650) == "650" && NatToString(850) == "850"
  {
    assert NatToString(450) == "450";
    assert NatToString(650) == "650";
  }

  /** The decimal texts of the round-trip prices. */
  lemma RoundTripPriceTexts()
    ensures NatToString(810) == "810" && NatToString(1170) == "1170" && NatToString(1530) == "1530"
  {
    assert NatToString(810) == "810";
    assert NatToString(1170) == "1170";
  }

  /** The decimal texts of the three prices of either kind. */
  lemma PriceDigits(roundTrip: bool)
    ensures NatToString(FallbackPrice(0, roundTrip)) == if roundTrip then "810" else "450"
    ensures NatToString(FallbackPrice(1, roundTrip)) == if roundTrip then "1170" else "650"
    ensures NatToString(FallbackPrice(2, roundTrip)) == if roundTrip then "1530" else "850"
  {
    OneWayPriceTexts();
    RoundTripPriceTexts();
    assert RoundTripPrice(450) == 810 && RoundTripPrice(650) == 1170 && RoundTripPrice(850) == 1530;
  }

  /** The price text of flight `i`, one index at a time. */
  lemma PriceText(i: nat, roundTrip: bool)
    requires i < 3
    ensures "$" + NatToString(FallbackPrice(i, roundTrip)) ==
            if i == 0 then (if roundTrip then "$810" else "$450")
            else if i == 1 then (if roundTrip then "$1170" else "$650")
            else if roundTrip then "$1530" else "$850"
  {
    PriceDigits(roundTrip);
  }

  /** Steps of `FallbackPrices`, one flight each. */
  lemma FirstPrice(origin: string, destination: string, day: string, back: Option<string>)
    ensures FallbackFlightAt(origin, destination, day, back, 0).price == if back.None? then "$450" else "$810"
  {
    PriceText(0, back.Some?);
  }

  lemma SecondPrice(origin: string, destination: string, day: string, back: Option<string>)
    ensures FallbackFlightAt(origin, destination, day, back, 1).price == if back.None? then "$650" else "$1170"
  {
    PriceText(1, back.Some?);
  }

  lemma ThirdPrice(origin: string, destination: string, day: string, back: Option<string>)
    ensures FallbackFlightAt(origin, destination, day, back, 2).price == if back.None? then "$850" else "$1530"
  {
    PriceText(2, back.Some?);
  }

  /** The prices are 450, 650 and 850 one-way, and 810, 1170 and 1530 round-trip. */
  lemma FallbackPrices(origin: string, destination: string, day: string, back: Option<string>)
    ensures var r := FallbackFlights(origin, destination, day, back);
            if back.None? then r[0].price == "$450" && r[1].price == "$650" && r[2].price == "$850"
            else r[0].price == "$810" && r[1].price == "$1170" && r[2].price == "$1530"
  {
    FirstPrice(origin, destination, day, back);
    SecondPrice(origin, destination, day, back);
    ThirdPrice(origin, destination, day, back);
  }

  /** Every time the corrected generator writes is a valid time of day. */
  lemma FallbackTimesValid(i: nat)
    requires i < 3
    ensures DepartureMinutes(i) + FlightMinutes(i) < 24 * 60
    ensures ReturnDepartureMinutes(i) + ReturnFlightMinutes(i) < 24 * 60
  {
  }

  /** The clock `hour * 60 + minute` minutes after midnight reads `hour:minute`. */
  lemma ClockAt(day: string, hour: nat, minute: nat)
    requires minute < 60
    ensures Clock(day, hour * 60 + minute) == Stamp(day, hour, minute)
  {
    assert (hour * 60 + minute) / 60 == hour && (hour * 60 + minute) % 60 == minute;
  }

  // Steps of `FallbackAsWrittenAgrees`: each of the two flights the code as written
  // produces, one way and round trip, read off both generators.

  lemma FirstOneWayAsWritten(origin: string, destination: string, day: string)
    ensures FallbackFlightAsWritten(origin, destination, day, None, 0) == Success(MakeFlight(origin, destination, day, None, 0, Stamp(day, 8, 0), Stamp(day, 14, 30),
                        None, ""))
  {
  }

  lemma FirstOneWayCorrected(origin: string, destination: string, day: string)
    ensures FallbackFlightAt(origin, destination, day, None, 0) == MakeFlight(origin, destination, day, None, 0, Stamp(day, 8, 0), Stamp(day, 14, 30),
                        None, "")
  {
    ClockAt(day, 8, 0);
    ClockAt(day, 14, 30);
  }

  lemma FirstOneWayAgrees(origin: string, destination: string, day: string)
    ensures FallbackFlightAsWritten(origin, destination, day, None, 0)
              == Success(FallbackFlightAt(origin, destination, day, None, 0))
  {
    FirstOneWayAsWritten(origin, destination, day);
    FirstOneWayCorrected(origin, destination, day);
  }

  lemma SecondOneWayAsWritten(origin: string, destination: string, day: string)
    ensures FallbackFlightAsWritten(origin, destination, day, None, 1) == Success(MakeFlight(origin, destination, day, None, 1, Stamp(day, 10, 0), Stamp(day, 17, 45),
                        None, ""))
  {
  }

  lemma SecondOneWayCorrected(origin: string, destination: string, day: string)
    ensures FallbackFlightAt(origin, destination, day, None, 1) == MakeFlight(origin, destination, day, None, 1, Stamp(day, 10, 0), Stamp(day, 17, 45),
                        None, "")
  {
    ClockAt(day, 10, 0);
    ClockAt(day, 17, 45);
  }

  lemma SecondOneWayAgrees(origin: string, destination: string, day: string)
    ensures FallbackFlightAsWritten(origin, destination, day, None, 1)
              == Success(FallbackFlightAt(origin, destination, day, None, 1))
  {
    SecondOneWayAsWritten(origin, destination, day);
    SecondOneWayCorrected(origin, destination, day);
  }

  lemma FirstRoundTripAsWritten(origin: string, destination: string, day: string, b: string)
    ensures FallbackFlightAsWritten(origin, destination, day, Some(b), 0) == Success(MakeFlight(origin, destination, day, Some(b), 0, Stamp(day, 8, 0), Stamp(day, 14, 30),
                        Some(Stamp(b, 10, 0)), Stamp(b, 16, 45)))
  {
  }

  lemma FirstRoundTripCorrected(origin: string, destination: string, day: string, b: string)
    ensures FallbackFlightAt(origin, destination, day, Some(b), 0) == MakeFlight(origin, destination, day, Some(b), 0, Stamp(day, 8, 0), Stamp(day, 14, 30),
                        Some(Stamp(b, 10, 0)), Stamp(b, 16, 45))
  {
    ClockAt(day, 8, 0);
    ClockAt(day, 14, 30);
    ClockAt(b, 10, 0);
    ClockAt(b, 16, 45);
  }

  lemma FirstRoundTripAgrees(origin: string, destination: string, day: string, b: string)
    ensures FallbackFlightAsWritten(origin, destination, day, Some(b), 0)
              == Success(FallbackFlightAt(origin, destination, day, Some(b), 0))
  {
    FirstRoundTripAsWritten(origin, destination, day, b);
    FirstRoundTripCorrected(origin, destination, day, b);
  }

  lemma SecondRoundTripAsWritten(origin: string, destination: string, day: string, b: string)
    ensures FallbackFlightAsWritten(origin, destination, day, Some(b), 1) == Success(MakeFlight(origin, destination, day, Some(b), 1, Stamp(day, 10, 0), Stamp(day, 17, 45),
                        Some(Stamp(b, 12, 0)), Stamp(b, 19, 55)))
  {
  }

  lemma SecondRoundTripCorrected(origin: string, destination: string, day: string, b: string)
    ensures FallbackFlightAt(origin, destination, day, Some(b), 1) == MakeFlight(origin, destination, day, Some(b), 1, Stamp(day, 10, 0), Stamp(day, 17, 45),
                        Some(Stamp(b, 12, 0)), Stamp(b, 19, 55))
  {
    ClockAt(day, 10, 0);
    ClockAt(day, 17, 45);
    ClockAt(b, 12, 0);
    ClockAt(b, 19, 55);
  }

  lemma SecondRoundTripAgrees(origin: string, destination: string, day: string, b: string)
    ensures FallbackFlightAsWritten(origin, destination, day, Some(b), 1)
              == Success(FallbackFlightAt(origin, destination, day, Some(b), 1))
  {
    SecondRoundTripAsWritten(origin, destination, day, b);
    SecondRoundTripCorrected(origin, destination, day, b);
  }

  /** Where the code as written does not raise (the first two flights), it produces exactly
      the corrected flight. */
  lemma FallbackAsWrittenAgrees(origin: string, destination: string, day: string, back: Option<string>)
    ensures FallbackFlightAsWritten(origin, destination, day, back, 0)
              == Success(FallbackFlightAt(origin, destination, day, back, 0))
    ensures FallbackFlightAsWritten(origin, destination, day, back, 1)
              == Success(FallbackFlightAt(origin, destination, day, back, 1))
  {
    match back
    case None =>
      FirstOneWayAgrees(origin, destination, day);
      SecondOneWayAgrees(origin, destination, day);
    case Some(b) =>
      FirstRoundTripAgrees(origin, destination, day, b);
      SecondRoundTripAgrees(origin, destination, day, b);
  }

  // ---------------------------------------------------------------------------
  // FlightSearchTool.execute

  /** What the flight tool returns: parsed offers or the fallback list. */
  datatype FlightResults = Parsed(parsed: seq<ToolFlight>) | Fallback(fallback: seq<FallbackFlight>)

  /** `execute` and `_search_with_amadeus` as written. `configured` says whether the
      Amadeus client was set up; `response` is the offers of a successful (status 200)
      search, `None` when the request raised or returned another status. Both failure
      paths call `_get_fallback_flights`, which always raises `ValueError`; the handler of
      `execute` calls it once more, so the exception escapes. */
  function SearchFlights(origin: string, destination: string, day: string, back: Option<string>,
                         configured: bool, response: Option<seq<Json>>): (r: Result<FlightResults>)
    ensures r.Success? <==> configured && response.Some?
    ensures r.Success? ==> r.value.Parsed? && |r.value.parsed| <= 10
    ensures r.Success? ==> r.value == Parsed(ParseAmadeusResponse(response.value, origin, destination))
    ensures r.Failure? ==> r.error == "ValueError"
  {
    if configured && response.Some? then Success(Parsed(ParseAmadeusResponse(response.value, origin, destination)))
    else
      // The handler's second call raises exactly as the first did.
      var raised := FallbackFlightsAsWritten(origin, destination, day, back);
      FallbackFlightsAsWrittenRaise(origin, destination, day, back);
      Failure(raised.error)
  }

  /** `execute` with the minute carry in the fallback generator: both failure paths give
      the three fallback flights. */
  function SearchFlightsCorrected(origin: string, destination: string, day: string, back: Option<string>,
                                  configured: bool, response: Option<seq<Json>>): (r: FlightResults)
    ensures r.Parsed? <==> configured && response.Some?
    ensures r.Parsed? ==> |r.parsed| <= 10
    ensures r.Parsed? ==> r.parsed == ParseAmadeusResponse(response.value, origin, destination)
    ensures r.Fallback? ==> r.fallback == FallbackFlights(origin, destination, day, back)
    ensures r.Fallback? ==> |r.fallback| == 3 && forall i :: 0 <= i < 3 ==> r.fallback[i].stops == i
  {
    if configured && response.Some? then Parsed(ParseAmadeusResponse(response.value, origin, destination))
    else Fallback(FallbackFlights(origin, destination, day, back))
  }

  /** The two agree whenever the search itself answers; where the code as written raises,
      the corrected generator gives the fallback list instead. */
  lemma SearchFlightsAgree(origin: string, destination: string, day: string, back: Option<string>,
                           configured: bool, response: Option<seq<Json>>)
    ensures var written := SearchFlights(origin, destination, day, back, configured, response);
            var corrected := SearchFlightsCorrected(origin, destination, day, back, configured, response);
            && (written.Success? ==> written.value == corrected)
            && (written.Failure? ==> corrected == Fallback(FallbackFlights(origin, destination, day, back)))
  {
  }

  // ---------------------------------------------------------------------------
  // HotelSearchTool._get_fallback_hotels

  datatype Hotel = Hotel(name: string, id: string, price: string, rating: string, address: string, amenities: seq<string>)

  /** The three hotel kinds: their suffix and the low and high ends of their price range. */
  const HotelSuffixes: seq<string> := ["Inn", "Hotel", "Resort"]
  const RangeLow: seq<nat> := [40, 90, 200]
  const RangeHigh: seq<nat> := [80, 180, 400]
  /** `f'{3.5 + i * 0.7:.1f}'`. */
  const Ratings: seq<string> := ["3.5", "4.2", "4.9"]

  /** The nightly price of kind `i`: the low end of its range plus 20 per step. */
  function HotelPrice(i: nat): (p: nat)
    requires i < 3
    ensures RangeLow[i] <= p <= RangeHigh[i]
  {
    RangeLow[i] + i * 20
  }

  const HotelIdPrefix: string := "hotel_"
  const PerNight: string := "/night"
  const Downtown: string := "Downtown "
  const FreeWifi: string := "Free WiFi"
  const AirConditioning: string := "Air Conditioning"
  const Restaurant: string := "Restaurant"
  const FitnessCenter: string := "Fitness Center"
  const SwimmingPool: string := "Swimming Pool"

  /** Hotel `i` of `_get_fallback_hotels`. */
  function FallbackHotel(location: string, i: nat): (h: Hotel)
    requires i < 3
    ensures h.name == location + " " + HotelSuffixes[i]
    ensures h.price == "$" + NatToString(HotelPrice(i)) + PerNight
    ensures |h.amenities| == 5
    ensures forall k :: 0 <= k < 5 ==> (h.amenities[k] != "" <==> k < 3 + i)
  {
    Hotel(
      location + " " + HotelSuffixes[i],
      HotelIdPrefix + NatToString(i + 1) + "_" + ReplaceChar(Lower(location), ' ', '_'),
      "$" + NatToString(HotelPrice(i)) + PerNight,
      Ratings[i],
      Downtown + location,
      [FreeWifi, AirConditioning, Restaurant,
       if i > 0 then FitnessCenter else "", if i > 1 then SwimmingPool else ""])
  }

  /** `_get_fallback_hotels`: an inn, a hotel and a resort. */
  function FallbackHotels(location: string): (r: seq<Hotel>)
    ensures |r| == 3
    ensures forall i :: 0 <= i < 3 ==> r[i] == FallbackHotel(location, i)
  {
    seq(3, i requires 0 <= i < 3 => FallbackHotel(location, i))
  }

  /** The nightly prices are $40, $110 and $240. */
  lemma FallbackHotelPrices(location: string)
    ensures FallbackHotels(location)[0].price == "$40/night"
    ensures FallbackHotels(location)[1].price == "$110/night"
    ensures FallbackHotels(location)[2].price == "$240/night"
  {
    var r := FallbackHotels(location);
    assert r[0].price == "$40/night" by {
      assert r[0] == FallbackHotel(location, 0);
      assert NatToString(40) == "40";
    }
    assert r[1].price == "$110/night" by {
      assert r[1] == FallbackHotel(location, 1);
      assert NatToString(110) == "110";
    }
    assert r[2].price == "$240/night" by {
      assert r[2] == FallbackHotel(location, 2);
      assert NatToString(240) == "240";
    }
  }
}

=== FILE: wrappers.dfy ===
/** Failure-compatible wrappers shared by every module of the model.
    Option stands for Python's "value or None"; Result for "value or a raised exception". */
module Wrappers {

  datatype Option<+T> = None | Some(value: T) {

    predicate IsFailure() {
      None?
    }

    function PropagateFailure<U>(): Option<U>
      requires None?
    {
      None
    }

    function Extract(): T
      requires Some?
    {
      value
    }

    /** The wrapped value, or `default` when there is none. */
    function GetOr(default: T): T {
      match this
      case Some(v) => v
      case None => default
    }
  }

  /** A computation that either returns a value or raises; `error` names the exception. */
  datatype Result<+T> = Success(value: T) | Failure(error: string) {

    predicate IsFailure() {
      Failure?
    }

    function PropagateFailure<U>(): Result<U>
      requires Failure?
    {
      Failure(error)
    }

    function Extract(): T
      requires Success?
    {
      value
    }

    function ToOption(): Option<T> {
      match this
      case Success(v) => Some(v)
      case Failure(_) => None
    }
  }

  /** Turns an absent value into a raised exception with the given name. */
  function Need<T>(o: Option<T>, error: string): (r: Result<T>)
    ensures r.Success? <==> o.Some?
    ensures o.Some? ==> r.value == o.value
  {
    match o
    case Some(v) => Success(v)
    case None => Failure(error)
  }
}
